=== FILE: README.md ===
# NovaCoach and its growth agent, modelled in Dafny

NovaCoach is an iOS coaching app. Its users keep objectives with measurable
key results, one-on-one meetings with action items, and a personal log of
daily entries. The app shows an analytics snapshot (completed and pending
action items, plus a reflection streak) and can be driven by voice commands.
Alongside it sits a Node "growth agent". It drafts MDX landing pages, diffs
their front matter, writes a weekly report stub, reads Search Console
statistics and opens a pull request with the generated content.

This project models both cores as pure Dafny functions over immutable data:

- **Domain** (`models.dfy`): the records (`Objective`, `KeyResult`,
  `ActionItem`, `OneOnOneMeeting`, `PersonalLogEntry`, `AnalyticsSnapshot`),
  the raw-value enums, the initialisers' defaults, and key-result progress and
  objective completion.
- **Repositories** (`repositories.dfy`, `in_memory.dfy`): the four repository
  protocols, and the in-memory repositories as arrays in insertion order.
- **Persistent store** (`persistent_schema.dfy`, `store_rows.dfy`,
  `tables.dfy`, `persistent_store.dfy`):
  - the schema: relationships, delete rules, the SQLCipher key pragma;
  - the store as five numbered tables of rows, with every relationship held
    on its to-one side and a validity invariant;
  - every repository operation, with the cascade and nullify rules applied
    when the context saves;
  - the mapping from rows back to domain records.
- **Backends** (`backends.dfy`): where the in-memory and the persistent meeting
  filters agree and where they do not.
- **Use cases** (`objective_use_cases.dfy`, `analytics.dfy`): the key-result
  progress update and the analytics snapshot with its streak walk.
- **Voice assistant** (`voice_assistant.dfy`): listening state, configured
  commands, and matching recognised text against command phrases.
- **Growth agent**:
  - slugs and page rendering (`mdx.dfy`);
  - the front-matter diff (`front_matter_diff.dfy`);
  - the draft runner (`draft.dfy`);
  - UTC day arithmetic and `toISOString` dates (`utc_dates.dfy`);
  - the weekly report (`report.dfy`);
  - the Search Console query (`gsc.dfy`);
  - the pull-request runner (`pull_request.dfy`).
- **Helpers**: `wrappers.dfy` (Option, Result), `seqs.dfy` (filter, count,
  map), `sorting.dfy` (a stable insertion sort by key) and `text.dfy` (ASCII
  case folding, JavaScript `trim`, split and join, decimal text).

The clock, randomness (UUIDs), file contents, environment variables, the git,
Octokit and Google API calls, and library formatters (`yaml.dump`,
`matter.stringify`, `new URL`, `new Date(string)`) are all parameters of the
functions that use them. Swift dates are whole seconds. JavaScript timestamps
are whole milliseconds. Every calendar computation is in UTC.

The model keeps these behaviours of the code:

- **Reflection streak.** The streak tolerates a one-day gap: the `else if` at
  `AnalyticsUseCase.swift:48-50` accepts an entry one day before the awaited
  day, so entries on days 2 and 0 give a streak of 2. This is
  `Analytics.OneDayGapIsTolerated`.
- **Objective link of a log.** `createLog` stores the entry with no objective,
  whatever its `objectiveID` says.
- **Update orphans action items.** `updateObjective` deletes the objective's
  logs. Their action items are only unlinked (nullify), so they stay behind.
- **Unknown raw status.** A raw status no case writes reads back as
  `.pending`, but the persistent status filter compares raw strings. The two
  backends then disagree (`Backends.UnknownRawStatusSplitsBackends`).
- **Case of text filters.** The persistent keyword and participant filters
  ignore case (`CONTAINS[cd]`); the in-memory ones do not.
- **Dates in the diff.** A YAML timestamp becomes a `Date`. `serialise` writes
  every `Date` as `{}`, so two different dates compare equal.
- **Placeholder encoding.** The `formatValue` placeholder is the em dash
  U+2014, as in the compiled `diff.js`; `diff.ts` shows it mis-encoded.

## Model

| member | source | states |
|---|---|---|
| Models.DayOf | Sources/NovaCoachApp/Domain/UseCases/AnalyticsUseCase.swift:42-44 | the calendar day of an instant is the unique day whose 86400-second span holds it |
| Models.StatusFromRaw | Sources/NovaCoachApp/Domain/Models/Objective.swift:118-122 | `ActionItemStatus(rawValue:)` yields a case exactly when that case's raw value is the string, and then that case |
| Models.StatusCases | Sources/NovaCoachApp/Domain/Models/Objective.swift:118-122 | the status enum has exactly three cases, each listed once, with pairwise distinct raw values |
| Models.FrequencyFromRaw | Sources/NovaCoachApp/Domain/Models/Objective.swift:188-192 | `ReminderFrequency(rawValue:)` yields a case exactly when its raw value matches |
| Models.FrequencyCases | Sources/NovaCoachApp/Domain/Models/Objective.swift:188-192 | the reminder frequencies are three distinct cases in declaration order |
| Models.NewActionItem | Sources/NovaCoachApp/Domain/Models/Objective.swift:91-115 | a new action item is pending, with no optional field or parent id, and takes its creation and update dates from two separate clock reads |
| Models.NewPersonalLogEntry | Sources/NovaCoachApp/Domain/Models/Objective.swift:167-185 | a new log entry has mood 0, a daily reminder, no reflection or objective, and no action items |
| Models.NewObjective | Sources/NovaCoachApp/Domain/Models/Objective.swift:13-31 | a new objective has no detail, key results, action items or logs |
| Models.Clamp01 | Sources/NovaCoachApp/Domain/Models/Objective.swift:74 | `min(max(x, 0), 1)` lies in [0, 1], is x inside it, and is the nearer bound outside it |
| Models.Progress | Sources/NovaCoachApp/Domain/Models/Objective.swift:72-75 | progress lies in [0, 1], is 0 for a zero target, and is the share reached whenever that share is already in [0, 1] |
| Models.SumProgressBounds | Sources/NovaCoachApp/Domain/Models/Objective.swift:35-37 | the summed progress of n key results lies in [0, n] |
| Models.Completion | Sources/NovaCoachApp/Domain/Models/Objective.swift:33-39 | completion lies in [0, 1], is 0 without key results, and equals the mean progress (the clamp never bites) |
| Models.CompletionOfSingle | Sources/NovaCoachApp/Domain/Models/Objective.swift:33-39 | with one key result the completion is that key result's progress |
| Repositories.DefaultFilter | Sources/NovaCoachApp/Core/Repositories/Repositories.swift:27-37 | the default filter has no keyword, participant or status |
| Repositories.Operations | Sources/NovaCoachApp/Core/Repositories/Repositories.swift:3-25 | only objectives can be updated, only action items are upserted and never created or deleted, and only meetings are fetched through a filter |
| InMemory.Append | Sources/NovaCoachApp/Core/Repositories/InMemoryRepositories.swift:6-8 | create keeps the stored records in place and adds the new one last, without checking its id |
| InMemory.ReplaceFirst | Sources/NovaCoachApp/Core/Repositories/InMemoryRepositories.swift:14-17 | update fails with missingEntity exactly when no record has the id; otherwise the first such record is replaced |
| InMemory.ReplaceFirstFrame | Sources/NovaCoachApp/Core/Repositories/InMemoryRepositories.swift:14-17 | a successful update keeps the length and every other record |
| InMemory.RemoveAll | Sources/NovaCoachApp/Core/Repositories/InMemoryRepositories.swift:19-21 | delete leaves no record with the id, keeps every other record in order and with its multiplicity, and changes nothing when the id is absent |
| InMemory.UpsertOne | Sources/NovaCoachApp/Core/Repositories/InMemoryRepositories.swift:72-78 | one upsert step replaces the first record with the item's id, or appends the item when none has it |
| InMemory.UpsertOneFacts | Sources/NovaCoachApp/Core/Repositories/InMemoryRepositories.swift:72-78 | one upsert step grows the store by at most one, stores the item's id, keeps every id and leaves other records alone |
| InMemory.UpsertAll | Sources/NovaCoachApp/Core/Repositories/InMemoryRepositories.swift:71-79 | upserting n items grows the store by at most n and keeps each old position's id |
| InMemory.UpsertAllKeys | Sources/NovaCoachApp/Core/Repositories/InMemoryRepositories.swift:71-79 | after the upsert every upserted id is stored and every previously stored id still is |
| InMemory.UpsertAllFrame | Sources/NovaCoachApp/Core/Repositories/InMemoryRepositories.swift:71-79 | records whose id no upserted item carries keep their value and position |
| InMemory.UpsertAllUnique | Sources/NovaCoachApp/Core/Repositories/InMemoryRepositories.swift:71-79 | upserting into a store with unique ids keeps them unique |
| InMemory.FetchMeetings | Sources/NovaCoachApp/Core/Repositories/InMemoryRepositories.swift:31-45 | the fetch returns, in stored order, exactly the meetings meeting every active condition, each as often as it is stored |
| InMemory.FetchWithoutConditions | Sources/NovaCoachApp/Core/Repositories/InMemoryRepositories.swift:31-45 | a filter without active conditions returns the whole storage |
| InMemory.FetchMeetingsConcat | Sources/NovaCoachApp/Core/Repositories/InMemoryRepositories.swift:31-45 | filtering distributes over concatenation of stores |
| InMemory.KeywordIsCaseSensitive | Sources/NovaCoachApp/Core/Repositories/InMemoryRepositories.swift:34-36 | keyword "budget" does not find notes "Budget review" in memory |
| ObjectiveUseCases.ClampedValue | Sources/NovaCoachApp/Domain/UseCases/ObjectiveUseCases.swift:59 | the stored value lies between 0 and a non-negative target, is progress times target for progress in [0, 1], and saturates at the ends |
| ObjectiveUseCases.ProgressAfterClamp | Sources/NovaCoachApp/Domain/UseCases/ObjectiveUseCases.swift:59 | for a positive target, the stored value read back through `progress` is the requested fraction clamped to [0, 1] |
| ObjectiveUseCases.UpdateKeyResultIn | Sources/NovaCoachApp/Domain/UseCases/ObjectiveUseCases.swift:55-61 | fails exactly when the objective has no key result with the id; otherwise only the first such key result changes |
| ObjectiveUseCases.UpdateKeyResultProgress | Sources/NovaCoachApp/Domain/UseCases/ObjectiveUseCases.swift:50-62 | missingEntity without the objective id; otherwise the first objective with it is the one updated |
| ObjectiveUseCases.UpdateChangesOnlyTheKeyResult | Sources/NovaCoachApp/Domain/UseCases/ObjectiveUseCases.swift:54-62 | the objective written back differs from the stored one only in one key result's value and update time |
| ObjectiveUseCases.UpdateInMemory | Sources/NovaCoachApp/Domain/UseCases/ObjectiveUseCases.swift:49-64 | against the in-memory repository the use case fails exactly when the lookup fails, and then replaces the first matching objective |
| ObjectiveUseCases.ClampsToTarget | Tests/NovaCoachAppTests/ObjectiveUseCaseTests.swift:38-51 | asking for progress 1.5 on a key result with target 100 stores 100 |
| ObjectiveUseCases.CreateThenFetch | Tests/NovaCoachAppTests/ObjectiveUseCaseTests.swift:6-16 | creating one objective and fetching gives exactly that objective |
| Analytics.StatusMultiplicities | Sources/NovaCoachApp/Domain/UseCases/AnalyticsUseCase.swift:27-28 | the filtered count of completed items is the multiplicity of completed; pending plus in-progress make up the rest |
| Analytics.Snapshot | Sources/NovaCoachApp/Domain/UseCases/AnalyticsUseCase.swift:23-36 | the snapshot carries the objectives, counts completed items and every other item as pending (the two add up to all items), and carries the streak |
| Analytics.OneCompletedItem | Tests/NovaCoachAppTests/ObjectiveUseCaseTests.swift:18-36 | one completed item gives 1 completed and 0 pending |
| Analytics.Days | Sources/NovaCoachApp/Domain/UseCases/AnalyticsUseCase.swift:39 | the entry days sorted most recent first, a permutation of the logs' days |
| Analytics.Streak | Sources/NovaCoachApp/Domain/UseCases/AnalyticsUseCase.swift:38-56 | the streak never exceeds the number of logs |
| Analytics.WalkIsLongestChain | Sources/NovaCoachApp/Domain/UseCases/AnalyticsUseCase.swift:42-54 | the walk counts the longest prefix of the days that steps back one or two days at a time |
| Analytics.StreakIsLongestChain | Sources/NovaCoachApp/Domain/UseCases/AnalyticsUseCase.swift:38-56 | 0 without logs; otherwise the most recent day counts, each counted day is one or two days before the previous one, and the first uncounted one is not |
| Analytics.ConsecutiveDaysCountFully | Sources/NovaCoachApp/Domain/UseCases/AnalyticsUseCase.swift:43-47 | entries on consecutive days are all counted |
| Analytics.OneDayGapIsTolerated | Sources/NovaCoachApp/Domain/UseCases/AnalyticsUseCase.swift:48-50 | an entry two days before the previous one is still counted |
| Analytics.RepeatOrLongGapStops | Sources/NovaCoachApp/Domain/UseCases/AnalyticsUseCase.swift:51-53 | a repeated day or a step of three days or more ends the streak there |
| Analytics.StreakDependsOnlyOnDays | Sources/NovaCoachApp/Domain/UseCases/AnalyticsUseCase.swift:39-44 | the streak depends only on the multiset of entry days, not on the logs' order or time of day |
| PersistentSchema.MakeRelationship | Sources/NovaCoachApp/Core/CoreData/CoreDataStack.swift:244-254 | every relationship is optional with minimum 0, and its maximum is 0 when to-many and 1 when to-one |
| PersistentSchema.InversesAreMutual | Sources/NovaCoachApp/Core/CoreData/CoreDataStack.swift:177-200 | the ten relationships pair up as mutual inverses running between the same two entities in opposite directions |
| PersistentSchema.CardinalitiesOfAll | Sources/NovaCoachApp/Core/CoreData/CoreDataStack.swift:177-206 | each inverse pair has one to-many and one to-one side |
| PersistentSchema.CascadesFrom | Sources/NovaCoachApp/Core/CoreData/CoreDataStack.swift:177-198 | the entities deleted along with an entity are exactly the destinations of its cascade relationships: each such destination is listed, and nothing else is |
| PersistentSchema.NullifiedFrom | Sources/NovaCoachApp/Core/CoreData/CoreDataStack.swift:177-198 | the relationships cleared on delete are exactly the nullify ones: each is listed, and nothing else is |
| PersistentSchema.DeleteRuleGraph | Sources/NovaCoachApp/Core/CoreData/CoreDataStack.swift:177-198 | an objective takes its key results with it and nullifies items and logs; a meeting takes its items; nothing else cascades |
| PersistentSchema.HexByte | Sources/NovaCoachApp/Core/CoreData/CoreDataStack.swift:44 | `%02hhx` writes every byte as two lower-case hex digits |
| PersistentSchema.HexKey | Sources/NovaCoachApp/Core/CoreData/CoreDataStack.swift:44 | the joined key has two hex digits per byte |
| PersistentSchema.HexRoundTrip | Sources/NovaCoachApp/Core/CoreData/CoreDataStack.swift:44 | the hex key decodes back to the key bytes |
| PersistentSchema.HexKeyInjective | Sources/NovaCoachApp/Core/CoreData/CoreDataStack.swift:44-45 | different keys give different pragma values |
| PersistentSchema.KeyPragma | Sources/NovaCoachApp/Core/CoreData/CoreDataStack.swift:45 | the key pragma is `x'…'` around text that decodes to the key |
| PersistentSchema.StorePragmas | Sources/NovaCoachApp/Core/CoreData/CoreDataStack.swift:34-51 | WAL journal, secure delete, page size 4096 and 256000 KDF iterations always; a key pragma exactly when SQLCipher is on and the key was found |
| StoreRows.EmptyStoreIsValid | Sources/NovaCoachApp/Core/CoreData/CoreDataStack.swift:177-206 | the empty store meets the invariant that every link names a stored row of the right entity |
| StoreRows.DecodeStatus | Sources/NovaCoachApp/Core/Repositories/CoreDataRepositories.swift:292 | a stored raw status decodes to the case that writes it, or to pending when none does |
| StoreRows.DecodeFrequency | Sources/NovaCoachApp/Core/Repositories/CoreDataRepositories.swift:355 | a stored raw frequency decodes to its case, or to daily when none writes it |
| StoreRows.DecodeEncode | Sources/NovaCoachApp/Core/Repositories/CoreDataRepositories.swift:250-355 | writing a status or frequency and reading it back gives the same case; unknown raw values read back as the defaults |
| StoreRows.ParentId | Sources/NovaCoachApp/Core/Repositories/CoreDataRepositories.swift:295-297 | a missing link reads back as no id, a link as the id of the row it names |
| StoreRows.KeyResultOf | Sources/NovaCoachApp/Core/Repositories/CoreDataRepositories.swift:228-239 | a key-result row reads back with its id, values and creation date |
| StoreRows.ActionItemOf | Sources/NovaCoachApp/Core/Repositories/CoreDataRepositories.swift:285-299 | an item row reads back with its decoded status and each parent id taken from the row its link names |
| StoreRows.MeetingOf | Sources/NovaCoachApp/Core/Repositories/CoreDataRepositories.swift:318-329 | a meeting reads back with its attributes and the items linked to it |
| StoreRows.LogOf | Sources/NovaCoachApp/Core/Repositories/CoreDataRepositories.swift:348-359 | a log reads back with its decoded frequency, objective id and linked items |
| StoreRows.ObjectiveOf | Sources/NovaCoachApp/Core/Repositories/CoreDataRepositories.swift:199-210 | an objective reads back with its key results as a permutation sorted by creation date, and with its linked items and logs |
| StoreRows.ObjectiveEntries | Sources/NovaCoachApp/Core/Repositories/CoreDataRepositories.swift:21-23 | the stored objectives, every one exactly once, ordered by `createdAt` ascending |
| StoreRows.FetchObjectives | Sources/NovaCoachApp/Core/Repositories/CoreDataRepositories.swift:19-26 | one objective per stored row, in creation order |
| StoreRows.MatchingMeetings | Sources/NovaCoachApp/Core/Repositories/CoreDataRepositories.swift:66-83 | exactly the stored meetings the compound predicate accepts, newest first |
| StoreRows.FetchMeetings | Sources/NovaCoachApp/Core/Repositories/CoreDataRepositories.swift:66-86 | the fetched meetings are newest first, one per matching stored meeting |
| StoreRows.FetchMeetingsMembers | Sources/NovaCoachApp/Core/Repositories/CoreDataRepositories.swift:69-84 | every stored meeting the predicate accepts is fetched |
| StoreRows.FetchMeetingsSound | Sources/NovaCoachApp/Core/Repositories/CoreDataRepositories.swift:69-84 | every fetched meeting is a stored one the predicate accepts |
| StoreRows.LogEntries | Sources/NovaCoachApp/Core/Repositories/CoreDataRepositories.swift:116 | the stored log rows rearranged, newest entry date first |
| StoreRows.FetchLogs | Sources/NovaCoachApp/Core/Repositories/CoreDataRepositories.swift:114-121 | one log read back per stored row, with its objective id and linked action items, newest entry date first |
| StoreRows.FetchLogsMembers | Sources/NovaCoachApp/Core/Repositories/CoreDataRepositories.swift:114-121 | every stored log is fetched |
| StoreRows.FetchLogsSound | Sources/NovaCoachApp/Core/Repositories/CoreDataRepositories.swift:114-121 | every fetched log is the read-back of a stored row |
| StoreRows.FetchActionItems | Sources/NovaCoachApp/Core/Repositories/CoreDataRepositories.swift:155-161 | the i-th fetched action item is the read-back of the i-th stored row, with its status decoded and its parent ids |
| PersistentStore.KeyResultRowOf | Sources/NovaCoachApp/Core/Repositories/CoreDataRepositories.swift:214-226 | a key result written to a row reads back as itself, linked to its objective |
| PersistentStore.ItemRowOf | Sources/NovaCoachApp/Core/Repositories/CoreDataRepositories.swift:243-257 | a new item row takes the status's raw value and the links passed in, ignoring the item's own parent ids |
| PersistentStore.MeetingRowOf | Sources/NovaCoachApp/Core/Repositories/CoreDataRepositories.swift:303-316 | a meeting row's creation date is the meeting date, its update time the clock |
| PersistentStore.LogRowOf | Sources/NovaCoachApp/Core/Repositories/CoreDataRepositories.swift:333-346 | a log row's creation date is the entry date, with the frequency's raw value |
| PersistentStore.CreatedAt | Sources/NovaCoachApp/Core/Repositories/CoreDataRepositories.swift:187 | an objective's stored creation date is its earliest log date, or its start date without logs |
| PersistentStore.ObjectiveRowOf | Sources/NovaCoachApp/Core/Repositories/CoreDataRepositories.swift:181-188 | the objective's attributes, with that creation date and the clock as update time |
| PersistentStore.InsertLog | Sources/NovaCoachApp/Core/Repositories/CoreDataRepositories.swift:333-346 | a log row plus rows for its items, linked to the new log only; a valid store stays valid |
| PersistentStore.LogInsertedValid | Sources/NovaCoachApp/Core/Repositories/CoreDataRepositories.swift:333-346 | a log row whose objective is stored, with items linked only to that log, keeps the store valid |
| PersistentStore.CreateLog | Sources/NovaCoachApp/Core/Repositories/CoreDataRepositories.swift:107-112 | createLog adds one log row, unlinked from any objective, and keeps the store valid |
| PersistentStore.CreateMeeting | Sources/NovaCoachApp/Core/Repositories/CoreDataRepositories.swift:59-64 | createMeeting adds the meeting row and its items linked to it alone, keeping the store valid |
| PersistentStore.InsertLogs | Sources/NovaCoachApp/Core/Repositories/CoreDataRepositories.swift:196 | the objective's logs inserted in order, with existing item rows untouched and validity kept |
| PersistentStore.InsertLogsKeepsParents | Sources/NovaCoachApp/Core/Repositories/CoreDataRepositories.swift:196 | inserting logs adds no item linked to an objective or meeting |
| PersistentStore.ClearChildren | Sources/NovaCoachApp/Core/Repositories/CoreDataRepositories.swift:190-192 | the objective's key results, items and logs are deleted, and the items of deleted logs lose that link |
| PersistentStore.ClearChildrenFacts | Sources/NovaCoachApp/Core/Repositories/CoreDataRepositories.swift:190-192 | after the deletions the objective has no key results, items or logs |
| PersistentStore.ClearChildrenValid | Sources/NovaCoachApp/Core/Repositories/CoreDataRepositories.swift:190-192 | the deletions keep a valid store valid: no link is left naming a deleted row |
| PersistentStore.WriteObjective | Sources/NovaCoachApp/Core/Repositories/CoreDataRepositories.swift:181-197 | update(from:in:) rewrites the objective row, leaves meetings alone and keeps the store valid |
| PersistentStore.WrittenBeforeLogs | Sources/NovaCoachApp/Core/Repositories/CoreDataRepositories.swift:190-196 | before the logs go in, the objective row holds the new attributes and its new key results and items follow the deletions; meetings are untouched and validity is kept |
| PersistentStore.WriteObjectiveKeyResults | Sources/NovaCoachApp/Core/Repositories/CoreDataRepositories.swift:194 | afterwards the objective's key results are exactly rows built from the new ones, in order |
| PersistentStore.WriteObjectiveActionItems | Sources/NovaCoachApp/Core/Repositories/CoreDataRepositories.swift:195 | afterwards the objective's items are exactly rows built from the new ones, linked to the objective alone |
| PersistentStore.WriteObjectiveLogs | Sources/NovaCoachApp/Core/Repositories/CoreDataRepositories.swift:196 | afterwards the objective's logs are exactly rows built from the new ones, in order |
| PersistentStore.WriteObjectiveReadsBackKeyResults | Sources/NovaCoachApp/Core/Repositories/CoreDataRepositories.swift:194-206 | reading back gives the objective's attributes and its key results permuted into creation order |
| PersistentStore.WriteObjectiveReadsBackActionItems | Sources/NovaCoachApp/Core/Repositories/CoreDataRepositories.swift:195-207 | reading back gives the objective's items, each with only the objective as parent |
| PersistentStore.LogRowsReadBack | Sources/NovaCoachApp/Core/Repositories/CoreDataRepositories.swift:333-358 | log rows built from entries read back with the same ids and dates, linked to the objective |
| PersistentStore.WriteObjectiveReadsBackLogs | Sources/NovaCoachApp/Core/Repositories/CoreDataRepositories.swift:196-208 | reading back gives one log per written log, same id and date, linked to the objective |
| PersistentStore.WriteObjectiveOrphansLogItems | Sources/NovaCoachApp/Core/Repositories/CoreDataRepositories.swift:190-196 | an item hanging only off one of the objective's old logs survives the update, now with no parent at all |
| PersistentStore.CreateObjective | Sources/NovaCoachApp/Core/Repositories/CoreDataRepositories.swift:12-17 | createObjective adds one objective row and keeps the store valid |
| PersistentStore.UpdateObjective | Sources/NovaCoachApp/Core/Repositories/CoreDataRepositories.swift:28-38 | missingEntity exactly when no objective row has the id; otherwise the first such row is rewritten and validity kept |
| PersistentStore.RelinkAll | Sources/NovaCoachApp/Core/Repositories/CoreDataRepositories.swift:295-297 | the items with their parent ids replaced one by one |
| PersistentStore.ItemRowsReadBack | Sources/NovaCoachApp/Core/Repositories/CoreDataRepositories.swift:243-299 | item rows read back as the items they came from, each parent id taken from its link |
| PersistentStore.CreateLogItems | Sources/NovaCoachApp/Core/Repositories/CoreDataRepositories.swift:344 | the new log's items are exactly the rows built from the entry's items |
| PersistentStore.CreateLogReadBack | Sources/NovaCoachApp/Core/Repositories/CoreDataRepositories.swift:333-359 | createLog then reading the log back gives the entry with no objective and its items linked to the log alone |
| PersistentStore.CreateMeetingItems | Sources/NovaCoachApp/Core/Repositories/CoreDataRepositories.swift:314 | the new meeting's items are exactly the rows built from the meeting's items |
| PersistentStore.CreateMeetingReadBack | Sources/NovaCoachApp/Core/Repositories/CoreDataRepositories.swift:303-329 | createMeeting then reading it back gives the meeting, with its items linked to it alone |
| PersistentStore.DeleteObjective | Sources/NovaCoachApp/Core/Repositories/CoreDataRepositories.swift:40-49 | deletes the first objective with the id and its key results, unlinks its items and logs, and changes nothing without the id |
| PersistentStore.DeleteMeeting | Sources/NovaCoachApp/Core/Repositories/CoreDataRepositories.swift:88-97 | deletes the first meeting with the id and its items, or nothing; the store stays valid |
| PersistentStore.DeleteLog | Sources/NovaCoachApp/Core/Repositories/CoreDataRepositories.swift:123-132 | deletes the first log with the id and unlinks its items, or changes nothing; the store stays valid |
| PersistentStore.DeleteLogKeepsValid | Sources/NovaCoachApp/Core/Repositories/CoreDataRepositories.swift:123-132 | deleting a log with the nullify rule applied keeps the store valid |
| PersistentStore.DeleteObjectiveKeepsValid | Sources/NovaCoachApp/Core/Repositories/CoreDataRepositories.swift:40-49 | deleting an objective keeps the store valid |
| PersistentStore.DeleteObjectiveRowKeepsValid | Sources/NovaCoachApp/Core/Repositories/CoreDataRepositories.swift:44-46 | deleting one objective row with its cascade and nullify rules keeps the store valid |
| PersistentStore.ResolveLink | Sources/NovaCoachApp/Core/Repositories/CoreDataRepositories.swift:268-282 | a link is kept without an id, set to a row with that id when one exists, and cleared when none does |
| PersistentStore.UpdatedItemRow | Sources/NovaCoachApp/Core/Repositories/CoreDataRepositories.swift:259-283 | update(from:in:) overwrites the attributes and resolves each of the three parent links |
| PersistentStore.UpsertTarget | Sources/NovaCoachApp/Core/Repositories/CoreDataRepositories.swift:145-148 | the upsert writes the stored item with the id when there is one, else a new row |
| PersistentStore.UpsertItem | Sources/NovaCoachApp/Core/Repositories/CoreDataRepositories.swift:144-150 | one pass writes one item row, changes no other row or table, and keeps the store valid |
| PersistentStore.UpdatedLinksIn | Sources/NovaCoachApp/Core/Repositories/CoreDataRepositories.swift:144-150 | in a valid store, every link the updated item row carries names a stored row |
| PersistentStore.UpsertActionItems | Sources/NovaCoachApp/Core/Repositories/CoreDataRepositories.swift:142-153 | the upsert changes only item rows, never removes one, and keeps the store valid |
| PersistentStore.UpsertItemStores | Sources/NovaCoachApp/Core/Repositories/CoreDataRepositories.swift:144-150 | one pass stores the item's id and keeps every stored id |
| PersistentStore.UpsertActionItemsKeepsIds | Sources/NovaCoachApp/Core/Repositories/CoreDataRepositories.swift:142-153 | every id stored before the upsert still is afterwards |
| PersistentStore.UpsertActionItemsStoresAt | Sources/NovaCoachApp/Core/Repositories/CoreDataRepositories.swift:142-153 | the id of the item at any position of the batch is stored after the loop |
| PersistentStore.UpsertActionItemsStoresAll | Sources/NovaCoachApp/Core/Repositories/CoreDataRepositories.swift:142-153 | every upserted id is stored afterwards |
| PersistentStore.UpsertNewItemReadBack | Sources/NovaCoachApp/Core/Repositories/CoreDataRepositories.swift:259-299 | a new item whose parent ids all name stored rows reads back as exactly that item |
| PersistentStore.UpsertDropsUnknownParent | Sources/NovaCoachApp/Core/Repositories/CoreDataRepositories.swift:268-282 | a parent id naming no stored row is lost: the failed fetch sets the link to nil |
| Backends.PersistentTextMatchIsWeaker | Sources/NovaCoachApp/Core/Repositories/CoreDataRepositories.swift:70-75 | whatever keyword or participant the in-memory filter finds, the case-folding persistent filter finds too |
| Backends.StatusTestsAgree | Sources/NovaCoachApp/Core/Repositories/CoreDataRepositories.swift:76-78 | with known raw statuses, the raw-string status test agrees with the in-memory test on decoded statuses |
| Backends.KnownRawAgrees | Sources/NovaCoachApp/Core/Repositories/CoreDataRepositories.swift:292 | on a raw value some case writes, comparing raw strings and comparing decoded statuses agree |
| Backends.FiltersAgreeWithoutText | Sources/NovaCoachApp/Core/Repositories/CoreDataRepositories.swift:69-81 | without text conditions and with known raw statuses, both backends accept the same meetings |
| Backends.UnknownRawStatusSplitsBackends | Sources/NovaCoachApp/Core/Repositories/CoreDataRepositories.swift:76-78 | an item with raw status "done" reads back as pending, yet the persistent pending filter misses its meeting |
| Backends.PersistentKeywordIgnoresCase | Sources/NovaCoachApp/Core/Repositories/CoreDataRepositories.swift:70-72 | keyword "budget" finds notes "Budget review" in the persistent store |
| Backends.FetchWithoutConditions | Sources/NovaCoachApp/Core/Repositories/CoreDataRepositories.swift:79-81 | without conditions no predicate is set and every stored meeting is fetched |
| VoiceAssistant.Init | Sources/NovaCoachApp/Core/VoiceAssistant/VoiceAssistantService.swift:37-41 | a new assistant is not listening and has no commands |
| VoiceAssistant.Configure | Sources/NovaCoachApp/Core/VoiceAssistant/VoiceAssistantService.swift:43-45 | configure replaces the commands and changes nothing else |
| VoiceAssistant.Start | Sources/NovaCoachApp/Core/VoiceAssistant/VoiceAssistantService.swift:47-76 | start sets listening whatever the engine does; the engine is created once, and a failure to create or start is logged and announced |
| VoiceAssistant.Stop | Sources/NovaCoachApp/Core/VoiceAssistant/VoiceAssistantService.swift:78-88 | stop clears listening and keeps the commands |
| VoiceAssistant.FirstTriggered | Sources/NovaCoachApp/Core/VoiceAssistant/VoiceAssistantService.swift:93 | the first command whose lower-cased phrase occurs in the text, none before it matching, or none at all |
| VoiceAssistant.HandleRecognizedText | Sources/NovaCoachApp/Core/VoiceAssistant/VoiceAssistantService.swift:90-97 | nothing happens unless listening; otherwise the first triggered command is announced with its phrase and run |
| VoiceAssistant.AtMostOneCommandRuns | Sources/NovaCoachApp/Core/VoiceAssistant/VoiceAssistantService.swift:93-96 | at most one command runs, and its phrase occurs in the text |
| VoiceAssistant.HandleIgnoresCase | Sources/NovaCoachApp/Core/VoiceAssistant/VoiceAssistantService.swift:92-93 | lower-casing the text first changes nothing |
| VoiceAssistant.StopSilences | Sources/NovaCoachApp/Core/VoiceAssistant/VoiceAssistantService.swift:78-93 | after stop the text does nothing; after start it is handled with the configured commands |
| VoiceAssistant.PhraseMatchIgnoresCase | Sources/NovaCoachApp/Core/VoiceAssistant/VoiceAssistantService.swift:92-94 | the text "GO" runs the command "Go" and announces "Executing Go" |
| Mdx.RemoveDiacritics | growth-agent/src/lib/mdx.ts:30-31 | no diacritic is left, the letters and digits are untouched, and text without diacritics is unchanged |
| Mdx.HyphenateRuns | growth-agent/src/lib/mdx.ts:33 | only slug characters remain, with no double hyphen and the same letters and digits |
| Mdx.HyphenateRunsFixes | growth-agent/src/lib/mdx.ts:33 | slug text without double hyphens is its own hyphenation |
| Mdx.DropLeadingHyphens | growth-agent/src/lib/mdx.ts:34 | the result is a suffix that does not start with a hyphen and keeps the letters and digits |
| Mdx.DropTrailingHyphens | growth-agent/src/lib/mdx.ts:34 | the result is a prefix that does not end with a hyphen and keeps the letters and digits |
| Mdx.TrimHyphens | growth-agent/src/lib/mdx.ts:34 | a middle piece with no hyphen at either end and the same letters and digits |
| Mdx.SqueezeHyphens | growth-agent/src/lib/mdx.ts:35 | no double hyphen is left, and text without one is unchanged |
| Mdx.QueryPart | growth-agent/src/lib/mdx.ts:29-35 | the query part is slug-shaped and keeps the query's lower-cased letters and digits in order |
| Mdx.KeepSlugChars | growth-agent/src/lib/mdx.ts:36 | only letters, digits and hyphens remain, and slug text is unchanged |
| Mdx.LocalePart | growth-agent/src/lib/mdx.ts:36 | the locale part has only slug characters, no edge hyphen, and the locale's letters and digits |
| Mdx.ToSlug | growth-agent/src/lib/mdx.ts:28-41 | a non-empty slug with no edge hyphen: locale-query, or the query alone, or the locale or "content" as fallback |
| Mdx.QueryPartFixes | growth-agent/src/lib/mdx.ts:29-35 | a slug-shaped query is left alone |
| Mdx.QueryPartEmpty | growth-agent/src/lib/mdx.ts:29-39 | the query part is empty exactly when the query has no letter or digit |
| Mdx.SlugKeepsLettersAndDigits | growth-agent/src/lib/mdx.ts:28-41 | the slug's letters and digits are the locale's followed by the query's |
| Mdx.ToSlugIdempotent | growth-agent/src/lib/mdx.ts:28-41 | without a locale, slugging a slug gives it back |
| Mdx.IntroLines | growth-agent/src/lib/mdx.ts:76-78 | the intro is added after a blank line exactly when it is a non-empty string |
| Mdx.OutlineLines | growth-agent/src/lib/mdx.ts:79-82 | a non-empty outline gets its heading and one bullet per item |
| Mdx.HowToLines | growth-agent/src/lib/mdx.ts:83-86 | a non-empty list of steps gets its heading and steps numbered from 1 |
| Mdx.FaqBlocksAt | growth-agent/src/lib/mdx.ts:87-92 | block `i` of the FAQ lines is the `i`-th question as a level-three heading, its answer and a blank line |
| Mdx.FaqLines | growth-agent/src/lib/mdx.ts:87-92 | each FAQ is a level-three question, its answer and a blank line |
| Mdx.Sections | growth-agent/src/lib/mdx.ts:73-99 | the lines open with the trimmed front matter, a blank line and the title, and close with the JSON-LD script block |
| Mdx.CollapseNewlines | growth-agent/src/lib/mdx.ts:100 | no run of three line feeds is left, only line feeds are removed, and the first two characters stay |
| Mdx.CollapseRun | growth-agent/src/lib/mdx.ts:100 | between text not ending in a line feed and text not starting with one, any run of two or more line feeds becomes exactly two, each side collapsing on its own |
| Mdx.CollapseNoop | growth-agent/src/lib/mdx.ts:100 | text without three line feeds in a row is unchanged |
| Mdx.CollapseIdempotent | growth-agent/src/lib/mdx.ts:100 | collapsing twice is collapsing once |
| Mdx.CollapseSuffix | growth-agent/src/lib/mdx.ts:100 | whatever comes before, the collapse of a text ends with the collapse of its tail |
| Mdx.CollapseConcat | growth-agent/src/lib/mdx.ts:100 | a piece ending in something other than a line feed collapses on its own |
| Mdx.RenderMdx | growth-agent/src/lib/mdx.ts:64-101 | the page has no triple line feed and keeps every other character of the joined sections |
| Mdx.RenderMdxStart | growth-agent/src/lib/mdx.ts:73-100 | the page opens with the front matter, a blank line and `# ` |
| Mdx.RenderMdxHeading | growth-agent/src/lib/mdx.ts:73-100 | a heading without line feeds follows that opening whole |
| Mdx.RenderMdxEnd | growth-agent/src/lib/mdx.ts:93-100 | the page closes with a blank line, the JSON-LD script element and a final line feed |
| FrontMatterDiff.Quote | growth-agent/src/runners/diff.ts:90 | `JSON.stringify` of a key is enclosed in double quotes |
| FrontMatterDiff.QuotePlain | growth-agent/src/runners/diff.ts:90 | text without quotes, backslashes or control characters is only put between quotes |
| FrontMatterDiff.QuoteInjective | growth-agent/src/runners/diff.ts:90 | different keys quote differently, so the serialised text tells keys apart |
| FrontMatterDiff.QuoteNoLineFeed | growth-agent/src/lib/mdx.ts:96 | a quoted string never holds a raw line feed |
| FrontMatterDiff.LessTransitive | growth-agent/src/runners/diff.ts:87-89 | the key order is transitive |
| FrontMatterDiff.LessTotal | growth-agent/src/runners/diff.ts:87-89 | any two different keys are ordered one way or the other |
| FrontMatterDiff.SortEntries | growth-agent/src/runners/diff.ts:87-89 | the entries sorted by key, as a permutation |
| FrontMatterDiff.SortedUnique | growth-agent/src/runners/diff.ts:87-89 | sorted entries with distinct keys are fixed by their multiset |
| FrontMatterDiff.Serialise | growth-agent/src/runners/diff.ts:77-91 | objects and dates serialise in braces, arrays in brackets, strings in quotes |
| FrontMatterDiff.KeyOrderIrrelevant | growth-agent/src/runners/diff.ts:87-90 | two objects with the same entries in any order serialise alike |
| FrontMatterDiff.IsEqualFacts | growth-agent/src/runners/diff.ts:73-80 | null equals undefined, and the equality is reflexive and symmetric |
| FrontMatterDiff.DatesCompareEqual | growth-agent/src/runners/diff.ts:81-90 | any two dates compare equal |
| FrontMatterDiff.Get | growth-agent/src/runners/diff.ts:63-64 | a key's value is that of an entry with the key, or undefined when there is none |
| FrontMatterDiff.Dedup | growth-agent/src/runners/diff.ts:59 | the keys each once, and exactly the keys given that were not already seen |
| FrontMatterDiff.DedupOrder | growth-agent/src/runners/diff.ts:59 | of two listed keys, the earlier one appears in the input before the later one first does (order of first appearance) |
| FrontMatterDiff.KeyUnion | growth-agent/src/runners/diff.ts:59 | exactly the keys of either side, each once |
| FrontMatterDiff.KeyUnionOrder | growth-agent/src/runners/diff.ts:59 | the union lists keys in order of first appearance in the current keys and then the desired ones |
| FrontMatterDiff.CurrentKeysFirst | growth-agent/src/runners/diff.ts:59 | every key of the current side comes before every key only the desired side has |
| FrontMatterDiff.ComputeDiffEntries | growth-agent/src/runners/diff.ts:55-71 | one entry per key of either side whose values differ, each key once, with both values, in the order of the key union |
| FrontMatterDiff.EntriesOverKeys | growth-agent/src/runners/diff.ts:62-68 | the loop's entries follow its keys, keeping exactly the changed ones |
| FrontMatterDiff.NoEntriesForSame | growth-agent/src/runners/diff.ts:55-71 | front matter compared with itself gives no entries |
| FrontMatterDiff.MissingEqualsNull | growth-agent/src/runners/diff.ts:73-80 | a key missing on one side and null on the other is no change |
| FrontMatterDiff.YamlLines | growth-agent/src/runners/diff.ts:99-102 | no lines for an empty dump, otherwise newline-free lines that join back to the trimmed dump |
| FrontMatterDiff.Prefixed | growth-agent/src/runners/diff.ts:105-106 | every line behind the marker, in order |
| FrontMatterDiff.CreateFrontMatterPatch | growth-agent/src/runners/diff.ts:93-108 | the patch opens with `--- ` followed by the path of the existing file |
| FrontMatterDiff.PatchLines | growth-agent/src/runners/diff.ts:93-108 | the patch reads back as the three header lines, the old lines behind "-" and the new ones behind "+" |
| FrontMatterDiff.RemovalsRestoreYaml | growth-agent/src/runners/diff.ts:99-105 | stripping the "-" from the removals gives back the old dump without trailing whitespace |
| FrontMatterDiff.FormatValue | growth-agent/src/runners/diff.ts:110-118 | the placeholder for null or undefined, a string as it is, anything else as its trimmed YAML |
| FrontMatterDiff.RunDiff | growth-agent/src/runners/diff.ts:14-47 | nothing to report exactly when no key changed; otherwise the table of the changed entries, or the header line and the patch of the two front matters |
| FrontMatterDiff.TableRows | growth-agent/src/runners/diff.ts:34-40 | one row per entry, in order, holding its key and both formatted values |
| FrontMatterDiff.RunDiffRows | growth-agent/src/runners/diff.ts:26-40 | the table's fields are the changed keys in key-union order, each with the formatted current and desired value |
| Draft.FirstLine | growth-agent/src/runners/draft.ts:83 | the text up to the first line feed |
| Draft.Cut | growth-agent/src/runners/draft.ts:83 | the prefix of length min(length, 200) |
| Draft.Summary | growth-agent/src/runners/draft.ts:83-86 | the default when the cut first line is all whitespace, else that line with the whitespace at both ends removed |
| Draft.SummaryOfCleanLine | growth-agent/src/runners/draft.ts:83-86 | a short first line without surrounding whitespace is the summary |
| Draft.Word | growth-agent/src/runners/draft.ts:84 | the longest prefix without whitespace |
| Draft.Links | growth-agent/src/runners/draft.ts:84 | every match is `http://` or `https://` followed by at least one non-whitespace character |
| Draft.LinkOccursAt | growth-agent/src/runners/draft.ts:84 | the `i`-th link found is text of the brief |
| Draft.LinksOccur | growth-agent/src/runners/draft.ts:84 | every link is text of the brief |
| Draft.LinksOfLink | growth-agent/src/runners/draft.ts:84 | a link standing alone is found whole |
| Draft.LinksSplit | growth-agent/src/runners/draft.ts:84 | text split at whitespace yields the links of each side in turn |
| Draft.LoadBriefInsights | growth-agent/src/runners/draft.ts:76-93 | the default summary and no links without a readable brief, else the brief's summary and links |
| Draft.BuildTitle | growth-agent/src/runners/draft.ts:95-97 | the title is the query without one final full stop, with the whitespace at both ends removed |
| Draft.TitleOfCleanQuery | growth-agent/src/runners/draft.ts:95-97 | a query that is already a clean title is kept |
| Draft.TitleDropsOneStop | growth-agent/src/runners/draft.ts:96 | only one final full stop goes |
| Draft.BuildOutline | growth-agent/src/runners/draft.ts:99-105 | three items: the quoted query in the first, the summary closing the second |
| Draft.BuildHowTo | growth-agent/src/runners/draft.ts:107-113 | three steps, the quoted query in the first |
| Draft.BuildFaqs | growth-agent/src/runners/draft.ts:115-138 | five questions, each naming the query right after its opening words |
| Draft.BuildIntro | growth-agent/src/runners/draft.ts:162-165 | the fixed sentence naming locale and query, followed by the summary when there is one |
| Draft.EnsureTrailingSlash | growth-agent/src/runners/draft.ts:176-178 | the result ends in "/" and differs from the input only by that slash when it lacked one |
| Draft.TrailingSlashIdempotent | growth-agent/src/runners/draft.ts:176-178 | adding the slash twice is adding it once |
| Draft.JsonLdFields | growth-agent/src/runners/draft.ts:140-160 | seven fields with distinct keys |
| Draft.PrettyJson | growth-agent/src/lib/mdx.ts:96 | the pretty-printed JSON is enclosed in braces, and an empty object is `{}` |
| Draft.JsonLines | growth-agent/src/lib/mdx.ts:96 | the lines of a printed object: `{`, one line per member in order with a comma after all but the last, `}` |
| Draft.PrettyJsonLines | growth-agent/src/lib/mdx.ts:96 | splitting the printed object at line feeds gives exactly those lines |
| Draft.FrontMatterData | growth-agent/src/lib/mdx.ts:43-60 | the front matter has distinct keys, the meta description under `description`, and the slug |
| Draft.DraftPath | growth-agent/src/runners/draft.ts:29-30 | the page goes to `<outDir>/<lower-case locale>/<slug>.mdx` |
| Draft.MetaDesc | growth-agent/src/runners/draft.ts:36 | the meta description names the query and ends with the locale and a full stop |
| Draft.CanonicalBase | growth-agent/src/runners/draft.ts:37 | the base ends in "/": the default when `CANONICAL_BASE_URL` is unset, otherwise its value with a "/" added when it lacks one |
| Draft.EmptyBaseIsRoot | growth-agent/src/runners/draft.ts:37 | an empty `CANONICAL_BASE_URL` is not replaced by the default: the base is "/" |
| Draft.Canonical | growth-agent/src/runners/draft.ts:37-38 | `<lower-case locale>/<slug>` is resolved against the default base when `CANONICAL_BASE_URL` is unset, against the variable's value when it ends in "/", and against that value with "/" appended otherwise; absent when the URL constructor rejects it |
| Draft.Parts | growth-agent/src/runners/draft.ts:34-53 | the JSON-LD text handed to the renderer is an object |
| Draft.PartsContents | growth-agent/src/runners/draft.ts:34-53 | each part handed to the renderer is its builder applied to the query, the locale, the brief's summary and links, and the canonical URL |
| Draft.DraftPage | growth-agent/src/runners/draft.ts:55-63 | the page has no run of three line feeds |
| Draft.Run | growth-agent/src/runners/draft.ts:20-74 | the locale and then the query are required, and the run fails when the canonical URL does not resolve; otherwise the page built with that URL goes to `<outDir>/<lower-case locale>/<slug>.mdx` and is written only when the file does not already hold it |
| Draft.RunTwiceWritesOnce | growth-agent/src/runners/draft.ts:65-73 | after a run that succeeds, running again over its output writes nothing to the same file |
| Draft.PageOpening | growth-agent/src/runners/draft.ts:55-63 | a page for a one-line query opens with the front matter, a blank line and the title as the `# ` heading |
| Draft.PageEndsWithJsonLd | growth-agent/src/runners/draft.ts:55-63 | the page ends with the JSON-LD script block |
| UtcDates.DayOf | growth-agent/src/runners/report.js:20 | the UTC day of a timestamp is the unique day whose span holds it |
| UtcDates.WeekDay | growth-agent/src/runners/report.js:19 | `getUTCDay` lies in 0..6 |
| UtcDates.WeekDayNext | growth-agent/src/runners/report.js:19 | the weekday advances by one each day, Saturday wrapping to Sunday |
| UtcDates.EpochWasThursday | growth-agent/src/runners/report.js:19 | 1 January 1970 was a Thursday |
| UtcDates.CivilFromDays | growth-agent/src/runners/report.js:20 | every day number is a valid Gregorian date |
| UtcDates.CivilRoundTrip | growth-agent/src/runners/report.js:20-23 | turning a day into a date and back gives the same day |
| UtcDates.EpochDate | growth-agent/src/runners/report.js:29-31 | day 0 is 1970-01-01 |
| UtcDates.Digits | growth-agent/src/runners/report.js:29-31 | exactly w decimal digits |
| UtcDates.DigitsRoundTrip | growth-agent/src/runners/report.js:29-31 | digits read back to the number when it fits |
| UtcDates.YearText | growth-agent/src/runners/report.js:30 | four digits for years 0 to 9999, otherwise a sign and at least six digits |
| UtcDates.IsoDate | growth-agent/src/runners/report.js:29-31 | the first ten characters of `toISOString` |
| UtcDates.ParseParts | growth-agent/src/integrations/gsc.ts:79-81 | a year, month and day written in four, two and two digits read back to the date's day when the date is valid, and to nothing otherwise |
| UtcDates.IsoDateRoundTrip | growth-agent/src/integrations/gsc.ts:79-81 | for years 0 to 9999 the date text reads back to its day |
| Report.IsoWeekDay | growth-agent/src/runners/report.js:19 | `getUTCDay() \|\| 7` lies in 1..7 and names the same weekday |
| Report.WeekStart | growth-agent/src/runners/report.js:19-21 | the week start is a Monday at most six days before the day |
| Report.WeekStartUnique | growth-agent/src/runners/report.js:19-21 | the Monday at most six days back is the only week start |
| Report.SameWeek | growth-agent/src/runners/report.js:19-21 | every day of a week resolves to the same start |
| Report.ResolveWeek | growth-agent/src/runners/report.js:14-25 | an unparsable reference is refused with its text; otherwise, outside years 0 to 99, the week known by the Monday on or before the day, at most six days back; in years 0 to 99 the start is the day's `Date.UTC` midnight, which reads the year as 1900 + y, less the original day's weekday offset |
| Report.UtcMidnight | growth-agent/src/runners/report.js:20 | rebuilding a day with `Date.UTC` gives the same day, except in years 0 to 99 |
| Report.ReportWeekStart | growth-agent/src/runners/report.js:19-21 | outside years 0 to 99 the reported start is the Monday of the day's week |
| Report.TwoDigitYearShifts | growth-agent/src/runners/report.js:19-21 | 10 March 0050, a Thursday, reports the week starting Tuesday 7 March 1950 |
| Report.LeapDaySplitsWeek | growth-agent/src/runners/report.js:19-21 | 29 February and 2 March of year 0 share a Monday, yet their reported starts (28 and 27 February 1900) differ, because 29 February 1900 rolls over to 1 March |
| Report.StubLines | growth-agent/src/runners/report.js:26-28 | the stub reads back line by line as the title, the week line and the four sections, ending with a newline |
| Report.ReportPath | growth-agent/src/runners/report.js:8 | the file is `<start>.md` inside the output directory |
| Report.Run | growth-agent/src/runners/report.js:4-13 | fails exactly when the week does not resolve; otherwise the stub for that week goes to `<outputDir>/<start>.md` |
| Report.ResolvesToWeekOf | growth-agent/src/runners/report.js:14-21 | a non-empty reference that parses to a day outside years 0 to 99 resolves to the week starting on the Monday of its day |
| Report.SameWeekSameFile | growth-agent/src/runners/report.js:4-25 | two references in the same week, both outside years 0 to 99, give the same file and stub |
| Gsc.PropertyUri | growth-agent/src/integrations/gsc.ts:24-27 | the first present of site URL, property variable and site variable, refused when missing or empty; an empty site URL does not fall back |
| Gsc.NoPropertyFails | growth-agent/src/integrations/gsc.ts:24-27 | without a usable value anywhere the call fails |
| Gsc.OffsetToDay | growth-agent/src/integrations/gsc.ts:72-77 | the day lies the floor of the offset before today, and negative offsets count as zero |
| Gsc.DateRange | growth-agent/src/integrations/gsc.ts:34-38 | the two days in order, whichever order the offsets come in |
| Gsc.DateRangeSymmetric | growth-agent/src/integrations/gsc.ts:34-38 | swapping the offsets gives the same range |
| Gsc.OffsetMonotone | growth-agent/src/integrations/gsc.ts:75 | more days ago never gives a later day |
| Gsc.BuildRequest | growth-agent/src/integrations/gsc.ts:40-51 | the request names the property, 1000 rows, the page, country and query dimensions, and the range's dates |
| Gsc.RequestDatesReadBack | growth-agent/src/integrations/gsc.ts:43-44 | the request's dates read back to the range's days |
| Gsc.KeyAt | growth-agent/src/integrations/gsc.ts:56-58 | the key at a position, or "unknown" when the keys or that position are missing |
| Gsc.ToStatRow | growth-agent/src/integrations/gsc.ts:55-63 | keys in order with "unknown" for missing ones, and missing metrics as 0 |
| Gsc.EmptyRowDefaults | growth-agent/src/integrations/gsc.ts:55-63 | an empty row becomes three "unknown" keys and zero metrics |
| Gsc.FullRowKept | growth-agent/src/integrations/gsc.ts:55-63 | a complete row keeps its values |
| Gsc.CompareAgrees | growth-agent/src/integrations/gsc.ts:64-69 | the comparator puts a first exactly when it has more clicks, or as many and at least as many impressions |
| Gsc.SortRows | growth-agent/src/integrations/gsc.ts:64-69 | the rows permuted into clicks-then-impressions descending order |
| Gsc.SortOrderedNoop | growth-agent/src/integrations/gsc.ts:64-69 | rows already in order are left as they are |
| Gsc.GetCountryQueryStats | growth-agent/src/integrations/gsc.ts:19-70 | fails exactly without a property; otherwise every returned row mapped once, in sorted order |
| PullRequest.Target | growth-agent/src/runners/pr.js:10-11 | the environment's repository and base branch, else the defaults |
| PullRequest.ParseRepo | growth-agent/src/runners/pr.js:125-131 | owner and name are the first two non-empty "/"-separated segments, else the value is refused |
| PullRequest.ParseRepoRoundTrip | growth-agent/src/runners/pr.js:125-131 | `owner/name` reads back to its parts, with or without further segments |
| PullRequest.NoSlashInvalid | growth-agent/src/runners/pr.js:125-131 | a value without "/" is refused |
| PullRequest.RemoteUrl | growth-agent/src/runners/pr.js:80-82 | the URL carries the token before the host and ends with `<repo>.git` |
| PullRequest.RemoteUrlRepo | growth-agent/src/runners/pr.js:80-82 | the repository can be read back out of the URL |
| PullRequest.RemoveAllRemoves | growth-agent/src/runners/pr.js:84 | `replaceAll` leaves no such character and never lengthens |
| PullRequest.CompactDate | growth-agent/src/runners/pr.js:84 | the compact date has no dash |
| PullRequest.CompactDateDigits | growth-agent/src/runners/pr.js:84 | for years 0 to 9999 the compact date is the eight digits of year, month and day |
| PullRequest.BranchName | growth-agent/src/runners/pr.js:83-85 | `growth/<locale>-` followed by the compact date |
| PullRequest.AnyModified | growth-agent/src/runners/pr.js:116 | some line reports a modified file |
| PullRequest.HasUpdatesLines | growth-agent/src/runners/pr.js:116 | the status reports updates exactly when one of its lines starts with M once trimmed |
| PullRequest.Labels | growth-agent/src/runners/pr.js:115-117 | the agent label, the locale label, and update or new as the status says |
| PullRequest.CommitMessage | growth-agent/src/runners/pr.js:41 | `growth: <locale> content ` followed by the ten-character date of the run |
| PullRequest.Title | growth-agent/src/runners/pr.js:46 | `Growth content for <locale> (` followed by the date of the run and `)` |
| PullRequest.MessagesCarryDate | growth-agent/src/runners/pr.js:41-46 | the date in the commit message and in the title reads back as the day of the run (years 0 to 9999) |
| PullRequest.PrBody | growth-agent/src/runners/pr.js:112-114 | the summary heading, the locale exactly once between it and the checklist, then the three-item checklist |
| PullRequest.Plan | growth-agent/src/runners/pr.js:24-62 | the remote URL, branch, commit message, title, body and labels are those the runner derives from the locale, token, repository, status and day; the target is the parsed owner and name; a label warning exactly when labelling failed |
| PullRequest.Preflight | growth-agent/src/runners/pr.js:13-40 | a missing or empty locale is refused first; with a locale, a missing content directory is refused with its path, any other access failure with its code, an empty one with its path, and a blank status as no changes; once all of these pass the result is the parsed repository; the run may go on exactly when every check passes and the repository parses |
| PullRequest.Run | growth-agent/src/runners/pr.js:13-68 | succeeds exactly when every check passes, failing with the first check's error, and then opens the planned pull request |
| PullRequest.PlanWarning | growth-agent/src/runners/pr.js:118-123 | a failed labelling changes only the warning flag of the plan |
| PullRequest.EmptyContentStops | growth-agent/src/runners/pr.js:20-23 | an empty content directory stops the run whatever the token, status or repository |
| PullRequest.LabelFailureOnlyWarns | growth-agent/src/runners/pr.js:115-124 | failing to add labels opens the same pull request and only warns |
| PullRequest.BlankStatusRefused | growth-agent/src/runners/pr.js:37-40 | a status with nothing but whitespace is refused |

## Left out

- I/O and platform plumbing are not modelled:
  - Core Data contexts, threads, `performAndWait`, and save errors;
  - the Keychain, file encryption, speech recognition and synthesis;
  - notifications, and every view and view model.
- The create and fetch use cases for meetings and logs only pass calls through
  to the repositories, so they are not modelled separately.
- UUIDs and the clock are parameters (`Uuid = int`, `now`, `today`). Within one
  pull-request run `timestamp()` is assumed to return the same day each time.
- Swift `Double` and JavaScript `number` are `real` (no NaN, infinity or
  rounding). Search Console metrics and day offsets are finite.
- Calendar days are UTC day numbers. `Calendar.current` time zones and
  daylight saving are not modelled.
- Dates outside the `Date` range of ±8.64e15 ms, and the `RangeError` that
  `toISOString` throws beyond it, are not modelled.
- `UtcDates.IsoDateRoundTrip`, `Gsc.RequestDatesReadBack`: state the read-back
  only for years 0 to 9999. Other years use the six-digit form, which
  `ParseIsoDate` does not read.
- Text is ASCII:
  - `toLowerCase`, `lowercased()` and `CONTAINS[cd]` fold only A to Z;
  - NFD normalisation is not modelled;
  - `Mdx.ToSlug` and the draft runner require ASCII input;
  - `slice(0, 200)` counts characters, where JavaScript counts UTF-16 code
    units.
- Library formatters are parameters: `yaml.dump`, `matter.stringify`,
  `new URL(…).toString()` and `new Date(string)`. The URL constructor gives
  nothing where `new URL` throws; which bases it rejects is up to the
  parameter. `path.join` and
  `path.resolve` are plain concatenation with "/" (no normalisation of `..`
  or double slashes).
- The git, Octokit and Search Console calls are parameters or outcomes:
  clone, checkout, push, commit, `pulls.create`, `addLabels`, the status text
  and the query response. Copying the content files (`syncContent`) and
  identity configuration are left out.
- Within a pull-request run, only the error raised by `ensureDirectory` is
  modelled, not any failure of the later git commands.
- `Gsc.SortRows`, `Gsc.GetCountryQueryStats`: stability (equal rows keep
  their order) is not stated as a lemma, only that the result is an ordered
  permutation. So the order of rows with equal clicks and impressions in the
  country statistics is left open.
- `Report.ResolvesToWeekOf`, `Report.SameWeekSameFile`: state the Monday week
  only for days outside years 0 to 99. In those years `Date.UTC` reads the
  year as 1900 + y, so the start moves to the twentieth century, need not be
  a Monday, and can differ within one week (`Report.TwoDigitYearShifts`,
  `Report.LeapDaySplitsWeek`). `Report.ResolveWeek` models that shift.
- `PersistentStore`: the `personalLogs` relationship, which the schema declares
  but the managed object class does not, is modelled as a to-one link from
  the log side. Core Data's unordered to-many sets are read back in row-number
  order.
- `StoreRows.FetchActionItems`: Core Data does not specify the order of a
  fetch without a sort descriptor. The model returns rows in row-number
  (insertion) order, so the order it states is one possible order.
- `PersistentStore`: the by-id lookups take `.first` of an unsorted fetch.
  The model takes the row with the lowest number. Core Data leaves that
  choice unspecified.
- `FrontMatterDiff.SortEntries`: `localeCompare` is replaced by code-point
  order. The two agree on keys of lower-case ASCII letters, but not in
  general (locale collation puts "a" before "B").
- `FrontMatterDiff.KeyUnion`: `Object.keys` lists integer-like keys ("1",
  "42") first, in ascending numeric order, before the other keys. The model
  keeps the insertion order of every key, so for records with integer-like
  keys the order it states is not the one JavaScript gives.
- `VoiceAssistant.Start`, `VoiceAssistant.Stop`: the flag changes at once. The
  service sets `isListening` inside `DispatchQueue.main.async`, so for a short
  while after the call the old value is still visible; the same holds for
  `VoiceAssistant.StopSilences`.
- `Models.NewActionItem`: the two `Date()` defaults are separate parameters.
  The model does not promise that they are equal.
- `Draft.Run` and `Report.Run` do not model `mkdir`, the console output, or an
  unreadable destination beyond "no existing file".

=== FILE: analytics.dfy ===
/** The analytics snapshot: the fetched objectives, the completed and pending
    action-item counts and the reflection streak over the personal logs.

    The streak walk works on calendar days (`DayOf`). After counting an entry
    on day `d` the walk always expects `d - 1` next, and it also accepts `d - 2`;
    so it counts the longest run of most-recent-first entries in which every
    step goes back by one or two days. A second entry on an already counted
    day, or a step of three days or more, ends it. */
module Analytics {
  import opened Models
  import opened Seqs
  import opened Sorting

  // ---------------------------------------------------------------- counts

  predicate IsCompleted(a: ActionItem) {
    a.status == Completed
  }

  function StatusOf(a: ActionItem): ActionItemStatus {
    a.status
  }

  function Statuses(items: seq<ActionItem>): seq<ActionItemStatus> {
    Map(StatusOf, items)
  }

  /** The filter-and-count of completed items is the multiplicity of
      `completed` among the statuses, and the three multiplicities add up to
      the number of items. */
  lemma {:induction false} StatusMultiplicities(items: seq<ActionItem>)
    ensures Count(items, IsCompleted) == multiset(Statuses(items))[Completed]
    ensures |items| == multiset(Statuses(items))[Pending] + multiset(Statuses(items))[InProgress]
                       + multiset(Statuses(items))[Completed]
  {
    if |items| > 0 {
      StatusMultiplicities(items[1..]);
      var m := multiset(Statuses(items[1..]));
      assert Statuses(items) == [items[0].status] + Statuses(items[1..]);
      assert multiset(Statuses(items)) == multiset{items[0].status} + m;
      assert Count(items, IsCompleted) == (if IsCompleted(items[0]) then 1 else 0) + Count(items[1..], IsCompleted);
    }
  }

  /** `FetchAnalyticsSnapshotUseCaseImpl.execute` over the three fetched lists. */
  function Snapshot(objectives: seq<Objective>, items: seq<ActionItem>, logs: seq<PersonalLogEntry>)
    : (s: AnalyticsSnapshot)
    ensures s.objectiveProgress == objectives
    ensures s.completedActionItems == multiset(Statuses(items))[Completed]
    ensures s.pendingActionItems == multiset(Statuses(items))[Pending] + multiset(Statuses(items))[InProgress]
    ensures s.completedActionItems + s.pendingActionItems == |items|
    ensures s.reflectionStreak == Streak(logs)
  {
    var completed := Count(items, IsCompleted);
    StatusMultiplicities(items);
    AnalyticsSnapshot(objectives, completed, |items| - completed, Streak(logs))
  }

  /** The analytics test case: one completed item gives 1 completed, 0 pending. */
  lemma OneCompletedItem(a: ActionItem, objectives: seq<Objective>, logs: seq<PersonalLogEntry>)
    requires a.status == Completed
    ensures Snapshot(objectives, [a], logs).completedActionItems == 1
    ensures Snapshot(objectives, [a], logs).pendingActionItems == 0
  {
    assert Statuses([a]) == [Completed];
  }

  // ---------------------------------------------------------------- streak

  /** Sort key of `sorted(by: { $0.entryDate > $1.entryDate })`. */
  function NegDate(l: PersonalLogEntry): int {
    -l.entryDate
  }

  function EntryDay(l: PersonalLogEntry): int {
    DayOf(l.entryDate)
  }

  /** The entry days of the logs, most recent first. */
  function Days(logs: seq<PersonalLogEntry>): (days: seq<int>)
    ensures |days| == |logs|
    ensures Descending(days)
    ensures multiset(days) == multiset(Map(EntryDay, logs))
  {
    var sorted := SortBy(logs, NegDate);
    var days := Map(EntryDay, sorted);
    forall i, j | 0 <= i < j < |days| ensures days[j] <= days[i] {
      DayOfMonotone(sorted[j].entryDate, sorted[i].entryDate);
    }
    MapPermutation(EntryDay, sorted, logs);
    days
  }

  /** The loop of `calculateStreak` from the position where `expected` is the
      day it waits for: equal counts and moves `expected` back a day, one day
      earlier counts and moves it to the day before that entry, anything else
      stops. */
  function Walk(days: seq<int>, expected: int): (n: nat)
    ensures n <= |days|
  {
    if |days| == 0 then 0
    else if days[0] == expected then 1 + Walk(days[1..], expected - 1)
    else if days[0] == expected - 1 then 1 + Walk(days[1..], days[0] - 1)
    else 0
  }

  /** `calculateStreak`: 0 without logs, else the walk from the most recent
      day. */
  function Streak(logs: seq<PersonalLogEntry>): (n: nat)
    ensures n <= |logs|
  {
    var days := Days(logs);
    if |days| == 0 then 0 else Walk(days, days[0])
  }

  /** One step of the walk: the next entry is one or two days earlier. */
  predicate Step(prev: int, next: int) {
    next == prev - 1 || next == prev - 2
  }

  /** After an entry on day `prev`, the walk counts the longest prefix of
      `days` that goes back by steps of one or two days. */
  lemma {:induction false} WalkIsLongestChain(days: seq<int>, prev: int)
    ensures var r := Walk(days, prev - 1);
      (r > 0 ==> Step(prev, days[0]))
      && (forall i :: 0 < i < r ==> Step(days[i - 1], days[i]))
      && (r < |days| ==> !Step(if r == 0 then prev else days[r - 1], days[r]))
  {
    if |days| > 0 && Step(prev, days[0]) {
      WalkIsLongestChain(days[1..], days[0]);
      var r := Walk(days, prev - 1);
      assert r == 1 + Walk(days[1..], days[0] - 1);
      forall i | 1 < i < r ensures Step(days[i - 1], days[i]) {
        assert days[i - 1] == days[1..][i - 2] && days[i] == days[1..][i - 1];
      }
      if 1 < r < |days| {
        assert days[r - 1] == days[1..][r - 2] && days[r] == days[1..][r - 1];
      }
    }
  }

  /** The streak as a property of the sorted days: 0 without logs; otherwise
      the most recent day is always counted, every counted entry is one or two
      days before the previous one, and the first entry that is not ends it. */
  lemma StreakIsLongestChain(logs: seq<PersonalLogEntry>)
    ensures var days, r := Days(logs), Streak(logs);
      (|logs| == 0 ==> r == 0)
      && (|logs| > 0 ==> 1 <= r <= |logs|)
      && (forall i :: 0 < i < r ==> Step(days[i - 1], days[i]))
      && (0 < r < |logs| ==> !Step(days[r - 1], days[r]))
  {
    var days := Days(logs);
    if |days| > 0 {
      WalkIsLongestChain(days, days[0] + 1);
    }
  }

  /** Entries on consecutive days, newest first, are all counted. */
  lemma ConsecutiveDaysCountFully(logs: seq<PersonalLogEntry>)
    requires forall i :: 0 < i < |logs| ==> Days(logs)[i] == Days(logs)[i - 1] - 1
    ensures Streak(logs) == |logs|
  {
    StreakIsLongestChain(logs);
  }

  /** A single missing day does not end the streak: the entry two days before
      the previous one is still counted. */
  lemma OneDayGapIsTolerated(logs: seq<PersonalLogEntry>)
    requires forall i :: 0 < i < |logs| ==> Step(Days(logs)[i - 1], Days(logs)[i])
    ensures Streak(logs) == |logs|
  {
    StreakIsLongestChain(logs);
  }

  /** A second entry on a counted day, or a step back of three days or more,
      ends the streak at that entry. */
  lemma RepeatOrLongGapStops(logs: seq<PersonalLogEntry>, k: nat)
    requires 0 < k < |logs|
    requires Days(logs)[k] == Days(logs)[k - 1] || Days(logs)[k] <= Days(logs)[k - 1] - 3
    ensures Streak(logs) <= k
  {
    StreakIsLongestChain(logs);
  }

  /** The streak depends only on the multiset of entry days: not on the order
      the logs come in, nor on the time of day of each entry. */
  lemma StreakDependsOnlyOnDays(a: seq<PersonalLogEntry>, b: seq<PersonalLogEntry>)
    requires multiset(Map(EntryDay, a)) == multiset(Map(EntryDay, b))
    ensures Streak(a) == Streak(b)
  {
    DescendingUnique(Days(a), Days(b));
  }
}

=== FILE: backends.dfy ===
/** How the two repository backends relate on the meeting filter: the
    persistent store matches text conditions ignoring case and compares the
    raw status string, the in-memory store matches text exactly and compares
    decoded statuses. */
module Backends {
  import opened Wrappers
  import opened Models
  import opened Repositories
  import opened Seqs
  import opened Tables
  import opened StoreRows
  import InMemory
  import Text

  /** Every keyword or participant the in-memory filter finds, the persistent
      filter finds too. */
  lemma PersistentTextMatchIsWeaker(s: Store, e: (nat, MeetingRow), f: OneOnOneFilter)
    ensures InMemory.KeywordMatches(MeetingOf(s, e.0, e.1), f.keyword) ==>
      (Active(f.keyword) ==> e.1.notes.Some? && FoldedContains(e.1.notes.value, f.keyword.value))
    ensures InMemory.ParticipantMatches(MeetingOf(s, e.0, e.1), f.participant) ==>
      (Active(f.participant) ==> FoldedContains(e.1.counterpartName, f.participant.value))
  {
    if Active(f.keyword) && InMemory.KeywordMatches(MeetingOf(s, e.0, e.1), f.keyword) {
      Text.ContainsFolded(e.1.notes.value, f.keyword.value);
    }
    if Active(f.participant) && InMemory.ParticipantMatches(MeetingOf(s, e.0, e.1), f.participant) {
      Text.ContainsFolded(e.1.counterpartName, f.participant.value);
    }
  }

  /** Every raw status of the action items of meeting row `k` is one a
      status writes. */
  predicate RawStatusesKnown(s: Store, k: nat) {
    var items := LinkedItems(s, ActionItemMeeting, k);
    forall i :: 0 <= i < |items| ==> exists c :: items[i].statusRaw == StatusRaw(c)
  }

  /** With known raw statuses the two status tests agree. */
  lemma StatusTestsAgree(s: Store, k: nat, r: MeetingRow, st: ActionItemStatus)
    requires RawStatusesKnown(s, k)
    ensures AnyItemWithRaw(s, k, StatusRaw(st)) <==> InMemory.StatusMatches(MeetingOf(s, k, r), Some(st))
  {
    var rows := LinkedItems(s, ActionItemMeeting, k);
    var m := MeetingOf(s, k, r);
    if AnyItemWithRaw(s, k, StatusRaw(st)) {
      var i :| 0 <= i < |rows| && rows[i].statusRaw == StatusRaw(st);
      ItemStatusAgrees(s, k, r, st, i);
    }
    if InMemory.StatusMatches(m, Some(st)) {
      var i :| 0 <= i < |m.actionItems| && m.actionItems[i].status == st;
      ItemStatusAgrees(s, k, r, st, i);
    }
  }

  lemma ItemStatusAgrees(s: Store, k: nat, r: MeetingRow, st: ActionItemStatus, i: int)
    requires RawStatusesKnown(s, k)
    requires 0 <= i < |LinkedItems(s, ActionItemMeeting, k)|
    ensures var rows := LinkedItems(s, ActionItemMeeting, k);
      (rows[i].statusRaw == StatusRaw(st)) <==> (MeetingOf(s, k, r).actionItems[i].status == st)
  {
    var rows := LinkedItems(s, ActionItemMeeting, k);
    var c :| rows[i].statusRaw == StatusRaw(c);
    KnownRawAgrees(c, st);
    assert MeetingOf(s, k, r).actionItems[i] == ActionItemOf(s, rows[i]);
  }

  /** On a raw value a status writes, comparing raw values and comparing
      decoded statuses agree. */
  lemma KnownRawAgrees(c: ActionItemStatus, st: ActionItemStatus)
    ensures StatusRaw(c) == StatusRaw(st) <==> DecodeStatus(StatusRaw(c)) == st
  {
    DecodeEncode(c, Daily);
  }

  /** Without text conditions, and with known raw statuses, a stored meeting
      passes the persistent filter exactly when its record passes the
      in-memory one. */
  lemma FiltersAgreeWithoutText(s: Store, e: (nat, MeetingRow), f: OneOnOneFilter)
    requires !Active(f.keyword) && !Active(f.participant)
    requires RawStatusesKnown(s, e.0)
    ensures MatchesStored(s, e, f) <==> InMemory.MatchesInMemory(MeetingOf(s, e.0, e.1), f)
  {
    if f.status.Some? {
      StatusTestsAgree(s, e.0, e.1, f.status.value);
    }
  }

  /** A raw status no case writes reads back as pending, yet the persistent
      pending filter does not see it: the meeting whose only action item has
      raw status "done" passes the in-memory pending filter and fails the
      persistent one. */
  lemma UnknownRawStatusSplitsBackends(s: Store, k: nat, r: MeetingRow)
    requires var items := LinkedItems(s, ActionItemMeeting, k);
      |items| == 1 && items[0].statusRaw == "done"
    ensures !AnyItemWithRaw(s, k, StatusRaw(Pending))
    ensures InMemory.StatusMatches(MeetingOf(s, k, r), Some(Pending))
  {
    var items := LinkedItems(s, ActionItemMeeting, k);
    DecodeEncode(Pending, Daily);
    assert MeetingOf(s, k, r).actionItems[0] == ActionItemOf(s, items[0]);
  }

  /** The keyword "budget" finds notes "Budget review" in the persistent
      store, though not in memory. */
  lemma PersistentKeywordIgnoresCase()
    ensures FoldedContains("Budget review", "budget")
  {
    var text := "Budget review";
    var pattern := "budget";
    assert Text.LowerChar(text[0]) == Text.LowerChar(pattern[0]);
    assert forall i :: 1 <= i < |pattern| ==> text[i] == pattern[i];
    FoldedPrefix(text, pattern);
  }

  /** A pattern that matches the start of the text up to letter case is
      found by the case-insensitive match. */
  lemma FoldedPrefix(text: string, pattern: string)
    requires |pattern| <= |text|
    requires forall i :: 0 <= i < |pattern| ==> Text.LowerChar(text[i]) == Text.LowerChar(pattern[i])
    ensures FoldedContains(text, pattern)
  {
    var t := Text.Lower(text);
    var p := Text.Lower(pattern);
    assert t[..|p|] == p;
    assert Text.OccursAt(p, t, 0);
  }

  /** A filter without conditions fetches every stored meeting. */
  lemma FetchWithoutConditions(s: Store, f: OneOnOneFilter)
    requires !Active(f.keyword) && !Active(f.participant) && f.status.None?
    ensures |FetchMeetings(s, f)| == |Select(s.meetings, AnyRow())|
  {
    FilterAll(Select(s.meetings, AnyRow()), e => MatchesStored(s, e, f));
  }
}

=== FILE: draft.dfy ===
/** The draft runner of the growth agent: it checks its inputs, derives the
    slug and the output path, reads a brief for a summary and links, fills
    the page template and writes the page unless the same text is already
    there. File reads become parameters (`BriefSource`, `existing`), and so
    do `matter.stringify` and the `URL` constructor. */
module Draft {
  import opened Wrappers
  import opened Text
  import Mdx
  import FrontMatterDiff
  import Seqs

  datatype DraftError = LocaleRequired | QueryRequired | InvalidUrl

  const DefaultSummary: string := "Focus on user intent, measurement, and credible proof."
  const DefaultCanonicalBase: string := "https://example.com/"
  const SummaryLimit: nat := 200

  // ---------------------------------------------------------------- brief

  /** What reading the brief gave: no path (absent or empty), a read that
      failed, or the file's text. */
  datatype BriefSource = NoBrief | Unreadable | Contents(text: string)

  datatype BriefInsights = BriefInsights(summary: string, links: seq<string>)

  /** The text before the first line feed (`split(/\n+/)[0]`). */
  function FirstLine(s: string): (r: string)
    ensures IsPrefix(r, s) && Free(r, '\n')
    ensures |r| < |s| ==> s[|r|] == '\n'
  {
    if |s| == 0 || s[0] == '\n' then "" else [s[0]] + FirstLine(s[1..])
  }

  /** At most the first 200 characters (`slice(0, 200)`). */
  function Cut(line: string): (r: string)
    ensures IsPrefix(r, line)
    ensures |r| == if |line| <= SummaryLimit then |line| else SummaryLimit
  {
    if |line| <= SummaryLimit then line else line[..SummaryLimit]
  }

  /** The middle of a prefix of `s` occurs in `s`. */
  lemma TrimmedOccurs(s: string, cut: string, t: string, k: int)
    requires IsPrefix(cut, s) && TrimmedAt(cut, t, k)
    ensures OccursAt(t, s, k)
  {
    assert s[k..k + |t|] == s[..|cut|][k..k + |t|];
  }

  lemma TrimmedFree(cut: string, t: string, k: int, c: char)
    requires Free(cut, c) && TrimmedAt(cut, t, k)
    ensures Free(t, c)
  {
    forall i | 0 <= i < |t| ensures t[i] != c {
      assert t[i] == cut[k..k + |t|][i] == cut[k + i];
    }
  }

  lemma PrefixFree(p: string, s: string, c: char)
    requires IsPrefix(p, s) && Free(s, c)
    ensures Free(p, c)
  {
    forall i | 0 <= i < |p| ensures p[i] != c {
      assert p[i] == s[..|p|][i];
    }
  }

  lemma PrefixTrans(p: string, q: string, s: string)
    requires IsPrefix(p, q) && IsPrefix(q, s)
    ensures IsPrefix(p, s)
  {
    assert s[..|p|] == s[..|q|][..|p|];
  }

  /** The summary: the first line, cut to 200 characters and trimmed, or the
      default when that leaves nothing. */
  function Summary(contents: string): (r: string)
    ensures |r| > 0 && |r| <= SummaryLimit
    ensures r != DefaultSummary ==> Free(r, '\n') && Occurs(r, contents)
    ensures AllWhitespace(Cut(FirstLine(contents))) ==> r == DefaultSummary
    ensures !AllWhitespace(Cut(FirstLine(contents))) ==>
      (!IsJsWhitespace(r[0]) && !IsJsWhitespace(r[|r| - 1])
       && exists k :: TrimmedAt(Cut(FirstLine(contents)), r, k))
  {
    var cut := Cut(FirstLine(contents));
    var t := Trim(cut);
    TrimEmpty(cut);
    if t == "" then DefaultSummary
    else
      TrimmedLine(contents, t);
      t
  }

  /** The trimmed cut of the first line is text of that line. */
  lemma TrimmedLine(contents: string, t: string)
    requires t == Trim(Cut(FirstLine(contents)))
    ensures |t| <= SummaryLimit && Free(t, '\n') && Occurs(t, contents)
  {
    var line := FirstLine(contents);
    var cut := Cut(line);
    var k :| TrimmedAt(cut, t, k);
    PrefixTrans(cut, line, contents);
    TrimmedOccurs(contents, cut, t, k);
    PrefixFree(cut, line, '\n');
    TrimmedFree(cut, t, k, '\n');
  }

  /** A short first line without surrounding whitespace is the summary as it stands. */
  lemma SummaryOfCleanLine(line: string, rest: string)
    requires Free(line, '\n') && 0 < |line| <= SummaryLimit
    requires !IsJsWhitespace(line[0]) && !IsJsWhitespace(line[|line| - 1])
    ensures Summary(line + "\n" + rest) == line
  {
    FirstLineOf(line, rest);
    TrimNoop(line);
  }

  lemma {:induction false} FirstLineOf(line: string, rest: string)
    requires Free(line, '\n')
    ensures FirstLine(line + "\n" + rest) == line
  {
    if |line| > 0 {
      assert (line + "\n" + rest)[1..] == line[1..] + "\n" + rest;
      FirstLineOf(line[1..], rest);
    }
  }

  predicate NoWhitespace(s: string) {
    forall i :: 0 <= i < |s| ==> !IsJsWhitespace(s[i])
  }

  /** The longest prefix without whitespace (`\S+` is greedy). */
  function Word(s: string): (r: string)
    ensures IsPrefix(r, s) && NoWhitespace(r)
    ensures |r| < |s| ==> IsJsWhitespace(s[|r|])
  {
    if |s| == 0 || IsJsWhitespace(s[0]) then "" else [s[0]] + Word(s[1..])
  }

  /** The length of the `https?://` at the start of `s`, or 0 without one
      (the optional `s` is tried first, and at most one form can match). */
  function SchemeLength(s: string): (n: nat)
    ensures n == 0 || n == 7 || n == 8
    ensures n > 0 ==> |s| >= n
  {
    if |s| >= 7 && s[0] == 'h' && s[1] == 't' && s[2] == 't' && s[3] == 'p'
       && s[4] == ':' && s[5] == '/' && s[6] == '/' then 7
    else if |s| >= 8 && s[0] == 'h' && s[1] == 't' && s[2] == 't' && s[3] == 'p'
       && s[4] == 's' && s[5] == ':' && s[6] == '/' && s[7] == '/' then 8
    else 0
  }

  /** `https?:\/\/\S+` matches at the start of `s`. */
  predicate LinkStart(s: string) {
    SchemeLength(s) > 0 && |s| > SchemeLength(s) && !IsJsWhitespace(s[SchemeLength(s)])
  }

  /** A matched link: a scheme, then at least one more character, no whitespace. */
  predicate IsLink(w: string) {
    NoWhitespace(w) && SchemeLength(w) > 0 && |w| > SchemeLength(w)
  }

  /** The scheme is decided by the first eight characters. */
  lemma SchemeAgree(a: string, s: string)
    requires |a| >= 8 && |s| >= 8 && forall i :: 0 <= i < 8 ==> a[i] == s[i]
    ensures SchemeLength(a) == SchemeLength(s)
  {
  }

  lemma OccursIn(sub: string, s: string, k: nat, i: int)
    requires k <= |s| && OccursAt(sub, s[k..], i)
    ensures OccursAt(sub, s, i + k)
  {
    assert s[i + k..i + k + |sub|] == s[k..][i..i + |sub|];
  }

  /** A prefix without whitespace is part of the word. */
  lemma {:induction false} WordCovers(s: string, n: nat)
    requires n <= |s| && NoWhitespace(s[..n])
    ensures |Word(s)| >= n
  {
    if n > 0 {
      assert s[1..][..n - 1] == s[..n][1..];
      WordCovers(s[1..], n - 1);
    }
  }

  /** The scheme and the character after it are not whitespace. */
  lemma SchemeStart(s: string)
    requires LinkStart(s)
    ensures |Word(s)| > SchemeLength(s)
  {
    var m := SchemeLength(s);
    var t := s[..m + 1];
    forall i | 0 <= i < |t| ensures !IsJsWhitespace(t[i]) {
      assert t[i] == s[i];
    }
    WordCovers(s, m + 1);
  }

  /** A link runs from its scheme to the next whitespace. */
  lemma LinkWord(s: string)
    requires LinkStart(s)
    ensures IsLink(Word(s))
  {
    var w := Word(s);
    SchemeStart(s);
    assert forall i :: 0 <= i < 8 ==> w[i] == s[..|w|][i];
    SchemeAgree(w, s);
  }

  /** The links of `contents.matchAll(/https?:\/\/\S+/g)`, in order: at
      each position a match, if any, runs to the next whitespace, and the
      search resumes after it. */
  function Links(s: string): (r: seq<string>)
    ensures forall i :: 0 <= i < |r| ==> IsLink(r[i])
    decreases |s|
  {
    if |s| == 0 then []
    else if LinkStart(s) then
      LinkWord(s);
      var w := Word(s);
      [w] + Links(s[|w|..])
    else Links(s[1..])
  }

  /** Every link is text of the brief. */
  lemma LinksOccur(s: string)
    ensures forall i :: 0 <= i < |Links(s)| ==> Occurs(Links(s)[i], s)
  {
    forall i | 0 <= i < |Links(s)| ensures Occurs(Links(s)[i], s) {
      LinkOccursAt(s, i);
    }
  }

  lemma {:induction false} LinkOccursAt(s: string, i: nat)
    requires i < |Links(s)|
    ensures Occurs(Links(s)[i], s)
    decreases |s|
  {
    LinksStep(s);
    var n := if LinkStart(s) then |Word(s)| else 1;
    var rest := Links(s[n..]);
    if LinkStart(s) && i == 0 {
      assert OccursAt(Links(s)[0], s, 0);
    } else {
      var j := if LinkStart(s) then i - 1 else i;
      assert Links(s)[i] == rest[j];
      LinkOccursAt(s[n..], j);
      var k :| OccursAt(rest[j], s[n..], k);
      OccursIn(rest[j], s, n, k);
    }
  }

  /** A link standing alone is found whole. */
  lemma LinksOfLink(u: string)
    requires IsLink(u)
    ensures Links(u) == [u]
  {
    WordOfWord(u);
    assert u[|u|..] == "";
  }

  lemma {:induction false} WordOfWord(u: string)
    requires NoWhitespace(u)
    ensures Word(u) == u
  {
    if |u| > 0 {
      WordOfWord(u[1..]);
      assert u == [u[0]] + u[1..];
    }
  }

  /** A word stops at whitespace. */
  lemma {:induction false} WordStops(a: string, c: char, b: string)
    requires IsJsWhitespace(c)
    ensures Word(a + [c] + b) == Word(a)
    ensures |Word(a)| <= |a|
  {
    if |a| > 0 {
      assert (a + [c] + b)[1..] == a[1..] + [c] + b;
      WordStops(a[1..], c, b);
    }
  }

  /** Whether a link starts here does not depend on what follows whitespace. */
  lemma LinkStartStops(a: string, c: char, b: string)
    requires IsJsWhitespace(c)
    ensures LinkStart(a + [c] + b) <==> LinkStart(a)
    ensures LinkStart(a) ==> SchemeLength(a + [c] + b) == SchemeLength(a)
  {
    var s := a + [c] + b;
    WordStops(a, c, b);
    if LinkStart(s) {
      SchemeStart(s);
    }
    if |a| >= 8 {
      assert forall i :: 0 <= i < 8 ==> a[i] == s[i];
      SchemeAgree(a, s);
      assert LinkStart(a) ==> a[SchemeLength(a)] == s[SchemeLength(a)];
    }
  }

  /** One step of the scan. */
  lemma LinksStep(s: string)
    requires |s| > 0
    ensures LinkStart(s) ==> |Word(s)| > 0 && Links(s) == [Word(s)] + Links(s[|Word(s)|..])
    ensures !LinkStart(s) ==> Links(s) == Links(s[1..])
  {
    if LinkStart(s) {
      LinkWord(s);
    }
  }

  lemma SliceAfter(a: string, c: char, b: string, n: nat)
    requires n <= |a|
    ensures (a + [c] + b)[n..] == a[n..] + [c] + b
  {
  }

  lemma SplitLinkCase(a: string, c: char, b: string)
    requires IsJsWhitespace(c) && |a| > 0 && LinkStart(a)
    requires var n := |Word(a)|; n <= |a| && Links(a[n..] + [c] + b) == Links(a[n..]) + Links(b)
    ensures Links(a + [c] + b) == Links(a) + Links(b)
  {
    var w := Word(a);
    LinkStartStops(a, c, b);
    WordStops(a, c, b);
    LinksStep(a + [c] + b);
    SliceAfter(a, c, b, |w|);
    LinksStep(a);
    Seqs.Associative([w], Links(a[|w|..]), Links(b));
  }

  lemma SplitSkipCase(a: string, c: char, b: string)
    requires IsJsWhitespace(c) && |a| > 0 && !LinkStart(a)
    requires Links(a[1..] + [c] + b) == Links(a[1..]) + Links(b)
    ensures Links(a + [c] + b) == Links(a) + Links(b)
  {
    LinkStartStops(a, c, b);
    LinksStep(a + [c] + b);
    LinksStep(a);
    SliceAfter(a, c, b, 1);
  }

  /** Text separated by whitespace yields the links of each side in turn. */
  lemma {:induction false} LinksSplit(a: string, c: char, b: string)
    requires IsJsWhitespace(c)
    ensures Links(a + [c] + b) == Links(a) + Links(b)
    decreases |a|
  {
    if |a| == 0 {
      var s := a + [c] + b;
      assert s == [c] + b && s[1..] == b;
      LinksStep(s);
    } else if LinkStart(a) {
      LinkWord(a);
      WordStops(a, c, b);
      var n := |Word(a)|;
      LinksSplit(a[n..], c, b);
      SplitLinkCase(a, c, b);
    } else {
      LinksSplit(a[1..], c, b);
      SplitSkipCase(a, c, b);
    }
  }

  /** `loadBriefInsights`: the default summary and no links without a
      readable brief, else the brief's summary and links. */
  function LoadBriefInsights(brief: BriefSource): (r: BriefInsights)
    ensures !brief.Contents? ==> r == BriefInsights(DefaultSummary, [])
    ensures brief.Contents? ==> r.summary == Summary(brief.text) && r.links == Links(brief.text)
  {
    match brief
    case Contents(text) => BriefInsights(Summary(text), Links(text))
    case _ => BriefInsights(DefaultSummary, [])
  }

  // ---------------------------------------------------------------- page parts

  /** `replace(/\.$/, '')`: the query without one final full stop. */
  function DropFinalStop(query: string): string {
    if |query| > 0 && query[|query| - 1] == '.' then query[..|query| - 1] else query
  }

  /** `buildTitle`: one final full stop removed, then trimmed. */
  function BuildTitle(query: string): (r: string)
    ensures |r| > 0 ==> !IsJsWhitespace(r[0]) && !IsJsWhitespace(r[|r| - 1])
    ensures |r| <= |query|
    ensures exists k :: TrimmedAt(DropFinalStop(query), r, k)
  {
    var stripped := DropFinalStop(query);
    var r := Trim(stripped);
    var k :| TrimmedAt(stripped, r, k);
    r
  }

  /** A query that is already a clean title is kept as it is. */
  lemma TitleOfCleanQuery(query: string)
    requires |query| > 0 ==> !IsJsWhitespace(query[0]) && !IsJsWhitespace(query[|query| - 1])
    requires |query| > 0 ==> query[|query| - 1] != '.'
    ensures BuildTitle(query) == query
  {
    TrimNoop(query);
  }

  /** Only one full stop goes: the title of "x.." is the title of "x.". */
  lemma TitleDropsOneStop(query: string)
    requires |query| > 0 && !IsJsWhitespace(query[0])
    ensures BuildTitle(query + "..") == query + "."
  {
    var q := query + "..";
    assert q[..|q| - 1] == query + ".";
    TrimNoop(query + ".");
  }

  const OpenQuote: string := "“"
  const CloseQuote: string := "”"

  /** Text placed between a fixed head and tail is found after the head. */
  lemma Spliced(head: string, x: string, tail: string)
    ensures OccursAt(x, head + x + tail, |head|)
  {
    assert (head + x + tail)[|head|..|head| + |x|] == x;
  }

  const OutlineHead: string := "Clarify what "
  const OutlineTail: string := " means for the reader and how success is measured."
  const FrameworkItem: string := "Share a lightweight framework to apply immediately."
  const ProofItem: string := "Highlight proof points, tooling tips, and next experiments."

  /** `buildOutline`: three items, the query quoted in the first and the
      summary closing the second. */
  function BuildOutline(query: string, summary: string): (r: seq<string>)
    ensures |r| == 3 && r[2] == ProofItem
    ensures OccursAt(OpenQuote + query + CloseQuote, r[0], |OutlineHead|)
    ensures r[1] == FrameworkItem + " " + summary
  {
    var quoted := OpenQuote + query + CloseQuote;
    Spliced(OutlineHead, quoted, OutlineTail);
    [OutlineHead + quoted + OutlineTail, FrameworkItem + " " + summary, ProofItem]
  }

  const HowToHead: string := "Assess the current journey for "
  const HowToTail: string := " and collect baseline metrics."
  const PlaybookStep: string := "Operationalize a repeatable playbook with owners, timelines, and guardrails."
  const MeasureStep: string := "Measure lift, document learnings, and feed them back into the roadmap."

  /** `buildHowTo`: three steps, the query quoted in the first. */
  function BuildHowTo(query: string): (r: seq<string>)
    ensures |r| == 3 && r[1..] == [PlaybookStep, MeasureStep]
    ensures OccursAt(OpenQuote + query + CloseQuote, r[0], |HowToHead|)
  {
    var quoted := OpenQuote + query + CloseQuote;
    Spliced(HowToHead, quoted, HowToTail);
    [HowToHead + quoted + HowToTail, PlaybookStep, MeasureStep]
  }

  /** A question naming the query. */
  function Ask(head: string, query: string, tail: string, answer: string): (f: Mdx.Faq)
    ensures OccursAt(query, f.question, |head|)
  {
    Spliced(head, query, tail);
    Mdx.Faq(head + query + tail, answer)
  }

  const Pilot: (string, string, string) := ("What is the fastest way to pilot ", "?",
    "Start with a narrow persona and a single success metric to keep scope tight.")
  const BuyIn: (string, string, string) := ("How do we get stakeholder buy-in for ", "?",
    "Lead with the business impact, share a mock, and secure a single sponsor.")
  const Kpis: (string, string, string) := ("Which KPIs prove that ", " is working?",
    "Blend a north-star KPI with one leading metric so you can steer mid-flight.")
  const Tools: (string, string, string) := ("What tools support ", "?",
    "Lean on the existing analytics stack first, then layer new tools if gaps remain.")
  const Revisit: (string, string, string) := ("How often should we revisit the ", " playbook?",
    "Plan a quarterly retro to refresh assumptions and double down on what worked.")

  function AskWith(t: (string, string, string), query: string): (f: Mdx.Faq)
    ensures OccursAt(query, f.question, |t.0|)
  {
    Ask(t.0, query, t.1, t.2)
  }

  /** The question templates (text before and after the query) and answers. */
  const FaqTemplates: seq<(string, string, string)> := [Pilot, BuyIn, Kpis, Tools, Revisit]

  /** `buildFaqs`: five questions, each naming the query right after its
      template's opening words, with fixed answers. */
  function BuildFaqs(query: string): (r: seq<Mdx.Faq>)
    ensures |r| == |FaqTemplates| == 5
    ensures forall i :: 0 <= i < |r| ==> OccursAt(query, r[i].question, |FaqTemplates[i].0|)
  {
    seq(|FaqTemplates|, i requires 0 <= i < |FaqTemplates| => AskWith(FaqTemplates[i], query))
  }

  const IntroClosing: string := " into a concrete roadmap so teams can move from ideas to shipped impact."

  function IntroOpening(locale: string, query: string): string {
    "This " + locale + " playbook translates " + OpenQuote + query + CloseQuote
  }

  /** `buildIntro`: a fixed sentence naming the locale and the quoted query,
      followed by the summary when there is one. */
  function BuildIntro(query: string, locale: string, summary: string): (r: string)
    ensures |r| > 0
    ensures IsPrefix(IntroOpening(locale, query), r)
    ensures summary != "" ==> IsSuffix(" " + summary, r)
  {
    var head := IntroOpening(locale, query);
    var sentence := head + IntroClosing;
    assert sentence[..|head|] == head;
    if summary != "" then
      assert (sentence + " " + summary)[..|head|] == head;
      assert sentence + " " + summary == sentence + (" " + summary);
      sentence + " " + summary
    else sentence
  }

  /** `ensureTrailingSlash`. */
  function EnsureTrailingSlash(value: string): (r: string)
    ensures IsSuffix("/", r)
    ensures IsSuffix("/", value) ==> r == value
    ensures !IsSuffix("/", value) ==> r == value + "/"
  {
    if IsSuffix("/", value) then value else value + "/"
  }

  /** Adding the slash twice is adding it once. */
  lemma TrailingSlashIdempotent(value: string)
    ensures EnsureTrailingSlash(EnsureTrailingSlash(value)) == EnsureTrailingSlash(value)
  {
  }

  /** The object `buildJsonLd` returns. */
  function JsonLdFields(title: string, locale: string, canonical: string, metaDesc: string)
    : (r: seq<(string, string)>)
    ensures |r| == 7 && FrontMatterDiff.DistinctKeys(r)
  {
    var r := [("@context", "https://schema.org"),
              ("@type", "WebApplication"),
              ("name", title),
              ("inLanguage", locale),
              ("applicationCategory", "MarketingApplication"),
              ("description", metaDesc),
              ("url", canonical)];
    assert r[0].0[0] == '@' && r[1].0[0] == '@' && r[2].0[0] == 'n' && r[3].0[0] == 'i';
    assert r[4].0[0] == 'a' && r[5].0[0] == 'd' && r[6].0[0] == 'u' && r[0].0[1] == 'c' && r[1].0[1] == 't';
    r
  }

  /** One member of a pretty-printed object, without its separator. */
  function MemberText(field: (string, string)): string {
    "  " + FrontMatterDiff.Quote(field.0) + ": " + FrontMatterDiff.Quote(field.1)
  }

  /** `JSON.stringify(fields, null, 2)` for an object whose values are all
      strings: one member per line, indented by two spaces. */
  function PrettyJson(fields: seq<(string, string)>): (r: string)
    ensures |r| >= 2 && r[0] == '{' && r[|r| - 1] == '}'
    ensures |fields| == 0 ==> r == "{}"
  {
    if |fields| == 0 then "{}"
    else "{" + "\n" + Join(Seqs.Map(MemberText, fields), ",\n") + "\n" + "}"
  }

  lemma MemberTextFree(field: (string, string))
    ensures Free(MemberText(field), '\n')
  {
    FrontMatterDiff.QuoteNoLineFeed(field.0);
    FrontMatterDiff.QuoteNoLineFeed(field.1);
    var t := MemberText(field);
    forall i | 0 <= i < |t| ensures t[i] != '\n' {
      assert t[i] in t;
      assert forall c :: c in t ==> c == ' ' || c == ':' || c in FrontMatterDiff.Quote(field.0)
                                               || c in FrontMatterDiff.Quote(field.1);
    }
  }

  lemma CommaFree(t: string)
    requires Free(t, '\n')
    ensures Free(t + ",", '\n')
  {
  }

  /** Lines between an opening and a closing line. */
  lemma FramedJoin(open: string, body: seq<string>, close: string, sep: string)
    requires |body| > 0
    ensures Join([open] + body + [close], sep) == open + sep + Join(body, sep) + sep + close
  {
    JoinAppend([open] + body, [close], sep);
    JoinCons(open, body, sep);
  }

  /** The lines `PrettyJson` joins: `{`, one line per member in order with
      a comma after all but the last, `}`. */
  function JsonLines(fields: seq<(string, string)>): (lines: seq<string>)
    requires |fields| > 0
    ensures |lines| == |fields| + 2 && lines[0] == "{" && lines[|fields| + 1] == "}"
    ensures forall i :: 0 <= i < |fields| - 1 ==> lines[i + 1] == MemberText(fields[i]) + ","
    ensures lines[|fields|] == MemberText(fields[|fields| - 1])
  {
    CommaFramed("{", Seqs.Map(MemberText, fields), "}")
  }

  /** `open`, then the parts with a comma after all but the last, then `close`. */
  function CommaFramed(open: string, parts: seq<string>, close: string): (lines: seq<string>)
    requires |parts| > 0
    ensures |lines| == |parts| + 2 && lines[0] == open && lines[|parts| + 1] == close
    ensures forall i :: 0 <= i < |parts| - 1 ==> lines[i + 1] == parts[i] + ","
    ensures lines[|parts|] == parts[|parts| - 1]
  {
    [open] + CommaTerminated(parts) + [close]
  }

  lemma PrettyJsonJoin(fields: seq<(string, string)>)
    requires |fields| > 0
    ensures PrettyJson(fields) == Join(JsonLines(fields), "\n")
  {
    var members := Seqs.Map(MemberText, fields);
    JoinCommaLines(members);
    FramedJoin("{", CommaTerminated(members), "}", "\n");
  }

  /** The lines of the printed object: the opening brace, one line per
      member in order, the closing brace. */
  lemma PrettyJsonLines(fields: seq<(string, string)>)
    requires |fields| > 0
    ensures Split(PrettyJson(fields), '\n') == JsonLines(fields)
  {
    PrettyJsonJoin(fields);
    JsonLinesFree(fields);
    assert "\n" == ['\n'];
    SplitJoin(JsonLines(fields), '\n');
  }

  lemma JsonLineFree(fields: seq<(string, string)>, i: nat)
    requires |fields| > 0 && i < |fields| + 2
    ensures Free(JsonLines(fields)[i], '\n')
  {
    if 0 < i < |fields| {
      MemberLineFree(fields, i - 1);
    } else if i == |fields| {
      MemberTextFree(fields[i - 1]);
    }
  }

  lemma MemberLineFree(fields: seq<(string, string)>, i: nat)
    requires i < |fields| - 1
    ensures Free(JsonLines(fields)[i + 1], '\n')
  {
    MemberTextFree(fields[i]);
    CommaFree(MemberText(fields[i]));
  }

  lemma JsonLinesFree(fields: seq<(string, string)>)
    requires |fields| > 0
    ensures forall i :: 0 <= i < |JsonLines(fields)| ==> Free(JsonLines(fields)[i], '\n')
  {
    forall i | 0 <= i < |JsonLines(fields)| ensures Free(JsonLines(fields)[i], '\n') {
      JsonLineFree(fields, i);
    }
  }

  /** The data `buildFrontMatter` passes to `matter.stringify`, in order;
      `metaDesc` is renamed `description`. */
  function FrontMatterData(title: string, metaDesc: string, canonical: string, locale: string,
                           slug: string, links: seq<string>): (r: seq<(string, FrontMatterDiff.Value)>)
    ensures FrontMatterDiff.DistinctKeys(r)
    ensures FrontMatterDiff.Get(r, "description") == FrontMatterDiff.Str(metaDesc)
    ensures FrontMatterDiff.Get(r, "slug") == FrontMatterDiff.Str(slug)
  {
    var linkValues := seq(|links|, i requires 0 <= i < |links| => FrontMatterDiff.Str(links[i]));
    var r := [("title", FrontMatterDiff.Str(title)),
              ("description", FrontMatterDiff.Str(metaDesc)),
              ("canonical", FrontMatterDiff.Str(canonical)),
              ("locale", FrontMatterDiff.Str(locale)),
              ("slug", FrontMatterDiff.Str(slug)),
              ("links", FrontMatterDiff.Arr(linkValues))];
    assert r[0].0[0] == 't' && r[1].0[0] == 'd' && r[2].0[0] == 'c' && r[3].0[0] == 'l';
    assert r[4].0[0] == 's' && r[5].0[0] == 'l' && r[3].0[1] == 'o' && r[5].0[1] == 'i';
    r
  }

  // ---------------------------------------------------------------- run

  /** `path.join(outDir, locale.toLowerCase(), slug + ".mdx")`. */
  function DraftPath(outDir: string, locale: string, slug: string): (r: string)
    ensures IsSuffix("/" + slug + ".mdx", r)
    ensures IsPrefix(outDir + "/" + Lower(locale) + "/", r)
  {
    var dir := outDir + "/" + Lower(locale) + "/";
    assert (dir + slug + ".mdx")[..|dir|] == dir;
    assert (dir + slug + ".mdx")[|dir| - 1..] == "/" + slug + ".mdx";
    dir + slug + ".mdx"
  }

  datatype DraftRun = DraftRun(destination: string, contents: string, written: bool)

  const MetaDescHead: string := "Practical walkthrough for "
  const MetaDescMiddle: string := " tailored to "

  /** The meta description names the query and the locale. */
  function MetaDesc(query: string, locale: string): (r: string)
    ensures OccursAt(query, r, |MetaDescHead|)
    ensures IsSuffix(locale + ".", r)
  {
    Spliced(MetaDescHead, query, MetaDescMiddle + locale + ".");
    var r := MetaDescHead + query + MetaDescMiddle + locale + ".";
    assert r == (MetaDescHead + query + MetaDescMiddle) + (locale + ".");
    r
  }

  /** What `run` hands to `renderMdx`. */
  datatype PageParts = PageParts(frontMatter: string, title: string, intro: string, outline: seq<string>,
                                 howToSteps: seq<string>, faqs: seq<Mdx.Faq>, json: string)

  /** `ensureTrailingSlash(CANONICAL_BASE_URL ?? default)`: `??` falls back
      only when the variable is unset, so an empty value gives "/". */
  function CanonicalBase(canonicalBaseEnv: Option<string>): (base: string)
    ensures IsSuffix("/", base)
    ensures canonicalBaseEnv.None? ==> base == DefaultCanonicalBase
    ensures canonicalBaseEnv.Some? && IsSuffix("/", canonicalBaseEnv.value) ==> base == canonicalBaseEnv.value
    ensures canonicalBaseEnv.Some? && !IsSuffix("/", canonicalBaseEnv.value) ==> base == canonicalBaseEnv.value + "/"
  {
    EnsureTrailingSlash(canonicalBaseEnv.GetOr(DefaultCanonicalBase))
  }

  /** An empty `CANONICAL_BASE_URL` is not replaced by the default. */
  lemma EmptyBaseIsRoot()
    ensures CanonicalBase(Some("")) == "/"
  {
  }

  /** `new URL(<lower-case locale>/<slug>, base).toString()`; `resolve` is the
      URL constructor, which gives nothing where `new URL` throws (a base
      that is not an absolute URL, such as "/" or "example.com/"). */
  function Canonical(locale: string, slug: string, canonicalBaseEnv: Option<string>,
                     resolve: (string, string) -> Option<string>): (r: Option<string>)
    ensures canonicalBaseEnv.None? ==> r == resolve(Lower(locale) + "/" + slug, DefaultCanonicalBase)
    ensures canonicalBaseEnv.Some? && IsSuffix("/", canonicalBaseEnv.value) ==>
      r == resolve(Lower(locale) + "/" + slug, canonicalBaseEnv.value)
    ensures canonicalBaseEnv.Some? && !IsSuffix("/", canonicalBaseEnv.value) ==>
      r == resolve(Lower(locale) + "/" + slug, canonicalBaseEnv.value + "/")
  {
    resolve(Lower(locale) + "/" + slug, CanonicalBase(canonicalBaseEnv))
  }

  /** The JSON-LD text: the pretty-printed `buildJsonLd` object. */
  function JsonLdText(locale: string, query: string, canonical: string): string
    requires IsAscii(query) && IsAscii(locale)
  {
    PrettyJson(JsonLdFields(BuildTitle(query), locale, canonical, MetaDesc(query, locale)))
  }

  /** The trimmed front matter `buildFrontMatter` gives for the run's data. */
  function FrontMatterText(locale: string, query: string, brief: BriefSource, canonical: string,
                           stringify: FrontMatterDiff.Value -> string): string
    requires IsAscii(query) && IsAscii(locale)
  {
    Trim(stringify(FrontMatterDiff.Obj(FrontMatterData(BuildTitle(query), MetaDesc(query, locale),
      canonical, locale, Mdx.ToSlug(query, locale), LoadBriefInsights(brief).links))))
  }

  function Parts(locale: string, query: string, brief: BriefSource, canonical: string,
                 stringify: FrontMatterDiff.Value -> string)
    : (p: PageParts)
    requires IsAscii(query) && IsAscii(locale)
    ensures |p.json| > 0 && p.json[0] == '{' && p.json[|p.json| - 1] == '}'
  {
    var summary := LoadBriefInsights(brief).summary;
    PageParts(FrontMatterText(locale, query, brief, canonical, stringify),
      BuildTitle(query), BuildIntro(query, locale, summary),
      BuildOutline(query, summary), BuildHowTo(query), BuildFaqs(query),
      JsonLdText(locale, query, canonical))
  }

  /** Each part is its builder applied to the query, the locale, the brief's
      summary and links, and the canonical URL. */
  lemma PartsContents(locale: string, query: string, brief: BriefSource, canonical: string,
                      stringify: FrontMatterDiff.Value -> string)
    requires IsAscii(query) && IsAscii(locale)
    ensures var p := Parts(locale, query, brief, canonical, stringify);
      && p.title == BuildTitle(query)
      && p.intro == BuildIntro(query, locale, LoadBriefInsights(brief).summary)
      && p.outline == BuildOutline(query, LoadBriefInsights(brief).summary)
      && p.howToSteps == BuildHowTo(query) && p.faqs == BuildFaqs(query)
      && p.json == JsonLdText(locale, query, canonical)
      && p.frontMatter == FrontMatterText(locale, query, brief, canonical, stringify)
  {
  }

  /** The page `run` renders once its inputs are checked. */
  function DraftPage(locale: string, query: string, brief: BriefSource, canonical: string,
                     stringify: FrontMatterDiff.Value -> string)
    : (page: string)
    requires IsAscii(query) && IsAscii(locale)
    ensures Mdx.NoTripleNewline(page)
  {
    var p := Parts(locale, query, brief, canonical, stringify);
    Mdx.RenderMdx(p.frontMatter, p.title, Some(p.intro), p.outline, p.howToSteps, p.faqs, p.json)
  }

  /** `run`: the locale and then the query must be non-empty, and the
      canonical URL must resolve; the page goes to
      `<outDir>/<lower-case locale>/<slug>.mdx` and is written only when the
      file there does not already hold exactly this text. */
  function Run(locale: string, query: string, brief: BriefSource, outDir: string,
               canonicalBaseEnv: Option<string>, existing: Option<string>,
               stringify: FrontMatterDiff.Value -> string, resolve: (string, string) -> Option<string>)
    : (r: Result<DraftRun, DraftError>)
    requires IsAscii(query) && IsAscii(locale)
    ensures locale == "" ==> r == Err(LocaleRequired)
    ensures locale != "" && query == "" ==> r == Err(QueryRequired)
    ensures locale != "" && query != "" ==>
      var canonical := Canonical(locale, Mdx.ToSlug(query, locale), canonicalBaseEnv, resolve);
      && (canonical.None? ==> r == Err(InvalidUrl))
      && (canonical.Some? ==>
            && r.Ok?
            && r.value.destination == DraftPath(outDir, locale, Mdx.ToSlug(query, locale))
            && r.value.contents == DraftPage(locale, query, brief, canonical.value, stringify)
            && (r.value.written <==> existing != Some(r.value.contents)))
  {
    if locale == "" then Err(LocaleRequired)
    else if query == "" then Err(QueryRequired)
    else match Canonical(locale, Mdx.ToSlug(query, locale), canonicalBaseEnv, resolve)
      case None => Err(InvalidUrl)
      case Some(canonical) =>
        var destination := DraftPath(outDir, locale, Mdx.ToSlug(query, locale));
        var page := DraftPage(locale, query, brief, canonical, stringify);
        Ok(DraftRun(destination, page, existing != Some(page)))
  }

  /** Running the draft again over the output of a run that succeeded
      writes nothing. */
  lemma RunTwiceWritesOnce(locale: string, query: string, brief: BriefSource, outDir: string,
                           canonicalBaseEnv: Option<string>, existing: Option<string>,
                           stringify: FrontMatterDiff.Value -> string, resolve: (string, string) -> Option<string>)
    requires IsAscii(query) && IsAscii(locale)
    ensures var first := Run(locale, query, brief, outDir, canonicalBaseEnv, existing, stringify, resolve);
      first.Ok? ==>
        var second := Run(locale, query, brief, outDir, canonicalBaseEnv, Some(first.value.contents), stringify, resolve);
        second.Ok? && !second.value.written && second.value.destination == first.value.destination
  {
    var first := Run(locale, query, brief, outDir, canonicalBaseEnv, existing, stringify, resolve);
    if first.Ok? {
      var second := Run(locale, query, brief, outDir, canonicalBaseEnv, Some(first.value.contents), stringify, resolve);
      assert second.value.contents == first.value.contents;
    }
  }

  /** The title of a query on one line is on one line. */
  lemma TitleOneLine(query: string)
    requires Free(query, '\n')
    ensures '\n' !in BuildTitle(query)
  {
    var title := BuildTitle(query);
    var stripped := DropFinalStop(query);
    var k :| TrimmedAt(stripped, title, k);
    PrefixFree(stripped, query, '\n');
    TrimmedFree(stripped, title, k, '\n');
  }

  /** A query on one line gives a page that opens with the trimmed front
      matter, a blank line and the title as the `# ` heading. */
  lemma PageOpening(locale: string, query: string, brief: BriefSource, canonical: string,
                    stringify: FrontMatterDiff.Value -> string)
    requires IsAscii(query) && IsAscii(locale) && Free(query, '\n')
    ensures var p := Parts(locale, query, brief, canonical, stringify);
      IsPrefix(Mdx.CollapseNewlines(p.frontMatter) + "\n\n# " + BuildTitle(query),
               DraftPage(locale, query, brief, canonical, stringify))
  {
    var p := Parts(locale, query, brief, canonical, stringify);
    assert p.title == BuildTitle(query);
    TitleOneLine(query);
    PartsOpening(p);
  }

  /** Rendered parts open with the front matter and the title heading. */
  lemma PartsOpening(p: PageParts)
    requires '\n' !in p.title
    requires |p.frontMatter| > 0 ==> !IsJsWhitespace(p.frontMatter[0]) && !IsJsWhitespace(p.frontMatter[|p.frontMatter| - 1])
    ensures IsPrefix(Mdx.CollapseNewlines(p.frontMatter) + "\n\n# " + p.title,
                     Mdx.RenderMdx(p.frontMatter, p.title, Some(p.intro), p.outline, p.howToSteps, p.faqs, p.json))
  {
    TrimNoop(p.frontMatter);
    Mdx.RenderMdxHeading(p.frontMatter, p.title, Some(p.intro), p.outline, p.howToSteps, p.faqs, p.json);
  }

  /** The page ends with the JSON-LD script block. */
  lemma PageEndsWithJsonLd(locale: string, query: string, brief: BriefSource, canonical: string,
                           stringify: FrontMatterDiff.Value -> string)
    requires IsAscii(query) && IsAscii(locale)
    ensures IsSuffix(
      Mdx.ScriptTail(Mdx.CollapseNewlines(Parts(locale, query, brief, canonical, stringify).json)),
      DraftPage(locale, query, brief, canonical, stringify))
  {
    var p := Parts(locale, query, brief, canonical, stringify);
    Mdx.RenderMdxEnd(p.frontMatter, p.title, Some(p.intro), p.outline, p.howToSteps, p.faqs, p.json);
  }
}

=== FILE: front_matter_diff.dfy ===
/** The front-matter diff of the growth agent: a canonical serialisation of
    parsed YAML values (object keys sorted, `null` and `undefined` alike),
    the equality it induces, the list of changed keys, the patch text and the
    table cell rendering. `yaml.dump` is the parameter `dump`; key order is
    code-point order, standing in for `localeCompare`. */
module FrontMatterDiff {
  import opened Text
  import Seqs

  /** A value of parsed front matter. `Num` carries the text
      `JSON.stringify` gives the number (floating point is not modelled); a
      YAML timestamp becomes a `Date` object. */
  datatype Value =
    | Undefined
    | Null
    | Bool(b: bool)
    | Num(literal: string)
    | Str(s: string)
    | DateObject(time: int)
    | Arr(items: seq<Value>)
    | Obj(fields: seq<(string, Value)>)

  // ---------------------------------------------------------------- JSON strings

  function HexLower(n: nat): (c: char)
    requires n < 16
  {
    if n < 10 then ('0' as int + n) as char else ('a' as int + n - 10) as char
  }

  /** How `JSON.stringify` writes one character inside a string literal. */
  function EscapeChar(c: char): (r: string)
    ensures |r| >= 1
    ensures |r| == 1 <==> r == [c]
  {
    var n := c as int;
    if c == '"' then "\\\""
    else if c == '\\' then "\\\\"
    else if n == 8 then "\\b"
    else if n == 9 then "\\t"
    else if n == 10 then "\\n"
    else if n == 12 then "\\f"
    else if n == 13 then "\\r"
    else if n < 0x20 then "\\u00" + [HexLower(n / 16), HexLower(n % 16)]
    else [c]
  }

  function Escape(s: string): (r: string)
    ensures |r| >= |s|
  {
    if |s| == 0 then "" else EscapeChar(s[0]) + Escape(s[1..])
  }

  /** `JSON.stringify` of a string. */
  function Quote(s: string): (r: string)
    ensures |r| >= 2 && r[0] == '"' && r[|r| - 1] == '"'
  {
    "\"" + Escape(s) + "\""
  }

  /** A character `JSON.stringify` writes as it is. */
  predicate PlainChar(c: char) {
    c != '"' && c != '\\' && c as int >= 0x20
  }

  lemma {:induction false} EscapePlain(s: string)
    requires forall i :: 0 <= i < |s| ==> PlainChar(s[i])
    ensures Escape(s) == s
  {
    if |s| > 0 {
      EscapePlain(s[1..]);
      assert s == [s[0]] + s[1..];
    }
  }

  /** Text without quotes, backslashes or control characters is only put
      between quotes. */
  lemma QuotePlain(s: string)
    requires forall i :: 0 <= i < |s| ==> PlainChar(s[i])
    ensures Quote(s) == "\"" + s + "\""
  {
    EscapePlain(s);
  }

  /** `JSON.stringify` of a string never holds a raw line feed. */
  lemma {:induction false} EscapeNoLineFeed(s: string)
    ensures '\n' !in Escape(s)
  {
    if |s| > 0 {
      EscapeNoLineFeed(s[1..]);
      var e := EscapeChar(s[0]);
      assert '\n' !in e;
    }
  }

  lemma QuoteNoLineFeed(s: string)
    ensures '\n' !in Quote(s)
  {
    EscapeNoLineFeed(s);
  }

  lemma HexLowerInjective(a: nat, b: nat)
    requires a < 16 && b < 16 && HexLower(a) == HexLower(b)
    ensures a == b
  {
  }

  /** No escape is the start of another: the escapes form a prefix code. */
  lemma EscapeCharPrefix(c: char, d: char, x: string, y: string)
    requires EscapeChar(c) + x == EscapeChar(d) + y
    ensures c == d && x == y
  {
    var u, v := EscapeChar(c), EscapeChar(d);
    var w := u + x;
    assert w[0] == u[0] && w[0] == v[0];
    if u[0] == '\\' {
      assert w[1] == u[1] && w[1] == v[1];
      if u[1] == 'u' {
        assert w[4] == u[4] && w[4] == v[4] && w[5] == u[5] && w[5] == v[5];
        HexLowerInjective(c as int / 16, d as int / 16);
        HexLowerInjective(c as int % 16, d as int % 16);
      }
    }
    assert u == v;
    assert x == w[|u|..];
  }

  lemma {:induction false} EscapeInjective(a: string, b: string)
    requires Escape(a) == Escape(b)
    ensures a == b
  {
    if |a| > 0 && |b| > 0 {
      EscapeCharPrefix(a[0], b[0], Escape(a[1..]), Escape(b[1..]));
      EscapeInjective(a[1..], b[1..]);
      assert a == [a[0]] + a[1..] && b == [b[0]] + b[1..];
    }
  }

  /** Different strings are written differently. */
  lemma QuoteInjective(a: string, b: string)
    requires Quote(a) == Quote(b)
    ensures a == b
  {
    assert Escape(a) == Quote(a)[1..|Quote(a)| - 1];
    assert Escape(b) == Quote(b)[1..|Quote(b)| - 1];
    EscapeInjective(a, b);
  }

  // ---------------------------------------------------------------- key order

  /** Code-point lexicographic order on strings. */
  predicate Less(a: string, b: string) {
    if |a| == 0 then |b| > 0
    else |b| > 0 && (a[0] < b[0] || (a[0] == b[0] && Less(a[1..], b[1..])))
  }

  lemma {:induction false} LessIrreflexive(a: string)
    ensures !Less(a, a)
  {
    if |a| > 0 {
      LessIrreflexive(a[1..]);
    }
  }

  lemma {:induction false} LessAsymmetric(a: string, b: string)
    requires Less(a, b)
    ensures !Less(b, a)
  {
    if |a| > 0 && a[0] == b[0] {
      LessAsymmetric(a[1..], b[1..]);
    }
  }

  lemma {:induction false} LessTransitive(a: string, b: string, c: string)
    requires Less(a, b) && Less(b, c)
    ensures Less(a, c)
  {
    if |a| > 0 && a[0] == b[0] && b[0] == c[0] {
      LessTransitive(a[1..], b[1..], c[1..]);
    }
  }

  lemma {:induction false} LessTotal(a: string, b: string)
    requires a != b
    ensures Less(a, b) || Less(b, a)
  {
    if |a| > 0 && |b| > 0 && a[0] == b[0] {
      assert a == [a[0]] + a[1..] && b == [b[0]] + b[1..];
      LessTotal(a[1..], b[1..]);
    }
  }

  /** Entries in key order. */
  predicate SortedByKey<V>(s: seq<(string, V)>) {
    forall i, j :: 0 <= i < j < |s| ==> !Less(s[j].0, s[i].0)
  }

  predicate DistinctKeys<V>(s: seq<(string, V)>) {
    forall i, j :: 0 <= i < j < |s| ==> s[i].0 != s[j].0
  }

  predicate KeyIn<V>(k: string, s: seq<(string, V)>) {
    exists i :: 0 <= i < |s| && s[i].0 == k
  }

  /** Puts `x` before the first entry whose key is not smaller. */
  function InsertEntry(x: (string, string), s: seq<(string, string)>): (r: seq<(string, string)>)
    ensures multiset(r) == multiset(s) + multiset{x}
    ensures |r| == |s| + 1
    ensures forall y :: y in r <==> y == x || y in s
  {
    if |s| == 0 then [x]
    else if !Less(s[0].0, x.0) then [x] + s
    else
      assert s == [s[0]] + s[1..];
      [s[0]] + InsertEntry(x, s[1..])
  }

  /** "Not smaller than" is transitive. */
  lemma NotLessTransitive(a: string, b: string, c: string)
    requires !Less(b, a) && !Less(c, b)
    ensures !Less(c, a)
  {
    if a != b && b != c {
      LessTotal(a, b);
      LessTotal(b, c);
      LessTransitive(a, b, c);
      LessAsymmetric(a, c);
    }
  }

  lemma {:induction false} InsertEntrySorted(x: (string, string), s: seq<(string, string)>)
    requires SortedByKey(s)
    ensures SortedByKey(InsertEntry(x, s))
  {
    if |s| > 0 && Less(s[0].0, x.0) {
      var tail := s[1..];
      InsertEntrySorted(x, tail);
      var r := InsertEntry(x, s);
      assert r == [s[0]] + InsertEntry(x, tail);
      forall j | 1 <= j < |r| ensures !Less(r[j].0, s[0].0) {
        assert r[j] in InsertEntry(x, tail);
        if r[j] == x {
          LessAsymmetric(s[0].0, x.0);
        } else {
          var m :| 0 <= m < |tail| && tail[m] == r[j];
          assert !Less(s[m + 1].0, s[0].0);
        }
      }
    } else if |s| > 0 {
      var r := InsertEntry(x, s);
      assert r == [x] + s;
      LessIrreflexive(s[0].0);
      forall j | 1 <= j < |r| ensures !Less(r[j].0, x.0) {
        assert r[j] == s[j - 1];
        NotLessTransitive(x.0, s[0].0, s[j - 1].0);
      }
    }
  }

  lemma {:induction false} InsertEntryDistinct(x: (string, string), s: seq<(string, string)>)
    requires DistinctKeys(s) && !KeyIn(x.0, s)
    ensures DistinctKeys(InsertEntry(x, s))
  {
    if |s| > 0 && Less(s[0].0, x.0) {
      var tail := s[1..];
      forall m | 0 <= m < |tail| ensures tail[m].0 != x.0 {
        assert tail[m] == s[m + 1];
      }
      InsertEntryDistinct(x, tail);
      var r := InsertEntry(x, s);
      forall j | 1 <= j < |r| ensures r[j].0 != s[0].0 {
        assert r[j] in InsertEntry(x, tail);
        if r[j] != x {
          var m :| 0 <= m < |tail| && tail[m] == r[j];
          assert s[m + 1] == r[j];
        }
      }
    } else if |s| > 0 {
      var r := InsertEntry(x, s);
      assert r == [x] + s;
      forall j | 1 <= j < |r| ensures r[j].0 != x.0 {
        assert r[j] == s[j - 1];
      }
    }
  }

  /** `sort(([a], [b]) => a.localeCompare(b))` by insertion. */
  function SortEntries(s: seq<(string, string)>): (r: seq<(string, string)>)
    ensures multiset(r) == multiset(s)
    ensures SortedByKey(r)
  {
    if |s| == 0 then []
    else
      assert s == [s[0]] + s[1..];
      var tail := SortEntries(s[1..]);
      InsertEntrySorted(s[0], tail);
      InsertEntry(s[0], tail)
  }

  lemma {:induction false} SortEntriesDistinct(s: seq<(string, string)>)
    requires DistinctKeys(s)
    ensures DistinctKeys(SortEntries(s))
  {
    if |s| > 0 {
      var tail := s[1..];
      assert DistinctKeys(tail);
      SortEntriesDistinct(tail);
      var sorted := SortEntries(tail);
      forall m | 0 <= m < |sorted| ensures sorted[m].0 != s[0].0 {
        assert sorted[m] in multiset(tail);
        var n :| 0 <= n < |tail| && tail[n] == sorted[m];
        assert tail[n] == s[n + 1];
      }
      InsertEntryDistinct(s[0], sorted);
    }
  }

  /** Two sorted sequences with distinct keys and the same entries start alike. */
  lemma SameHead(a: seq<(string, string)>, b: seq<(string, string)>)
    requires SortedByKey(a) && SortedByKey(b) && DistinctKeys(a) && DistinctKeys(b)
    requires multiset(a) == multiset(b) && |a| > 0
    ensures |b| > 0 && a[0] == b[0]
  {
    assert |b| == |multiset(b)| == |a|;
    assert a[0] in multiset(b);
    var j :| 0 <= j < |b| && b[j] == a[0];
    assert b[0] in multiset(a);
    var i :| 0 <= i < |a| && a[i] == b[0];
    if i != 0 && j != 0 {
      assert !Less(a[i].0, a[0].0) && a[i].0 != a[0].0;
      assert !Less(b[j].0, b[0].0) && b[j].0 != b[0].0;
      LessTotal(a[0].0, b[0].0);
    }
  }

  lemma MultisetTail<T>(a: seq<T>)
    requires |a| > 0
    ensures multiset(a[1..]) == multiset(a) - multiset{a[0]}
  {
    assert a == [a[0]] + a[1..];
  }

  /** Sorted entries with distinct keys are fixed by their multiset. */
  lemma {:induction false} SortedUnique(a: seq<(string, string)>, b: seq<(string, string)>)
    requires SortedByKey(a) && SortedByKey(b) && DistinctKeys(a) && DistinctKeys(b)
    requires multiset(a) == multiset(b)
    ensures a == b
    decreases |a|
  {
    if |a| == 0 {
      assert |b| == |multiset(b)| == 0;
    } else {
      SameHead(a, b);
      MultisetTail(a);
      MultisetTail(b);
      SortedUnique(a[1..], b[1..]);
      assert a == [a[0]] + a[1..] && b == [b[0]] + b[1..];
    }
  }

  // ---------------------------------------------------------------- serialise

  /** `"key":value` for every entry. */
  function Members(entries: seq<(string, string)>): (r: seq<string>)
    ensures |r| == |entries|
    ensures forall i :: 0 <= i < |r| ==> r[i] == Quote(entries[i].0) + ":" + entries[i].1
  {
    seq(|entries|, i requires 0 <= i < |entries| => Quote(entries[i].0) + ":" + entries[i].1)
  }

  /** `serialise`: `null` and `undefined` both become "null", a primitive
      becomes its JSON text, an array its serialised items in order and any
      other object its serialised entries in key order (a `Date` has no own
      entries). */
  function Serialise(v: Value): (r: string)
    ensures !v.Num? ==> |r| > 0
    ensures v.Obj? || v.DateObject? ==> r[0] == '{' && r[|r| - 1] == '}'
    ensures v.Arr? ==> r[0] == '[' && r[|r| - 1] == ']'
    ensures v.Str? ==> r[0] == '"'
  {
    match v
    case Undefined => "null"
    case Null => "null"
    case Bool(b) => if b then "true" else "false"
    case Num(literal) => literal
    case Str(s) => Quote(s)
    case DateObject(_) => "{}"
    case Arr(items) =>
      "[" + Join(seq(|items|, i requires 0 <= i < |items| => Serialise(items[i])), ",") + "]"
    case Obj(fields) =>
      var texts := seq(|fields|, i requires 0 <= i < |fields| => (fields[i].0, Serialise(fields[i].1)));
      "{" + Join(Members(SortEntries(texts)), ",") + "}"
  }

  /** An entry with its value serialised. */
  function EntryText(e: (string, Value)): (string, string) {
    (e.0, Serialise(e.1))
  }

  /** `isEqual`. */
  predicate IsEqual(left: Value, right: Value) {
    Serialise(left) == Serialise(right)
  }

  /** An object serialises as its entries sorted by key. */
  lemma SerialiseObject(f: seq<(string, Value)>)
    ensures Serialise(Obj(f)) == "{" + Join(Members(SortEntries(Seqs.Map(EntryText, f))), ",") + "}"
  {
    assert Seqs.Map(EntryText, f) == seq(|f|, i requires 0 <= i < |f| => (f[i].0, Serialise(f[i].1)));
  }

  lemma EntryTextsDistinct(f: seq<(string, Value)>)
    requires DistinctKeys(f)
    ensures DistinctKeys(SortEntries(Seqs.Map(EntryText, f)))
  {
    var t := Seqs.Map(EntryText, f);
    assert forall i :: 0 <= i < |t| ==> t[i].0 == f[i].0;
    SortEntriesDistinct(t);
  }

  /** Two objects with the same entries serialise alike, whatever order the
      entries were written in. */
  lemma KeyOrderIrrelevant(f: seq<(string, Value)>, g: seq<(string, Value)>)
    requires DistinctKeys(f) && DistinctKeys(g)
    requires multiset(f) == multiset(g)
    ensures Serialise(Obj(f)) == Serialise(Obj(g))
  {
    Seqs.MapPermutation(EntryText, f, g);
    EntryTextsDistinct(f);
    EntryTextsDistinct(g);
    SortedUnique(SortEntries(Seqs.Map(EntryText, f)), SortEntries(Seqs.Map(EntryText, g)));
    SerialiseObject(f);
    SerialiseObject(g);
  }

  /** `null` and `undefined` are equal; equality is reflexive and symmetric. */
  lemma IsEqualFacts(a: Value, b: Value)
    ensures IsEqual(Null, Undefined)
    ensures IsEqual(a, a)
    ensures IsEqual(a, b) ==> IsEqual(b, a)
  {
  }

  /** Every `Date` serialises as an empty object, so two different
      timestamps compare equal. */
  lemma DatesCompareEqual(t: int, u: int)
    ensures IsEqual(DateObject(t), DateObject(u))
  {
  }

  // ---------------------------------------------------------------- diff entries

  type Record = seq<(string, Value)>

  datatype DiffEntry = DiffEntry(key: string, before: Value, after: Value)

  /** `record?.[key]`: the value of the first entry with the key, else
      `undefined`. */
  function Get(r: Record, key: string): (v: Value)
    ensures !KeyIn(key, r) ==> v == Undefined
    ensures KeyIn(key, r) ==> exists i :: 0 <= i < |r| && r[i].0 == key && r[i].1 == v
  {
    if |r| == 0 then Undefined
    else if r[0].0 == key then r[0].1
    else
      var v := Get(r[1..], key);
      assert KeyIn(key, r[1..]) ==> KeyIn(key, r) by {
        if KeyIn(key, r[1..]) {
          var i :| 0 <= i < |r[1..]| && r[1..][i].0 == key;
          assert r[i + 1].0 == key;
        }
      }
      assert KeyIn(key, r) ==> KeyIn(key, r[1..]) by {
        if KeyIn(key, r) {
          var i :| 0 <= i < |r| && r[i].0 == key;
          assert r[1..][i - 1].0 == key;
        }
      }
      assert KeyIn(key, r) ==> exists i :: 0 <= i < |r| && r[i].0 == key && r[i].1 == v by {
        if KeyIn(key, r) {
          var i :| 0 <= i < |r[1..]| && r[1..][i].0 == key && r[1..][i].1 == v;
          assert r[i + 1] == r[1..][i];
        }
      }
      v
  }

  function KeysOf(r: Record): (ks: seq<string>)
    ensures |ks| == |r|
    ensures forall i :: 0 <= i < |r| ==> ks[i] == r[i].0
  {
    if |r| == 0 then [] else [r[0].0] + KeysOf(r[1..])
  }

  /** The elements of `s` in order of first occurrence, each once (the
      iteration order of `new Set(s)`). */
  function Dedup(s: seq<string>, seen: set<string>): (r: seq<string>)
    ensures forall i, j :: 0 <= i < j < |r| ==> r[i] != r[j]
    ensures forall k :: k in r <==> k in s && k !in seen
  {
    if |s| == 0 then []
    else if s[0] in seen then Dedup(s[1..], seen)
    else [s[0]] + Dedup(s[1..], seen + {s[0]})
  }

  /** `a` occurs in `s` before any occurrence of `b`. */
  predicate FirstBefore(s: seq<string>, a: string, b: string) {
    exists p :: 0 <= p < |s| && s[p] == a && b !in s[..p]
  }

  /** Any two elements of the output come in the order of their first
      occurrences in the input. */
  lemma {:induction false} DedupOrderAt(s: seq<string>, seen: set<string>, i: nat, j: nat)
    requires i < j < |Dedup(s, seen)|
    ensures FirstBefore(s, Dedup(s, seen)[i], Dedup(s, seen)[j])
    decreases |s|
  {
    var r := Dedup(s, seen);
    var b := r[j];
    assert b in r;
    if s[0] in seen {
      DedupOrderAt(s[1..], seen, i, j);
      FirstBeforeCons(s, r[i], b);
    } else if i == 0 {
      assert s[..0] == [];
    } else {
      var rest := Dedup(s[1..], seen + {s[0]});
      assert r[i] == rest[i - 1] && b == rest[j - 1];
      assert b in rest;
      DedupOrderAt(s[1..], seen + {s[0]}, i - 1, j - 1);
      FirstBeforeCons(s, r[i], b);
    }
  }

  lemma FirstBeforeCons(s: seq<string>, a: string, b: string)
    requires |s| > 0 && FirstBefore(s[1..], a, b) && b != s[0]
    ensures FirstBefore(s, a, b)
  {
    var p :| 0 <= p < |s[1..]| && s[1..][p] == a && b !in s[1..][..p];
    assert s[..p + 1] == [s[0]] + s[1..][..p];
    assert s[p + 1] == a;
  }

  /** `new Set(s)` iterates in order of first occurrence. */
  lemma DedupOrder(s: seq<string>, seen: set<string>)
    ensures var r := Dedup(s, seen);
      forall i, j :: 0 <= i < j < |r| ==> FirstBefore(s, r[i], r[j])
  {
    forall i: nat, j: nat | i < j < |Dedup(s, seen)|
      ensures FirstBefore(s, Dedup(s, seen)[i], Dedup(s, seen)[j])
    {
      DedupOrderAt(s, seen, i, j);
    }
  }

  /** The keys the diff visits: those of `current`, then the new keys of
      `next`, each once. */
  function KeyUnion(current: Record, next: Record): (ks: seq<string>)
    ensures forall i, j :: 0 <= i < j < |ks| ==> ks[i] != ks[j]
    ensures forall k :: k in ks <==> KeyIn(k, current) || KeyIn(k, next)
  {
    var all := KeysOf(current) + KeysOf(next);
    assert forall k :: k in all <==> KeyIn(k, current) || KeyIn(k, next) by {
      forall k ensures k in all <==> KeyIn(k, current) || KeyIn(k, next) {
        if k in all {
          var i :| 0 <= i < |all| && all[i] == k;
          if i < |current| {
            assert current[i].0 == k;
          } else {
            assert next[i - |current|].0 == k;
          }
        }
        if KeyIn(k, current) {
          var i :| 0 <= i < |current| && current[i].0 == k;
          assert all[i] == k;
        }
        if KeyIn(k, next) {
          var i :| 0 <= i < |next| && next[i].0 == k;
          assert all[|current| + i] == k;
        }
      }
    }
    Dedup(all, {})
  }

  /** The diff visits keys in order of first occurrence among the keys of
      `current` followed by the keys of `next`. */
  lemma KeyUnionOrder(current: Record, next: Record)
    ensures var ks := KeyUnion(current, next);
      forall i, j :: 0 <= i < j < |ks| ==> FirstBefore(KeysOf(current) + KeysOf(next), ks[i], ks[j])
  {
    assert KeyUnion(current, next) == Dedup(KeysOf(current) + KeysOf(next), {});
    DedupOrder(KeysOf(current) + KeysOf(next), {});
  }

  /** Every key of `current` is visited before any key only `next` has. */
  lemma CurrentKeysFirst(current: Record, next: Record, i: nat, j: nat)
    requires i < j < |KeyUnion(current, next)|
    requires KeyIn(KeyUnion(current, next)[j], current)
    ensures KeyIn(KeyUnion(current, next)[i], current)
  {
    var ks := KeyUnion(current, next);
    var all := KeysOf(current) + KeysOf(next);
    KeyUnionOrder(current, next);
    var p :| 0 <= p < |all| && all[p] == ks[i] && ks[j] !in all[..p];
    var q :| 0 <= q < |current| && current[q].0 == ks[j];
    assert all[q] == ks[j];
    assert current[p].0 == ks[i];
  }

  predicate UniqueEntryKeys(r: seq<DiffEntry>) {
    forall i, j :: 0 <= i < j < |r| ==> r[i].key != r[j].key
  }

  lemma KeysCons(keys: seq<string>)
    requires |keys| > 0
    ensures forall x :: x in keys <==> x == keys[0] || x in keys[1..]
    ensures (forall i, j :: 0 <= i < j < |keys| ==> keys[i] != keys[j]) ==> keys[0] !in keys[1..]
  {
    assert keys == [keys[0]] + keys[1..];
  }

  lemma EntriesCons(e: DiffEntry, rest: seq<DiffEntry>)
    ensures forall x :: x in [e] + rest <==> x == e || x in rest
    ensures UniqueEntryKeys(rest) && (forall x :: x in rest ==> x.key != e.key) ==> UniqueEntryKeys([e] + rest)
  {
    if UniqueEntryKeys(rest) && (forall x :: x in rest ==> x.key != e.key) {
      var r := [e] + rest;
      forall i, j | 0 <= i < j < |r| ensures r[i].key != r[j].key {
        assert r[j] == rest[j - 1];
        if i > 0 {
          assert r[i] == rest[i - 1];
        }
      }
    }
  }

  function EntriesOver(keys: seq<string>, current: Record, next: Record): (r: seq<DiffEntry>)
    ensures forall e :: e in r ==> (e.key in keys && e.before == Get(current, e.key)
      && e.after == Get(next, e.key) && !IsEqual(e.before, e.after))
    ensures forall k :: k in keys && !IsEqual(Get(current, k), Get(next, k)) ==>
      exists e :: e in r && e.key == k
    ensures (forall i, j :: 0 <= i < j < |keys| ==> keys[i] != keys[j]) ==> UniqueEntryKeys(r)
  {
    if |keys| == 0 then []
    else
      var k := keys[0];
      var rest := EntriesOver(keys[1..], current, next);
      KeysCons(keys);
      assert (forall i, j :: 0 <= i < j < |keys| ==> keys[i] != keys[j])
         ==> (forall i, j :: 0 <= i < j < |keys[1..]| ==> keys[1..][i] != keys[1..][j]);
      if IsEqual(Get(current, k), Get(next, k)) then rest
      else
        var e := DiffEntry(k, Get(current, k), Get(next, k));
        EntriesCons(e, rest);
        [e] + rest
  }

  /** The keys whose two values do not serialise alike. */
  function ChangedIn(current: Record, next: Record): string -> bool {
    k => !IsEqual(Get(current, k), Get(next, k))
  }

  function EntryKey(e: DiffEntry): string {
    e.key
  }

  /** The entries follow the visited keys, skipping the unchanged ones. */
  lemma {:induction false} EntriesOverKeys(keys: seq<string>, current: Record, next: Record)
    ensures Seqs.Map(EntryKey, EntriesOver(keys, current, next)) == Seqs.Filter(keys, ChangedIn(current, next))
  {
    if |keys| > 0 {
      EntriesOverKeys(keys[1..], current, next);
      var rest := EntriesOver(keys[1..], current, next);
      if ChangedIn(current, next)(keys[0]) {
        var e := DiffEntry(keys[0], Get(current, keys[0]), Get(next, keys[0]));
        assert ([e] + rest)[1..] == rest;
      }
    }
  }

  /** `computeDiffEntries`: exactly the keys of either side whose values do
      not serialise alike, each once, with the values of both sides. A
      missing side (`?? {}`) is an empty record. */
  function ComputeDiffEntries(current: Record, next: Record): (r: seq<DiffEntry>)
    ensures forall e :: e in r ==> ((KeyIn(e.key, current) || KeyIn(e.key, next))
      && e.before == Get(current, e.key) && e.after == Get(next, e.key)
      && !IsEqual(e.before, e.after))
    ensures forall k :: (KeyIn(k, current) || KeyIn(k, next)) && !IsEqual(Get(current, k), Get(next, k)) ==>
      exists e :: e in r && e.key == k
    ensures UniqueEntryKeys(r)
    ensures Seqs.Map(EntryKey, r) == Seqs.Filter(KeyUnion(current, next), ChangedIn(current, next))
  {
    EntriesOverKeys(KeyUnion(current, next), current, next);
    EntriesOver(KeyUnion(current, next), current, next)
  }

  /** Comparing front matter with itself finds nothing. */
  lemma NoEntriesForSame(fm: Record)
    ensures ComputeDiffEntries(fm, fm) == []
  {
    EntriesOverSame(KeyUnion(fm, fm), fm);
  }

  lemma {:induction false} EntriesOverSame(keys: seq<string>, fm: Record)
    ensures EntriesOver(keys, fm, fm) == []
  {
    if |keys| > 0 {
      EntriesOverSame(keys[1..], fm);
    }
  }

  /** A key missing on one side and `null` on the other is no change. */
  lemma MissingEqualsNull(current: Record, next: Record, k: string)
    requires !KeyIn(k, current) && Get(next, k) == Null
    ensures forall e :: e in ComputeDiffEntries(current, next) ==> e.key != k
  {
  }

  // ---------------------------------------------------------------- patch

  /** The lines of a dumped YAML text after `trimEnd`; none when it is empty. */
  function YamlLines(yaml: string): (r: seq<string>)
    ensures |TrimEnd(yaml)| == 0 <==> |r| == 0
    ensures |r| > 0 ==> Join(r, "\n") == TrimEnd(yaml)
    ensures forall i :: 0 <= i < |r| ==> Free(r[i], '\n')
  {
    var trimmed := TrimEnd(yaml);
    if |trimmed| > 0 then Split(trimmed, '\n') else []
  }

  function Prefixed(prefix: string, lines: seq<string>): (r: seq<string>)
    ensures |r| == |lines|
    ensures forall i :: 0 <= i < |r| ==> r[i] == prefix + lines[i]
  {
    if |lines| == 0 then [] else [prefix + lines[0]] + Prefixed(prefix, lines[1..])
  }

  function PatchHeader(existingPath: string, desiredPath: string): seq<string> {
    ["--- " + existingPath, "+++ " + desiredPath, "@@ front-matter @@"]
  }

  /** `createFrontMatterPatch`, given the `yaml.dump` texts of both sides. */
  function CreateFrontMatterPatch(existingPath: string, desiredPath: string, prevYaml: string, nextYaml: string)
    : (patch: string)
    ensures IsPrefix("--- " + existingPath, patch)
  {
    var parts := PatchHeader(existingPath, desiredPath)
                 + Prefixed("-", YamlLines(prevYaml)) + Prefixed("+", YamlLines(nextYaml));
    JoinHeadPrefix(parts, "\n");
    Join(parts, "\n")
  }

  lemma PrefixedFree(prefix: string, lines: seq<string>)
    requires Free(prefix, '\n') && forall i :: 0 <= i < |lines| ==> Free(lines[i], '\n')
    ensures forall i :: 0 <= i < |lines| ==> Free(Prefixed(prefix, lines)[i], '\n')
  {
    forall i | 0 <= i < |lines| ensures Free(Prefixed(prefix, lines)[i], '\n') {
      var l := prefix + lines[i];
      assert forall j :: 0 <= j < |l| ==> l[j] == (if j < |prefix| then prefix[j] else lines[i][j - |prefix|]);
    }
  }

  lemma HeaderFree(existingPath: string, desiredPath: string)
    requires Free(existingPath, '\n') && Free(desiredPath, '\n')
    ensures forall i :: 0 <= i < 3 ==> Free(PatchHeader(existingPath, desiredPath)[i], '\n')
  {
    var h := PatchHeader(existingPath, desiredPath);
    assert forall j :: 0 <= j < |h[0]| ==> h[0][j] == (if j < 4 then "--- "[j] else existingPath[j - 4]);
    assert forall j :: 0 <= j < |h[1]| ==> h[1][j] == (if j < 4 then "+++ "[j] else desiredPath[j - 4]);
    assert '\n' !in "@@ front-matter @@";
  }

  /** Read back line by line, the patch is the three header lines, every
      old YAML line behind "-" and every new one behind "+"; an empty YAML
      text contributes no lines. */
  lemma PatchLines(existingPath: string, desiredPath: string, prevYaml: string, nextYaml: string)
    requires Free(existingPath, '\n') && Free(desiredPath, '\n')
    ensures var lines := Split(CreateFrontMatterPatch(existingPath, desiredPath, prevYaml, nextYaml), '\n');
      lines == PatchHeader(existingPath, desiredPath)
               + Prefixed("-", YamlLines(prevYaml)) + Prefixed("+", YamlLines(nextYaml))
      && |lines| == 3 + |YamlLines(prevYaml)| + |YamlLines(nextYaml)|
  {
    SplitPatchParts(existingPath, desiredPath, prevYaml, nextYaml);
  }

  /** The parts of a patch contain no line feed, so splitting their join
      gives them back. */
  lemma SplitPatchParts(existingPath: string, desiredPath: string, prevYaml: string, nextYaml: string)
    requires Free(existingPath, '\n') && Free(desiredPath, '\n')
    ensures var parts := PatchHeader(existingPath, desiredPath)
                         + Prefixed("-", YamlLines(prevYaml)) + Prefixed("+", YamlLines(nextYaml));
      Split(Join(parts, "\n"), '\n') == parts
  {
    var header := PatchHeader(existingPath, desiredPath);
    var removals := Prefixed("-", YamlLines(prevYaml));
    var additions := Prefixed("+", YamlLines(nextYaml));
    HeaderFree(existingPath, desiredPath);
    assert '\n' !in "-" && '\n' !in "+";
    PrefixedFree("-", YamlLines(prevYaml));
    PrefixedFree("+", YamlLines(nextYaml));
    PartsFree(header, removals, additions);
    SplitJoin(header + removals + additions, '\n');
  }

  lemma PartsFree(header: seq<string>, removals: seq<string>, additions: seq<string>)
    requires forall i :: 0 <= i < |header| ==> Free(header[i], '\n')
    requires forall i :: 0 <= i < |removals| ==> Free(removals[i], '\n')
    requires forall i :: 0 <= i < |additions| ==> Free(additions[i], '\n')
    ensures var parts := header + removals + additions;
      forall i :: 0 <= i < |parts| ==> Free(parts[i], '\n')
  {
    var parts := header + removals + additions;
    forall i | 0 <= i < |parts| ensures Free(parts[i], '\n') {
      if i < |header| {
        assert parts[i] == header[i];
      } else if i < |header| + |removals| {
        assert parts[i] == removals[i - |header|];
      } else {
        assert parts[i] == additions[i - |header| - |removals|];
      }
    }
  }

  /** Removing the "-" from the removal lines gives back the old YAML text
      without its trailing whitespace. */
  lemma RemovalsRestoreYaml(prevYaml: string)
    requires |TrimEnd(prevYaml)| > 0
    ensures var removals := Prefixed("-", YamlLines(prevYaml));
      Join(seq(|removals|, i requires 0 <= i < |removals| => removals[i][1..]), "\n") == TrimEnd(prevYaml)
  {
    var lines := YamlLines(prevYaml);
    var removals := Prefixed("-", lines);
    var stripped := seq(|removals|, i requires 0 <= i < |removals| => removals[i][1..]);
    assert forall i :: 0 <= i < |lines| ==> removals[i][1..] == lines[i];
    assert stripped == lines;
  }

  // ---------------------------------------------------------------- table cells

  /** The placeholder shown for a missing value (U+2014 EM DASH). */
  const Placeholder: string := "—"

  /** `formatValue`: a placeholder for `null` and `undefined`, a string as it
      is, anything else as its trimmed YAML text. */
  function FormatValue(v: Value, dump: Value -> string): (r: string)
    ensures v.Null? || v.Undefined? ==> r == Placeholder
    ensures v.Str? ==> r == v.s
    ensures !(v.Null? || v.Undefined? || v.Str?) ==> r == Trim(dump(v))
  {
    match v
    case Null => Placeholder
    case Undefined => Placeholder
    case Str(s) => s
    case _ => Trim(dump(v))
  }

  // ---------------------------------------------------------------- runDiff

  datatype Format = PatchFormat | TableFormat

  /** The `Field` column of a table row. */
  function RowField(row: (string, string, string)): string {
    row.0
  }

  /** The `console.table` rows: field, current and desired value. */
  function TableRows(entries: seq<DiffEntry>, dump: Value -> string): (rows: seq<(string, string, string)>)
    ensures |rows| == |entries|
    ensures Seqs.Map(RowField, rows) == Seqs.Map(EntryKey, entries)
    ensures forall i :: 0 <= i < |rows| ==>
      rows[i] == (entries[i].key, FormatValue(entries[i].before, dump), FormatValue(entries[i].after, dump))
  {
    if |entries| == 0 then []
    else
      var e := entries[0];
      var rest := TableRows(entries[1..], dump);
      var rows := [(e.key, FormatValue(e.before, dump), FormatValue(e.after, dump))] + rest;
      assert rows[1..] == rest;
      rows
  }

  datatype DiffReport =
    | AlreadyMatches(message: string)
    | Table(rows: seq<(string, string, string)>)
    | PatchText(message: string, patch: string)

  /** `runDiff` after both files are read and parsed: nothing to do when no
      key changed, else the table rows or the patch. */
  function RunDiff(format: Format, existingPath: string, desiredPath: string,
                   current: Record, next: Record, dump: Value -> string): (r: DiffReport)
    ensures r.AlreadyMatches? <==> |ComputeDiffEntries(current, next)| == 0
    ensures r.AlreadyMatches? ==> r.message == "Front-matter already matches the desired state."
    ensures r.Table? ==> format == TableFormat && r.rows == TableRows(ComputeDiffEntries(current, next), dump)
    ensures r.PatchText? ==> (format == PatchFormat && r.message == "Front-matter patch:"
      && r.patch == CreateFrontMatterPatch(existingPath, desiredPath, dump(Obj(current)), dump(Obj(next))))
  {
    var entries := ComputeDiffEntries(current, next);
    if |entries| == 0 then AlreadyMatches("Front-matter already matches the desired state.")
    else match format
      case TableFormat =>
        Table(TableRows(entries, dump))
      case PatchFormat =>
        PatchText("Front-matter patch:",
          CreateFrontMatterPatch(existingPath, desiredPath, dump(Obj(current)), dump(Obj(next))))
  }

  /** The table lists the changed keys in the order the diff visits them,
      each with both of its values formatted. */
  lemma RunDiffRows(existingPath: string, desiredPath: string, current: Record, next: Record, dump: Value -> string)
    requires |ComputeDiffEntries(current, next)| > 0
    ensures var r := RunDiff(TableFormat, existingPath, desiredPath, current, next, dump);
      && r.Table?
      && Seqs.Map(RowField, r.rows) == Seqs.Filter(KeyUnion(current, next), ChangedIn(current, next))
      && forall i :: 0 <= i < |r.rows| ==>
           (r.rows[i].1 == FormatValue(Get(current, r.rows[i].0), dump)
            && r.rows[i].2 == FormatValue(Get(next, r.rows[i].0), dump))
  {
    var entries := ComputeDiffEntries(current, next);
    var r := RunDiff(TableFormat, existingPath, desiredPath, current, next, dump);
    assert r == Table(TableRows(entries, dump));
    RowsOfEntries(entries, current, next, dump);
  }

  lemma RowsOfEntries(entries: seq<DiffEntry>, current: Record, next: Record, dump: Value -> string)
    requires forall e :: e in entries ==> e.before == Get(current, e.key) && e.after == Get(next, e.key)
    ensures var rows := TableRows(entries, dump);
      forall i :: 0 <= i < |rows| ==>
        (rows[i].1 == FormatValue(Get(current, rows[i].0), dump)
         && rows[i].2 == FormatValue(Get(next, rows[i].0), dump))
  {
    assert forall i :: 0 <= i < |entries| ==> entries[i] in entries;
  }
}

=== FILE: gsc.dfy ===
/** The Search Console integration of the growth agent: it picks the
    property to query, turns two day offsets into an ordered date range,
    builds the search-analytics request, and maps the returned rows to
    query statistics ordered by clicks, then impressions, both descending.
    Authentication and the API call itself are a parameter; the clock is
    the current UTC day number. Metrics are `real` (JS numbers without NaN
    or infinity). */
module Gsc {
  import opened Wrappers
  import opened UtcDates
  import Seqs

  datatype GscError = MissingPropertyUri

  // ---------------------------------------------------------------- property

  /** `siteUrl ?? GSC_PROPERTY_URI ?? GSC_SITE_URL`, refused when that first
      present value is empty: a given but empty `siteUrl` does not fall back. */
  function PropertyUri(siteUrl: Option<string>, envProperty: Option<string>, envSite: Option<string>): (r: Result<string, GscError>)
    ensures r.Ok? ==> r.value != ""
    ensures siteUrl.Some? ==> (if siteUrl.value == "" then r.Err? else r == Ok(siteUrl.value))
    ensures siteUrl.None? && envProperty.Some? ==> (if envProperty.value == "" then r.Err? else r == Ok(envProperty.value))
    ensures (siteUrl.None? && envProperty.None? && envSite.Some? && envSite.value != "") <==> (siteUrl.None? && envProperty.None? && r.Ok?)
  {
    var uri := if siteUrl.Some? then siteUrl else if envProperty.Some? then envProperty else envSite;
    if uri.None? || uri.value == "" then Err(MissingPropertyUri) else Ok(uri.value)
  }

  /** Without a usable first choice and with both fallbacks unset, the call
      fails. */
  lemma NoPropertyFails(siteUrl: Option<string>)
    requires siteUrl.None? || siteUrl == Some("")
    ensures PropertyUri(siteUrl, None, None).Err?
  {
  }

  // ---------------------------------------------------------------- dates

  /** The UTC day `daysAgo` days before `today`, the offset floored and
      clamped at zero. */
  function OffsetToDay(today: int, daysAgo: real): (r: int)
    ensures r <= today
    ensures daysAgo < 0.0 ==> r == today
    ensures daysAgo >= 0.0 ==> (today - r) as real <= daysAgo < (today - r + 1) as real
  {
    today - (if daysAgo.Floor < 0 then 0 else daysAgo.Floor)
  }

  /** The two offsets as a start and an end day, swapped when out of order. */
  function DateRange(today: int, startDaysAgo: real, endDaysAgo: real): (r: (int, int))
    ensures r.0 <= r.1
    ensures multiset{r.0, r.1} == multiset{OffsetToDay(today, startDaysAgo), OffsetToDay(today, endDaysAgo)}
  {
    var startDay := OffsetToDay(today, startDaysAgo);
    var endDay := OffsetToDay(today, endDaysAgo);
    if startDay > endDay then (endDay, startDay) else (startDay, endDay)
  }

  /** The order the offsets come in does not matter. */
  lemma DateRangeSymmetric(today: int, a: real, b: real)
    ensures DateRange(today, a, b) == DateRange(today, b, a)
  {
  }

  /** The more days ago, the earlier the start. */
  lemma OffsetMonotone(today: int, a: real, b: real)
    requires a <= b
    ensures OffsetToDay(today, b) <= OffsetToDay(today, a)
  {
  }

  // ---------------------------------------------------------------- request

  datatype SearchRequest = SearchRequest(
    siteUrl: string,
    startDate: string,
    endDate: string,
    searchType: string,
    rowLimit: int,
    dataState: string,
    dimensions: seq<string>,
    aggregationType: string)

  const RowLimit: int := 1000

  function BuildRequest(property: string, range: (int, int)): (r: SearchRequest)
    ensures r.siteUrl == property && r.rowLimit == RowLimit
    ensures r.dimensions == ["page", "country", "query"]
    ensures r.startDate == IsoDate(range.0) && r.endDate == IsoDate(range.1)
  {
    SearchRequest(property, IsoDate(range.0), IsoDate(range.1), "web", RowLimit, "final",
                  ["page", "country", "query"], "auto")
  }

  /** The request's dates read back to the days of the range (years 0 to
      9999). */
  lemma RequestDatesReadBack(property: string, range: (int, int))
    requires 0 <= CivilFromDays(range.0).year <= 9999
    requires 0 <= CivilFromDays(range.1).year <= 9999
    ensures ParseIsoDate(BuildRequest(property, range).startDate) == Some(range.0)
    ensures ParseIsoDate(BuildRequest(property, range).endDate) == Some(range.1)
  {
    IsoDateRoundTrip(range.0);
    IsoDateRoundTrip(range.1);
  }

  // ---------------------------------------------------------------- rows

  /** A row as the API returns it: every part may be missing. */
  datatype ApiRow = ApiRow(
    keys: Option<seq<string>>,
    clicks: Option<real>,
    impressions: Option<real>,
    ctr: Option<real>,
    position: Option<real>)

  datatype QueryStatRow = QueryStatRow(
    page: string,
    country: string,
    query: string,
    clicks: real,
    impressions: real,
    ctr: real,
    position: real)

  const Unknown: string := "unknown"

  /** `keys?.[i] ?? 'unknown'`. */
  function KeyAt(keys: Option<seq<string>>, i: nat): (r: string)
    ensures keys.Some? && i < |keys.value| ==> r == keys.value[i]
    ensures keys.None? || i >= |keys.value| ==> r == Unknown
  {
    if keys.Some? && i < |keys.value| then keys.value[i] else Unknown
  }

  function ToStatRow(row: ApiRow): (r: QueryStatRow)
    ensures r.page == KeyAt(row.keys, 0) && r.country == KeyAt(row.keys, 1) && r.query == KeyAt(row.keys, 2)
    ensures r.clicks == row.clicks.GetOr(0.0) && r.impressions == row.impressions.GetOr(0.0)
    ensures r.ctr == row.ctr.GetOr(0.0) && r.position == row.position.GetOr(0.0)
  {
    QueryStatRow(KeyAt(row.keys, 0), KeyAt(row.keys, 1), KeyAt(row.keys, 2),
                 row.clicks.GetOr(0.0), row.impressions.GetOr(0.0), row.ctr.GetOr(0.0), row.position.GetOr(0.0))
  }

  /** A row with nothing in it becomes three "unknown" keys and zero metrics. */
  lemma EmptyRowDefaults()
    ensures ToStatRow(ApiRow(None, None, None, None, None))
         == QueryStatRow(Unknown, Unknown, Unknown, 0.0, 0.0, 0.0, 0.0)
  {
  }

  /** A complete row keeps its values. */
  lemma FullRowKept(page: string, country: string, query: string, clicks: real, impressions: real, ctr: real, position: real)
    ensures ToStatRow(ApiRow(Some([page, country, query]), Some(clicks), Some(impressions), Some(ctr), Some(position)))
         == QueryStatRow(page, country, query, clicks, impressions, ctr, position)
  {
  }

  // ---------------------------------------------------------------- order

  /** The sort comparator: negative when `a` goes first. */
  function Compare(a: QueryStatRow, b: QueryStatRow): real {
    if b.clicks != a.clicks then b.clicks - a.clicks else b.impressions - a.impressions
  }

  /** `a` may come before `b`: more clicks, or as many and at least as many
      impressions. */
  predicate Before(a: QueryStatRow, b: QueryStatRow) {
    a.clicks > b.clicks || (a.clicks == b.clicks && a.impressions >= b.impressions)
  }

  /** The comparator puts `a` no later than `b` exactly when `Before` holds. */
  lemma CompareAgrees(a: QueryStatRow, b: QueryStatRow)
    ensures Compare(a, b) <= 0.0 <==> Before(a, b)
  {
  }

  predicate Ordered(s: seq<QueryStatRow>) {
    forall i, j :: 0 <= i < j < |s| ==> Before(s[i], s[j])
  }

  predicate AllAfter(x: QueryStatRow, s: seq<QueryStatRow>) {
    forall i :: 0 <= i < |s| ==> Before(x, s[i])
  }

  /** Puts `x` in front of the first row it may precede, so among equal
      rows the earlier one stays first. */
  function Insert(x: QueryStatRow, s: seq<QueryStatRow>): (r: seq<QueryStatRow>)
    ensures multiset(r) == multiset(s) + multiset{x}
    ensures |r| == |s| + 1
  {
    if |s| == 0 then [x]
    else if Before(x, s[0]) then [x] + s
    else
      assert s == [s[0]] + s[1..];
      [s[0]] + Insert(x, s[1..])
  }

  lemma {:induction false} InsertAfter(y: QueryStatRow, x: QueryStatRow, s: seq<QueryStatRow>)
    requires AllAfter(y, s) && Before(y, x)
    ensures AllAfter(y, Insert(x, s))
  {
    if |s| > 0 && !Before(x, s[0]) {
      InsertAfter(y, x, s[1..]);
    }
  }

  lemma {:induction false} InsertOrdered(x: QueryStatRow, s: seq<QueryStatRow>)
    requires Ordered(s)
    ensures Ordered(Insert(x, s))
  {
    if |s| > 0 && !Before(x, s[0]) {
      var tail := s[1..];
      assert Ordered(tail);
      InsertOrdered(x, tail);
      assert AllAfter(s[0], tail);
      InsertAfter(s[0], x, tail);
      assert Insert(x, s) == [s[0]] + Insert(x, tail);
    } else if |s| > 0 {
      assert AllAfter(x, s);
    }
  }

  /** Stable insertion sort by clicks, then impressions, descending. */
  function SortRows(s: seq<QueryStatRow>): (r: seq<QueryStatRow>)
    ensures multiset(r) == multiset(s)
    ensures |r| == |s|
    ensures Ordered(r)
  {
    if |s| == 0 then []
    else
      assert s == [s[0]] + s[1..];
      var sortedTail := SortRows(s[1..]);
      InsertOrdered(s[0], sortedTail);
      Insert(s[0], sortedTail)
  }

  /** Rows already in order are left as they are. */
  lemma {:induction false} SortOrderedNoop(s: seq<QueryStatRow>)
    requires Ordered(s)
    ensures SortRows(s) == s
  {
    if |s| > 0 {
      assert Ordered(s[1..]);
      SortOrderedNoop(s[1..]);
      if |s| > 1 {
        assert Before(s[0], s[1]);
      }
      assert s == [s[0]] + s[1..];
    }
  }

  // ---------------------------------------------------------------- run

  /** The statistics for the range between two day offsets; `query` stands
      for the authenticated API call (`None` when the response has no rows). */
  function GetCountryQueryStats(startDaysAgo: real, endDaysAgo: real, siteUrl: Option<string>,
                                envProperty: Option<string>, envSite: Option<string>, today: int,
                                query: SearchRequest -> Option<seq<ApiRow>>): (r: Result<seq<QueryStatRow>, GscError>)
    ensures r.Err? <==> PropertyUri(siteUrl, envProperty, envSite).Err?
    ensures r.Ok? ==> (
      var request := BuildRequest(PropertyUri(siteUrl, envProperty, envSite).value, DateRange(today, startDaysAgo, endDaysAgo));
      var rows := query(request).GetOr([]);
      && multiset(r.value) == multiset(Seqs.Map(ToStatRow, rows))
      && Ordered(r.value))
  {
    match PropertyUri(siteUrl, envProperty, envSite)
    case Err(e) => Err(e)
    case Ok(property) =>
      var request := BuildRequest(property, DateRange(today, startDaysAgo, endDaysAgo));
      Ok(SortRows(Seqs.Map(ToStatRow, query(request).GetOr([]))))
  }
}

=== FILE: in_memory.dfy ===
/** The in-memory repositories: each one is an array of records in insertion
    order, modelled as a sequence, with every operation a function from the old
    sequence to the new one. The record kind is a type parameter together with
    the function that reads a record's id. */
module InMemory {
  import opened Wrappers
  import opened Models
  import opened Repositories
  import opened Seqs
  import Text

  /** `create…`: `storage.append(x)`, with no check for an id already present. */
  function Append<T>(storage: seq<T>, x: T): (r: seq<T>)
    ensures |r| == |storage| + 1
    ensures r[..|storage|] == storage && r[|storage|] == x
  {
    storage + [x]
  }

  /** `updateObjective`: replace the first record with `x`'s id, or throw
      `missingEntity` when there is none. */
  function ReplaceFirst<T>(storage: seq<T>, x: T, key: T -> Uuid): (r: Result<seq<T>, RepositoryError>)
    ensures r.Err? <==> !HasKey(storage, key, key(x))
    ensures r.Ok? ==> exists i :: FirstMatch(storage, key, key(x), i) && r.value == storage[i := x]
  {
    match FirstIndex(storage, key, key(x))
    case None => Err(MissingEntity)
    case Some(i) =>
      assert FirstMatch(storage, key, key(x), i);
      Ok(storage[i := x])
  }

  /** Replacing keeps the length and every other position. */
  lemma ReplaceFirstFrame<T>(storage: seq<T>, x: T, key: T -> Uuid)
    requires ReplaceFirst(storage, x, key).Ok?
    ensures var r := ReplaceFirst(storage, x, key).value;
      |r| == |storage|
      && x in r
      && forall j :: 0 <= j < |r| && r[j] != storage[j] ==> r[j] == x && key(storage[j]) == key(x)
  {
    var i :| FirstMatch(storage, key, key(x), i) && ReplaceFirst(storage, x, key).value == storage[i := x];
    assert storage[i := x][i] == x;
  }

  /** `delete…(id:)`: `storage.removeAll { $0.id == id }`. */
  function RemoveAll<T(==,!new)>(storage: seq<T>, id: Uuid, key: T -> Uuid): (r: seq<T>)
    ensures !HasKey(r, key, id)
    ensures forall i :: 0 <= i < |storage| && key(storage[i]) != id ==> storage[i] in r
    ensures forall i :: 0 <= i < |r| ==> r[i] in storage
    ensures Subsequence(r, storage)
    ensures !HasKey(storage, key, id) ==> r == storage
    ensures forall x :: multiset(r)[x] == if key(x) == id then 0 else multiset(storage)[x]
  {
    var keep := y => key(y) != id;
    var r := Filter(storage, keep);
    assert forall x :: multiset(r)[x] == if key(x) == id then 0 else multiset(storage)[x] by {
      forall x ensures multiset(r)[x] == if key(x) == id then 0 else multiset(storage)[x] {
        FilterMultiplicity(storage, keep, x);
      }
    }
    if !HasKey(storage, key, id) then
      FilterAll(storage, keep);
      r
    else r
  }

  /** One step of `upsertActionItems`: replace the first record with `x`'s id
      in place, or append `x` when the id is new. */
  function UpsertOne<T>(storage: seq<T>, x: T, key: T -> Uuid): (r: seq<T>)
    ensures HasKey(storage, key, key(x)) ==>
      exists i :: FirstMatch(storage, key, key(x), i) && r == storage[i := x]
    ensures !HasKey(storage, key, key(x)) ==> r == storage + [x]
  {
    match FirstIndex(storage, key, key(x))
    case None => storage + [x]
    case Some(i) =>
      assert FirstMatch(storage, key, key(x), i);
      storage[i := x]
  }

  /** The effect of one upsert on lengths, keys and the untouched records. */
  lemma UpsertOneFacts<T>(storage: seq<T>, x: T, key: T -> Uuid)
    ensures var r := UpsertOne(storage, x, key);
      && |storage| <= |r| <= |storage| + 1
      && x in r
      && (forall j :: 0 <= j < |storage| ==> key(r[j]) == key(storage[j]))
      && (forall j :: 0 <= j < |storage| && key(storage[j]) != key(x) ==> r[j] == storage[j])
      && (forall k :: HasKey(storage, key, k) ==> HasKey(r, key, k))
      && (UniqueKeys(storage, key) ==> UniqueKeys(r, key))
  {
    var r := UpsertOne(storage, x, key);
    if HasKey(storage, key, key(x)) {
      var i :| FirstMatch(storage, key, key(x), i) && r == storage[i := x];
      assert r[i] == x;
      forall k | HasKey(storage, key, k) ensures HasKey(r, key, k) {
        var j :| 0 <= j < |storage| && key(storage[j]) == k;
        assert key(r[j]) == k;
      }
    } else {
      forall k | HasKey(storage, key, k) ensures HasKey(r, key, k) {
        var j :| 0 <= j < |storage| && key(storage[j]) == k;
        assert key(r[j]) == k;
      }
      assert r[|storage|] == x;
    }
  }

  /** No item has key `k`. */
  predicate Untouched<T>(items: seq<T>, key: T -> Uuid, k: Uuid) {
    forall i :: 0 <= i < |items| ==> key(items[i]) != k
  }

  /** `upsertActionItems`: the items applied one after another, in order. */
  function UpsertAll<T>(storage: seq<T>, items: seq<T>, key: T -> Uuid): (r: seq<T>)
    ensures |storage| <= |r| <= |storage| + |items|
    ensures forall j :: 0 <= j < |storage| ==> key(r[j]) == key(storage[j])
    decreases |items|
  {
    if |items| == 0 then storage
    else
      UpsertOneFacts(storage, items[0], key);
      UpsertAll(UpsertOne(storage, items[0], key), items[1..], key)
  }

  /** After an upsert every upserted id is present and every id present
      before still is. */
  lemma {:induction false} UpsertAllKeys<T>(storage: seq<T>, items: seq<T>, key: T -> Uuid)
    ensures forall i :: 0 <= i < |items| ==> HasKey(UpsertAll(storage, items, key), key, key(items[i]))
    ensures forall k :: HasKey(storage, key, k) ==> HasKey(UpsertAll(storage, items, key), key, k)
    decreases |items|
  {
    if |items| > 0 {
      var next := UpsertOne(storage, items[0], key);
      UpsertOneFacts(storage, items[0], key);
      UpsertAllKeys(next, items[1..], key);
      assert HasKey(next, key, key(items[0])) by {
        var j :| 0 <= j < |next| && next[j] == items[0];
      }
      forall i | 1 <= i < |items|
        ensures HasKey(UpsertAll(storage, items, key), key, key(items[i]))
      {
        assert items[i] == items[1..][i - 1];
      }
    }
  }

  /** Records whose id no item carries keep their value and position. */
  lemma {:induction false} UpsertAllFrame<T>(storage: seq<T>, items: seq<T>, key: T -> Uuid)
    ensures forall j :: 0 <= j < |storage| && Untouched(items, key, key(storage[j])) ==>
              UpsertAll(storage, items, key)[j] == storage[j]
    decreases |items|
  {
    if |items| > 0 {
      var next := UpsertOne(storage, items[0], key);
      UpsertOneFacts(storage, items[0], key);
      UpsertAllFrame(next, items[1..], key);
      forall j | 0 <= j < |storage| && Untouched(items, key, key(storage[j]))
        ensures UpsertAll(storage, items, key)[j] == storage[j]
      {
        assert key(items[0]) != key(storage[j]);
        assert next[j] == storage[j];
        assert Untouched(items[1..], key, key(next[j]));
      }
    }
  }

  /** Upserting into a store whose ids are unique keeps them unique. */
  lemma {:induction false} UpsertAllUnique<T>(storage: seq<T>, items: seq<T>, key: T -> Uuid)
    requires UniqueKeys(storage, key)
    ensures UniqueKeys(UpsertAll(storage, items, key), key)
    decreases |items|
  {
    if |items| > 0 {
      UpsertOneFacts(storage, items[0], key);
      UpsertAllUnique(UpsertOne(storage, items[0], key), items[1..], key);
    }
  }

  // ---------------------------------------------------------------- meeting filter

  /** The keyword condition of the in-memory fetch: a case-sensitive substring
      test on the notes, never met by a meeting without notes. */
  predicate KeywordMatches(m: OneOnOneMeeting, keyword: Option<string>) {
    Active(keyword) ==> m.notes.Some? && Text.Contains(m.notes.value, keyword.value)
  }

  /** The participant condition: a case-sensitive substring test on the name. */
  predicate ParticipantMatches(m: OneOnOneMeeting, participant: Option<string>) {
    Active(participant) ==> Text.Contains(m.counterpartName, participant.value)
  }

  /** The status condition: some action item of the meeting has that status. */
  predicate StatusMatches(m: OneOnOneMeeting, status: Option<ActionItemStatus>) {
    status.Some? ==> exists i :: 0 <= i < |m.actionItems| && m.actionItems[i].status == status.value
  }

  predicate MatchesInMemory(m: OneOnOneMeeting, f: OneOnOneFilter) {
    KeywordMatches(m, f.keyword) && ParticipantMatches(m, f.participant) && StatusMatches(m, f.status)
  }

  /** `fetchMeetings(filter:)` of the in-memory repository: the stored meetings
      meeting every active condition, in insertion order. */
  function FetchMeetings(storage: seq<OneOnOneMeeting>, f: OneOnOneFilter): (r: seq<OneOnOneMeeting>)
    ensures Subsequence(r, storage)
    ensures forall i :: 0 <= i < |r| ==> r[i] in storage && MatchesInMemory(r[i], f)
    ensures forall i :: 0 <= i < |storage| && MatchesInMemory(storage[i], f) ==> storage[i] in r
    ensures forall m :: multiset(r)[m] == if MatchesInMemory(m, f) then multiset(storage)[m] else 0
  {
    var matches := m => MatchesInMemory(m, f);
    var r := Filter(storage, matches);
    assert forall m :: multiset(r)[m] == if MatchesInMemory(m, f) then multiset(storage)[m] else 0 by {
      forall m ensures multiset(r)[m] == if MatchesInMemory(m, f) then multiset(storage)[m] else 0 {
        FilterMultiplicity(storage, matches, m);
      }
    }
    r
  }

  /** A filter without active conditions returns the whole storage, in order. */
  lemma FetchWithoutConditions(storage: seq<OneOnOneMeeting>, f: OneOnOneFilter)
    requires !Active(f.keyword) && !Active(f.participant) && f.status.None?
    ensures FetchMeetings(storage, f) == storage
  {
    FilterAll(storage, m => MatchesInMemory(m, f));
  }

  /** Fetching from two stores one after the other is fetching from both:
      the filter never reorders meetings. */
  lemma FetchMeetingsConcat(a: seq<OneOnOneMeeting>, b: seq<OneOnOneMeeting>, f: OneOnOneFilter)
    ensures FetchMeetings(a + b, f) == FetchMeetings(a, f) + FetchMeetings(b, f)
  {
    FilterConcat(a, b, m => MatchesInMemory(m, f));
  }

  /** The in-memory keyword test is case-sensitive: notes "Budget review" are
      not found by the keyword "budget". */
  lemma KeywordIsCaseSensitive()
    ensures !KeywordMatches(OneOnOneMeeting(0, 0, "Ana", None, Some("Budget review"), None, None, []), Some("budget"))
  {
    var notes := "Budget review";
    forall i | 0 <= i < |notes| ensures notes[i] != 'b' {
      if i < 7 {
        if i == 0 {} else if i == 1 {} else if i == 2 {} else if i == 3 {} else if i == 4 {} else if i == 5 {} else {}
      } else {
        if i == 7 {} else if i == 8 {} else if i == 9 {} else if i == 10 {} else if i == 11 {} else {}
      }
    }
    Text.AbsentFirstChar("budget", notes);
  }
}

=== FILE: mdx.dfy ===
/** The MDX helpers of the growth agent: `toSlug`, which turns a search query
    and a locale into a URL slug, and `renderMdx`, which lays out a draft page
    as front matter, headings, lists and a JSON-LD script block. Slugs are
    modelled on ASCII text, where Unicode normalisation and the removal of
    `\p{Diacritic}` come down to deleting the two ASCII diacritics. */
module Mdx {
  import opened Wrappers
  import opened Text
  import Seqs

  // ---------------------------------------------------------------- slugs

  /** The ASCII characters with the Unicode `Diacritic` property. */
  predicate IsDiacritic(c: char) {
    c == '^' || c == '`'
  }

  predicate IsSlugChar(c: char) {
    IsLowerAlnum(c) || c == '-'
  }

  predicate SlugChars(s: string) {
    forall i :: 0 <= i < |s| ==> IsSlugChar(s[i])
  }

  /** No two neighbouring hyphens. */
  predicate NoDoubleHyphen(s: string) {
    |s| < 2 || (!(s[0] == '-' && s[1] == '-') && NoDoubleHyphen(s[1..]))
  }

  predicate NoEdgeHyphen(s: string) {
    |s| > 0 ==> s[0] != '-' && s[|s| - 1] != '-'
  }

  /** The shape of the query part of a slug. */
  predicate SlugShaped(s: string) {
    SlugChars(s) && NoDoubleHyphen(s) && NoEdgeHyphen(s)
  }

  /** The letters and digits of `s`, in order. */
  function AlnumOf(s: string): string {
    if |s| == 0 then "" else (if IsLowerAlnum(s[0]) then [s[0]] else "") + AlnumOf(s[1..])
  }

  lemma AlnumOfCons(c: char, s: string)
    ensures AlnumOf([c] + s) == (if IsLowerAlnum(c) then [c] else "") + AlnumOf(s)
  {
    assert ([c] + s)[1..] == s;
  }

  /** `normalize('NFD').replace(/\p{Diacritic}/gu, '')` on ASCII text. */
  function RemoveDiacritics(s: string): (r: string)
    ensures forall i :: 0 <= i < |r| ==> !IsDiacritic(r[i])
    ensures AlnumOf(Lower(r)) == AlnumOf(Lower(s))
    ensures (forall i :: 0 <= i < |s| ==> !IsDiacritic(s[i])) ==> r == s
  {
    if |s| == 0 then ""
    else
      var rest := RemoveDiacritics(s[1..]);
      LowerConcat([s[0]], s[1..]);
      assert s == [s[0]] + s[1..];
      AlnumOfCons(LowerChar(s[0]), Lower(s[1..]));
      if IsDiacritic(s[0]) then rest
      else
        LowerConcat([s[0]], rest);
        AlnumOfCons(LowerChar(s[0]), Lower(rest));
        [s[0]] + rest
  }

  /** `replace(/[^a-z0-9]+/g, '-')`: every maximal run of characters other
      than lower-case letters and digits becomes a single hyphen. */
  function HyphenateRuns(s: string): (r: string)
    ensures SlugChars(r) && NoDoubleHyphen(r)
    ensures AlnumOf(r) == AlnumOf(s)
    ensures |r| > 0 <==> |s| > 0
    ensures |s| > 0 ==> (r[0] == '-' <==> !IsLowerAlnum(s[0]))
  {
    if |s| == 0 then ""
    else
      var rest := HyphenateRuns(s[1..]);
      assert s == [s[0]] + s[1..];
      AlnumOfCons(s[0], s[1..]);
      if IsLowerAlnum(s[0]) then
        AlnumOfCons(s[0], rest);
        [s[0]] + rest
      else if |s| > 1 && !IsLowerAlnum(s[1]) then rest
      else
        AlnumOfCons('-', rest);
        "-" + rest
  }

  /** A string of slug characters without a double hyphen is its own
      hyphenation. */
  lemma {:induction false} HyphenateRunsFixes(s: string)
    requires SlugChars(s) && NoDoubleHyphen(s)
    ensures HyphenateRuns(s) == s
  {
    if |s| > 0 {
      HyphenateRunsFixes(s[1..]);
      assert s == [s[0]] + s[1..];
      if s[0] == '-' && |s| > 1 {
        assert s[1] != '-';
      }
    }
  }

  /** `replace(/^-+/, '')`. */
  function DropLeadingHyphens(s: string): (r: string)
    ensures IsSuffix(r, s)
    ensures |r| > 0 ==> r[0] != '-'
    ensures AlnumOf(r) == AlnumOf(s)
    ensures |s| > 0 && s[0] != '-' ==> r == s
  {
    if |s| > 0 && s[0] == '-' then
      assert s == [s[0]] + s[1..];
      AlnumOfCons(s[0], s[1..]);
      DropLeadingHyphens(s[1..])
    else s
  }

  /** `replace(/-+$/, '')`. */
  function DropTrailingHyphens(s: string): (r: string)
    ensures IsPrefix(r, s)
    ensures |r| > 0 ==> r[|r| - 1] != '-'
    ensures AlnumOf(r) == AlnumOf(s)
    ensures |s| > 0 && s[|s| - 1] != '-' ==> r == s
  {
    if |s| > 0 && s[|s| - 1] == '-' then
      var init := s[..|s| - 1];
      AlnumOfSnoc(init, '-');
      assert s == init + ['-'];
      DropTrailingHyphens(init)
    else s
  }

  lemma {:induction false} AlnumOfSnoc(s: string, c: char)
    ensures AlnumOf(s + [c]) == AlnumOf(s) + (if IsLowerAlnum(c) then [c] else "")
  {
    if |s| == 0 {
      assert s + [c] == [c];
      AlnumOfCons(c, "");
    } else {
      AlnumOfSnoc(s[1..], c);
      assert s + [c] == [s[0]] + (s[1..] + [c]);
      AlnumOfCons(s[0], s[1..] + [c]);
      assert s == [s[0]] + s[1..];
      AlnumOfCons(s[0], s[1..]);
    }
  }

  /** `r` is the piece of `s` starting at `k`. */
  predicate MiddleAt(s: string, r: string, k: int) {
    0 <= k && k + |r| <= |s| && s[k..k + |r|] == r
  }

  /** `replace(/^-+|-+$/g, '')`: the hyphens at both ends removed. What is
      left is a middle piece of `s`. */
  function TrimHyphens(s: string): (r: string)
    ensures NoEdgeHyphen(r)
    ensures AlnumOf(r) == AlnumOf(s)
    ensures exists k :: MiddleAt(s, r, k)
    ensures NoEdgeHyphen(s) ==> r == s
  {
    var t := DropLeadingHyphens(s);
    var r := DropTrailingHyphens(t);
    MiddleOfSuffix(s, t, r);
    r
  }

  /** A prefix of a suffix is a middle piece. */
  lemma MiddleOfSuffix(s: string, t: string, r: string)
    requires IsSuffix(t, s) && IsPrefix(r, t)
    ensures MiddleAt(s, r, |s| - |t|)
  {
    assert s[|s| - |t|..][..|r|] == r;
  }

  /** Properties of a string carry over to its middle pieces. */
  lemma MiddleKeepsShape(s: string, r: string, k: int)
    requires MiddleAt(s, r, k)
    ensures SlugChars(s) ==> SlugChars(r)
    ensures NoDoubleHyphen(s) ==> NoDoubleHyphen(r)
  {
    assert forall i :: 0 <= i < |r| ==> r[i] == s[k + i];
    if NoDoubleHyphen(s) {
      NoDoubleHyphenDrop(s, k);
      NoDoubleHyphenTake(s[k..], |r|);
      assert s[k..][..|r|] == r;
    }
  }

  lemma {:induction false} NoDoubleHyphenDrop(s: string, k: nat)
    requires NoDoubleHyphen(s) && k <= |s|
    ensures NoDoubleHyphen(s[k..])
  {
    if k > 0 {
      NoDoubleHyphenDrop(s[1..], k - 1);
      assert s[1..][k - 1..] == s[k..];
    }
  }

  lemma {:induction false} NoDoubleHyphenTake(s: string, n: nat)
    requires NoDoubleHyphen(s) && n <= |s|
    ensures NoDoubleHyphen(s[..n])
  {
    if n >= 2 {
      NoDoubleHyphenTake(s[1..], n - 1);
      assert s[..n][1..] == s[1..][..n - 1];
    }
  }

  /** `replace(/-{2,}/g, '-')`: every run of hyphens becomes one hyphen. */
  function SqueezeHyphens(s: string): (r: string)
    ensures NoDoubleHyphen(r)
    ensures |s| > 0 ==> |r| > 0 && r[0] == s[0]
    ensures NoDoubleHyphen(s) ==> r == s
  {
    if |s| == 0 then ""
    else if |s| >= 2 && s[0] == '-' && s[1] == '-' then SqueezeHyphens(s[1..])
    else
      var rest := SqueezeHyphens(s[1..]);
      assert NoDoubleHyphen(s) ==> s == [s[0]] + s[1..];
      [s[0]] + rest
  }

  /** The query part of a slug (mdx.ts, the chain assigned to
      `normalizedQuery`). */
  function QueryPart(query: string): (r: string)
    ensures SlugShaped(r)
    ensures AlnumOf(r) == AlnumOf(Lower(RemoveDiacritics(query)))
  {
    var hyphenated := HyphenateRuns(Lower(RemoveDiacritics(query)));
    var trimmed := TrimHyphens(hyphenated);
    var k :| MiddleAt(hyphenated, trimmed, k);
    MiddleKeepsShape(hyphenated, trimmed, k);
    SqueezeHyphens(trimmed)
  }

  /** `replace(/[^a-z0-9-]/g, '')`. */
  function KeepSlugChars(s: string): (r: string)
    ensures SlugChars(r)
    ensures AlnumOf(r) == AlnumOf(s)
    ensures SlugChars(s) ==> r == s
  {
    if |s| == 0 then ""
    else
      var rest := KeepSlugChars(s[1..]);
      assert s == [s[0]] + s[1..];
      AlnumOfCons(s[0], s[1..]);
      if IsSlugChar(s[0]) then
        AlnumOfCons(s[0], rest);
        [s[0]] + rest
      else rest
  }

  /** The locale part of a slug: lower-cased, stripped of everything but
      letters, digits and hyphens, hyphens trimmed at both ends. Hyphen runs
      inside the locale are kept. */
  function LocalePart(locale: string): (r: string)
    ensures SlugChars(r) && NoEdgeHyphen(r)
    ensures AlnumOf(r) == AlnumOf(Lower(locale))
  {
    var kept := KeepSlugChars(Lower(locale));
    var r := TrimHyphens(kept);
    var k :| MiddleAt(kept, r, k);
    MiddleKeepsShape(kept, r, k);
    r
  }

  lemma SlugJoin(l: string, q: string)
    requires SlugChars(l) && NoEdgeHyphen(l) && SlugChars(q) && NoEdgeHyphen(q)
    requires |l| > 0 && |q| > 0
    ensures SlugChars(l + "-" + q) && NoEdgeHyphen(l + "-" + q)
  {
    var r := l + "-" + q;
    forall i | 0 <= i < |r| ensures IsSlugChar(r[i]) {
      if i < |l| { assert r[i] == l[i]; }
      else if i > |l| { assert r[i] == q[i - |l| - 1]; }
    }
  }

  /** Letters and digits alone make a slug. */
  lemma {:induction false} AlnumIsSlug(s: string)
    requires forall i :: 0 <= i < |s| ==> IsLowerAlnum(s[i])
    ensures SlugShaped(s)
  {
    if |s| >= 2 {
      assert forall i :: 0 <= i < |s| - 1 ==> s[1..][i] == s[i + 1];
      AlnumIsSlug(s[1..]);
    }
  }

  lemma FallbackIsSlug()
    ensures SlugShaped("content")
  {
    var s := "content";
    assert s[0] == 'c' && s[1] == 'o' && s[2] == 'n' && s[3] == 't' && s[4] == 'e' && s[5] == 'n' && s[6] == 't';
    forall i | 0 <= i < |s| ensures IsLowerAlnum(s[i]) {
      assert i == 0 || i == 1 || i == 2 || i == 3 || i == 4 || i == 5 || i == 6;
    }
    AlnumIsSlug(s);
  }

  /** `toSlug`: a non-empty string of letters, digits and hyphens that
      neither starts nor ends with a hyphen. A query without letters or
      digits falls back to the locale part, or to "content". */
  function ToSlug(query: string, locale: string): (r: string)
    requires IsAscii(query) && IsAscii(locale)
    ensures |r| > 0 && SlugChars(r) && NoEdgeHyphen(r)
    ensures QueryPart(query) == "" ==> r == (if LocalePart(locale) == "" then "content" else LocalePart(locale))
    ensures QueryPart(query) != "" && LocalePart(locale) != "" ==> r == LocalePart(locale) + "-" + QueryPart(query)
    ensures QueryPart(query) != "" && LocalePart(locale) == "" ==> r == QueryPart(query)
  {
    var q := QueryPart(query);
    var l := LocalePart(locale);
    FallbackIsSlug();
    if q == "" then
      if l == "" then "content" else l
    else if l == "" then q
    else
      SlugJoin(l, q);
      l + "-" + q
  }

  /** A slug-shaped string is left alone by the query normalisation. */
  lemma QueryPartFixes(s: string)
    requires SlugShaped(s)
    ensures QueryPart(s) == s
  {
    assert RemoveDiacritics(s) == s;
    assert Lower(s) == s;
    HyphenateRunsFixes(s);
  }

  /** The query part is empty exactly when the query has no letter or digit
      once lower-cased. */
  lemma QueryPartEmpty(query: string)
    ensures QueryPart(query) == "" <==> AlnumOf(Lower(RemoveDiacritics(query))) == ""
  {
    var q := QueryPart(query);
    if q != "" {
      assert q == [q[0]] + q[1..];
      AlnumOfCons(q[0], q[1..]);
    }
  }

  lemma {:induction false} AlnumOfConcat(a: string, b: string)
    ensures AlnumOf(a + b) == AlnumOf(a) + AlnumOf(b)
  {
    if |a| > 0 {
      AlnumOfConcat(a[1..], b);
      assert a + b == [a[0]] + (a[1..] + b);
      AlnumOfCons(a[0], a[1..] + b);
      assert a == [a[0]] + a[1..];
      AlnumOfCons(a[0], a[1..]);
    } else {
      assert a + b == b;
    }
  }

  /** The letters and digits of the slug are those of the locale followed by
      those of the query, in order, whenever the query has any. */
  lemma SlugKeepsLettersAndDigits(query: string, locale: string)
    requires IsAscii(query) && IsAscii(locale)
    requires QueryPart(query) != ""
    ensures AlnumOf(ToSlug(query, locale)) == AlnumOf(Lower(locale)) + AlnumOf(Lower(RemoveDiacritics(query)))
  {
    var l := LocalePart(locale);
    var q := QueryPart(query);
    if l != "" {
      AlnumOfHyphenJoin(l, q);
    } else {
      assert AlnumOf(l) == "";
    }
  }

  lemma AlnumOfHyphenJoin(l: string, q: string)
    ensures AlnumOf(l + "-" + q) == AlnumOf(l) + AlnumOf(q)
  {
    AlnumOfConcat(l, "-" + q);
    AlnumOfCons('-', q);
    assert l + "-" + q == l + ("-" + q);
  }

  lemma SlugCharsAscii(s: string)
    requires SlugChars(s)
    ensures IsAscii(s)
  {
    assert forall i :: 0 <= i < |s| ==> IsSlugChar(s[i]);
  }

  /** Slugging a slug without a locale gives it back: `toSlug` is idempotent
      when no locale is involved. */
  lemma ToSlugIdempotent(query: string)
    requires IsAscii(query)
    ensures IsAscii(ToSlug(query, ""))
    ensures ToSlug(ToSlug(query, ""), "") == ToSlug(query, "")
  {
    var r := ToSlug(query, "");
    SlugCharsAscii(r);
    assert Lower("") == "";
    assert LocalePart("") == "";
    if QueryPart(query) == "" {
      assert r == "content";
      FallbackIsSlug();
      QueryPartFixes("content");
    } else {
      QueryPartFixes(QueryPart(query));
    }
  }

  // ---------------------------------------------------------------- renderMdx

  datatype Faq = Faq(question: string, answer: string)

  const OutlineHeading: string := "## TL;DR Outline"
  const HowToHeading: string := "## How to get it done"
  const FaqHeading: string := "## FAQs"
  const ScriptOpen: string := "<script type=\"application/ld+json\">"
  const ScriptClose: string := "</script>"

  /** The intro is pushed when it is present and non-empty (a truthy string). */
  function IntroLines(intro: Option<string>): (r: seq<string>)
    ensures |r| == 0 <==> intro.None? || intro.value == ""
    ensures |r| > 0 ==> r == ["", intro.value]
  {
    if intro.Some? && intro.value != "" then ["", intro.value] else []
  }

  function OutlineLines(outline: seq<string>): (r: seq<string>)
    ensures |r| == 0 <==> |outline| == 0
    ensures |r| > 0 ==> |r| == 2 + |outline| && r[..2] == ["", OutlineHeading]
    ensures |r| > 0 ==> forall i :: 0 <= i < |outline| ==> r[2 + i] == "- " + outline[i]
  {
    if |outline| == 0 then []
    else ["", OutlineHeading] + seq(|outline|, i requires 0 <= i < |outline| => "- " + outline[i])
  }

  /** The how-to steps, numbered from 1. */
  function HowToLines(steps: seq<string>): (r: seq<string>)
    ensures |r| == 0 <==> |steps| == 0
    ensures |r| > 0 ==> |r| == 2 + |steps| && r[..2] == ["", HowToHeading]
    ensures |r| > 0 ==> forall i :: 0 <= i < |steps| ==> r[2 + i] == NatToString(i + 1) + ". " + steps[i]
  {
    if |steps| == 0 then []
    else ["", HowToHeading] + seq(|steps|, i requires 0 <= i < |steps| => NatToString(i + 1) + ". " + steps[i])
  }

  /** Each FAQ is a third-level heading, its answer and a blank line. */
  function FaqBlocks(faqs: seq<Faq>): (r: seq<string>)
    ensures |r| == 3 * |faqs|
  {
    if |faqs| == 0 then [] else ["### " + faqs[0].question, faqs[0].answer, ""] + FaqBlocks(faqs[1..])
  }

  /** The three lines of the `i`-th FAQ. */
  lemma {:induction false} FaqBlocksAt(faqs: seq<Faq>, i: nat)
    requires i < |faqs|
    ensures var r := FaqBlocks(faqs);
      r[3 * i] == "### " + faqs[i].question && r[3 * i + 1] == faqs[i].answer && r[3 * i + 2] == ""
  {
    if i > 0 {
      FaqBlocksAt(faqs[1..], i - 1);
      assert faqs[i] == faqs[1..][i - 1];
    }
  }

  function FaqLines(faqs: seq<Faq>): (r: seq<string>)
    ensures |r| == 0 <==> |faqs| == 0
    ensures |r| > 0 ==> |r| == 2 + 3 * |faqs| && r[..2] == ["", FaqHeading]
    ensures |r| > 0 ==> forall i :: 0 <= i < |faqs| ==>
      r[2 + 3 * i] == "### " + faqs[i].question && r[3 + 3 * i] == faqs[i].answer && r[4 + 3 * i] == ""
  {
    if |faqs| == 0 then []
    else
      var r := ["", FaqHeading] + FaqBlocks(faqs);
      assert forall i :: 0 <= i < |faqs| ==>
        r[2 + 3 * i] == "### " + faqs[i].question && r[3 + 3 * i] == faqs[i].answer && r[4 + 3 * i] == "" by {
        forall i | 0 <= i < |faqs|
          ensures r[2 + 3 * i] == "### " + faqs[i].question && r[3 + 3 * i] == faqs[i].answer && r[4 + 3 * i] == ""
        {
          FaqBlocksAt(faqs, i);
        }
      }
      r
  }

  const ScriptLines: seq<string> := ["", ScriptOpen]

  /** The sections of `renderMdx` before they are joined. `frontMatter` is
      the string form of the front matter and `json` is the text
      `JSON.stringify(jsonLd, null, 2)` produced. */
  function Sections(frontMatter: string, h1: string, intro: Option<string>, outline: seq<string>,
                    howToSteps: seq<string>, faqs: seq<Faq>, json: string): (r: seq<string>)
    ensures |r| == 3 + |IntroLines(intro)| + |OutlineLines(outline)| + |HowToLines(howToSteps)| + |FaqLines(faqs)| + 5
    ensures r[..3] == [Trim(frontMatter), "", "# " + h1]
    ensures r[|r| - 5..] == ["", ScriptOpen, json, ScriptClose, ""]
  {
    var head := [Trim(frontMatter), "", "# " + h1];
    var tail := ["", ScriptOpen, json, ScriptClose, ""];
    var mid := IntroLines(intro) + OutlineLines(outline) + HowToLines(howToSteps) + FaqLines(faqs);
    Seqs.Framed(head, mid, tail);
    head + mid + tail
  }

  /** `s` has no run of three line feeds. */
  predicate NoTripleNewline(s: string) {
    |s| < 3 || (!(s[0] == '\n' && s[1] == '\n' && s[2] == '\n') && NoTripleNewline(s[1..]))
  }

  /** The characters of `s` other than line feeds, in order. */
  function NonNewlines(s: string): string {
    if |s| == 0 then "" else (if s[0] == '\n' then "" else [s[0]]) + NonNewlines(s[1..])
  }

  /** `replace(/\n{3,}/g, '\n\n')`: every run of three or more line feeds
      becomes two. Only line feeds are removed, and the first two characters
      are never touched. */
  function CollapseNewlines(s: string): (r: string)
    ensures NoTripleNewline(r)
    ensures NonNewlines(r) == NonNewlines(s)
    ensures |r| <= |s|
    ensures |s| >= 1 ==> |r| >= 1 && r[0] == s[0]
    ensures |s| >= 2 ==> |r| >= 2 && r[1] == s[1]
  {
    if |s| == 0 then ""
    else if |s| >= 3 && s[0] == '\n' && s[1] == '\n' && s[2] == '\n' then
      assert NonNewlines(s) == NonNewlines(s[1..]);
      CollapseNewlines(s[1..])
    else
      var rest := CollapseNewlines(s[1..]);
      CollapseConsKept(s, rest);
      [s[0]] + rest
  }

  /** The step that keeps the first character: what the rest of the
      collapse guarantees carries over once that character is put back. */
  lemma CollapseConsKept(s: string, rest: string)
    requires |s| > 0 && !(|s| >= 3 && s[0] == '\n' && s[1] == '\n' && s[2] == '\n')
    requires NoTripleNewline(rest) && NonNewlines(rest) == NonNewlines(s[1..]) && |rest| < |s|
    requires |s| >= 2 ==> |rest| >= 1 && rest[0] == s[1]
    requires |s| >= 3 ==> |rest| >= 2 && rest[1] == s[2]
    ensures NoTripleNewline([s[0]] + rest)
    ensures NonNewlines([s[0]] + rest) == NonNewlines(s)
  {
    var r := [s[0]] + rest;
    assert r[1..] == rest;
    assert NonNewlines(r) == (if s[0] == '\n' then "" else [s[0]]) + NonNewlines(rest);
  }

  /** Text without a run of three line feeds is left alone. */
  lemma {:induction false} CollapseNoop(s: string)
    requires NoTripleNewline(s)
    ensures CollapseNewlines(s) == s
  {
    if |s| > 0 {
      CollapseNoop(s[1..]);
      assert s == [s[0]] + s[1..];
    }
  }

  /** Collapsing twice is collapsing once. */
  lemma CollapseIdempotent(s: string)
    ensures CollapseNewlines(CollapseNewlines(s)) == CollapseNewlines(s)
  {
    CollapseNoop(CollapseNewlines(s));
  }

  /** Whatever precedes `b`, the collapse of `a + b` ends with the collapse
      of `b`. */
  lemma {:induction false} CollapseSuffix(a: string, b: string)
    ensures IsSuffix(CollapseNewlines(b), CollapseNewlines(a + b))
  {
    if |a| > 0 {
      CollapseSuffix(a[1..], b);
      var s := a + b;
      assert s[1..] == a[1..] + b;
      var c := CollapseNewlines(s[1..]);
      if !(|s| >= 3 && s[0] == '\n' && s[1] == '\n' && s[2] == '\n') {
        assert CollapseNewlines(s) == [s[0]] + c;
        SuffixCons(CollapseNewlines(b), s[0], c);
      }
    } else {
      assert a + b == b;
    }
  }

  lemma SuffixCons(p: string, x: char, c: string)
    requires IsSuffix(p, c)
    ensures IsSuffix(p, [x] + c)
  {
    assert ([x] + c)[|c| + 1 - |p|..] == c[|c| - |p|..];
  }

  /** `s` starts with three line feeds. */
  predicate TripleAtStart(s: string) {
    |s| >= 3 && s[0] == '\n' && s[1] == '\n' && s[2] == '\n'
  }

  lemma CollapseDrop(s: string)
    requires TripleAtStart(s)
    ensures CollapseNewlines(s) == CollapseNewlines(s[1..])
  {
  }

  lemma CollapseKeep(s: string)
    requires |s| > 0 && !TripleAtStart(s)
    ensures CollapseNewlines(s) == [s[0]] + CollapseNewlines(s[1..])
  {
  }

  /** A piece that ends in something other than a line feed is collapsed on
      its own. */
  lemma {:induction false} CollapseConcat(a: string, b: string)
    requires |a| == 0 || a[|a| - 1] != '\n'
    ensures CollapseNewlines(a + b) == CollapseNewlines(a) + CollapseNewlines(b)
  {
    if |a| == 0 {
      assert a + b == b;
    } else {
      var ab := a + b;
      assert ab[1..] == a[1..] + b;
      CollapseConcat(a[1..], b);
      assert ab[0] == a[0];
      if |a| >= 3 {
        assert ab[1] == a[1] && ab[2] == a[2];
      } else if |a| == 2 {
        assert ab[1] == a[1];
      }
      if TripleAtStart(a) {
        assert TripleAtStart(ab);
        CollapseDrop(a);
        CollapseDrop(ab);
      } else {
        assert !TripleAtStart(ab);
        CollapseKeep(a);
        CollapseKeep(ab);
        Seqs.Associative([a[0]], CollapseNewlines(a[1..]), CollapseNewlines(b));
      }
    }
  }

  /** `renderMdx` with the front matter given as a string. */
  function RenderMdx(frontMatter: string, h1: string, intro: Option<string>, outline: seq<string>,
                     howToSteps: seq<string>, faqs: seq<Faq>, json: string): (r: string)
    ensures NoTripleNewline(r)
    ensures NonNewlines(r) == NonNewlines(Join(Sections(frontMatter, h1, intro, outline, howToSteps, faqs, json), "\n"))
  {
    CollapseNewlines(Join(Sections(frontMatter, h1, intro, outline, howToSteps, faqs, json), "\n"))
  }

  /** A line feed before text that does not start with one survives. */
  lemma CollapseAfterNewline(y: string)
    requires |y| > 0 && y[0] != '\n'
    ensures CollapseNewlines("\n" + y) == "\n" + CollapseNewlines(y)
  {
    assert ("\n" + y)[1..] == y;
  }

  /** So does a blank line. */
  lemma CollapseAfterBlankLine(y: string)
    requires |y| > 0 && y[0] != '\n'
    ensures CollapseNewlines("\n\n" + y) == "\n\n" + CollapseNewlines(y)
  {
    CollapseAfterNewline(y);
    assert ("\n\n" + y)[1..] == "\n" + y;
    assert "\n\n" + y == "\n" + ("\n" + y);
  }

  /** Text without any line feed is left alone by the collapse. */
  lemma {:induction false} CollapseNoNewline(s: string)
    requires '\n' !in s
    ensures NoTripleNewline(s) && CollapseNewlines(s) == s
  {
    if |s| > 0 {
      assert forall c :: c in s[1..] ==> c in s;
      CollapseNoNewline(s[1..]);
      assert s == [s[0]] + s[1..];
    }
  }

  /** `n` line feeds. */
  function Newlines(n: nat): (r: string)
    ensures |r| == n && forall i :: 0 <= i < n ==> r[i] == '\n'
  {
    if n == 0 then "" else "\n" + Newlines(n - 1)
  }

  /** A run of two or more line feeds at the start, before text that does
      not start with one, collapses to exactly two. */
  lemma {:induction false} CollapseRunAtStart(n: nat, y: string)
    requires n >= 2
    requires |y| == 0 || y[0] != '\n'
    ensures CollapseNewlines(Newlines(n) + y) == "\n\n" + CollapseNewlines(y)
  {
    var s := Newlines(n) + y;
    if n == 2 {
      assert Newlines(2) == "\n\n";
      if |y| == 0 {
        assert s == "\n\n";
        assert s[1..] == "\n" && s[2..] == "";
      } else {
        CollapseAfterBlankLine(y);
      }
    } else {
      assert TripleAtStart(s);
      assert s[1..] == Newlines(n - 1) + y;
      CollapseDrop(s);
      CollapseRunAtStart(n - 1, y);
    }
  }

  /** The rule of the collapse, once: between text that does not end in a
      line feed and text that does not start with one, a run of two or more
      line feeds becomes exactly two, and each side is collapsed on its
      own. */
  lemma CollapseRun(t: string, n: nat, y: string)
    requires n >= 2
    requires |t| == 0 || t[|t| - 1] != '\n'
    requires |y| == 0 || y[0] != '\n'
    ensures CollapseNewlines(t + Newlines(n) + y) == CollapseNewlines(t) + "\n\n" + CollapseNewlines(y)
  {
    Seqs.Associative(t, Newlines(n), y);
    CollapseConcat(t, Newlines(n) + y);
    CollapseRunAtStart(n, y);
    Seqs.Associative(CollapseNewlines(t), "\n\n", CollapseNewlines(y));
  }

  lemma JoinOpening(x: string, y: string, z: string, rest: seq<string>, sep: string)
    requires |rest| > 0
    ensures Join([x, y, z] + rest, sep) == x + (sep + (y + (sep + (z + (sep + Join(rest, sep))))))
  {
    assert [x, y, z] + rest == [x] + ([y] + ([z] + rest));
    JoinCons(z, rest, sep);
    JoinCons(y, [z] + rest, sep);
    JoinCons(x, [y] + ([z] + rest), sep);
  }

  lemma CollapseSplitsAt(t: string, y: string)
    requires |t| == 0 || t[|t| - 1] != '\n'
    ensures CollapseNewlines(t + ("\n\n" + y)) == CollapseNewlines(t) + CollapseNewlines("\n\n" + y)
  {
    CollapseConcat(t, "\n\n" + y);
  }

  lemma HeadingKept(h1: string, rest: string)
    ensures var c := CollapseNewlines(("# " + h1) + rest); |c| >= 2 && c[0] == '#' && c[1] == ' '
  {
  }

  lemma PrefixOfBlankLine(a: string, c: string)
    requires |c| > 1 && c[0] == '#' && c[1] == ' '
    ensures IsPrefix(a + "\n\n# ", a + ("\n\n" + c))
  {
    var r := a + ("\n\n" + c);
    assert r[..|a| + 4] == a + "\n\n# ";
  }

  lemma BlankLineForm(y: string)
    ensures "\n" + ("" + ("\n" + y)) == "\n\n" + y
  {
  }

  /** Text that does not end in a line feed, then a blank line and `# `,
      keeps that opening through the collapse. */
  lemma CollapseOpening(t: string, h1: string, rest: string)
    requires |t| == 0 || t[|t| - 1] != '\n'
    ensures IsPrefix(CollapseNewlines(t) + "\n\n# ",
                     CollapseNewlines(t + ("\n" + ("" + ("\n" + (("# " + h1) + rest))))))
  {
    var y := ("# " + h1) + rest;
    BlankLineForm(y);
    CollapseSplitsAt(t, y);
    HeadingKept(h1, rest);
    CollapseAfterBlankLine(y);
    PrefixOfBlankLine(CollapseNewlines(t), CollapseNewlines(y));
  }

  /** The page opens with the trimmed front matter, a blank line and the
      `# ` of the title. */
  lemma RenderMdxStart(frontMatter: string, h1: string, intro: Option<string>, outline: seq<string>,
                       howToSteps: seq<string>, faqs: seq<Faq>, json: string)
    ensures IsPrefix(CollapseNewlines(Trim(frontMatter)) + "\n\n# ",
                     RenderMdx(frontMatter, h1, intro, outline, howToSteps, faqs, json))
  {
    var s := Sections(frontMatter, h1, intro, outline, howToSteps, faqs, json);
    var t := Trim(frontMatter);
    assert s == [t, "", "# " + h1] + s[3..];
    JoinOpening(t, "", "# " + h1, s[3..], "\n");
    CollapseOpening(t, h1, "\n" + Join(s[3..], "\n"));
  }

  /** A heading line without line feeds is kept as it is. */
  lemma HeadingCollapse(h1: string, rest: string)
    requires '\n' !in h1
    ensures CollapseNewlines(("# " + h1) + rest) == ("# " + h1) + CollapseNewlines(rest)
  {
    var heading := "# " + h1;
    assert forall c :: c in heading ==> c == '#' || c == ' ' || c in h1;
    CollapseNoNewline(heading);
    CollapseConcat(heading, rest);
  }

  lemma HeadingOpening(t: string, h1: string, rest: string)
    requires |t| == 0 || t[|t| - 1] != '\n'
    requires '\n' !in h1
    ensures IsPrefix(CollapseNewlines(t) + "\n\n# " + h1,
                     CollapseNewlines(t + ("\n" + ("" + ("\n" + (("# " + h1) + rest))))))
  {
    var y := ("# " + h1) + rest;
    BlankLineForm(y);
    CollapseSplitsAt(t, y);
    CollapseAfterBlankLine(y);
    HeadingCollapse(h1, rest);
    HeadingPrefix(CollapseNewlines(t), h1, CollapseNewlines(rest));
  }

  lemma HeadingPrefix(a: string, h1: string, x: string)
    ensures IsPrefix(a + "\n\n# " + h1, a + ("\n\n" + (("# " + h1) + x)))
  {
    var p := a + "\n\n# " + h1;
    assert a + ("\n\n" + (("# " + h1) + x)) == p + x;
    assert (p + x)[..|p|] == p;
  }

  /** What follows the heading line in the joined sections. */
  function AfterHeading(frontMatter: string, h1: string, intro: Option<string>, outline: seq<string>,
                        howToSteps: seq<string>, faqs: seq<Faq>, json: string): string {
    "\n" + Join(Sections(frontMatter, h1, intro, outline, howToSteps, faqs, json)[3..], "\n")
  }

  /** The rendered page is the collapse of the trimmed front matter, a blank
      line, the heading line and what follows it. */
  lemma RenderMdxForm(frontMatter: string, h1: string, intro: Option<string>, outline: seq<string>,
                      howToSteps: seq<string>, faqs: seq<Faq>, json: string)
    ensures RenderMdx(frontMatter, h1, intro, outline, howToSteps, faqs, json)
      == CollapseNewlines(Trim(frontMatter) + ("\n" + ("" + ("\n" + (("# " + h1)
           + AfterHeading(frontMatter, h1, intro, outline, howToSteps, faqs, json))))))
  {
    var s := Sections(frontMatter, h1, intro, outline, howToSteps, faqs, json);
    assert s == [Trim(frontMatter), "", "# " + h1] + s[3..];
    JoinOpening(Trim(frontMatter), "", "# " + h1, s[3..], "\n");
  }

  /** A heading without line feeds follows that opening whole. */
  lemma RenderMdxHeading(frontMatter: string, h1: string, intro: Option<string>, outline: seq<string>,
                         howToSteps: seq<string>, faqs: seq<Faq>, json: string)
    requires '\n' !in h1
    ensures IsPrefix(CollapseNewlines(Trim(frontMatter)) + "\n\n# " + h1,
                     RenderMdx(frontMatter, h1, intro, outline, howToSteps, faqs, json))
  {
    RenderMdxForm(frontMatter, h1, intro, outline, howToSteps, faqs, json);
    HeadingOpening(Trim(frontMatter), h1, AfterHeading(frontMatter, h1, intro, outline, howToSteps, faqs, json));
  }

  /** The JSON-LD script element that closes the page, after a blank line. */
  function ScriptTail(json: string): string {
    Enclosed(ScriptOpen, json, ScriptClose)
  }

  /** A blank line, `open`, `body` and `close` on lines of their own, and a
      final line feed. */
  function Enclosed(open: string, body: string, close: string): string {
    "\n\n" + (open + ("\n" + (body + ("\n" + (close + "\n")))))
  }

  lemma JoinFiveLines(open: string, body: string, close: string)
    ensures Join(["", open, body, close, ""], "\n") == "\n" + (open + ("\n" + (body + ("\n" + (close + "\n")))))
  {
    JoinCons(close, [""], "\n");
    assert [body, close, ""] == [body] + [close, ""];
    JoinCons(body, [close, ""], "\n");
    assert [open, body, close, ""] == [open] + [body, close, ""];
    JoinCons(open, [body, close, ""], "\n");
    assert ["", open, body, close, ""] == [""] + [open, body, close, ""];
    JoinCons("", [open, body, close, ""], "\n");
  }

  lemma NewlineRegroup(a: string, t: string)
    ensures a + "\n" + ("\n" + t) == a + ("\n\n" + t)
  {
  }

  lemma JoinEnclosed(head: seq<string>, open: string, body: string, close: string)
    requires |head| > 0
    ensures Join(head + ["", open, body, close, ""], "\n") == Join(head, "\n") + Enclosed(open, body, close)
  {
    JoinAppend(head, ["", open, body, close, ""], "\n");
    JoinFiveLines(open, body, close);
    NewlineRegroup(Join(head, "\n"), open + ("\n" + (body + ("\n" + (close + "\n")))));
  }

  lemma CollapseLine(body: string, close: string)
    requires |body| > 0 && body[|body| - 1] != '\n'
    requires |close| > 0 && close[0] != '\n' && '\n' !in close
    ensures CollapseNewlines(body + ("\n" + (close + "\n"))) == CollapseNewlines(body) + ("\n" + (close + "\n"))
  {
    CollapseNoNewline(close);
    CollapseConcat(close, "\n");
    assert CollapseNewlines("\n") == "\n";
    CollapseConcat(body, "\n" + (close + "\n"));
    CollapseAfterNewline(close + "\n");
  }

  /** Lines without line feeds of their own keep their shape through the
      collapse around a body that neither starts nor ends with one. */
  lemma CollapseEnclosed(open: string, body: string, close: string)
    requires |open| > 0 && '\n' !in open
    requires |close| > 0 && '\n' !in close
    requires |body| > 0 && body[0] != '\n' && body[|body| - 1] != '\n'
    ensures CollapseNewlines(Enclosed(open, body, close)) == Enclosed(open, CollapseNewlines(body), close)
  {
    assert close[0] in close && open[|open| - 1] in open;
    var t3 := body + ("\n" + (close + "\n"));
    CollapseLine(body, close);
    CollapseAfterNewline(t3);
    CollapseNoNewline(open);
    CollapseConcat(open, "\n" + t3);
    var t2 := open + ("\n" + t3);
    assert open[0] in open;
    CollapseAfterBlankLine(t2);
  }

  lemma SplitLast<T>(s: seq<T>, n: nat)
    requires n <= |s|
    ensures s == s[..|s| - n] + s[|s| - n..]
  {
  }

  lemma ScriptTagsOnOneLine()
    ensures |ScriptOpen| > 0 && '\n' !in ScriptOpen
    ensures |ScriptClose| > 0 && '\n' !in ScriptClose
  {
  }

  lemma SectionsJoinedEnd(frontMatter: string, h1: string, intro: Option<string>, outline: seq<string>,
                           howToSteps: seq<string>, faqs: seq<Faq>, json: string)
    ensures var s := Sections(frontMatter, h1, intro, outline, howToSteps, faqs, json);
      Join(s, "\n") == Join(s[..|s| - 5], "\n") + ScriptTail(json)
  {
    var s := Sections(frontMatter, h1, intro, outline, howToSteps, faqs, json);
    SplitLast(s, 5);
    JoinEnclosed(s[..|s| - 5], ScriptOpen, json, ScriptClose);
  }

  lemma CollapseEndsWithScript(head: string, json: string)
    requires |json| > 0 && json[0] != '\n' && json[|json| - 1] != '\n'
    ensures IsSuffix(ScriptTail(CollapseNewlines(json)), CollapseNewlines(head + ScriptTail(json)))
  {
    CollapseSuffix(head, ScriptTail(json));
    ScriptTagsOnOneLine();
    CollapseEnclosed(ScriptOpen, json, ScriptClose);
  }

  /** The page closes with a blank line, the JSON-LD script element and a
      final line feed, whenever the JSON text neither starts nor ends with a
      line feed (true of any `JSON.stringify` output). */
  lemma RenderMdxEnd(frontMatter: string, h1: string, intro: Option<string>, outline: seq<string>,
                     howToSteps: seq<string>, faqs: seq<Faq>, json: string)
    requires |json| > 0 && json[0] != '\n' && json[|json| - 1] != '\n'
    ensures IsSuffix(ScriptTail(CollapseNewlines(json)), RenderMdx(frontMatter, h1, intro, outline, howToSteps, faqs, json))
  {
    var s := Sections(frontMatter, h1, intro, outline, howToSteps, faqs, json);
    SectionsJoinedEnd(frontMatter, h1, intro, outline, howToSteps, faqs, json);
    CollapseEndsWithScript(Join(s[..|s| - 5], "\n"), json);
  }
}

=== FILE: models.dfy ===
/** The coaching app's value records (objectives with key results, action
    items, one-on-one meetings, personal log entries), their two raw-valued
    enumerations and the derived progress metrics.

    Numbers the app keeps as `Double` are `real` here, so NaN and the
    infinities do not arise. A `Date` is an instant in whole seconds on a UTC
    time line; `DayOf` stands for the calendar's start-of-day. */
module Models {
  import opened Wrappers
  import Seqs

  type Uuid = nat
  type Date = int

  const SecondsPerDay: int := 86400

  /** The calendar day holding instant `d` (UTC stand-in for `startOfDay`). */
  function DayOf(d: Date): (day: int)
    ensures day * SecondsPerDay <= d < (day + 1) * SecondsPerDay
  {
    d / SecondsPerDay
  }

  lemma DayOfMonotone(a: Date, b: Date)
    requires a <= b
    ensures DayOf(a) <= DayOf(b)
  {
  }

  // ---------------------------------------------------------------- enumerations

  datatype ActionItemStatus = Pending | InProgress | Completed

  /** The Swift raw value of each status case: its case name. */
  function StatusRaw(s: ActionItemStatus): string {
    match s
    case Pending => "pending"
    case InProgress => "inProgress"
    case Completed => "completed"
  }

  /** `ActionItemStatus(rawValue:)`: the case whose raw value is `raw`, if any. */
  function StatusFromRaw(raw: string): (r: Option<ActionItemStatus>)
    ensures r.Some? ==> StatusRaw(r.value) == raw
    ensures forall s :: StatusRaw(s) == raw ==> r == Some(s)
  {
    if raw == "pending" then Some(Pending)
    else if raw == "inProgress" then Some(InProgress)
    else if raw == "completed" then Some(Completed)
    else None
  }

  /** `ActionItemStatus.allCases`, in declaration order. */
  const AllStatuses: seq<ActionItemStatus> := [Pending, InProgress, Completed]

  /** Exactly three cases, each listed once, with three distinct raw values. */
  lemma StatusCases()
    ensures |AllStatuses| == 3
    ensures forall s :: s in AllStatuses
    ensures forall i, j :: 0 <= i < j < |AllStatuses| ==> StatusRaw(AllStatuses[i]) != StatusRaw(AllStatuses[j])
  {
    forall s ensures s in AllStatuses {
      match s
      case Pending =>
      case InProgress =>
      case Completed =>
    }
  }

  datatype ReminderFrequency = Daily | EveryOtherDay | Weekly

  function FrequencyRaw(f: ReminderFrequency): string {
    match f
    case Daily => "daily"
    case EveryOtherDay => "everyOtherDay"
    case Weekly => "weekly"
  }

  /** `ReminderFrequency(rawValue:)`. */
  function FrequencyFromRaw(raw: string): (r: Option<ReminderFrequency>)
    ensures r.Some? ==> FrequencyRaw(r.value) == raw
    ensures forall f :: FrequencyRaw(f) == raw ==> r == Some(f)
  {
    if raw == "daily" then Some(Daily)
    else if raw == "everyOtherDay" then Some(EveryOtherDay)
    else if raw == "weekly" then Some(Weekly)
    else None
  }

  /** `ReminderFrequency.allCases`, in declaration order. */
  const AllFrequencies: seq<ReminderFrequency> := [Daily, EveryOtherDay, Weekly]

  lemma FrequencyCases()
    ensures |AllFrequencies| == 3
    ensures forall f :: f in AllFrequencies
    ensures forall i, j :: 0 <= i < j < |AllFrequencies| ==> FrequencyRaw(AllFrequencies[i]) != FrequencyRaw(AllFrequencies[j])
  {
    forall f ensures f in AllFrequencies {
      match f
      case Daily =>
      case EveryOtherDay =>
      case Weekly =>
    }
  }

  // ---------------------------------------------------------------- records

  datatype KeyResult = KeyResult(
    id: Uuid,
    title: string,
    detail: Option<string>,
    targetValue: real,
    currentValue: real,
    unit: string,
    createdAt: Date,
    updatedAt: Date)

  datatype ActionItem = ActionItem(
    id: Uuid,
    title: string,
    detail: Option<string>,
    dueDate: Option<Date>,
    ownerName: Option<string>,
    status: ActionItemStatus,
    createdAt: Date,
    updatedAt: Date,
    objectiveID: Option<Uuid>,
    oneOnOneID: Option<Uuid>,
    personalLogID: Option<Uuid>)

  datatype OneOnOneMeeting = OneOnOneMeeting(
    id: Uuid,
    meetingDate: Date,
    counterpartName: string,
    counterpartRole: Option<string>,
    notes: Option<string>,
    audioFilePath: Option<string>,
    transcriptFilePath: Option<string>,
    actionItems: seq<ActionItem>)

  datatype PersonalLogEntry = PersonalLogEntry(
    id: Uuid,
    entryDate: Date,
    plannedWork: string,
    reflection: Option<string>,
    moodScore: real,
    reminderFrequency: ReminderFrequency,
    objectiveID: Option<Uuid>,
    actionItems: seq<ActionItem>)

  datatype Objective = Objective(
    id: Uuid,
    title: string,
    detail: Option<string>,
    startDate: Date,
    endDate: Date,
    keyResults: seq<KeyResult>,
    actionItems: seq<ActionItem>,
    personalLogs: seq<PersonalLogEntry>)

  datatype AnalyticsSnapshot = AnalyticsSnapshot(
    objectiveProgress: seq<Objective>,
    completedActionItems: int,
    pendingActionItems: int,
    reflectionStreak: int)

  function ObjectiveId(o: Objective): Uuid { o.id }
  function KeyResultId(k: KeyResult): Uuid { k.id }
  function ActionItemId(a: ActionItem): Uuid { a.id }
  function MeetingId(m: OneOnOneMeeting): Uuid { m.id }
  function LogId(l: PersonalLogEntry): Uuid { l.id }

  // ---------------------------------------------------------------- initialisers

  /** `ActionItem(title:)` with every defaulted argument left out. The two
      `Date()` defaults are separate clock reads. */
  function NewActionItem(id: Uuid, title: string, createdNow: Date, updatedNow: Date): (a: ActionItem)
    ensures a.id == id && a.title == title
    ensures a.status == Pending
    ensures a.createdAt == createdNow && a.updatedAt == updatedNow
    ensures a.detail.None? && a.dueDate.None? && a.ownerName.None?
    ensures a.objectiveID.None? && a.oneOnOneID.None? && a.personalLogID.None?
  {
    ActionItem(id, title, None, None, None, Pending, createdNow, updatedNow, None, None, None)
  }

  /** `PersonalLogEntry(entryDate:plannedWork:)` with every defaulted argument left out. */
  function NewPersonalLogEntry(id: Uuid, entryDate: Date, plannedWork: string): (e: PersonalLogEntry)
    ensures e.id == id && e.entryDate == entryDate && e.plannedWork == plannedWork
    ensures e.moodScore == 0.0
    ensures e.reminderFrequency == Daily
    ensures e.reflection.None? && e.objectiveID.None? && e.actionItems == []
  {
    PersonalLogEntry(id, entryDate, plannedWork, None, 0.0, Daily, None, [])
  }

  /** `Objective(title:startDate:endDate:)` with every defaulted argument left out. */
  function NewObjective(id: Uuid, title: string, startDate: Date, endDate: Date): (o: Objective)
    ensures o.id == id && o.title == title && o.startDate == startDate && o.endDate == endDate
    ensures o.detail.None? && o.keyResults == [] && o.actionItems == [] && o.personalLogs == []
  {
    Objective(id, title, None, startDate, endDate, [], [], [])
  }

  // ---------------------------------------------------------------- derived metrics

  /** `min(max(x, 0), 1)`. */
  function Clamp01(x: real): (r: real)
    ensures 0.0 <= r <= 1.0
    ensures 0.0 <= x <= 1.0 ==> r == x
    ensures x < 0.0 ==> r == 0.0
    ensures x > 1.0 ==> r == 1.0
  {
    if x < 0.0 then 0.0 else if x > 1.0 then 1.0 else x
  }

  /** `KeyResult.progress`: the share of the target reached, held in [0, 1];
      0 for a zero target. */
  function Progress(k: KeyResult): (p: real)
    ensures 0.0 <= p <= 1.0
    ensures k.targetValue == 0.0 ==> p == 0.0
    ensures k.targetValue != 0.0 && 0.0 <= k.currentValue / k.targetValue <= 1.0
      ==> p == k.currentValue / k.targetValue
  {
    if k.targetValue == 0.0 then 0.0 else Clamp01(k.currentValue / k.targetValue)
  }

  /** Sum of the key results' progress values (the `reduce` in `completion`). */
  function SumProgress(krs: seq<KeyResult>): real {
    if |krs| == 0 then 0.0 else Progress(krs[0]) + SumProgress(krs[1..])
  }

  /** Each term lies in [0, 1], so the sum lies in [0, n]. */
  lemma {:induction false} SumProgressBounds(krs: seq<KeyResult>)
    ensures 0.0 <= SumProgress(krs) <= |krs| as real
  {
    if |krs| > 0 {
      SumProgressBounds(krs[1..]);
    }
  }

  /** `Objective.completion`: the mean progress of the key results, clamped to
      [0, 1]; 0 with no key results. Because every progress value is already in
      [0, 1] the clamp never changes the mean. */
  function Completion(o: Objective): (c: real)
    ensures 0.0 <= c <= 1.0
    ensures |o.keyResults| == 0 ==> c == 0.0
    ensures |o.keyResults| > 0 ==> c == SumProgress(o.keyResults) / (|o.keyResults| as real)
  {
    if |o.keyResults| == 0 then 0.0
    else
      var n := |o.keyResults| as real;
      SumProgressBounds(o.keyResults);
      assert 0.0 <= SumProgress(o.keyResults) / n <= 1.0;
      Clamp01(SumProgress(o.keyResults) / n)
  }

  /** With a single key result the completion is that key result's progress. */
  lemma CompletionOfSingle(o: Objective)
    requires |o.keyResults| == 1
    ensures Completion(o) == Progress(o.keyResults[0])
  {
    assert SumProgress(o.keyResults[1..]) == 0.0;
  }
}

=== FILE: objective_use_cases.dfy ===
/** The objective use cases: create and fetch delegate to the repository;
    the key-result progress update looks the objective and the key result up
    by id, stores the clamped value and writes the objective back. The use
    case computes the objective to write; `UpdateInMemory` runs it against the
    in-memory repository. The wall clock (`Date()`) is the parameter `now`. */
module ObjectiveUseCases {
  import opened Wrappers
  import opened Models
  import opened Repositories
  import opened Seqs
  import InMemory

  /** The stored value for a requested progress fraction:
      `min(max(progress * target, 0), target)`. */
  function ClampedValue(progress: real, target: real): (v: real)
    ensures target >= 0.0 ==> 0.0 <= v <= target
    ensures target < 0.0 ==> v == target
    ensures target >= 0.0 && 0.0 <= progress <= 1.0 ==> v == progress * target
    ensures target >= 0.0 && progress >= 1.0 ==> v == target
    ensures target >= 0.0 && progress <= 0.0 ==> v == 0.0
  {
    var scaled := progress * target;
    ScaleMonotone(progress, 1.0, target);
    ScaleMonotone(0.0, progress, target);
    var floored := if scaled < 0.0 then 0.0 else scaled;
    if target < floored then target else floored
  }

  lemma ScaleMonotone(a: real, b: real, t: real)
    ensures t >= 0.0 && a <= b ==> a * t <= b * t
  {
  }

  /** Read back through `KeyResult.progress`, the stored value is the
      requested fraction clamped to [0, 1], whenever the target is positive. */
  lemma {:induction false} ProgressAfterClamp(k: KeyResult, progress: real)
    requires k.targetValue > 0.0
    ensures Progress(k.(currentValue := ClampedValue(progress, k.targetValue))) == Clamp01(progress)
  {
    var t := k.targetValue;
    var v := ClampedValue(progress, t);
    if progress < 0.0 {
      assert v == 0.0;
    } else if progress > 1.0 {
      assert v / t == 1.0;
    } else {
      assert v == progress * t;
      assert v / t == progress;
    }
  }

  /** The key result `k` with the new progress applied at time `now`. */
  function SetProgress(k: KeyResult, progress: real, now: Date): (r: KeyResult)
    ensures r.id == k.id && r.title == k.title && r.detail == k.detail && r.unit == k.unit
    ensures r.targetValue == k.targetValue && r.createdAt == k.createdAt && r.updatedAt == now
    ensures k.targetValue >= 0.0 ==> 0.0 <= r.currentValue <= k.targetValue
    ensures k.targetValue >= 0.0 && 0.0 <= progress <= 1.0 ==> r.currentValue == progress * k.targetValue
  {
    k.(currentValue := ClampedValue(progress, k.targetValue), updatedAt := now)
  }

  /** The second lookup of the use case: within one objective, the first key
      result with the id gets the new value; `missingEntity` when none has it. */
  function UpdateKeyResultIn(o: Objective, keyResultID: Uuid, progress: real, now: Date)
    : (r: Result<Objective, RepositoryError>)
    ensures r.Err? <==> !HasKey(o.keyResults, KeyResultId, keyResultID)
    ensures r.Ok? ==> exists i ::
      (FirstMatch(o.keyResults, KeyResultId, keyResultID, i)
       && r.value == o.(keyResults := o.keyResults[i := SetProgress(o.keyResults[i], progress, now)]))
  {
    match FirstIndex(o.keyResults, KeyResultId, keyResultID)
    case None => Err(MissingEntity)
    case Some(i) =>
      assert FirstMatch(o.keyResults, KeyResultId, keyResultID, i);
      Ok(o.(keyResults := o.keyResults[i := SetProgress(o.keyResults[i], progress, now)]))
  }

  /** `UpdateKeyResultProgressUseCaseImpl.execute` up to the final write: the
      objective to hand to `updateObjective`, computed from the fetched list. */
  function UpdateKeyResultProgress(objectives: seq<Objective>, objectiveID: Uuid, keyResultID: Uuid,
                                   progress: real, now: Date): (r: Result<Objective, RepositoryError>)
    ensures !HasKey(objectives, ObjectiveId, objectiveID) ==> r == Err(MissingEntity)
    ensures HasKey(objectives, ObjectiveId, objectiveID) ==> exists i ::
      FirstMatch(objectives, ObjectiveId, objectiveID, i)
      && r == UpdateKeyResultIn(objectives[i], keyResultID, progress, now)
  {
    match FirstIndex(objectives, ObjectiveId, objectiveID)
    case None => Err(MissingEntity)
    case Some(i) =>
      assert FirstMatch(objectives, ObjectiveId, objectiveID, i);
      UpdateKeyResultIn(objectives[i], keyResultID, progress, now)
  }

  /** The objective written back differs from the stored one in exactly one
      key result: same id, same other fields, same key-result count, the
      addressed key result carries the clamped value and `now`, every other
      key result is untouched. */
  lemma UpdateChangesOnlyTheKeyResult(objectives: seq<Objective>, objectiveID: Uuid, keyResultID: Uuid,
                                      progress: real, now: Date)
    requires UpdateKeyResultProgress(objectives, objectiveID, keyResultID, progress, now).Ok?
    ensures var w := UpdateKeyResultProgress(objectives, objectiveID, keyResultID, progress, now).value;
      exists i, j ::
        FirstMatch(objectives, ObjectiveId, objectiveID, i)
        && FirstMatch(objectives[i].keyResults, KeyResultId, keyResultID, j)
        && w.id == objectiveID && w.title == objectives[i].title
        && w.actionItems == objectives[i].actionItems && w.personalLogs == objectives[i].personalLogs
        && |w.keyResults| == |objectives[i].keyResults|
        && w.keyResults[j].id == keyResultID
        && w.keyResults[j].currentValue == ClampedValue(progress, objectives[i].keyResults[j].targetValue)
        && w.keyResults[j].updatedAt == now
        && (forall m :: 0 <= m < |w.keyResults| && m != j ==> w.keyResults[m] == objectives[i].keyResults[m])
  {
    var i :| FirstMatch(objectives, ObjectiveId, objectiveID, i)
      && UpdateKeyResultProgress(objectives, objectiveID, keyResultID, progress, now)
         == UpdateKeyResultIn(objectives[i], keyResultID, progress, now);
    var o := objectives[i];
    var j :| FirstMatch(o.keyResults, KeyResultId, keyResultID, j)
      && UpdateKeyResultIn(o, keyResultID, progress, now).value
         == o.(keyResults := o.keyResults[j := SetProgress(o.keyResults[j], progress, now)]);
    var w := UpdateKeyResultProgress(objectives, objectiveID, keyResultID, progress, now).value;
    assert w.keyResults[j].id == keyResultID;
    assert forall m :: 0 <= m < |w.keyResults| && m != j ==> w.keyResults[m] == o.keyResults[m];
  }

  /** The whole use case against the in-memory repository: fetch, compute,
      then `updateObjective`. A failed lookup leaves the storage as it was. */
  function UpdateInMemory(storage: seq<Objective>, objectiveID: Uuid, keyResultID: Uuid,
                          progress: real, now: Date): (r: Result<seq<Objective>, RepositoryError>)
    ensures r.Err? <==> UpdateKeyResultProgress(storage, objectiveID, keyResultID, progress, now).Err?
    ensures r.Ok? ==> exists i ::
      (FirstMatch(storage, ObjectiveId, objectiveID, i)
       && r.value == storage[i := UpdateKeyResultProgress(storage, objectiveID, keyResultID, progress, now).value])
  {
    var w :- UpdateKeyResultProgress(storage, objectiveID, keyResultID, progress, now);
    var i :| FirstMatch(storage, ObjectiveId, objectiveID, i)
      && Ok(w) == UpdateKeyResultIn(storage[i], keyResultID, progress, now);
    assert ObjectiveId(w) == objectiveID;
    var written := InMemory.ReplaceFirst(storage, w, ObjectiveId);
    assert written.Ok?;
    var i' :| FirstMatch(storage, ObjectiveId, objectiveID, i') && written.value == storage[i' := w];
    FirstMatchUnique(storage, ObjectiveId, objectiveID, i, i');
    written
  }

  /** The objective test case: a key result at 10 of 100 asked for progress
      1.5 stores 100, the target. */
  lemma ClampsToTarget(now: Date)
    ensures var kr := KeyResult(2, "Adoption", None, 100.0, 10.0, "%", 0, 0);
      var stored := [Objective(1, "Grow", None, 0, 0, [kr], [], [])];
      var r := UpdateInMemory(stored, 1, 2, 1.5, now);
      r.Ok? && |r.value| == 1 && r.value[0].keyResults[0].currentValue == 100.0
  {
    var kr := KeyResult(2, "Adoption", None, 100.0, 10.0, "%", 0, 0);
    var stored := [Objective(1, "Grow", None, 0, 0, [kr], [], [])];
    assert FirstMatch(stored, ObjectiveId, 1, 0);
    assert FirstMatch(stored[0].keyResults, KeyResultId, 2, 0);
    UpdateChangesOnlyTheKeyResult(stored, 1, 2, 1.5, now);
  }

  /** `CreateObjectiveUseCaseImpl` then `FetchObjectivesUseCaseImpl` on a
      fresh in-memory repository: exactly the created objective comes back. */
  lemma CreateThenFetch(o: Objective)
    ensures var fetched := InMemory.Append([], o);
      |fetched| == 1 && fetched[0] == o && fetched[0].title == o.title
  {
  }
}

=== FILE: persistent_schema.dfy ===
/** The persistent-store schema as the stack declares it: the entities, the
    ten relationships with their delete rules, inverses and cardinalities, and
    the store key handed to the encrypted SQLite store as a hex blob literal. */
module PersistentSchema {
  import opened Wrappers

  datatype Entity =
    | ObjectiveEntity
    | KeyResultEntity
    | ActionItemEntity
    | OneOnOneEntity
    | PersonalLogEntity
    | UserProfileEntity

  datatype DeleteRule = Nullify | Cascade

  /** A relationship description, owned by the entity `source`. */
  datatype Relationship = Relationship(
    name: string,
    source: Entity,
    destination: Entity,
    toMany: bool,
    deleteRule: DeleteRule,
    minCount: nat,
    maxCount: nat,
    isOptional: bool)

  /** `makeRelationship`: optional, at least zero, at most one for a to-one
      relationship and unbounded (`maxCount` 0) for a to-many one. */
  function MakeRelationship(name: string, source: Entity, destination: Entity, toMany: bool, rule: DeleteRule)
    : (r: Relationship)
    ensures r.name == name && r.source == source && r.destination == destination
    ensures r.toMany == toMany && r.deleteRule == rule
    ensures r.isOptional && r.minCount == 0
    ensures r.maxCount == (if toMany then 0 else 1)
  {
    Relationship(name, source, destination, toMany, rule, 0, if toMany then 0 else 1, true)
  }

  /** The relationships of `makeModel`, in declaration order; the relationship
      at an even index and the one after it are each other's inverse. */
  const Relationships: seq<Relationship> := [
    MakeRelationship("keyResults", ObjectiveEntity, KeyResultEntity, true, Cascade),
    MakeRelationship("objective", KeyResultEntity, ObjectiveEntity, false, Nullify),
    MakeRelationship("actionItems", ObjectiveEntity, ActionItemEntity, true, Nullify),
    MakeRelationship("objective", ActionItemEntity, ObjectiveEntity, false, Nullify),
    MakeRelationship("actionItems", OneOnOneEntity, ActionItemEntity, true, Cascade),
    MakeRelationship("oneOnOne", ActionItemEntity, OneOnOneEntity, false, Nullify),
    MakeRelationship("actionItems", PersonalLogEntity, ActionItemEntity, true, Nullify),
    MakeRelationship("personalLog", ActionItemEntity, PersonalLogEntity, false, Nullify),
    MakeRelationship("personalLogs", ObjectiveEntity, PersonalLogEntity, true, Nullify),
    MakeRelationship("objective", PersonalLogEntity, ObjectiveEntity, false, Nullify)
  ]

  /** Index of the inverse of relationship `i`. */
  function InverseOf(i: nat): nat {
    if i % 2 == 0 then i + 1 else i - 1
  }

  /** Every relationship has an inverse that points back at it, runs the other
      way between the same two entities, and exactly one side of each pair is
      to-many. */
  lemma InversesAreMutual()
    ensures |Relationships| == 10
    ensures forall i :: 0 <= i < |Relationships| ==>
      var j := InverseOf(i);
      j < |Relationships| && InverseOf(j) == i
      && Relationships[j].source == Relationships[i].destination
      && Relationships[j].destination == Relationships[i].source
      && Relationships[j].toMany != Relationships[i].toMany
  {
  }

  /** Every relationship is optional with `minCount` 0; to-one ones have
      `maxCount` 1 and to-many ones are unbounded. */
  lemma CardinalitiesOfAll()
    ensures forall i :: 0 <= i < |Relationships| ==>
      Relationships[i].isOptional && Relationships[i].minCount == 0
      && (Relationships[i].toMany <==> Relationships[i].maxCount == 0)
      && (!Relationships[i].toMany <==> Relationships[i].maxCount == 1)
  {
  }

  /** The entities whose instances are deleted with an instance of `e`. */
  function CascadesFrom(e: Entity): (r: set<Entity>)
    ensures forall i :: (0 <= i < |Relationships| && Relationships[i].source == e
                         && Relationships[i].deleteRule == Cascade) ==> Relationships[i].destination in r
    ensures forall d :: d in r ==> exists i :: (0 <= i < |Relationships| && Relationships[i].source == e
      && Relationships[i].deleteRule == Cascade && Relationships[i].destination == d)
  {
    set i | 0 <= i < |Relationships| && Relationships[i].source == e && Relationships[i].deleteRule == Cascade
      :: Relationships[i].destination
  }

  /** The relationships of `e` that are only cleared when an instance of `e`
      is deleted. */
  function NullifiedFrom(e: Entity): (r: set<string>)
    ensures forall i :: (0 <= i < |Relationships| && Relationships[i].source == e
                         && Relationships[i].deleteRule == Nullify) ==> Relationships[i].name in r
    ensures forall n :: n in r ==> exists i :: (0 <= i < |Relationships| && Relationships[i].source == e
      && Relationships[i].deleteRule == Nullify && Relationships[i].name == n)
  {
    set i | 0 <= i < |Relationships| && Relationships[i].source == e && Relationships[i].deleteRule == Nullify
      :: Relationships[i].name
  }

  /** The delete-rule graph: an objective takes its key results with it and
      only unlinks its action items and logs; a meeting takes its action items
      with it; a log only unlinks its action items; deleting a key result or
      an action item deletes nothing else. */
  lemma DeleteRuleGraph()
    ensures CascadesFrom(ObjectiveEntity) == {KeyResultEntity}
    ensures NullifiedFrom(ObjectiveEntity) == {"actionItems", "personalLogs"}
    ensures CascadesFrom(OneOnOneEntity) == {ActionItemEntity}
    ensures CascadesFrom(PersonalLogEntity) == {}
    ensures NullifiedFrom(PersonalLogEntity) == {"actionItems", "objective"}
    ensures CascadesFrom(KeyResultEntity) == {} && CascadesFrom(ActionItemEntity) == {}
    ensures CascadesFrom(UserProfileEntity) == {} && NullifiedFrom(UserProfileEntity) == {}
  {
    ObjectiveRules();
    MeetingRules();
    LogRules();
    LeafRules();
  }

  lemma ObjectiveRules()
    ensures CascadesFrom(ObjectiveEntity) == {KeyResultEntity}
    ensures NullifiedFrom(ObjectiveEntity) == {"actionItems", "personalLogs"}
  {
    assert Relationships[0].destination in CascadesFrom(ObjectiveEntity);
    assert Relationships[2].name in NullifiedFrom(ObjectiveEntity);
    assert Relationships[8].name in NullifiedFrom(ObjectiveEntity);
  }

  lemma MeetingRules()
    ensures CascadesFrom(OneOnOneEntity) == {ActionItemEntity}
  {
    assert Relationships[4].destination in CascadesFrom(OneOnOneEntity);
  }

  lemma LogRules()
    ensures CascadesFrom(PersonalLogEntity) == {}
    ensures NullifiedFrom(PersonalLogEntity) == {"actionItems", "objective"}
  {
    assert Relationships[6].name in NullifiedFrom(PersonalLogEntity);
    assert Relationships[9].name in NullifiedFrom(PersonalLogEntity);
  }

  lemma LeafRules()
    ensures CascadesFrom(KeyResultEntity) == {} && CascadesFrom(ActionItemEntity) == {}
    ensures CascadesFrom(UserProfileEntity) == {} && NullifiedFrom(UserProfileEntity) == {}
  {
  }

  // ---------------------------------------------------------------- store key

  type Byte = b: int | 0 <= b < 256

  predicate IsHexDigit(c: char) {
    ('0' <= c <= '9') || ('a' <= c <= 'f')
  }

  /** The lower-case hex digit for a nibble. */
  function HexDigit(n: nat): (c: char)
    requires n < 16
    ensures IsHexDigit(c)
  {
    if n < 10 then ('0' as int + n) as char else ('a' as int + n - 10) as char
  }

  /** `String(format: "%02hhx", b)`: two lower-case hex digits, high nibble first. */
  function HexByte(b: Byte): (s: string)
    ensures |s| == 2 && IsHexDigit(s[0]) && IsHexDigit(s[1])
  {
    [HexDigit(b / 16), HexDigit(b % 16)]
  }

  /** The bytes rendered two hex digits each, joined without separator. */
  function HexKey(bytes: seq<Byte>): (s: string)
    ensures |s| == 2 * |bytes|
    ensures forall i :: 0 <= i < |s| ==> IsHexDigit(s[i])
  {
    if |bytes| == 0 then "" else HexByte(bytes[0]) + HexKey(bytes[1..])
  }

  /** Value of a lower-case hex digit. */
  function DigitValue(c: char): (v: Option<nat>)
    ensures v.Some? <==> IsHexDigit(c)
    ensures v.Some? ==> v.value < 16 && HexDigit(v.value) == c
    ensures forall n :: 0 <= n < 16 && c == HexDigit(n) ==> v == Some(n)
  {
    if '0' <= c <= '9' then Some(c as int - '0' as int)
    else if 'a' <= c <= 'f' then Some(c as int - 'a' as int + 10)
    else None
  }

  /** Reads pairs of hex digits back into bytes; `None` on an odd length or a
      character that is not a lower-case hex digit. */
  function DecodeHex(s: string): (r: Option<seq<Byte>>)
    ensures r.Some? ==> 2 * |r.value| == |s|
    decreases |s|
  {
    if |s| == 0 then Some([])
    else if |s| == 1 then None
    else match (DigitValue(s[0]), DigitValue(s[1]), DecodeHex(s[2..]))
      case (Some(hi), Some(lo), Some(rest)) => Some([hi * 16 + lo] + rest)
      case _ => None
  }

  /** The two digits of a byte read back to its nibbles. */
  lemma HexByteReads(b: Byte)
    ensures DigitValue(HexByte(b)[0]) == Some(b / 16)
    ensures DigitValue(HexByte(b)[1]) == Some(b % 16)
  {
    assert HexByte(b)[0] == HexDigit(b / 16);
    assert HexByte(b)[1] == HexDigit(b % 16);
  }

  /** Two hex digits in front of decodable text decode to one more byte. */
  lemma DecodePair(s: string, hi: nat, lo: nat, rest: seq<Byte>)
    requires |s| >= 2 && DigitValue(s[0]) == Some(hi) && DigitValue(s[1]) == Some(lo)
    requires DecodeHex(s[2..]) == Some(rest)
    ensures DecodeHex(s) == Some([hi * 16 + lo] + rest)
  {
  }

  /** The hex rendering reads back to the same bytes. */
  lemma {:induction false} HexRoundTrip(bytes: seq<Byte>)
    ensures DecodeHex(HexKey(bytes)) == Some(bytes)
  {
    if |bytes| > 0 {
      var b := bytes[0];
      var s := HexKey(bytes);
      assert s[..2] == HexByte(b) && s[2..] == HexKey(bytes[1..]);
      assert s[0] == HexByte(b)[0] && s[1] == HexByte(b)[1];
      HexByteReads(b);
      HexRoundTrip(bytes[1..]);
      DecodePair(s, b / 16, b % 16, bytes[1..]);
      assert b / 16 * 16 + b % 16 == b;
      assert bytes == [b] + bytes[1..];
    }
  }

  /** Different keys give different pragma values. */
  lemma HexKeyInjective(a: seq<Byte>, b: seq<Byte>)
    requires HexKey(a) == HexKey(b)
    ensures a == b
  {
    HexRoundTrip(a);
    HexRoundTrip(b);
  }

  /** The `key` pragma value: the hex digits inside `x'…'`. */
  function KeyPragma(bytes: seq<Byte>): (s: string)
    ensures |s| == 2 * |bytes| + 3
    ensures s[..2] == "x'" && s[|s| - 1] == '\''
    ensures DecodeHex(s[2..|s| - 1]) == Some(bytes)
  {
    var s := "x'" + HexKey(bytes) + "'";
    assert s[2..|s| - 1] == HexKey(bytes);
    HexRoundTrip(bytes);
    s
  }

  // ---------------------------------------------------------------- pragmas

  datatype PragmaValue = Text(text: string) | Number(number: int)

  /** The outcome of asking the key provider for the store key. */
  datatype KeyLookup = KeyFound(bytes: seq<Byte>) | KeyFailed(message: string)

  /** The pragma options of the store and the error lines logged while
      building them. `sqlcipher` is the `ENABLE_SQLCIPHER` build flag. */
  function StorePragmas(sqlcipher: bool, key: KeyLookup): (r: (map<string, PragmaValue>, seq<string>))
    ensures "journal_mode" in r.0 && r.0["journal_mode"] == Text("WAL")
    ensures "secure_delete" in r.0 && r.0["secure_delete"] == Text("ON")
    ensures "cipher_page_size" in r.0 && r.0["cipher_page_size"] == Number(4096)
    ensures "kdf_iter" in r.0 && r.0["kdf_iter"] == Number(256000)
    ensures "key" in r.0 <==> sqlcipher && key.KeyFound?
    ensures "key" in r.0 ==> r.0["key"] == Text(KeyPragma(key.bytes))
    ensures r.0.Keys <= {"journal_mode", "secure_delete", "cipher_page_size", "kdf_iter", "key"}
    ensures |r.1| > 0 <==> sqlcipher && key.KeyFailed?
  {
    var base := map[
      "journal_mode" := Text("WAL"),
      "secure_delete" := Text("ON"),
      "cipher_page_size" := Number(4096),
      "kdf_iter" := Number(256000)];
    if !sqlcipher then (base, [])
    else match key
      case KeyFound(bytes) => (base["key" := Text(KeyPragma(bytes))], [])
      case KeyFailed(message) => (base, ["Failed to retrieve SQLCipher key: " + message])
  }
}

=== FILE: persistent_store.dfy ===
/** The writes of the four persistent repositories. Each repository call runs
    on the view context and ends with a save, so each is one function from
    the store before to the store after; the delete rules of the schema are
    applied at that save. The wall clock read for `updatedAt` is the
    parameter `now`. */
module PersistentStore {
  import opened Wrappers
  import opened Models
  import opened Repositories
  import opened Tables
  import opened StoreRows

  // ---------------------------------------------------------------- records to rows

  /** `KeyResultManagedObject.make(from:objective:in:)`. */
  function KeyResultRowOf(k: KeyResult, objective: nat): (r: KeyResultRow)
    ensures KeyResultOf(r) == k && r.objective == Some(objective)
  {
    KeyResultRow(k.id, k.title, k.detail, k.targetValue, k.currentValue, k.unit, k.createdAt, k.updatedAt,
                 Some(objective))
  }

  function KeyResultRows(krs: seq<KeyResult>, objective: nat): (rs: seq<KeyResultRow>)
    ensures |rs| == |krs|
    ensures forall i :: 0 <= i < |krs| ==> rs[i] == KeyResultRowOf(krs[i], objective)
  {
    if |krs| == 0 then [] else [KeyResultRowOf(krs[0], objective)] + KeyResultRows(krs[1..], objective)
  }

  /** `ActionItemManagedObject.make(from:in:objective:meeting:personalLog:)`:
      the item's own parent ids are ignored and the links are the ones passed. */
  function ItemRowOf(a: ActionItem, objective: Option<nat>, meeting: Option<nat>, log: Option<nat>)
    : (r: ActionItemRow)
    ensures r.id == a.id && r.statusRaw == StatusRaw(a.status)
    ensures r.objective == objective && r.oneOnOne == meeting && r.personalLog == log
  {
    ActionItemRow(a.id, a.title, a.detail, a.dueDate, a.ownerName, StatusRaw(a.status), a.createdAt, a.updatedAt,
                  objective, meeting, log)
  }

  function ItemRows(items: seq<ActionItem>, objective: Option<nat>, meeting: Option<nat>, log: Option<nat>)
    : (rs: seq<ActionItemRow>)
    ensures |rs| == |items|
    ensures forall i :: 0 <= i < |items| ==> rs[i] == ItemRowOf(items[i], objective, meeting, log)
  {
    if |items| == 0 then []
    else [ItemRowOf(items[0], objective, meeting, log)] + ItemRows(items[1..], objective, meeting, log)
  }

  /** An action item with its three parent ids replaced. */
  function Relinked(a: ActionItem, objective: Option<Uuid>, meeting: Option<Uuid>, log: Option<Uuid>)
    : ActionItem
  {
    a.(objectiveID := objective, oneOnOneID := meeting, personalLogID := log)
  }

  /** `OneOnOneManagedObject.make`: `createdAt` is the meeting date. */
  function MeetingRowOf(m: OneOnOneMeeting, now: Date): (r: MeetingRow)
    ensures r.id == m.id && r.meetingDate == m.meetingDate && r.createdAt == m.meetingDate
    ensures r.updatedAt == now
  {
    MeetingRow(m.id, m.meetingDate, m.counterpartName, m.counterpartRole, m.notes,
               m.audioFilePath, m.transcriptFilePath, m.meetingDate, now)
  }

  /** `PersonalLogManagedObject.make`: `createdAt` is the entry date. */
  function LogRowOf(e: PersonalLogEntry, objective: Option<nat>, now: Date): (r: LogRow)
    ensures r.id == e.id && r.entryDate == e.entryDate && r.createdAt == e.entryDate
    ensures r.reminderFrequencyRaw == FrequencyRaw(e.reminderFrequency) && r.objective == objective
  {
    LogRow(e.id, e.entryDate, e.plannedWork, e.reflection, e.moodScore, FrequencyRaw(e.reminderFrequency),
           e.entryDate, now, objective)
  }

  /** The earliest entry date among the objective's logs, or its start date
      when it has none. */
  function CreatedAt(o: Objective): (d: Date)
    ensures |o.personalLogs| == 0 ==> d == o.startDate
    ensures |o.personalLogs| > 0 ==>
      (exists i :: 0 <= i < |o.personalLogs| && d == o.personalLogs[i].entryDate)
      && (forall i :: 0 <= i < |o.personalLogs| ==> d <= o.personalLogs[i].entryDate)
    decreases |o.personalLogs|
  {
    if |o.personalLogs| == 0 then o.startDate
    else if |o.personalLogs| == 1 then o.personalLogs[0].entryDate
    else
      var rest := CreatedAt(o.(personalLogs := o.personalLogs[1..]));
      assert forall i :: 1 <= i < |o.personalLogs| ==> o.personalLogs[i] == o.personalLogs[1..][i - 1];
      if o.personalLogs[0].entryDate <= rest then o.personalLogs[0].entryDate else rest
  }

  /** `ObjectiveManagedObject.update(from:in:)`'s attributes. */
  function ObjectiveRowOf(o: Objective, now: Date): (r: ObjectiveRow)
    ensures r.id == o.id && r.title == o.title && r.startDate == o.startDate && r.endDate == o.endDate
    ensures r.createdAt == CreatedAt(o) && r.updatedAt == now
  {
    ObjectiveRow(o.id, o.title, o.detail, o.startDate, o.endDate, CreatedAt(o), now)
  }

  // ---------------------------------------------------------------- logs and meetings

  /** A log row linked to `objective`, followed by rows for its action items
      linked to the new log only. */
  function InsertLog(s: Store, e: PersonalLogEntry, objective: Option<nat>, now: Date): (r: Store)
    requires Numbered(s)
    ensures Numbered(r)
    ensures r.objectives == s.objectives && r.keyResults == s.keyResults && r.meetings == s.meetings
    ensures r.logs == Insert(s.logs, LogRowOf(e, objective, now))
    ensures r.actionItems == InsertAll(s.actionItems, ItemRows(e.actionItems, None, None, Some(s.logs.next)))
    ensures Valid(s) && LinkIn(objective, s.objectives) ==> Valid(r)
  {
    var n := s.logs.next;
    var r := s.(logs := Insert(s.logs, LogRowOf(e, objective, now)),
                actionItems := InsertAll(s.actionItems, ItemRows(e.actionItems, None, None, Some(n))));
    if Valid(s) && LinkIn(objective, s.objectives) then
      var items := ItemRows(e.actionItems, None, None, Some(n));
      assert forall i :: 0 <= i < |items| ==>
        items[i].objective.None? && items[i].oneOnOne.None? && items[i].personalLog == Some(n);
      LogInsertedValid(s, LogRowOf(e, objective, now), items);
      r
    else r
  }

  /** A log whose objective is stored, with action items linked to it alone,
      keeps a valid store valid. */
  lemma LogInsertedValid(s: Store, row: LogRow, items: seq<ActionItemRow>)
    requires Valid(s) && LinkIn(row.objective, s.objectives)
    requires forall i :: 0 <= i < |items| ==>
      items[i].objective.None? && items[i].oneOnOne.None? && items[i].personalLog == Some(s.logs.next)
    ensures Valid(s.(logs := Insert(s.logs, row), actionItems := InsertAll(s.actionItems, items)))
  {
    var logs := Insert(s.logs, row);
    Widen(s.actionItems, ActionItemLog, s.logs, logs);
    InsertAllLinked(s.actionItems, items, ActionItemObjective, s.objectives);
    InsertAllLinked(s.actionItems, items, ActionItemMeeting, s.meetings);
    InsertAllLinked(s.actionItems, items, ActionItemLog, logs);
    assert forall j :: j in logs.rows ==> LinkIn(LogObjective(logs.rows[j]), s.objectives);
    ValidOf(s.objectives, s.keyResults, InsertAll(s.actionItems, items), s.meetings, logs);
  }

  /** `createLog`: the entry is stored unlinked from any objective, whatever
      its `objectiveID`. */
  function CreateLog(s: Store, e: PersonalLogEntry, now: Date): (r: Store)
    requires Numbered(s)
    ensures Numbered(r) && (Valid(s) ==> Valid(r))
    ensures r.logs.rows == s.logs.rows[s.logs.next := LogRowOf(e, None, now)]
    ensures |Select(r.logs, AnyRow())| == |Select(s.logs, AnyRow())| + 1
  {
    SelectInsert(s.logs, LogRowOf(e, None, now), AnyRow());
    InsertLog(s, e, None, now)
  }

  /** `createMeeting`: the meeting row, then a row for each of its action
      items linked to the meeting only. */
  function CreateMeeting(s: Store, m: OneOnOneMeeting, now: Date): (r: Store)
    requires Numbered(s)
    ensures Numbered(r) && (Valid(s) ==> Valid(r))
    ensures r.objectives == s.objectives && r.keyResults == s.keyResults && r.logs == s.logs
    ensures r.meetings == Insert(s.meetings, MeetingRowOf(m, now))
    ensures r.actionItems == InsertAll(s.actionItems, ItemRows(m.actionItems, None, Some(s.meetings.next), None))
  {
    var n := s.meetings.next;
    var r := s.(meetings := Insert(s.meetings, MeetingRowOf(m, now)),
                actionItems := InsertAll(s.actionItems, ItemRows(m.actionItems, None, Some(n), None)));
    assert Valid(s) ==> Valid(r) by {
      if Valid(s) {
        var rows := ItemRows(m.actionItems, None, Some(n), None);
        forall k | k in r.actionItems.rows
          ensures LinkIn(r.actionItems.rows[k].personalLog, r.logs)
          ensures LinkIn(r.actionItems.rows[k].objective, r.objectives)
          ensures LinkIn(r.actionItems.rows[k].oneOnOne, r.meetings)
        {
          if k !in s.actionItems.rows {
            assert r.actionItems.rows[k] == rows[k - s.actionItems.next];
          }
        }
      }
    }
    r
  }

  function LogRows(logs: seq<PersonalLogEntry>, objective: Option<nat>, now: Date): (rs: seq<LogRow>)
    ensures |rs| == |logs|
    ensures forall i :: 0 <= i < |logs| ==> rs[i] == LogRowOf(logs[i], objective, now)
  {
    if |logs| == 0 then [] else [LogRowOf(logs[0], objective, now)] + LogRows(logs[1..], objective, now)
  }

  /** The logs inserted one after another, each followed by its action items. */
  function InsertLogs(s: Store, logs: seq<PersonalLogEntry>, objective: Option<nat>, now: Date): (r: Store)
    requires Numbered(s)
    ensures Numbered(r)
    ensures r.objectives == s.objectives && r.keyResults == s.keyResults && r.meetings == s.meetings
    ensures r.logs == InsertAll(s.logs, LogRows(logs, objective, now))
    ensures Valid(s) && LinkIn(objective, s.objectives) ==> Valid(r)
    ensures forall j :: j in s.actionItems.rows ==> j in r.actionItems.rows && r.actionItems.rows[j] == s.actionItems.rows[j]
    decreases |logs|
  {
    if |logs| == 0 then s
    else
      var s1 := InsertLog(s, logs[0], objective, now);
      assert LogRows(logs, objective, now)[1..] == LogRows(logs[1..], objective, now);
      InsertAllCons(s.logs, LogRows(logs, objective, now));
      InsertLogs(s1, logs[1..], objective, now)
  }

  /** Inserting logs adds only action items linked to no objective and no
      meeting, so no objective's or meeting's items change. */
  lemma {:induction false} InsertLogsKeepsParents(s: Store, logs: seq<PersonalLogEntry>, objective: Option<nat>,
                                                 now: Date, k: nat)
    requires Numbered(s)
    ensures var r := InsertLogs(s, logs, objective, now);
      Select(r.actionItems, LinksTo(ActionItemObjective, k)) == Select(s.actionItems, LinksTo(ActionItemObjective, k))
      && Select(r.actionItems, LinksTo(ActionItemMeeting, k)) == Select(s.actionItems, LinksTo(ActionItemMeeting, k))
    decreases |logs|
  {
    if |logs| > 0 {
      var s1 := InsertLog(s, logs[0], objective, now);
      var rows := ItemRows(logs[0].actionItems, None, None, Some(s.logs.next));
      assert NoneKept(rows, LinksTo(ActionItemObjective, k)) by {
        forall i | 0 <= i < |rows| ensures !LinksTo(ActionItemObjective, k)(rows[i]) {
          assert ActionItemObjective(rows[i]) == None;
        }
      }
      assert NoneKept(rows, LinksTo(ActionItemMeeting, k)) by {
        forall i | 0 <= i < |rows| ensures !LinksTo(ActionItemMeeting, k)(rows[i]) {
          assert ActionItemMeeting(rows[i]) == None;
        }
      }
      SelectInsertAllSkipped(s.actionItems, rows, LinksTo(ActionItemObjective, k));
      SelectInsertAllSkipped(s.actionItems, rows, LinksTo(ActionItemMeeting, k));
      InsertLogsKeepsParents(s1, logs[1..], objective, now, k);
    }
  }

  // ---------------------------------------------------------------- objectives

  /** The deletions of `update(from:in:)` as the save applies them: the key
      results, action items and logs of objective `k` go, and the action items
      of the deleted logs lose their log link (nullify). */
  function ClearChildren(s: Store, k: nat): (r: Store)
    requires Numbered(s)
    ensures Numbered(r)
    ensures r.objectives == s.objectives && r.meetings == s.meetings
    ensures r.keyResults == DeleteLinked(s.keyResults, KeyResultObjective, k)
    ensures r.logs == DeleteLinked(s.logs, LogObjective, k)
    ensures r.actionItems
      == Unlink(DeleteLinked(s.actionItems, ActionItemObjective, k), ActionItemLog, r.logs, ClearItemLog)
  {
    var logs := DeleteLinked(s.logs, LogObjective, k);
    Store(s.objectives,
          DeleteLinked(s.keyResults, KeyResultObjective, k),
          Unlink(DeleteLinked(s.actionItems, ActionItemObjective, k), ActionItemLog, logs, ClearItemLog),
          s.meetings,
          logs)
  }

  /** After the deletions a valid store is valid again: the items that
      pointed at a deleted log no longer name it. */
  lemma ClearChildrenValid(s: Store, k: nat)
    requires Numbered(s)
    ensures Valid(s) ==> Valid(ClearChildren(s, k))
  {
    if Valid(s) {
      ValidAfterClear(s, k);
    }
  }

  lemma ValidAfterClear(s: Store, k: nat)
    requires Valid(s)
    ensures Valid(ClearChildren(s, k))
  {
    var r := ClearChildren(s, k);
    var d := DeleteLinked(s.actionItems, ActionItemObjective, k);
    forall j | j in r.actionItems.rows
      ensures LinkIn(ActionItemObjective(r.actionItems.rows[j]), r.objectives)
      ensures LinkIn(ActionItemMeeting(r.actionItems.rows[j]), r.meetings)
      ensures LinkIn(ActionItemLog(r.actionItems.rows[j]), r.logs)
    {
      assert d.rows[j] == s.actionItems.rows[j];
    }
    forall j | j in r.logs.rows ensures LinkIn(LogObjective(r.logs.rows[j]), r.objectives) {
      assert r.logs.rows[j] == s.logs.rows[j];
    }
    forall j | j in r.keyResults.rows ensures LinkIn(KeyResultObjective(r.keyResults.rows[j]), r.objectives) {
      assert r.keyResults.rows[j] == s.keyResults.rows[j];
    }
    ValidOf(r.objectives, r.keyResults, r.actionItems, r.meetings, r.logs);
  }

  /** After the deletions objective `k` has no key results, action items or
      logs. */
  lemma ClearChildrenFacts(s: Store, k: nat)
    requires Numbered(s)
    ensures var r := ClearChildren(s, k);
      && Select(r.keyResults, LinksTo(KeyResultObjective, k)) == []
      && Select(r.actionItems, LinksTo(ActionItemObjective, k)) == []
      && Select(r.logs, LinksTo(LogObjective, k)) == []
  {
    var r := ClearChildren(s, k);
    SelectAfterDeleteLinked(s.keyResults, KeyResultObjective, k);
    SelectAfterDeleteLinked(s.logs, LogObjective, k);
    var d := DeleteLinked(s.actionItems, ActionItemObjective, k);
    forall j | j in r.actionItems.rows ensures !LinksTo(ActionItemObjective, k)(r.actionItems.rows[j]) {
      assert d.rows[j].objective != Some(k);
      assert r.actionItems.rows[j].objective == d.rows[j].objective;
      LinksToMeans(ActionItemObjective, k, r.actionItems.rows[j]);
    }
    SelectEmpty(r.actionItems, LinksTo(ActionItemObjective, k));
  }

  /** The store of `WriteObjective` before its logs are inserted: the
      deletions, the new attributes, then the new key results and action
      items. */
  function WrittenBeforeLogs(s: Store, k: nat, o: Objective, now: Date): (r: Store)
    requires Numbered(s) && k in s.objectives.rows
    ensures Numbered(r) && r.meetings == s.meetings
    ensures r.objectives == Put(s.objectives, k, ObjectiveRowOf(o, now))
    ensures r.keyResults == InsertAll(ClearChildren(s, k).keyResults, KeyResultRows(o.keyResults, k))
    ensures r.actionItems == InsertAll(ClearChildren(s, k).actionItems, ItemRows(o.actionItems, Some(k), None, None))
    ensures r.logs == ClearChildren(s, k).logs
    ensures Valid(s) ==> Valid(r)
  {
    var c := ClearChildren(s, k);
    ClearChildrenValid(s, k);
    var r := c.(objectives := Put(c.objectives, k, ObjectiveRowOf(o, now)),
                keyResults := InsertAll(c.keyResults, KeyResultRows(o.keyResults, k)),
                actionItems := InsertAll(c.actionItems, ItemRows(o.actionItems, Some(k), None, None)));
    if Valid(c) then
      var krs := KeyResultRows(o.keyResults, k);
      var items := ItemRows(o.actionItems, Some(k), None, None);
      assert forall i :: 0 <= i < |krs| ==> krs[i].objective == Some(k);
      assert forall i :: 0 <= i < |items| ==>
        items[i].objective == Some(k) && items[i].oneOnOne.None? && items[i].personalLog.None?;
      ChildrenLinked(c, r.objectives, krs, items, k);
      r
    else r
  }

  /** Validity checked relationship by relationship. */
  lemma ValidOf(objectives: Table<ObjectiveRow>, keyResults: Table<KeyResultRow>, actionItems: Table<ActionItemRow>,
                meetings: Table<MeetingRow>, logs: Table<LogRow>)
    requires Bounded(objectives) && Bounded(keyResults) && Bounded(actionItems) && Bounded(meetings) && Bounded(logs)
    requires forall j :: j in keyResults.rows ==> LinkIn(KeyResultObjective(keyResults.rows[j]), objectives)
    requires forall j :: j in actionItems.rows ==> LinkIn(ActionItemObjective(actionItems.rows[j]), objectives)
    requires forall j :: j in actionItems.rows ==> LinkIn(ActionItemMeeting(actionItems.rows[j]), meetings)
    requires forall j :: j in actionItems.rows ==> LinkIn(ActionItemLog(actionItems.rows[j]), logs)
    requires forall j :: j in logs.rows ==> LinkIn(LogObjective(logs.rows[j]), objectives)
    ensures Valid(Store(objectives, keyResults, actionItems, meetings, logs))
  {
  }

  /** Links into `a` are links into `b` when `b` stores every number `a`
      does. */
  lemma Widen<R, P>(t: Table<R>, link: R -> Option<nat>, a: Table<P>, b: Table<P>)
    requires a.rows.Keys <= b.rows.Keys
    requires forall j :: j in t.rows ==> LinkIn(link(t.rows[j]), a)
    ensures forall j :: j in t.rows ==> LinkIn(link(t.rows[j]), b)
  {
  }

  /** New key results and action items linked to objective `k` alone keep a
      valid store valid. */
  lemma ChildrenLinked(c: Store, objectives: Table<ObjectiveRow>, krs: seq<KeyResultRow>,
                       items: seq<ActionItemRow>, k: nat)
    requires Valid(c) && k in c.objectives.rows && Bounded(objectives)
    requires objectives.rows.Keys == c.objectives.rows.Keys
    requires forall i :: 0 <= i < |krs| ==> krs[i].objective == Some(k)
    requires forall i :: 0 <= i < |items| ==>
      items[i].objective == Some(k) && items[i].oneOnOne.None? && items[i].personalLog.None?
    ensures Valid(c.(objectives := objectives, keyResults := InsertAll(c.keyResults, krs),
                     actionItems := InsertAll(c.actionItems, items)))
  {
    Widen(c.keyResults, KeyResultObjective, c.objectives, objectives);
    Widen(c.actionItems, ActionItemObjective, c.objectives, objectives);
    Widen(c.logs, LogObjective, c.objectives, objectives);
    KeyResultRowsLinked(c.keyResults, krs, objectives, k);
    ItemRowsLinked(c, items, objectives, k);
    ValidOf(objectives, InsertAll(c.keyResults, krs), InsertAll(c.actionItems, items), c.meetings, c.logs);
  }

  lemma KeyResultRowsLinked(t: Table<KeyResultRow>, krs: seq<KeyResultRow>, objectives: Table<ObjectiveRow>, k: nat)
    requires Bounded(t) && k in objectives.rows
    requires forall j :: j in t.rows ==> LinkIn(KeyResultObjective(t.rows[j]), objectives)
    requires forall i :: 0 <= i < |krs| ==> krs[i].objective == Some(k)
    ensures var u := InsertAll(t, krs); forall j :: j in u.rows ==> LinkIn(KeyResultObjective(u.rows[j]), objectives)
  {
    InsertAllLinked(t, krs, KeyResultObjective, objectives);
  }

  lemma ItemRowsLinked(c: Store, items: seq<ActionItemRow>, objectives: Table<ObjectiveRow>, k: nat)
    requires Valid(c) && k in objectives.rows
    requires forall j :: j in c.actionItems.rows ==> LinkIn(ActionItemObjective(c.actionItems.rows[j]), objectives)
    requires forall i :: 0 <= i < |items| ==> items[i].objective == Some(k) && items[i].oneOnOne.None? && items[i].personalLog.None?
    ensures var u := InsertAll(c.actionItems, items);
      && (forall j :: j in u.rows ==> LinkIn(ActionItemObjective(u.rows[j]), objectives))
      && (forall j :: j in u.rows ==> LinkIn(ActionItemMeeting(u.rows[j]), c.meetings))
      && (forall j :: j in u.rows ==> LinkIn(ActionItemLog(u.rows[j]), c.logs))
  {
    InsertAllLinked(c.actionItems, items, ActionItemObjective, objectives);
    InsertAllLinked(c.actionItems, items, ActionItemMeeting, c.meetings);
    InsertAllLinked(c.actionItems, items, ActionItemLog, c.logs);
  }

  /** `ObjectiveManagedObject.update(from:in:)` on the objective stored as row
      `k`, then the save: the attributes are overwritten and every key result,
      action item and log is replaced by fresh rows built from `o`. */
  function WriteObjective(s: Store, k: nat, o: Objective, now: Date): (r: Store)
    requires Numbered(s) && k in s.objectives.rows
    ensures Numbered(r) && r.meetings == s.meetings
    ensures r.objectives == Put(s.objectives, k, ObjectiveRowOf(o, now))
    ensures Valid(s) ==> Valid(r)
  {
    InsertLogs(WrittenBeforeLogs(s, k, o, now), o.personalLogs, Some(k), now)
  }

  /** After the write, objective `k`'s key results are exactly the rows built
      from `o`'s, in `o`'s order. */
  lemma WriteObjectiveKeyResults(s: Store, k: nat, o: Objective, now: Date)
    requires Numbered(s) && k in s.objectives.rows
    ensures RowsOf(Select(WriteObjective(s, k, o, now).keyResults, LinksTo(KeyResultObjective, k)))
      == KeyResultRows(o.keyResults, k)
  {
    var c := ClearChildren(s, k);
    SelectAfterDeleteLinked(s.keyResults, KeyResultObjective, k);
    var krs := KeyResultRows(o.keyResults, k);
    assert forall i :: 0 <= i < |krs| ==> KeyResultObjective(krs[i]) == Some(k);
    InsertAllOnlyChildren(c.keyResults, krs, KeyResultObjective, k);
  }

  /** After the write, objective `k`'s action items are exactly rows built
      from `o`'s, linked to the objective alone. */
  lemma WriteObjectiveActionItems(s: Store, k: nat, o: Objective, now: Date)
    requires Numbered(s) && k in s.objectives.rows
    ensures LinkedItems(WriteObjective(s, k, o, now), ActionItemObjective, k)
      == ItemRows(o.actionItems, Some(k), None, None)
  {
    var c := ClearChildren(s, k);
    ClearChildrenFacts(s, k);
    var items := ItemRows(o.actionItems, Some(k), None, None);
    assert AllKept(items, LinksTo(ActionItemObjective, k)) by {
      forall i | 0 <= i < |items| ensures LinksTo(ActionItemObjective, k)(items[i]) {
        LinksToMeans(ActionItemObjective, k, items[i]);
      }
    }
    SelectInsertAllKept(c.actionItems, items, LinksTo(ActionItemObjective, k));
    var c1 := WrittenBeforeLogs(s, k, o, now);
    assert c1.actionItems == InsertAll(c.actionItems, items);
    InsertLogsKeepsParents(c1, o.personalLogs, Some(k), now, k);
  }

  /** After the write, objective `k`'s logs are exactly rows built from `o`'s,
      in `o`'s order. */
  lemma WriteObjectiveLogs(s: Store, k: nat, o: Objective, now: Date)
    requires Numbered(s) && k in s.objectives.rows
    ensures RowsOf(Select(WriteObjective(s, k, o, now).logs, LinksTo(LogObjective, k)))
      == LogRows(o.personalLogs, Some(k), now)
  {
    var c := ClearChildren(s, k);
    ClearChildrenFacts(s, k);
    var logs := LogRows(o.personalLogs, Some(k), now);
    assert AllKept(logs, LinksTo(LogObjective, k)) by {
      forall i | 0 <= i < |logs| ensures LinksTo(LogObjective, k)(logs[i]) {
        LinksToMeans(LogObjective, k, logs[i]);
      }
    }
    SelectInsertAllKept(c.logs, logs, LinksTo(LogObjective, k));
    assert WrittenBeforeLogs(s, k, o, now).logs == c.logs;
  }

  function KeyResultRowsBack(krs: seq<KeyResult>, k: nat): (back: seq<KeyResult>)
    ensures back == krs
  {
    var back := KeyResultsOf(KeyResultRows(krs, k));
    assert forall i :: 0 <= i < |krs| ==> back[i] == krs[i];
    back
  }

  /** The objective record read back from row `k` of `r`. */
  function ReadObjective(r: Store, k: nat): Objective
    requires k in r.objectives.rows
  {
    ObjectiveOf(r, k, r.objectives.rows[k])
  }

  /** Reading objective `k` back after the write gives `o`'s attributes and a
      permutation of its key results, sorted by creation date. */
  lemma WriteObjectiveReadsBackKeyResults(s: Store, k: nat, o: Objective, now: Date)
    requires Numbered(s) && k in s.objectives.rows
    ensures var back := ReadObjective(WriteObjective(s, k, o, now), k);
      && back.id == o.id && back.title == o.title && back.detail == o.detail
      && back.startDate == o.startDate && back.endDate == o.endDate
      && multiset(back.keyResults) == multiset(o.keyResults)
  {
    WriteObjectiveKeyResults(s, k, o, now);
    var _ := KeyResultRowsBack(o.keyResults, k);
  }

  /** Reading objective `k` back after the write gives `o`'s action items with
      their parent ids rewritten to the objective alone. */
  lemma WriteObjectiveReadsBackActionItems(s: Store, k: nat, o: Objective, now: Date)
    requires Numbered(s) && k in s.objectives.rows
    ensures var back := ReadObjective(WriteObjective(s, k, o, now), k);
      && |back.actionItems| == |o.actionItems|
      && (forall i :: 0 <= i < |o.actionItems| ==>
            back.actionItems[i] == Relinked(o.actionItems[i], Some(o.id), None, None))
  {
    var r := WriteObjective(s, k, o, now);
    var back := ReadObjective(r, k);
    WriteObjectiveActionItems(s, k, o, now);
    var items := ItemRows(o.actionItems, Some(k), None, None);
    forall i | 0 <= i < |o.actionItems|
      ensures back.actionItems[i] == Relinked(o.actionItems[i], Some(o.id), None, None)
    {
      assert back.actionItems[i] == ActionItemOf(r, items[i]);
    }
  }

  /** Log rows built from `logs` and linked to objective row `k` read back
      as entries with the same ids and dates, linked to that objective. */
  lemma LogRowsReadBack(r: Store, k: nat, es: seq<(nat, LogRow)>, logs: seq<PersonalLogEntry>, now: Date)
    requires k in r.objectives.rows
    requires RowsOf(es) == LogRows(logs, Some(k), now)
    ensures var back := LogsOf(r, es);
      && |back| == |logs|
      && (forall i :: 0 <= i < |logs| ==>
            back[i].id == logs[i].id && back[i].entryDate == logs[i].entryDate
            && back[i].objectiveID == Some(r.objectives.rows[k].id))
  {
    forall i | 0 <= i < |logs|
      ensures LogsOf(r, es)[i].id == logs[i].id && LogsOf(r, es)[i].entryDate == logs[i].entryDate
      ensures LogsOf(r, es)[i].objectiveID == Some(r.objectives.rows[k].id)
    {
      assert RowsOf(es)[i] == es[i].1;
      assert es[i].1 == LogRowOf(logs[i], Some(k), now);
    }
  }

  /** Reading objective `k` back after the write gives one log per log of `o`,
      with the same id and date, linked to the objective. */
  lemma WriteObjectiveReadsBackLogs(s: Store, k: nat, o: Objective, now: Date)
    requires Numbered(s) && k in s.objectives.rows
    ensures var back := ReadObjective(WriteObjective(s, k, o, now), k);
      && |back.personalLogs| == |o.personalLogs|
      && (forall i :: 0 <= i < |o.personalLogs| ==>
            back.personalLogs[i].id == o.personalLogs[i].id
            && back.personalLogs[i].entryDate == o.personalLogs[i].entryDate
            && back.personalLogs[i].objectiveID == Some(o.id))
  {
    var r := WriteObjective(s, k, o, now);
    WriteObjectiveLogs(s, k, o, now);
    var es := Select(r.logs, LinksTo(LogObjective, k));
    LogRowsReadBack(r, k, es, o.personalLogs, now);
  }

  /** The update leaves behind the action items of the objective's old logs:
      an item that hung off one of them and not off the objective is still
      stored, unchanged except that it now belongs to no log. */
  lemma WriteObjectiveOrphansLogItems(s: Store, k: nat, o: Objective, now: Date, j: nat)
    requires Numbered(s) && k in s.objectives.rows
    requires j in s.actionItems.rows
    requires s.actionItems.rows[j].objective != Some(k)
    requires var l := s.actionItems.rows[j].personalLog;
      l.Some? && l.value in s.logs.rows && s.logs.rows[l.value].objective == Some(k)
    ensures var r := WriteObjective(s, k, o, now);
      j in r.actionItems.rows && r.actionItems.rows[j] == s.actionItems.rows[j].(personalLog := None)
  {
    var c := ClearChildren(s, k);
    var c1 := WrittenBeforeLogs(s, k, o, now);
    assert c.actionItems.rows[j] == s.actionItems.rows[j].(personalLog := None);
    assert c1.actionItems.rows[j] == c.actionItems.rows[j];
  }

  /** `createObjective`: a new objective row written from `o`. */
  function CreateObjective(s: Store, o: Objective, now: Date): (r: Store)
    requires Numbered(s)
    ensures Numbered(r) && (Valid(s) ==> Valid(r))
    ensures r.objectives.rows == s.objectives.rows[s.objectives.next := ObjectiveRowOf(o, now)]
    ensures r.meetings == s.meetings
  {
    var s1 := s.(objectives := Insert(s.objectives, ObjectiveRowOf(o, now)));
    assert Valid(s) ==> Valid(s1) by {
      if Valid(s) {
        assert forall j :: j in s.objectives.rows ==> j in s1.objectives.rows;
      }
    }
    WriteObjective(s1, s.objectives.next, o, now)
  }

  /** `updateObjective`: the first objective row with `o`'s id is rewritten
      from `o`; `missingEntity` when no row has the id. */
  function UpdateObjective(s: Store, o: Objective, now: Date): (r: Result<Store, RepositoryError>)
    requires Numbered(s)
    ensures r.Err? <==> forall k :: k in s.objectives.rows ==> s.objectives.rows[k].id != o.id
    ensures r.Err? ==> r.error == MissingEntity
    ensures r.Ok? ==> exists k :: (Find(s.objectives, ObjectiveRowId, o.id) == Some(k)
      && r.value == WriteObjective(s, k, o, now))
    ensures r.Ok? ==> Numbered(r.value) && (Valid(s) ==> Valid(r.value))
  {
    match Find(s.objectives, ObjectiveRowId, o.id)
    case None =>
      Err(MissingEntity)
    case Some(k) =>
      Ok(WriteObjective(s, k, o, now))
  }

  /** The action items with their parent ids replaced. */
  function RelinkAll(items: seq<ActionItem>, objective: Option<Uuid>, meeting: Option<Uuid>, log: Option<Uuid>)
    : (rs: seq<ActionItem>)
    ensures |rs| == |items|
    ensures forall i :: 0 <= i < |items| ==> rs[i] == Relinked(items[i], objective, meeting, log)
  {
    if |items| == 0 then [] else [Relinked(items[0], objective, meeting, log)] + RelinkAll(items[1..], objective, meeting, log)
  }

  /** Action item rows read back as the items they were built from, with
      each parent id taken from the row its link names. */
  lemma ItemRowsReadBack(r: Store, items: seq<ActionItem>, objective: Option<nat>, meeting: Option<nat>,
                         log: Option<nat>)
    ensures ActionItemsOf(r, ItemRows(items, objective, meeting, log))
      == RelinkAll(items, ParentId(r.objectives, ObjectiveRowId, objective),
                   ParentId(r.meetings, MeetingRowId, meeting), ParentId(r.logs, LogRowId, log))
  {
    var rows := ItemRows(items, objective, meeting, log);
    var back := ActionItemsOf(r, rows);
    forall i | 0 <= i < |items|
      ensures back[i] == Relinked(items[i], ParentId(r.objectives, ObjectiveRowId, objective),
                                  ParentId(r.meetings, MeetingRowId, meeting), ParentId(r.logs, LogRowId, log))
    {
      assert back[i] == ActionItemOf(r, rows[i]);
      DecodeEncode(items[i].status, Daily);
    }
  }

  /** In a valid store no action item points at the next log or meeting
      number. */
  lemma NothingLinksToFresh(s: Store)
    requires Valid(s)
    ensures Select(s.actionItems, LinksTo(ActionItemLog, s.logs.next)) == []
    ensures Select(s.actionItems, LinksTo(ActionItemMeeting, s.meetings.next)) == []
  {
    forall j | j in s.actionItems.rows
      ensures !LinksTo(ActionItemLog, s.logs.next)(s.actionItems.rows[j])
      ensures !LinksTo(ActionItemMeeting, s.meetings.next)(s.actionItems.rows[j])
    {
      assert LinkIn(s.actionItems.rows[j].personalLog, s.logs) && s.logs.next !in s.logs.rows;
      assert LinkIn(s.actionItems.rows[j].oneOnOne, s.meetings) && s.meetings.next !in s.meetings.rows;
      LinksToMeans(ActionItemLog, s.logs.next, s.actionItems.rows[j]);
      LinksToMeans(ActionItemMeeting, s.meetings.next, s.actionItems.rows[j]);
    }
    SelectEmpty(s.actionItems, LinksTo(ActionItemLog, s.logs.next));
    SelectEmpty(s.actionItems, LinksTo(ActionItemMeeting, s.meetings.next));
  }

  /** After `createLog` the new log's action items are exactly the rows built
      from the entry's. */
  lemma CreateLogItems(s: Store, e: PersonalLogEntry, now: Date)
    requires Valid(s)
    ensures LinkedItems(CreateLog(s, e, now), ActionItemLog, s.logs.next)
      == ItemRows(e.actionItems, None, None, Some(s.logs.next))
  {
    var n := s.logs.next;
    var rows := ItemRows(e.actionItems, None, None, Some(n));
    NothingLinksToFresh(s);
    assert AllKept(rows, LinksTo(ActionItemLog, n)) by {
      forall i | 0 <= i < |rows| ensures LinksTo(ActionItemLog, n)(rows[i]) {
        LinksToMeans(ActionItemLog, n, rows[i]);
      }
    }
    SelectInsertAllKept(s.actionItems, rows, LinksTo(ActionItemLog, n));
    assert RowsOf(Select(s.actionItems, LinksTo(ActionItemLog, n))) == [];
  }

  /** `createLog` then reading the log back gives the entry, unlinked from any
      objective, with its action items linked to the log alone. */
  lemma CreateLogReadBack(s: Store, e: PersonalLogEntry, now: Date)
    requires Valid(s)
    ensures var r := CreateLog(s, e, now);
      s.logs.next in r.logs.rows
      && LogOf(r, s.logs.next, r.logs.rows[s.logs.next])
         == e.(objectiveID := None, actionItems := RelinkAll(e.actionItems, None, None, Some(e.id)))
  {
    var r := CreateLog(s, e, now);
    var n := s.logs.next;
    CreateLogItems(s, e, now);
    ItemRowsReadBack(r, e.actionItems, None, None, Some(n));
    DecodeEncode(Pending, e.reminderFrequency);
  }

  /** After `createMeeting` the new meeting's action items are exactly the
      rows built from the meeting's. */
  lemma CreateMeetingItems(s: Store, m: OneOnOneMeeting, now: Date)
    requires Valid(s)
    ensures LinkedItems(CreateMeeting(s, m, now), ActionItemMeeting, s.meetings.next)
      == ItemRows(m.actionItems, None, Some(s.meetings.next), None)
  {
    var n := s.meetings.next;
    var rows := ItemRows(m.actionItems, None, Some(n), None);
    NothingLinksToFresh(s);
    assert AllKept(rows, LinksTo(ActionItemMeeting, n)) by {
      forall i | 0 <= i < |rows| ensures LinksTo(ActionItemMeeting, n)(rows[i]) {
        LinksToMeans(ActionItemMeeting, n, rows[i]);
      }
    }
    SelectInsertAllKept(s.actionItems, rows, LinksTo(ActionItemMeeting, n));
    assert RowsOf(Select(s.actionItems, LinksTo(ActionItemMeeting, n))) == [];
  }

  /** `createMeeting` then reading the meeting back gives the meeting, with its
      action items linked to the meeting alone. */
  lemma CreateMeetingReadBack(s: Store, m: OneOnOneMeeting, now: Date)
    requires Valid(s)
    ensures var r := CreateMeeting(s, m, now);
      s.meetings.next in r.meetings.rows
      && MeetingOf(r, s.meetings.next, r.meetings.rows[s.meetings.next])
         == m.(actionItems := RelinkAll(m.actionItems, None, Some(m.id), None))
  {
    var r := CreateMeeting(s, m, now);
    var n := s.meetings.next;
    CreateMeetingItems(s, m, now);
    ItemRowsReadBack(r, m.actionItems, None, Some(n), None);
  }

  // ---------------------------------------------------------------- deletes

  function ClearItemObjective(r: ActionItemRow): ActionItemRow { r.(objective := None) }
  function ClearItemLog(r: ActionItemRow): ActionItemRow { r.(personalLog := None) }
  function ClearLogObjective(r: LogRow): LogRow { r.(objective := None) }

  /** `deleteObjective(id:)`: the first objective with the id goes, its key
      results with it (cascade); its action items and logs stay, unlinked
      (nullify). No objective with the id: nothing changes and nothing is
      saved. */
  function DeleteObjective(s: Store, id: Uuid): (r: (Store, bool))
    requires Numbered(s)
    ensures Numbered(r.0)
    ensures r.1 <==> exists k :: k in s.objectives.rows && s.objectives.rows[k].id == id
    ensures !r.1 ==> r.0 == s
    ensures r.1 ==> exists k :: (Find(s.objectives, ObjectiveRowId, id) == Some(k)
      && r.0.objectives == Tables.Delete(s.objectives, k)
      && r.0.keyResults == DeleteLinked(s.keyResults, KeyResultObjective, k)
      && r.0.actionItems == RewriteLinked(s.actionItems, ActionItemObjective, k, ClearItemObjective)
      && r.0.logs == RewriteLinked(s.logs, LogObjective, k, ClearLogObjective)
      && r.0.meetings == s.meetings)
  {
    match Find(s.objectives, ObjectiveRowId, id)
    case None => (s, false)
    case Some(k) =>
      var r := Store(Tables.Delete(s.objectives, k),
                     DeleteLinked(s.keyResults, KeyResultObjective, k),
                     RewriteLinked(s.actionItems, ActionItemObjective, k, ClearItemObjective),
                     s.meetings,
                     RewriteLinked(s.logs, LogObjective, k, ClearLogObjective));
      assert ObjectiveRowId(s.objectives.rows[k]) == id;
      (r, true)
  }

  /** `deleteMeeting(id:)`: the first meeting with the id goes, its action
      items with it (cascade). */
  function DeleteMeeting(s: Store, id: Uuid): (r: (Store, bool))
    requires Numbered(s)
    ensures Numbered(r.0) && (Valid(s) ==> Valid(r.0))
    ensures r.1 <==> exists k :: k in s.meetings.rows && s.meetings.rows[k].id == id
    ensures !r.1 ==> r.0 == s
    ensures r.1 ==> exists k :: (Find(s.meetings, MeetingRowId, id) == Some(k)
      && r.0.meetings == Tables.Delete(s.meetings, k)
      && r.0.actionItems == DeleteLinked(s.actionItems, ActionItemMeeting, k)
      && r.0.objectives == s.objectives && r.0.keyResults == s.keyResults && r.0.logs == s.logs)
  {
    match Find(s.meetings, MeetingRowId, id)
    case None => (s, false)
    case Some(k) =>
      var r := s.(meetings := Tables.Delete(s.meetings, k),
                  actionItems := DeleteLinked(s.actionItems, ActionItemMeeting, k));
      assert MeetingRowId(s.meetings.rows[k]) == id;
      (r, true)
  }

  /** `deleteLog(id:)`: the first log with the id goes; its action items stay,
      unlinked from it (nullify). */
  function DeleteLog(s: Store, id: Uuid): (r: (Store, bool))
    requires Numbered(s)
    ensures Numbered(r.0) && (Valid(s) ==> Valid(r.0))
    ensures r.1 <==> exists k :: k in s.logs.rows && s.logs.rows[k].id == id
    ensures !r.1 ==> r.0 == s
    ensures r.1 ==> exists k :: (Find(s.logs, LogRowId, id) == Some(k)
      && r.0.logs == Tables.Delete(s.logs, k)
      && r.0.actionItems == RewriteLinked(s.actionItems, ActionItemLog, k, ClearItemLog)
      && r.0.objectives == s.objectives && r.0.keyResults == s.keyResults && r.0.meetings == s.meetings)
  {
    match Find(s.logs, LogRowId, id)
    case None => (s, false)
    case Some(k) =>
      var r := s.(logs := Tables.Delete(s.logs, k),
                  actionItems := RewriteLinked(s.actionItems, ActionItemLog, k, ClearItemLog));
      assert LogRowId(s.logs.rows[k]) == id;
      if Valid(s) then
        DeleteLogKeepsValid(s, k);
        (r, true)
      else (r, true)
  }

  /** Deleting log `k` and unlinking its action items keeps the store valid. */
  lemma DeleteLogKeepsValid(s: Store, k: nat)
    requires Valid(s)
    ensures Valid(s.(logs := Tables.Delete(s.logs, k),
                     actionItems := RewriteLinked(s.actionItems, ActionItemLog, k, ClearItemLog)))
  {
    var items := RewriteLinked(s.actionItems, ActionItemLog, k, ClearItemLog);
    var logs := Tables.Delete(s.logs, k);
    forall j | j in items.rows
      ensures LinkIn(items.rows[j].personalLog, logs)
    {
      if ActionItemLog(s.actionItems.rows[j]) != Some(k) {
        assert items.rows[j] == s.actionItems.rows[j];
      }
    }
  }

  /** Deleting an objective keeps the store valid: the rows that pointed at
      it are gone or unlinked. */
  lemma DeleteObjectiveKeepsValid(s: Store, id: Uuid)
    requires Valid(s)
    ensures Valid(DeleteObjective(s, id).0)
  {
    var r := DeleteObjective(s, id);
    if r.1 {
      var k :| Find(s.objectives, ObjectiveRowId, id) == Some(k)
        && r.0.keyResults == DeleteLinked(s.keyResults, KeyResultObjective, k)
        && r.0.actionItems == RewriteLinked(s.actionItems, ActionItemObjective, k, ClearItemObjective)
        && r.0.logs == RewriteLinked(s.logs, LogObjective, k, ClearLogObjective);
      DeleteObjectiveRowKeepsValid(s, k);
    }
  }

  /** Deleting objective row `k` with its delete rules applied keeps the
      store valid. */
  lemma DeleteObjectiveRowKeepsValid(s: Store, k: nat)
    requires Valid(s)
    ensures Valid(Store(Tables.Delete(s.objectives, k),
                        DeleteLinked(s.keyResults, KeyResultObjective, k),
                        RewriteLinked(s.actionItems, ActionItemObjective, k, ClearItemObjective),
                        s.meetings,
                        RewriteLinked(s.logs, LogObjective, k, ClearLogObjective)))
  {
    var objectives := Tables.Delete(s.objectives, k);
    var keyResults := DeleteLinked(s.keyResults, KeyResultObjective, k);
    var items := RewriteLinked(s.actionItems, ActionItemObjective, k, ClearItemObjective);
    var logs := RewriteLinked(s.logs, LogObjective, k, ClearLogObjective);
    forall j | j in keyResults.rows
      ensures LinkIn(keyResults.rows[j].objective, objectives)
    {
      assert keyResults.rows[j] == s.keyResults.rows[j];
    }
    forall j | j in items.rows
      ensures LinkIn(items.rows[j].objective, objectives)
    {
      if ActionItemObjective(s.actionItems.rows[j]) != Some(k) {
        assert items.rows[j] == s.actionItems.rows[j];
      }
    }
    forall j | j in logs.rows
      ensures LinkIn(logs.rows[j].objective, objectives)
    {
      if LogObjective(s.logs.rows[j]) != Some(k) {
        assert logs.rows[j] == s.logs.rows[j];
      }
    }
  }

  // ---------------------------------------------------------------- action items

  /** A to-one link as `ActionItemManagedObject.update(from:in:)` sets it:
      left alone when the item gives no id, otherwise the first row with that
      id, or no link at all when no row has it. */
  function ResolveLink<P>(t: Table<P>, id: P -> nat, wanted: Option<Uuid>, current: Option<nat>): (r: Option<nat>)
    requires Bounded(t)
    ensures wanted.None? ==> r == current
    ensures wanted.Some? ==> (r.Some? <==> exists k :: k in t.rows && id(t.rows[k]) == wanted.value)
    ensures wanted.Some? && r.Some? ==> r.value in t.rows && id(t.rows[r.value]) == wanted.value
  {
    if wanted.None? then current else Find(t, id, wanted.value)
  }

  /** The row `current` after `update(from:in:)` with `a`. */
  function UpdatedItemRow(s: Store, current: ActionItemRow, a: ActionItem): (r: ActionItemRow)
    requires Numbered(s)
    ensures r.id == a.id && r.statusRaw == StatusRaw(a.status)
    ensures r.objective == ResolveLink(s.objectives, ObjectiveRowId, a.objectiveID, current.objective)
    ensures r.oneOnOne == ResolveLink(s.meetings, MeetingRowId, a.oneOnOneID, current.oneOnOne)
    ensures r.personalLog == ResolveLink(s.logs, LogRowId, a.personalLogID, current.personalLog)
  {
    ItemRowOf(a, ResolveLink(s.objectives, ObjectiveRowId, a.objectiveID, current.objective),
              ResolveLink(s.meetings, MeetingRowId, a.oneOnOneID, current.oneOnOne),
              ResolveLink(s.logs, LogRowId, a.personalLogID, current.personalLog))
  }

  /** The number the upsert of `a` writes: the first stored item with its id,
      or the next number when there is none. */
  function UpsertTarget(s: Store, a: ActionItem): (k: nat)
    requires Numbered(s)
    ensures k in s.actionItems.rows <==> exists j :: j in s.actionItems.rows && s.actionItems.rows[j].id == a.id
    ensures k in s.actionItems.rows ==> s.actionItems.rows[k].id == a.id
    ensures k !in s.actionItems.rows ==> k == s.actionItems.next
  {
    match Find(s.actionItems, ActionItemRowId, a.id)
    case Some(k) => k
    case None => s.actionItems.next
  }

  /** The links an upsert starts from: the stored row's, or none for a new
      managed object. */
  function CurrentLinks(s: Store, a: ActionItem): (r: ActionItemRow)
    requires Numbered(s)
  {
    var k := UpsertTarget(s, a);
    if k in s.actionItems.rows then s.actionItems.rows[k] else ItemRowOf(a, None, None, None)
  }

  /** One pass of the `upsertActionItems` loop: fetch the item by id, or make
      a new managed object, and update it from `a`. Only the written row
      changes; the other tables stay as they were. */
  function UpsertItem(s: Store, a: ActionItem): (r: Store)
    requires Numbered(s)
    ensures Numbered(r) && (Valid(s) ==> Valid(r))
    ensures r.objectives == s.objectives && r.keyResults == s.keyResults
    ensures r.meetings == s.meetings && r.logs == s.logs
    ensures r.actionItems.rows.Keys == s.actionItems.rows.Keys + {UpsertTarget(s, a)}
    ensures r.actionItems.rows[UpsertTarget(s, a)] == UpdatedItemRow(s, CurrentLinks(s, a), a)
    ensures forall j :: j in s.actionItems.rows && j != UpsertTarget(s, a) ==>
      r.actionItems.rows[j] == s.actionItems.rows[j]
  {
    var k := UpsertTarget(s, a);
    var row := UpdatedItemRow(s, CurrentLinks(s, a), a);
    var items := Write(s.actionItems, k, row);
    if Valid(s) then
      UpdatedLinksIn(s, a);
      ReplaceItems(s, items, k, row);
      s.(actionItems := items)
    else s.(actionItems := items)
  }

  /** The links of an action-item row name stored rows. */
  predicate ItemLinksIn(row: ActionItemRow, s: Store) {
    LinkIn(row.objective, s.objectives) && LinkIn(row.oneOnOne, s.meetings) && LinkIn(row.personalLog, s.logs)
  }

  /** In a valid store, the links an upsert writes name stored rows. */
  lemma UpdatedLinksIn(s: Store, a: ActionItem)
    requires Valid(s)
    ensures ItemLinksIn(UpdatedItemRow(s, CurrentLinks(s, a), a), s)
  {
    var current := CurrentLinks(s, a);
    assert ItemLinksIn(current, s);
  }

  /** Writing one action-item row with stored links keeps the store valid. */
  lemma ReplaceItems(s: Store, items: Table<ActionItemRow>, k: nat, row: ActionItemRow)
    requires Valid(s) && Bounded(items) && ItemLinksIn(row, s)
    requires items.rows == s.actionItems.rows[k := row]
    ensures Valid(s.(actionItems := items))
  {
    forall j | j in items.rows
      ensures ItemLinksIn(items.rows[j], s)
    {
      if j != k {
        assert items.rows[j] == s.actionItems.rows[j];
      }
    }
  }

  /** `upsertActionItems`: the items applied one after another, then one save. */
  function UpsertActionItems(s: Store, items: seq<ActionItem>): (r: Store)
    requires Numbered(s)
    ensures Numbered(r) && (Valid(s) ==> Valid(r))
    ensures r.objectives == s.objectives && r.keyResults == s.keyResults
    ensures r.meetings == s.meetings && r.logs == s.logs
    ensures s.actionItems.rows.Keys <= r.actionItems.rows.Keys
    decreases |items|
  {
    if |items| == 0 then s else UpsertActionItems(UpsertItem(s, items[0]), items[1..])
  }

  /** The stored action items include one with id `x`. */
  predicate HasItem(s: Store, x: Uuid) {
    exists j :: j in s.actionItems.rows && s.actionItems.rows[j].id == x
  }

  /** One upsert stores its item's id and keeps every stored id. */
  lemma UpsertItemStores(s: Store, a: ActionItem)
    requires Numbered(s)
    ensures HasItem(UpsertItem(s, a), a.id)
    ensures forall x :: HasItem(s, x) ==> HasItem(UpsertItem(s, a), x)
  {
    var s1 := UpsertItem(s, a);
    var k := UpsertTarget(s, a);
    assert s1.actionItems.rows[k].id == a.id;
    forall x | HasItem(s, x) ensures HasItem(s1, x) {
      var j :| j in s.actionItems.rows && s.actionItems.rows[j].id == x;
      if j != k {
        assert s1.actionItems.rows[j].id == x;
      }
    }
  }

  /** Every id stored before the upsert still is. */
  lemma {:induction false} UpsertActionItemsKeepsIds(s: Store, items: seq<ActionItem>, x: Uuid)
    requires Numbered(s) && HasItem(s, x)
    ensures HasItem(UpsertActionItems(s, items), x)
    decreases |items|
  {
    if |items| > 0 {
      UpsertItemStores(s, items[0]);
      UpsertActionItemsKeepsIds(UpsertItem(s, items[0]), items[1..], x);
    }
  }

  /** After the upsert every upserted id is stored. */
  lemma UpsertActionItemsStoresAll(s: Store, items: seq<ActionItem>)
    requires Numbered(s)
    ensures forall i :: 0 <= i < |items| ==> HasItem(UpsertActionItems(s, items), items[i].id)
  {
    forall i | 0 <= i < |items| ensures HasItem(UpsertActionItems(s, items), items[i].id) {
      UpsertActionItemsStoresAt(s, items, i);
    }
  }

  /** The `i`-th upserted id is stored after the upsert. */
  lemma {:induction false} UpsertActionItemsStoresAt(s: Store, items: seq<ActionItem>, i: nat)
    requires Numbered(s) && i < |items|
    ensures HasItem(UpsertActionItems(s, items), items[i].id)
    decreases |items|
  {
    var s1 := UpsertItem(s, items[0]);
    UpsertActionItemsCons(s, items);
    if i == 0 {
      assert HasItem(s1, items[0].id) by {
        UpsertItemStores(s, items[0]);
      }
      UpsertActionItemsKeepsIds(s1, items[1..], items[0].id);
    } else {
      assert items[i] == items[1..][i - 1];
      UpsertActionItemsStoresAt(s1, items[1..], i - 1);
    }
  }

  lemma UpsertActionItemsCons(s: Store, items: seq<ActionItem>)
    requires Numbered(s) && |items| > 0
    ensures UpsertActionItems(s, items) == UpsertActionItems(UpsertItem(s, items[0]), items[1..])
  {
  }

  /** Upserting a new item whose parent ids each name a stored row reads
      back as exactly that item. */
  lemma UpsertNewItemReadBack(s: Store, a: ActionItem)
    requires Numbered(s) && !HasItem(s, a.id)
    requires a.objectiveID.Some? ==> exists k :: k in s.objectives.rows && s.objectives.rows[k].id == a.objectiveID.value
    requires a.oneOnOneID.Some? ==> exists k :: k in s.meetings.rows && s.meetings.rows[k].id == a.oneOnOneID.value
    requires a.personalLogID.Some? ==> exists k :: k in s.logs.rows && s.logs.rows[k].id == a.personalLogID.value
    ensures var r := UpsertItem(s, a);
      s.actionItems.next in r.actionItems.rows
      && ActionItemOf(r, r.actionItems.rows[s.actionItems.next]) == a
  {
    var r := UpsertItem(s, a);
    var row := r.actionItems.rows[s.actionItems.next];
    DecodeEncode(a.status, Daily);
    assert ParentId(r.objectives, ObjectiveRowId, row.objective) == a.objectiveID;
    assert ParentId(r.meetings, MeetingRowId, row.oneOnOne) == a.oneOnOneID;
    assert ParentId(r.logs, LogRowId, row.personalLog) == a.personalLogID;
  }

  /** An item upserted with a parent id that names no stored row loses that
      link: the failed lookup sets it to none, and it reads back as none. */
  lemma UpsertDropsUnknownParent(s: Store, a: ActionItem)
    requires Numbered(s) && a.objectiveID.Some?
    requires forall k :: k in s.objectives.rows ==> s.objectives.rows[k].id != a.objectiveID.value
    ensures var r := UpsertItem(s, a);
      r.actionItems.rows[UpsertTarget(s, a)].objective.None?
      && ActionItemOf(r, r.actionItems.rows[UpsertTarget(s, a)]).objectiveID.None?
  {
  }
}

=== FILE: pull_request.dfy ===
/** The pull-request runner of the growth agent: it checks the locale and
    the content directory, derives the remote URL, branch name, commit
    message, title, body and labels, and refuses to open a pull request
    when staging changed nothing or the target repository is malformed.
    The file system, git and GitHub calls are left out: what they report
    (directory access, the globbed files, the token, `git status --short`,
    whether labelling succeeded) comes in as parameters, and the clock is
    the current UTC day number. */
module PullRequest {
  import opened Wrappers
  import opened Text
  import opened UtcDates
  import Seqs

  datatype Access = Readable | Missing | Denied(code: string)

  datatype PrError =
    | LocaleRequired
    | DirectoryNotFound(dir: string)
    | AccessFailed(code: string)
    | NoContentFiles(root: string)
    | NoChanges
    | InvalidRepo(repo: string)

  const DefaultRepo: string := "ParthibanRajasekaran/text-from-image"
  const DefaultBase: string := "main"

  /** The target repository and base branch: the environment or the defaults. */
  function Target(envRepo: Option<string>, envBase: Option<string>): (r: (string, string))
    ensures envRepo.None? ==> r.0 == DefaultRepo
    ensures envBase.None? ==> r.1 == DefaultBase
    ensures envRepo.Some? ==> r.0 == envRepo.value
    ensures envBase.Some? ==> r.1 == envBase.value
  {
    (envRepo.GetOr(DefaultRepo), envBase.GetOr(DefaultBase))
  }

  // ---------------------------------------------------------------- repo

  /** `owner/name`: the first two "/"-separated segments, both non-empty;
      further segments are ignored. */
  function ParseRepo(repo: string): (r: Result<(string, string), PrError>)
    ensures r.Err? ==> r.error == InvalidRepo(repo)
    ensures r.Ok? ==> (
      var (owner, name) := r.value;
      && owner != "" && name != ""
      && Free(owner, '/') && Free(name, '/')
      && IsPrefix(owner + "/" + name, repo))
  {
    var parts := Split(repo, '/');
    var owner := parts[0];
    var name := if |parts| > 1 then parts[1] else "";
    if owner == "" || name == "" then Err(InvalidRepo(repo))
    else
      SplitPrefix(parts, '/');
      Ok((owner, name))
  }

  lemma SplitPrefix(parts: seq<string>, sep: char)
    requires |parts| > 1
    ensures IsPrefix(parts[0] + [sep] + parts[1], Join(parts, [sep]))
  {
    JoinCons(parts[0], parts[1..], [sep]);
    if |parts| > 2 {
      JoinCons(parts[1], parts[2..], [sep]);
    }
  }

  /** Reading back `owner/name`, with or without further segments. */
  lemma ParseRepoRoundTrip(owner: string, name: string, rest: string)
    requires owner != "" && name != "" && Free(owner, '/') && Free(name, '/')
    ensures ParseRepo(owner + "/" + name) == Ok((owner, name))
    ensures ParseRepo(owner + "/" + name + "/" + rest) == Ok((owner, name))
  {
    SplitAfterFree(owner, '/', name);
    assert Split(name, '/') == [name];
    assert owner + "/" + name + "/" + rest == owner + ['/'] + (name + ['/'] + rest);
    SplitAfterFree(owner, '/', name + ['/'] + rest);
    SplitAfterFree(name, '/', rest);
  }

  /** A value without a "/" names no repository. */
  lemma NoSlashInvalid(repo: string)
    requires Free(repo, '/')
    ensures ParseRepo(repo).Err?
  {
  }

  // ---------------------------------------------------------------- names

  const UrlHead: string := "https://x-access-token:"
  const UrlHost: string := "@github.com/"

  function RemoteUrl(repo: string, token: string): (r: string)
    ensures IsPrefix(UrlHead + token + UrlHost, r)
    ensures IsSuffix(repo + ".git", r)
  {
    var head := UrlHead + token + UrlHost;
    assert (head + repo + ".git")[..|head|] == head;
    assert (head + repo + ".git")[|head|..] == repo + ".git";
    head + repo + ".git"
  }

  /** The repository can be read back out of the URL for a known token. */
  lemma RemoteUrlRepo(repo: string, token: string)
    ensures var r := RemoteUrl(repo, token);
      r[|UrlHead + token + UrlHost|..|r| - 4] == repo
  {
  }

  /** `s` with every `c` removed (`replaceAll(c, '')`). */
  function RemoveAll(s: string, c: char): string {
    if |s| == 0 then []
    else (if s[0] == c then [] else [s[0]]) + RemoveAll(s[1..], c)
  }

  lemma {:induction false} RemoveAllRemoves(s: string, c: char)
    ensures Free(RemoveAll(s, c), c)
    ensures |RemoveAll(s, c)| <= |s|
  {
    if |s| > 0 {
      RemoveAllRemoves(s[1..], c);
    }
  }

  lemma {:induction false} RemoveAllFree(s: string, c: char)
    requires Free(s, c)
    ensures RemoveAll(s, c) == s
  {
    if |s| > 0 {
      RemoveAllFree(s[1..], c);
      assert s == [s[0]] + s[1..];
    }
  }

  lemma {:induction false} RemoveAllConcat(a: string, b: string, c: char)
    ensures RemoveAll(a + b, c) == RemoveAll(a, c) + RemoveAll(b, c)
  {
    if |a| == 0 {
      assert a + b == b;
    } else {
      assert (a + b)[1..] == a[1..] + b;
      RemoveAllConcat(a[1..], b, c);
    }
  }

  lemma DigitsFree(n: nat, w: nat)
    ensures Free(Digits(n, w), '-')
  {
  }

  /** `YYYYMMDD`: the ISO date without its dashes. */
  function CompactDate(day: int): (r: string)
    ensures Free(r, '-')
  {
    RemoveAllRemoves(IsoDate(day), '-');
    RemoveAll(IsoDate(day), '-')
  }

  lemma RemoveLeadingDash(x: string)
    ensures RemoveAll("-" + x, '-') == RemoveAll(x, '-')
  {
    assert ("-" + x)[1..] == x;
  }

  lemma Regroup(y: string, m: string, d: string)
    ensures y + "-" + m + "-" + d == y + ("-" + (m + ("-" + d)))
  {
    Seqs.Associative(y + "-" + m, "-", d);
    Seqs.Associative(y + "-", m, "-" + d);
    Seqs.Associative(y, "-", m + ("-" + d));
  }

  lemma RemoveDashes(y: string, m: string, d: string)
    requires Free(y, '-') && Free(m, '-') && Free(d, '-')
    ensures RemoveAll(y + "-" + m + "-" + d, '-') == y + m + d
  {
    var t1 := "-" + d;
    var t2 := m + t1;
    var t3 := "-" + t2;
    Regroup(y, m, d);
    RemoveAllConcat(y, t3, '-');
    RemoveLeadingDash(t2);
    RemoveAllConcat(m, t1, '-');
    RemoveLeadingDash(d);
    RemoveAllFree(y, '-');
    RemoveAllFree(m, '-');
    RemoveAllFree(d, '-');
    Seqs.Associative(y, m, d);
  }

  /** For years 0 to 9999 the compact date is the eight digits of year,
      month and day. */
  lemma CompactDateDigits(day: int)
    requires 0 <= CivilFromDays(day).year <= 9999
    ensures var c := CivilFromDays(day);
      CompactDate(day) == Digits(c.year, 4) + Digits(c.month, 2) + Digits(c.day, 2)
  {
    var c := CivilFromDays(day);
    IsoDateParts(day);
    DigitsFree(c.year, 4);
    DigitsFree(c.month, 2);
    DigitsFree(c.day, 2);
    RemoveDashes(Digits(c.year, 4), Digits(c.month, 2), Digits(c.day, 2));
  }

  const BranchPrefix: string := "growth/"

  /** `growth/<locale>-<YYYYMMDD>`. */
  function BranchName(locale: string, today: int): (r: string)
    ensures IsPrefix(BranchPrefix + locale + "-", r)
    ensures IsSuffix(CompactDate(today), r)
  {
    var head := BranchPrefix + locale + "-";
    assert (head + CompactDate(today))[..|head|] == head;
    assert (head + CompactDate(today))[|head|..] == CompactDate(today);
    head + CompactDate(today)
  }

  const CommitHead: string := "growth: "
  const CommitMid: string := " content "

  /** `growth: <locale> content <YYYY-MM-DD>`. */
  function CommitMessage(locale: string, today: int): (r: string)
    ensures IsPrefix(CommitHead + locale + CommitMid, r)
    ensures |r| == |CommitHead + locale + CommitMid| + 10
    ensures r[|r| - 10..] == IsoDate(today)
  {
    var head := CommitHead + locale + CommitMid;
    assert (head + IsoDate(today))[..|head|] == head;
    assert (head + IsoDate(today))[|head|..] == IsoDate(today);
    head + IsoDate(today)
  }

  const TitleHead: string := "Growth content for "

  /** `Growth content for <locale> (<YYYY-MM-DD>)`. */
  function Title(locale: string, today: int): (r: string)
    ensures IsPrefix(TitleHead + locale + " (", r)
    ensures |r| == |TitleHead + locale + " ("| + 11
    ensures r[|r| - 11..|r| - 1] == IsoDate(today) && r[|r| - 1] == ')'
  {
    var head := TitleHead + locale + " (";
    assert (head + IsoDate(today) + ")")[..|head|] == head;
    assert (head + IsoDate(today) + ")")[|head|..|head| + 10] == IsoDate(today);
    head + IsoDate(today) + ")"
  }

  /** The commit message and the title both end in the day of the run,
      which reads back for years 0 to 9999. */
  lemma MessagesCarryDate(locale: string, today: int)
    requires 0 <= CivilFromDays(today).year <= 9999
    ensures var m := CommitMessage(locale, today);
      ParseIsoDate(m[|m| - 10..]) == Some(today)
    ensures var t := Title(locale, today);
      ParseIsoDate(t[|t| - 11..|t| - 1]) == Some(today)
  {
    IsoDateRoundTrip(today);
  }

  const BodyHead: string := "## Summary\n- Fresh content for "
  const BodyChecklist: string :=
    "\n\n## Checklist\n- [ ] hreflang entries confirmed\n- [ ] Internal links reviewed\n- [ ] Lighthouse sanity check completed\n"

  /** The summary naming the locale, then the three-item checklist. */
  function PrBody(locale: string): (r: string)
    ensures IsPrefix(BodyHead, r) && IsSuffix(BodyChecklist, r)
    ensures |r| == |BodyHead| + |locale| + |BodyChecklist|
    ensures r[|BodyHead|..|r| - |BodyChecklist|] == locale
  {
    var b := BodyHead + locale + BodyChecklist;
    assert b[..|BodyHead|] == BodyHead;
    assert b[|BodyHead|..|b| - |BodyChecklist|] == locale;
    assert b[|b| - |BodyChecklist|..] == BodyChecklist;
    b
  }

  // ---------------------------------------------------------------- labels

  /** A `git status --short` line that reports a modified file. */
  predicate Modified(line: string) {
    var t := Trim(line);
    |t| > 0 && t[0] == 'M'
  }

  function AnyModified(lines: seq<string>): (b: bool)
    ensures b <==> exists i :: 0 <= i < |lines| && Modified(lines[i])
  {
    if |lines| == 0 then false
    else Modified(lines[0]) || AnyModified(lines[1..])
  }

  /** Some line of the status output reports a modification. */
  function HasUpdates(status: string): bool {
    AnyModified(Split(status, '\n'))
  }

  /** For a status made of newline-free lines, an update is reported
      exactly when one of those lines reports a modified file. */
  lemma HasUpdatesLines(lines: seq<string>)
    requires |lines| > 0
    requires forall i :: 0 <= i < |lines| ==> Free(lines[i], '\n')
    ensures HasUpdates(Join(lines, "\n")) <==> exists i :: 0 <= i < |lines| && Modified(lines[i])
  {
    SplitJoin(lines, '\n');
  }

  const FromAgent: string := "from:agent"
  const TypeUpdate: string := "type:update"
  const TypeNew: string := "type:new"

  /** The three labels: origin, locale, and update or new. */
  function Labels(locale: string, status: string): (r: seq<string>)
    ensures |r| == 3 && r[0] == FromAgent && r[1] == "locale:" + locale
    ensures r[2] == (if HasUpdates(status) then TypeUpdate else TypeNew)
  {
    [FromAgent, "locale:" + locale, if HasUpdates(status) then TypeUpdate else TypeNew]
  }

  // ---------------------------------------------------------------- run

  /** Everything the run sends to git and GitHub. */
  datatype PrPlan = PrPlan(
    remoteUrl: string,
    branch: string,
    commitMessage: string,
    owner: string,
    repoName: string,
    title: string,
    base: string,
    body: string,
    labels: seq<string>,
    labelWarning: bool)

  /** The pull request for a checked locale and a parsed repository. */
  function Plan(loc: string, repo: string, owner: string, name: string, base: string,
                token: string, status: string, today: int, labelsAdded: bool): (p: PrPlan)
    ensures p.remoteUrl == RemoteUrl(repo, token) && p.branch == BranchName(loc, today)
    ensures p.commitMessage == CommitMessage(loc, today) && p.title == Title(loc, today)
    ensures p.body == PrBody(loc) && p.labels == Labels(loc, status)
    ensures IsPrefix(BranchPrefix + loc + "-", p.branch)
    ensures IsPrefix(UrlHead + token + UrlHost, p.remoteUrl)
    ensures p.owner == owner && p.repoName == name && p.base == base
    ensures |p.labels| == 3 && p.labels[1] == "locale:" + loc
    ensures p.labels[2] == TypeUpdate <==> HasUpdates(status)
    ensures p.labelWarning <==> !labelsAdded
  {
    PrPlan(RemoteUrl(repo, token), BranchName(loc, today), CommitMessage(loc, today),
           owner, name, Title(loc, today), base, PrBody(loc), Labels(loc, status),
           !labelsAdded)
  }

  /** The checks before the pull request is opened, in the order the
      runner meets them; on success, the owner and name of the target. */
  function Preflight(locale: Option<string>, repo: string, contentRoot: string, access: Access,
                     contentFiles: seq<string>, status: string): (r: Result<(string, string), PrError>)
    ensures locale.None? || locale == Some("") ==> r == Err(LocaleRequired)
    ensures r.Ok? <==> (
      && locale.Some? && locale.value != ""
      && access == Readable && |contentFiles| > 0 && Trim(status) != ""
      && ParseRepo(repo).Ok?)
    ensures r.Ok? ==> r == ParseRepo(repo)
    ensures locale.Some? && locale.value != "" ==>
      && (access == Missing ==> r == Err(DirectoryNotFound(contentRoot)))
      && (access.Denied? ==> r == Err(AccessFailed(access.code)))
      && (access == Readable && |contentFiles| == 0 ==> r == Err(NoContentFiles(contentRoot)))
      && (access == Readable && |contentFiles| > 0 && Trim(status) == "" ==> r == Err(NoChanges))
      && (access == Readable && |contentFiles| > 0 && Trim(status) != "" ==> r == ParseRepo(repo))
  {
    if locale.None? || locale.value == "" then Err(LocaleRequired)
    else if access == Missing then Err(DirectoryNotFound(contentRoot))
    else if access.Denied? then Err(AccessFailed(access.code))
    else if |contentFiles| == 0 then Err(NoContentFiles(contentRoot))
    else if Trim(status) == "" then Err(NoChanges)
    else ParseRepo(repo)
  }

  function Run(locale: Option<string>, repo: string, base: string, contentRoot: string,
               access: Access, contentFiles: seq<string>, token: string, status: string,
               today: int, labelsAdded: bool): (r: Result<PrPlan, PrError>)
    ensures r.Ok? <==> Preflight(locale, repo, contentRoot, access, contentFiles, status).Ok?
    ensures r.Err? ==> r.error == Preflight(locale, repo, contentRoot, access, contentFiles, status).error
    ensures r.Ok? ==> (
      var (owner, name) := Preflight(locale, repo, contentRoot, access, contentFiles, status).value;
      r.value == Plan(Lower(locale.value), repo, owner, name, base, token, status, today, labelsAdded))
  {
    match Preflight(locale, repo, contentRoot, access, contentFiles, status)
    case Err(e) => Err(e)
    case Ok((owner, name)) =>
      Ok(Plan(Lower(locale.value), repo, owner, name, base, token, status, today, labelsAdded))
  }

  lemma PlanWarning(loc: string, repo: string, owner: string, name: string, base: string,
                    token: string, status: string, today: int)
    ensures Plan(loc, repo, owner, name, base, token, status, today, false)
         == Plan(loc, repo, owner, name, base, token, status, today, true).(labelWarning := true)
  {
  }

  /** An empty content directory stops the run before any git work: the
      token, the status and the repository play no part. */
  lemma EmptyContentStops(locale: string, repo: string, base: string, contentRoot: string,
                          token: string, status: string, today: int, labelsAdded: bool)
    requires locale != ""
    ensures Run(Some(locale), repo, base, contentRoot, Readable, [], token, status, today, labelsAdded)
         == Err(NoContentFiles(contentRoot))
  {
  }

  /** Failing to add labels only adds a warning: the run succeeds or fails
      the same way and opens the same pull request. */
  lemma LabelFailureOnlyWarns(locale: Option<string>, repo: string, base: string, contentRoot: string,
                              access: Access, contentFiles: seq<string>, token: string, status: string,
                              today: int)
    ensures var ok := Run(locale, repo, base, contentRoot, access, contentFiles, token, status, today, true);
      var failed := Run(locale, repo, base, contentRoot, access, contentFiles, token, status, today, false);
      && ok.Ok? == failed.Ok?
      && (ok.Ok? ==> failed.value == ok.value.(labelWarning := true))
  {
    var pre := Preflight(locale, repo, contentRoot, access, contentFiles, status);
    if pre.Ok? {
      PlanWarning(Lower(locale.value), repo, pre.value.0, pre.value.1, base, token, status, today);
    }
  }

  /** A status with nothing but whitespace is refused. */
  lemma BlankStatusRefused(locale: string, repo: string, base: string, contentRoot: string,
                           contentFiles: seq<string>, token: string, status: string, today: int, labelsAdded: bool)
    requires locale != "" && |contentFiles| > 0 && AllWhitespace(status)
    ensures Run(Some(locale), repo, base, contentRoot, Readable, contentFiles, token, status, today, labelsAdded)
         == Err(NoChanges)
  {
    TrimBlank(status);
  }

  lemma TrimBlank(s: string)
    requires AllWhitespace(s)
    ensures Trim(s) == ""
  {
  }
}

=== FILE: report.dfy ===
/** The weekly report runner of the growth agent: it resolves the Monday to
    Sunday week around a reference date, fills the report stub and names the
    file after the week's first day. Parsing the reference with `new Date`
    and reading the clock are parameters; writing the file is left out. */
module Report {
  import opened Wrappers
  import opened Text
  import opened UtcDates

  datatype ReportError = InvalidWeekReference(reference: string)

  /** Day of the week with Sunday counted as 7 (`getUTCDay() || 7`). */
  function IsoWeekDay(day: int): (r: int)
    ensures 1 <= r <= 7
    ensures r % 7 == WeekDay(day)
  {
    if WeekDay(day) == 0 then 7 else WeekDay(day)
  }

  /** The Monday on or before `day`. */
  function WeekStart(day: int): (start: int)
    ensures WeekDay(start) == 1
    ensures start <= day < start + 7
  {
    day - (IsoWeekDay(day) - 1)
  }

  /** A Monday at most six days before `day` is its week start: the week
      of a day is unique. */
  lemma WeekStartUnique(day: int, monday: int)
    requires WeekDay(monday) == 1
    requires monday <= day < monday + 7
    ensures WeekStart(day) == monday
  {
    var s := WeekStart(day);
    assert (s + 4) % 7 == (monday + 4) % 7;
    assert -7 < s - monday < 7;
  }

  /** Every day of a week resolves to the same start. */
  lemma SameWeek(day: int, offset: int)
    requires 0 <= offset < 7
    ensures WeekStart(WeekStart(day) + offset) == WeekStart(day)
  {
    WeekStartUnique(WeekStart(day) + offset, WeekStart(day));
  }

  /** The resolved week, known by its first day. */
  datatype Week = Week(startDay: int)

  /** The week's first and last days as `YYYY-MM-DD`. */
  function StartText(w: Week): string {
    IsoDate(w.startDay)
  }

  function EndText(w: Week): string {
    IsoDate(w.startDay + 6)
  }

  /** The timestamp the week is taken around: the parsed reference when one
      is given (an empty string counts as none), otherwise the clock. */
  function BaseTime(reference: Option<string>, parse: string -> Option<int>, now: int): Option<int> {
    if reference.Some? && reference.value != "" then parse(reference.value) else Some(now)
  }

  /** A day of a year from 0 to 99: `Date.UTC` reads such a year as 1900 to
      1999. */
  predicate TwoDigitYear(day: int) {
    0 <= CivilFromDays(day).year <= 99
  }

  /** The year `Date.UTC` builds from a full year. */
  function UtcYear(year: int): int {
    if 0 <= year <= 99 then year + 1900 else year
  }

  /** `Date.UTC(getUTCFullYear(), getUTCMonth(), getUTCDate())` of a day:
      the same day, except in a two-digit year, which moves on to 1900 + y
      (29 February rolling over to 1 March where 1900 + y has none). */
  function UtcMidnight(day: int): (r: int)
    ensures !TwoDigitYear(day) ==> r == day
  {
    var c := CivilFromDays(day);
    CivilRoundTrip(day);
    DaysFromCivil(Civil(UtcYear(c.year), c.month, c.day))
  }

  /** The first day the runner reports for `day`: the weekday offset of the
      original day taken back from its `Date.UTC` midnight. */
  function ReportWeekStart(day: int): (start: int)
    ensures !TwoDigitYear(day) ==> start == WeekStart(day)
  {
    UtcMidnight(day) - (IsoWeekDay(day) - 1)
  }

  function ResolveWeek(reference: Option<string>, parse: string -> Option<int>, now: int): (r: Result<Week, ReportError>)
    ensures r.Err? <==> BaseTime(reference, parse, now).None?
    ensures r.Err? ==> reference.Some? && r.error == InvalidWeekReference(reference.value)
    ensures r.Ok? ==> (
      var day := DayOf(BaseTime(reference, parse, now).value);
      && (!TwoDigitYear(day) ==>
            && WeekDay(r.value.startDay) == 1
            && r.value.startDay <= day < r.value.startDay + 7)
      && (TwoDigitYear(day) ==>
            r.value.startDay == UtcMidnight(day) - (IsoWeekDay(day) - 1)))
  {
    var base := BaseTime(reference, parse, now);
    if base.None? then Err(InvalidWeekReference(reference.value))
    else Ok(Week(ReportWeekStart(DayOf(base.value))))
  }

  /** A day's civil date from the era split `CivilFromDays` makes of it. */
  lemma CivilOfDay(z: int, era: int, doe: int, yoe: int, doy: int, m: int, d: int)
    requires era == (z + 719468) / 146097 && doe == z + 719468 - era * 146097
    requires 0 <= doe < 146097 && SplitEra(doe) == (yoe, doy)
    requires 0 <= doy < 366 && (doy == 365 ==> IsLeap(yoe + 1))
    requires MonthDay(doy, IsLeap(yoe + 1)) == (m, d)
    ensures CivilFromDays(z) == Civil(yoe + era * 400 + (if m <= 2 then 1 else 0), m, d)
  {
    CivilFromDaysEra(z, era, doe);
  }

  // Concrete days: each era split is evaluated in a lemma of its own, so
  // that the solver never unfolds `CivilFromDays` of a literal.

  lemma Split0050March10()
    ensures SplitEra(18271) == (50, 9) && MonthDay(9, IsLeap(51)) == (3, 10)
  {
  }

  lemma Split1950March07()
    ensures SplitEra(127840) == (350, 6) && MonthDay(6, IsLeap(351)) == (3, 7)
  {
  }

  lemma Split0000February29()
    ensures SplitEra(146096) == (399, 365) && MonthDay(365, IsLeap(400)) == (2, 29)
  {
  }

  lemma Split0000March02()
    ensures SplitEra(1) == (0, 1) && MonthDay(1, IsLeap(1)) == (3, 2)
  {
  }

  lemma Day0050March10()
    ensures CivilFromDays(-701197) == Civil(50, 3, 10)
  {
    Split0050March10();
    CivilOfDay(-701197, 0, 18271, 50, 9, 3, 10);
  }

  lemma Day1950March07()
    ensures CivilFromDays(-7240) == Civil(1950, 3, 7)
  {
    Split1950March07();
    CivilOfDay(-7240, 4, 127840, 350, 6, 3, 7);
  }

  lemma Day0000February29()
    ensures CivilFromDays(-719469) == Civil(0, 2, 29)
  {
    Split0000February29();
    CivilOfDay(-719469, -1, 146096, 399, 365, 2, 29);
  }

  lemma Day0000March02()
    ensures CivilFromDays(-719467) == Civil(0, 3, 2)
  {
    Split0000March02();
    CivilOfDay(-719467, 0, 1, 0, 1, 3, 2);
  }

  // The day numbers `Date.UTC` gives the shifted dates.

  lemma Days1950March10()
    ensures DaysFromCivil(Civil(1950, 3, 10)) == -7237
  {
  }

  lemma Days1900February29()
    ensures DaysFromCivil(Civil(1900, 2, 29)) == -25508
  {
  }

  lemma Days1900March02()
    ensures DaysFromCivil(Civil(1900, 3, 2)) == -25507
  {
  }

  /** A day's `Date.UTC` midnight from its civil date. */
  lemma MidnightOfDate(day: int, c: Civil)
    requires CivilFromDays(day) == c
    ensures UtcMidnight(day) == DaysFromCivil(Civil(UtcYear(c.year), c.month, c.day))
  {
  }

  lemma Midnight0050March10()
    ensures UtcMidnight(-701197) == -7237
  {
    Day0050March10();
    MidnightOfDate(-701197, Civil(50, 3, 10));
    Days1950March10();
  }

  lemma Midnight0000February29()
    ensures UtcMidnight(-719469) == -25508
  {
    Day0000February29();
    MidnightOfDate(-719469, Civil(0, 2, 29));
    Days1900February29();
  }

  lemma Midnight0000March02()
    ensures UtcMidnight(-719467) == -25507
  {
    Day0000March02();
    MidnightOfDate(-719467, Civil(0, 3, 2));
    Days1900March02();
  }

  /** In a two-digit year the week moves to the twentieth century and need
      not start on a Monday: 10 March 0050, a Thursday, reports the week of
      Tuesday 7 March 1950. */
  lemma TwoDigitYearShifts()
    ensures CivilFromDays(-701197) == Civil(50, 3, 10) && WeekDay(-701197) == 4
    ensures ReportWeekStart(-701197) == -7240
    ensures CivilFromDays(-7240) == Civil(1950, 3, 7) && WeekDay(-7240) == 2
  {
    Day0050March10();
    Day1950March07();
    Midnight0050March10();
    assert IsoWeekDay(-701197) == 4;
  }

  /** 29 February and 2 March of year 0 share a week, yet the first reports
      from 28 February 1900 and the second from 27 February 1900: 1900 has
      no 29 February, so the first rolls over to 1 March before the weekday
      offset is taken off. */
  lemma LeapDaySplitsWeek()
    ensures CivilFromDays(-719469) == Civil(0, 2, 29)
    ensures CivilFromDays(-719467) == Civil(0, 3, 2)
    ensures WeekStart(-719469) == WeekStart(-719467)
    ensures ReportWeekStart(-719469) == -25509
    ensures ReportWeekStart(-719467) == -25510
  {
    Day0000February29();
    Day0000March02();
    Midnight0000February29();
    Midnight0000March02();
  }

  // ---------------------------------------------------------------- stub

  const Title: string := "# Weekly Growth Report"
  const WeekLabel: string := "**Week:** "
  const Arrow: string := " → "

  /** The four sections of the stub: heading and placeholder item. */
  const Sections: seq<(string, string)> := [
    ("## Highlights", "- TODO: celebrate impact"),
    ("## Blockers", "- TODO: list risks"),
    ("## In Flight", "- TODO: capture live work"),
    ("## Next Steps", "- TODO: name the upcoming commitments")
  ]

  function WeekLine(weekStart: string, weekEnd: string): string {
    WeekLabel + weekStart + Arrow + weekEnd
  }

  function SectionLines(): seq<string> {
    ["", Sections[0].0, Sections[0].1, "", Sections[1].0, Sections[1].1,
     "", Sections[2].0, Sections[2].1, "", Sections[3].0, Sections[3].1, ""]
  }

  function StubLineList(weekStart: string, weekEnd: string): seq<string> {
    [Title, "", WeekLine(weekStart, weekEnd)] + SectionLines()
  }

  /** The stub text: a title, the week line and the four sections, each
      block separated by a blank line, ending in a newline. */
  function BuildStub(weekStart: string, weekEnd: string): string {
    Join(StubLineList(weekStart, weekEnd), "\n")
  }

  lemma HeadingsFree()
    ensures Free(Sections[0].0, '\n') && Free(Sections[1].0, '\n')
    ensures Free(Sections[2].0, '\n') && Free(Sections[3].0, '\n')
  {
  }

  lemma ItemsFree()
    ensures Free(Sections[0].1, '\n') && Free(Sections[1].1, '\n')
    ensures Free(Sections[2].1, '\n') && Free(Sections[3].1, '\n')
  {
  }

  lemma SectionLinesFree()
    ensures forall i :: 0 <= i < |SectionLines()| ==> Free(SectionLines()[i], '\n')
  {
    HeadingsFree();
    ItemsFree();
  }

  /** Line by line, the stub is the title, a blank line, the week line and
      the four headings each followed by its item, with a blank line
      between blocks. */
  lemma StubLines(weekStart: string, weekEnd: string)
    requires Free(weekStart, '\n') && Free(weekEnd, '\n')
    ensures var lines := Split(BuildStub(weekStart, weekEnd), '\n');
      && |lines| == 16
      && lines[0] == Title
      && lines[2] == WeekLine(weekStart, weekEnd)
      && lines[4] == "## Highlights"
      && lines[7] == "## Blockers"
      && lines[10] == "## In Flight"
      && lines[13] == "## Next Steps"
      && lines[15] == ""
  {
    var lines := StubLineList(weekStart, weekEnd);
    SectionLinesFree();
    assert Free(Title, '\n');
    assert Free(WeekLine(weekStart, weekEnd), '\n');
    assert forall i :: 0 <= i < |lines| ==> Free(lines[i], '\n');
    SplitJoin(lines, '\n');
  }

  // ---------------------------------------------------------------- run

  datatype ReportRun = ReportRun(destination: string, stub: string)

  /** The file the stub goes to: `<start>.md` inside the output directory. */
  function ReportPath(outputDir: string, weekStart: string): (r: string)
    ensures IsPrefix(outputDir + "/", r)
    ensures IsSuffix(weekStart + ".md", r)
  {
    var dir := outputDir + "/";
    assert (dir + weekStart + ".md")[..|dir|] == dir;
    assert (dir + weekStart + ".md")[|dir|..] == weekStart + ".md";
    dir + weekStart + ".md"
  }

  function Run(weekOf: Option<string>, outputDir: string, parse: string -> Option<int>, now: int): (r: Result<ReportRun, ReportError>)
    ensures r.Err? <==> ResolveWeek(weekOf, parse, now).Err?
    ensures r.Ok? ==> (
      var week := ResolveWeek(weekOf, parse, now).value;
      && r.value.destination == ReportPath(outputDir, StartText(week))
      && IsPrefix(outputDir + "/", r.value.destination)
      && IsSuffix(StartText(week) + ".md", r.value.destination)
      && r.value.stub == BuildStub(StartText(week), EndText(week)))
  {
    match ResolveWeek(weekOf, parse, now)
    case Err(e) => Err(e)
    case Ok(week) => Ok(ReportRun(ReportPath(outputDir, StartText(week)), BuildStub(StartText(week), EndText(week))))
  }

  lemma BaseTimeOfReference(reference: string, parse: string -> Option<int>, now: int)
    requires reference != ""
    ensures BaseTime(Some(reference), parse, now) == parse(reference)
  {
  }

  lemma ResolvesToWeekOf(reference: string, parse: string -> Option<int>, now: int)
    requires reference != "" && parse(reference).Some?
    requires !TwoDigitYear(DayOf(parse(reference).value))
    ensures ResolveWeek(Some(reference), parse, now) == Ok(Week(WeekStart(DayOf(parse(reference).value))))
  {
    BaseTimeOfReference(reference, parse, now);
  }

  /** Two references in the same week give the same report file. */
  lemma SameWeekSameFile(a: string, b: string, outputDir: string, parse: string -> Option<int>, now: int)
    requires a != "" && b != ""
    requires parse(a).Some? && parse(b).Some?
    requires !TwoDigitYear(DayOf(parse(a).value)) && !TwoDigitYear(DayOf(parse(b).value))
    requires WeekStart(DayOf(parse(a).value)) == WeekStart(DayOf(parse(b).value))
    ensures Run(Some(a), outputDir, parse, now) == Run(Some(b), outputDir, parse, now)
  {
    ResolvesToWeekOf(a, parse, now);
    ResolvesToWeekOf(b, parse, now);
  }
}

=== FILE: repositories.dfy ===
/** The four repository interfaces of the app, the error they share and the
    meeting filter. The interfaces are given as an operation table so that
    their shape can be stated; the two backends are `InMemory` and
    `PersistentStore`. */
module Repositories {
  import opened Wrappers
  import opened Models

  /** The one error the repositories and use cases throw. */
  datatype RepositoryError = MissingEntity

  /** Conditions on meetings; an absent (or, for the text fields, empty)
      condition imposes nothing. */
  datatype OneOnOneFilter = OneOnOneFilter(
    keyword: Option<string>,
    participant: Option<string>,
    status: Option<ActionItemStatus>)

  /** `OneOnOneFilter()` with every argument defaulted. */
  function DefaultFilter(): (f: OneOnOneFilter)
    ensures f.keyword.None? && f.participant.None? && f.status.None?
  {
    OneOnOneFilter(None, None, None)
  }

  /** A text condition that is present and non-empty (`if let k = …, !k.isEmpty`). */
  predicate Active(text: Option<string>) {
    text.Some? && |text.value| > 0
  }

  datatype RepositoryKind =
    | ObjectiveRepository
    | OneOnOneRepository
    | PersonalLogRepository
    | ActionItemRepository

  /** A protocol requirement; `Fetch(true)` is a fetch that takes a filter. */
  datatype Operation = Create | Fetch(filtered: bool) | Update | Delete | Upsert

  /** The requirements each repository protocol declares. */
  function Operations(k: RepositoryKind): (ops: set<Operation>)
    ensures Update in ops <==> k == ObjectiveRepository
    ensures Delete in ops <==> k != ActionItemRepository
    ensures Upsert in ops <==> k == ActionItemRepository
    ensures Create in ops <==> k != ActionItemRepository
    ensures Fetch(true) in ops <==> k == OneOnOneRepository
    ensures Fetch(true) in ops <==> Fetch(false) !in ops
    ensures k == ActionItemRepository ==> ops == {Upsert, Fetch(false)}
  {
    match k
    case ObjectiveRepository => {Create, Fetch(false), Update, Delete}
    case OneOnOneRepository => {Create, Fetch(true), Delete}
    case PersonalLogRepository => {Create, Fetch(false), Delete}
    case ActionItemRepository => {Upsert, Fetch(false)}
  }
}

=== FILE: seqs.dfy ===
/** Order-preserving sequence combinators shared by the repositories, the
    analytics snapshot and the text helpers. */
module Seqs {
  import opened Wrappers

  /** The elements of `s` satisfying `p`, in their original order
      (Swift `filter`, `removeAll(where:)` with the predicate negated). */
  function Filter<T(==)>(s: seq<T>, p: T -> bool): (r: seq<T>)
    ensures |r| <= |s|
    ensures forall i :: 0 <= i < |r| ==> p(r[i])
    ensures forall i :: 0 <= i < |r| ==> r[i] in s
    ensures forall i :: 0 <= i < |s| && p(s[i]) ==> s[i] in r
    ensures multiset(r) <= multiset(s)
    ensures Subsequence(r, s)
  {
    if |s| == 0 then []
    else
      assert s == [s[0]] + s[1..];
      if p(s[0]) then [s[0]] + Filter(s[1..], p)
      else Filter(s[1..], p)
  }

  /** `a` can be obtained from `s` by deleting elements: same relative order. */
  predicate Subsequence<T(==)>(a: seq<T>, s: seq<T>)
    decreases |s|
  {
    if |a| == 0 then true
    else if |s| == 0 then false
    else if a[0] == s[0] then Subsequence(a[1..], s[1..])
    else Subsequence(a, s[1..])
  }

  /** A sequence framed by a head and a tail starts with the head and ends
      with the tail. */
  lemma Framed<T>(head: seq<T>, mid: seq<T>, tail: seq<T>)
    ensures (head + mid + tail)[..|head|] == head
    ensures (head + mid + tail)[|head| + |mid|..] == tail
  {
  }

  /** Anything in a permutation of a filtered sequence came from the
      sequence and passes the filter. */
  lemma FilterMember<T>(s: seq<T>, p: T -> bool, x: T)
    requires x in multiset(Filter(s, p))
    ensures x in s && p(x)
  {
    var r := Filter(s, p);
    assert x in r;
    var k :| 0 <= k < |r| && r[k] == x;
  }

  /** Filtering commutes with concatenation: the kept elements of `a` come
      before the kept elements of `b`, so filtering never reorders. */
  lemma {:induction false} FilterConcat<T>(a: seq<T>, b: seq<T>, p: T -> bool)
    ensures Filter(a + b, p) == Filter(a, p) + Filter(b, p)
  {
    if |a| == 0 {
      assert a + b == b;
    } else {
      assert (a + b)[0] == a[0];
      assert (a + b)[1..] == a[1..] + b;
      FilterConcat(a[1..], b, p);
    }
  }

  /** A filter keeps every copy of an element that passes and no copy of one
      that does not. */
  lemma {:induction false} FilterMultiplicity<T>(s: seq<T>, p: T -> bool, x: T)
    ensures multiset(Filter(s, p))[x] == if p(x) then multiset(s)[x] else 0
  {
    if |s| > 0 {
      FilterMultiplicity(s[1..], p, x);
      assert s == [s[0]] + s[1..];
    }
  }

  /** A filter whose predicate holds everywhere returns its input. */
  lemma {:induction false} FilterAll<T>(s: seq<T>, p: T -> bool)
    requires forall i :: 0 <= i < |s| ==> p(s[i])
    ensures Filter(s, p) == s
  {
    if |s| > 0 {
      FilterAll(s[1..], p);
    }
  }

  /** Number of elements satisfying `p`. */
  function Count<T>(s: seq<T>, p: T -> bool): (n: nat)
    ensures n <= |s|
    ensures n == |Filter(s, p)|
    ensures n == 0 <==> forall i :: 0 <= i < |s| ==> !p(s[i])
  {
    if |s| == 0 then 0
    else (if p(s[0]) then 1 else 0) + Count(s[1..], p)
  }

  /** Every element is counted once, on one side or the other of `p`. */
  lemma {:induction false} CountSplit<T>(s: seq<T>, p: T -> bool)
    ensures Count(s, p) + Count(s, x => !p(x)) == |s|
  {
    if |s| > 0 {
      CountSplit(s[1..], p);
    }
  }

  /** `f` applied to every element, keeping order. */
  function Map<T, U>(f: T -> U, s: seq<T>): (r: seq<U>)
    ensures |r| == |s|
    ensures forall i :: 0 <= i < |s| ==> r[i] == f(s[i])
  {
    if |s| == 0 then [] else [f(s[0])] + Map(f, s[1..])
  }

  lemma MapConcat<T, U>(f: T -> U, a: seq<T>, b: seq<T>)
    ensures Map(f, a + b) == Map(f, a) + Map(f, b)
  {
    assert |Map(f, a + b)| == |Map(f, a) + Map(f, b)|;
    forall i | 0 <= i < |a + b|
      ensures Map(f, a + b)[i] == (Map(f, a) + Map(f, b))[i]
    {
      if i < |a| {
        assert (a + b)[i] == a[i];
      } else {
        assert (a + b)[i] == b[i - |a|];
      }
    }
  }

  /** Removing position `i` removes exactly one copy of `t[i]`. */
  lemma RemoveAt<T>(t: seq<T>, i: nat)
    requires i < |t|
    ensures multiset(t[..i] + t[i + 1..]) == multiset(t) - multiset{t[i]}
  {
    assert t == t[..i] + [t[i]] + t[i + 1..];
    assert multiset(t) == multiset(t[..i]) + multiset{t[i]} + multiset(t[i + 1..]);
  }

  lemma MapRemoveAt<T, U>(f: T -> U, t: seq<T>, i: nat)
    requires i < |t|
    ensures multiset(Map(f, t)) == multiset(Map(f, t[..i] + t[i + 1..])) + multiset{f(t[i])}
  {
    assert t == t[..i] + ([t[i]] + t[i + 1..]);
    MapConcat(f, t[..i], [t[i]] + t[i + 1..]);
    MapConcat(f, [t[i]], t[i + 1..]);
    MapConcat(f, t[..i], t[i + 1..]);
    var a, b := Map(f, t[..i]), Map(f, t[i + 1..]);
    assert Map(f, t) == a + ([f(t[i])] + b);
    assert multiset(Map(f, t)) == multiset(a) + multiset{f(t[i])} + multiset(b);
  }

  lemma Associative<T>(a: seq<T>, b: seq<T>, c: seq<T>)
    ensures a + (b + c) == a + b + c
  {
  }

  lemma MultisetTail<T>(s: seq<T>)
    requires |s| > 0
    ensures multiset(s) == multiset{s[0]} + multiset(s[1..])
  {
    assert s == [s[0]] + s[1..];
  }

  lemma MapHead<T, U>(f: T -> U, s: seq<T>)
    requires |s| > 0
    ensures multiset(Map(f, s)) == multiset{f(s[0])} + multiset(Map(f, s[1..]))
  {
    MultisetTail(Map(f, s));
    assert Map(f, s)[1..] == Map(f, s[1..]);
  }

  /** Mapping respects permutations: permuted inputs give permuted outputs. */
  lemma {:induction false} MapPermutation<T, U>(f: T -> U, s: seq<T>, t: seq<T>)
    requires multiset(s) == multiset(t)
    ensures multiset(Map(f, s)) == multiset(Map(f, t))
    decreases |s|
  {
    if |s| == 0 {
      assert |t| == |multiset(t)| == 0;
    } else {
      var x := s[0];
      MultisetTail(s);
      assert x in multiset(t);
      var i :| 0 <= i < |t| && t[i] == x;
      var rest := t[..i] + t[i + 1..];
      RemoveAt(t, i);
      assert multiset(s[1..]) == multiset(rest);
      MapPermutation(f, s[1..], rest);
      MapRemoveAt(f, t, i);
      MapHead(f, s);
    }
  }

  /** Position of the first element whose key is `k` (Swift `firstIndex(where:)`). */
  function FirstIndex<T, K(==)>(s: seq<T>, key: T -> K, k: K): (r: Option<nat>)
    ensures r.Some? ==> r.value < |s| && key(s[r.value]) == k
    ensures r.Some? ==> forall j :: 0 <= j < r.value ==> key(s[j]) != k
    ensures r.None? <==> forall j :: 0 <= j < |s| ==> key(s[j]) != k
  {
    if |s| == 0 then None
    else if key(s[0]) == k then Some(0)
    else match FirstIndex(s[1..], key, k)
      case None => None
      case Some(i) => Some(i + 1)
  }

  /** `i` is the first position of `s` whose key is `k`. */
  predicate FirstMatch<T, K(==)>(s: seq<T>, key: T -> K, k: K, i: int) {
    0 <= i < |s| && key(s[i]) == k && forall j :: 0 <= j < i ==> key(s[j]) != k
  }

  /** There is only one first match. */
  lemma FirstMatchUnique<T, K>(s: seq<T>, key: T -> K, k: K, i: int, j: int)
    requires FirstMatch(s, key, k, i) && FirstMatch(s, key, k, j)
    ensures i == j
  {
  }

  /** Some element of `s` has key `k`. */
  predicate HasKey<T, K(==)>(s: seq<T>, key: T -> K, k: K) {
    exists i :: 0 <= i < |s| && key(s[i]) == k
  }

  /** Every key in `s` occurs at most once. */
  predicate UniqueKeys<T, K(==)>(s: seq<T>, key: T -> K) {
    forall i, j :: 0 <= i < j < |s| ==> key(s[i]) != key(s[j])
  }

  /** Concatenation of a sequence of sequences. */
  function Flatten<T>(ss: seq<seq<T>>): (r: seq<T>)
    ensures |ss| == 0 ==> r == []
  {
    if |ss| == 0 then [] else ss[0] + Flatten(ss[1..])
  }
}

=== FILE: sorting.dfy ===
/** Sorting by an integer key: the fetch orders of the persistent store
    (`NSSortDescriptor` on a date attribute) and the date sort of the
    reflection-streak walk. A descending order is an ascending sort on the
    negated key. */
module Sorting {

  /** `s` is in ascending order of `key` (all pairs, not only neighbours). */
  predicate SortedBy<T>(s: seq<T>, key: T -> int) {
    forall i, j :: 0 <= i < j < |s| ==> key(s[i]) <= key(s[j])
  }

  /** Non-increasing order on plain integers. */
  predicate Descending(s: seq<int>) {
    forall i, j :: 0 <= i < j < |s| ==> s[j] <= s[i]
  }

  /** Every element of `s` has a key of at least `b`. */
  predicate LowerBound<T>(s: seq<T>, key: T -> int, b: int) {
    forall i :: 0 <= i < |s| ==> b <= key(s[i])
  }

  /** Puts `x` in front of the first element with a larger-or-equal key. */
  function InsertBy<T>(x: T, s: seq<T>, key: T -> int): (r: seq<T>)
    ensures multiset(r) == multiset(s) + multiset{x}
    ensures |r| == |s| + 1
  {
    if |s| == 0 then [x]
    else if key(x) <= key(s[0]) then [x] + s
    else
      assert s == [s[0]] + s[1..];
      [s[0]] + InsertBy(x, s[1..], key)
  }

  lemma {:induction false} InsertByBound<T>(x: T, s: seq<T>, key: T -> int, b: int)
    requires LowerBound(s, key, b) && b <= key(x)
    ensures LowerBound(InsertBy(x, s, key), key, b)
  {
    if |s| > 0 && key(x) > key(s[0]) {
      InsertByBound(x, s[1..], key, b);
    }
  }

  lemma {:induction false} InsertBySorted<T>(x: T, s: seq<T>, key: T -> int)
    requires SortedBy(s, key)
    ensures SortedBy(InsertBy(x, s, key), key)
  {
    if |s| > 0 && key(x) > key(s[0]) {
      var tail := s[1..];
      assert SortedBy(tail, key);
      InsertBySorted(x, tail, key);
      assert LowerBound(tail, key, key(s[0]));
      InsertByBound(x, tail, key, key(s[0]));
      var r := InsertBy(x, s, key);
      assert r == [s[0]] + InsertBy(x, tail, key);
    } else if |s| > 0 {
      assert LowerBound(s, key, key(x));
    }
  }

  /** Insertion sort by `key`, ascending. */
  function SortBy<T>(s: seq<T>, key: T -> int): (r: seq<T>)
    ensures multiset(r) == multiset(s)
    ensures |r| == |s|
    ensures SortedBy(r, key)
  {
    if |s| == 0 then []
    else
      assert s == [s[0]] + s[1..];
      var sortedTail := SortBy(s[1..], key);
      InsertBySorted(s[0], sortedTail, key);
      InsertBy(s[0], sortedTail, key)
  }

  /** The largest element of a multiset that a descending sequence
      enumerates comes first. */
  lemma HeadIsMaximum(a: seq<int>, x: int)
    requires Descending(a) && x in multiset(a)
    ensures |a| > 0 && x <= a[0]
  {
    var i :| 0 <= i < |a| && a[i] == x;
  }

  lemma RestAfterHead(a: seq<int>)
    requires Descending(a) && |a| > 0
    ensures Descending(a[1..])
    ensures multiset(a[1..]) == multiset(a) - multiset{a[0]}
  {
    assert a == [a[0]] + a[1..];
  }

  /** A descending integer sequence is determined by its multiset of elements. */
  lemma {:induction false} DescendingUnique(a: seq<int>, b: seq<int>)
    requires Descending(a) && Descending(b)
    requires multiset(a) == multiset(b)
    ensures a == b
    decreases |a|
  {
    if |a| == 0 {
      assert |b| == |multiset(b)| == 0;
    } else {
      assert a[0] in multiset(a);
      HeadIsMaximum(b, a[0]);
      assert b[0] in multiset(b);
      HeadIsMaximum(a, b[0]);
      assert a[0] == b[0];
      RestAfterHead(a);
      RestAfterHead(b);
      DescendingUnique(a[1..], b[1..]);
    }
  }
}

=== FILE: store_rows.dfy ===
/** The persistent store seen as five tables of rows, one per entity, with
    every relationship held on its to-one side as the number of the row it
    points at; a to-many relationship is the set of rows pointing back. This
    module defines the rows, the store invariant, the decoding of raw enum
    values and the mapping of rows back to the app's records, and the three
    fetches with their sort orders and the meeting predicate. */
module StoreRows {
  import opened Wrappers
  import opened Models
  import opened Repositories
  import opened Seqs
  import opened Sorting
  import opened Tables
  import Text

  datatype ObjectiveRow = ObjectiveRow(
    id: Uuid,
    title: string,
    detail: Option<string>,
    startDate: Date,
    endDate: Date,
    createdAt: Date,
    updatedAt: Date)

  datatype KeyResultRow = KeyResultRow(
    id: Uuid,
    title: string,
    detail: Option<string>,
    targetValue: real,
    currentValue: real,
    unit: string,
    createdAt: Date,
    updatedAt: Date,
    objective: Option<nat>)

  datatype ActionItemRow = ActionItemRow(
    id: Uuid,
    title: string,
    detail: Option<string>,
    dueDate: Option<Date>,
    ownerName: Option<string>,
    statusRaw: string,
    createdAt: Date,
    updatedAt: Date,
    objective: Option<nat>,
    oneOnOne: Option<nat>,
    personalLog: Option<nat>)

  datatype MeetingRow = MeetingRow(
    id: Uuid,
    meetingDate: Date,
    counterpartName: string,
    counterpartRole: Option<string>,
    notes: Option<string>,
    audioFilePath: Option<string>,
    transcriptFilePath: Option<string>,
    createdAt: Date,
    updatedAt: Date)

  datatype LogRow = LogRow(
    id: Uuid,
    entryDate: Date,
    plannedWork: string,
    reflection: Option<string>,
    moodScore: real,
    reminderFrequencyRaw: string,
    createdAt: Date,
    updatedAt: Date,
    objective: Option<nat>)

  datatype Store = Store(
    objectives: Table<ObjectiveRow>,
    keyResults: Table<KeyResultRow>,
    actionItems: Table<ActionItemRow>,
    meetings: Table<MeetingRow>,
    logs: Table<LogRow>)

  const EmptyStore: Store :=
    Store(Table(map[], 0), Table(map[], 0), Table(map[], 0), Table(map[], 0), Table(map[], 0))

  function ObjectiveRowId(r: ObjectiveRow): Uuid { r.id }
  function ActionItemRowId(r: ActionItemRow): Uuid { r.id }
  function MeetingRowId(r: MeetingRow): Uuid { r.id }
  function LogRowId(r: LogRow): Uuid { r.id }

  function KeyResultObjective(r: KeyResultRow): Option<nat> { r.objective }
  function ActionItemObjective(r: ActionItemRow): Option<nat> { r.objective }
  function ActionItemMeeting(r: ActionItemRow): Option<nat> { r.oneOnOne }
  function ActionItemLog(r: ActionItemRow): Option<nat> { r.personalLog }
  function LogObjective(r: LogRow): Option<nat> { r.objective }

  /** Every table hands out numbers above the ones it holds. */
  predicate Numbered(s: Store) {
    Bounded(s.objectives) && Bounded(s.keyResults) && Bounded(s.actionItems)
    && Bounded(s.meetings) && Bounded(s.logs)
  }

  /** The store invariant: numbering, and every relationship pointing at a
      stored row of the right entity. */
  predicate Valid(s: Store) {
    Numbered(s)
    && (forall k :: k in s.keyResults.rows ==> LinkIn(s.keyResults.rows[k].objective, s.objectives))
    && (forall k :: k in s.actionItems.rows ==> LinkIn(s.actionItems.rows[k].objective, s.objectives))
    && (forall k :: k in s.actionItems.rows ==> LinkIn(s.actionItems.rows[k].oneOnOne, s.meetings))
    && (forall k :: k in s.actionItems.rows ==> LinkIn(s.actionItems.rows[k].personalLog, s.logs))
    && (forall k :: k in s.logs.rows ==> LinkIn(s.logs.rows[k].objective, s.objectives))
  }

  lemma EmptyStoreIsValid()
    ensures Valid(EmptyStore)
  {
  }

  // ---------------------------------------------------------------- decoding

  /** `ActionItemStatus(rawValue:) ?? .pending`. */
  function DecodeStatus(raw: string): (st: ActionItemStatus)
    ensures forall c :: raw == StatusRaw(c) ==> st == c
    ensures (forall c :: raw != StatusRaw(c)) ==> st == Pending
  {
    StatusFromRaw(raw).GetOr(Pending)
  }

  /** `ReminderFrequency(rawValue:) ?? .daily`. */
  function DecodeFrequency(raw: string): (f: ReminderFrequency)
    ensures forall c :: raw == FrequencyRaw(c) ==> f == c
    ensures (forall c :: raw != FrequencyRaw(c)) ==> f == Daily
  {
    FrequencyFromRaw(raw).GetOr(Daily)
  }

  /** Storing a case and reading it back gives the case; a raw value no case
      has reads back as the default. */
  lemma DecodeEncode(st: ActionItemStatus, f: ReminderFrequency)
    ensures DecodeStatus(StatusRaw(st)) == st
    ensures DecodeFrequency(FrequencyRaw(f)) == f
    ensures DecodeStatus("done") == Pending && DecodeFrequency("monthly") == Daily
  {
    assert forall c :: "done" != StatusRaw(c);
    assert forall c :: "monthly" != FrequencyRaw(c);
  }

  // ---------------------------------------------------------------- rows to records

  /** The `id` of the row a link names, as `managed.objective?.id` reads it. */
  function ParentId<R>(t: Table<R>, id: R -> Uuid, link: Option<nat>): (r: Option<Uuid>)
    ensures link.None? ==> r.None?
    ensures link.Some? && link.value in t.rows ==> r == Some(id(t.rows[link.value]))
  {
    if link.Some? && link.value in t.rows then Some(id(t.rows[link.value])) else None
  }

  /** `KeyResultManagedObject.toDomain`. */
  function KeyResultOf(r: KeyResultRow): (k: KeyResult)
    ensures k.id == r.id && k.targetValue == r.targetValue && k.currentValue == r.currentValue
    ensures k.createdAt == r.createdAt
  {
    KeyResult(r.id, r.title, r.detail, r.targetValue, r.currentValue, r.unit, r.createdAt, r.updatedAt)
  }

  /** `ActionItemManagedObject.toDomain`: the status decoded, each link read
      back as the id of the row it names. */
  function ActionItemOf(s: Store, r: ActionItemRow): (a: ActionItem)
    ensures a.id == r.id && a.status == DecodeStatus(r.statusRaw)
    ensures a.objectiveID == ParentId(s.objectives, ObjectiveRowId, r.objective)
    ensures a.oneOnOneID == ParentId(s.meetings, MeetingRowId, r.oneOnOne)
    ensures a.personalLogID == ParentId(s.logs, LogRowId, r.personalLog)
  {
    ActionItem(r.id, r.title, r.detail, r.dueDate, r.ownerName, DecodeStatus(r.statusRaw),
               r.createdAt, r.updatedAt,
               ParentId(s.objectives, ObjectiveRowId, r.objective),
               ParentId(s.meetings, MeetingRowId, r.oneOnOne),
               ParentId(s.logs, LogRowId, r.personalLog))
  }

  function ActionItemsOf(s: Store, rows: seq<ActionItemRow>): (items: seq<ActionItem>)
    ensures |items| == |rows|
    ensures forall i :: 0 <= i < |rows| ==> items[i] == ActionItemOf(s, rows[i])
  {
    if |rows| == 0 then [] else [ActionItemOf(s, rows[0])] + ActionItemsOf(s, rows[1..])
  }

  /** The action items whose `link` names row `k`, in number order. */
  function LinkedItems(s: Store, link: ActionItemRow -> Option<nat>, k: nat): seq<ActionItemRow> {
    RowsOf(Select(s.actionItems, LinksTo(link, k)))
  }

  /** `OneOnOneManagedObject.toDomain` for the meeting stored as row `k`. */
  function MeetingOf(s: Store, k: nat, r: MeetingRow): (m: OneOnOneMeeting)
    ensures m.id == r.id && m.meetingDate == r.meetingDate && m.notes == r.notes
    ensures m.counterpartName == r.counterpartName
    ensures m.actionItems == ActionItemsOf(s, LinkedItems(s, ActionItemMeeting, k))
  {
    OneOnOneMeeting(r.id, r.meetingDate, r.counterpartName, r.counterpartRole, r.notes,
                    r.audioFilePath, r.transcriptFilePath,
                    ActionItemsOf(s, LinkedItems(s, ActionItemMeeting, k)))
  }

  /** `PersonalLogManagedObject.toDomain` for the log stored as row `k`. */
  function LogOf(s: Store, k: nat, r: LogRow): (e: PersonalLogEntry)
    ensures e.id == r.id && e.entryDate == r.entryDate
    ensures e.reminderFrequency == DecodeFrequency(r.reminderFrequencyRaw)
    ensures e.objectiveID == ParentId(s.objectives, ObjectiveRowId, r.objective)
    ensures e.actionItems == ActionItemsOf(s, LinkedItems(s, ActionItemLog, k))
  {
    PersonalLogEntry(r.id, r.entryDate, r.plannedWork, r.reflection, r.moodScore,
                     DecodeFrequency(r.reminderFrequencyRaw),
                     ParentId(s.objectives, ObjectiveRowId, r.objective),
                     ActionItemsOf(s, LinkedItems(s, ActionItemLog, k)))
  }

  function LogsOf(s: Store, es: seq<(nat, LogRow)>): (logs: seq<PersonalLogEntry>)
    ensures |logs| == |es|
    ensures forall i :: 0 <= i < |es| ==> logs[i] == LogOf(s, es[i].0, es[i].1)
  {
    if |es| == 0 then [] else [LogOf(s, es[0].0, es[0].1)] + LogsOf(s, es[1..])
  }

  function KeyResultsOf(rows: seq<KeyResultRow>): (krs: seq<KeyResult>)
    ensures |krs| == |rows|
    ensures forall i :: 0 <= i < |rows| ==> krs[i] == KeyResultOf(rows[i])
  {
    if |rows| == 0 then [] else [KeyResultOf(rows[0])] + KeyResultsOf(rows[1..])
  }

  function KeyResultCreatedAt(k: KeyResult): int { k.createdAt }

  /** `ObjectiveManagedObject.toDomain` for the objective stored as row `k`:
      its key results sorted by creation date, its action items and logs. */
  function ObjectiveOf(s: Store, k: nat, r: ObjectiveRow): (o: Objective)
    ensures o.id == r.id && o.title == r.title && o.startDate == r.startDate && o.endDate == r.endDate
    ensures SortedBy(o.keyResults, KeyResultCreatedAt)
    ensures multiset(o.keyResults)
      == multiset(KeyResultsOf(RowsOf(Select(s.keyResults, LinksTo(KeyResultObjective, k)))))
    ensures o.actionItems == ActionItemsOf(s, LinkedItems(s, ActionItemObjective, k))
    ensures o.personalLogs == LogsOf(s, Select(s.logs, LinksTo(LogObjective, k)))
  {
    Objective(r.id, r.title, r.detail, r.startDate, r.endDate,
              SortBy(KeyResultsOf(RowsOf(Select(s.keyResults, LinksTo(KeyResultObjective, k)))), KeyResultCreatedAt),
              ActionItemsOf(s, LinkedItems(s, ActionItemObjective, k)),
              LogsOf(s, Select(s.logs, LinksTo(LogObjective, k))))
  }

  // ---------------------------------------------------------------- fetches

  function ObjectiveEntryCreatedAt(e: (nat, ObjectiveRow)): int { e.1.createdAt }
  function MeetingEntryKey(e: (nat, MeetingRow)): int { -e.1.meetingDate }
  function LogEntryKey(e: (nat, LogRow)): int { -e.1.entryDate }

  /** The stored objectives in the order of the sort descriptor `createdAt`
      ascending. */
  function ObjectiveEntries(s: Store): (es: seq<(nat, ObjectiveRow)>)
    ensures multiset(es) == multiset(Select(s.objectives, AnyRow()))
    ensures forall i, j :: 0 <= i < j < |es| ==> es[i].1.createdAt <= es[j].1.createdAt
  {
    var es := SortBy(Select(s.objectives, AnyRow()), ObjectiveEntryCreatedAt);
    assert SortedBy(es, ObjectiveEntryCreatedAt);
    es
  }

  /** `CoreDataObjectiveRepository.fetchObjectives`: one objective read back
      per stored row, in the order of `ObjectiveEntries`. */
  function FetchObjectives(s: Store): (os: seq<Objective>)
    ensures |os| == |Select(s.objectives, AnyRow())|
    ensures forall i :: 0 <= i < |os| ==>
      os[i] == ObjectiveOf(s, ObjectiveEntries(s)[i].0, ObjectiveEntries(s)[i].1)
  {
    var es := ObjectiveEntries(s);
    assert |es| == |multiset(es)|;
    Map((e: (nat, ObjectiveRow)) => ObjectiveOf(s, e.0, e.1), es)
  }

  /** `CONTAINS[cd]` on ASCII text: a substring test after case folding. */
  predicate FoldedContains(text: string, pattern: string) {
    Text.Contains(Text.Lower(text), Text.Lower(pattern))
  }

  /** `ANY actionItems.statusRaw == raw` for the meeting stored as row `k`. */
  predicate AnyItemWithRaw(s: Store, k: nat, raw: string) {
    var items := LinkedItems(s, ActionItemMeeting, k);
    exists i :: 0 <= i < |items| && items[i].statusRaw == raw
  }

  /** The compound predicate of the meeting fetch: only the present, non-empty
      conditions, joined with AND. */
  predicate MatchesStored(s: Store, e: (nat, MeetingRow), f: OneOnOneFilter) {
    (Active(f.keyword) ==> e.1.notes.Some? && FoldedContains(e.1.notes.value, f.keyword.value))
    && (Active(f.participant) ==> FoldedContains(e.1.counterpartName, f.participant.value))
    && (f.status.Some? ==> AnyItemWithRaw(s, e.0, StatusRaw(f.status.value)))
  }

  function MeetingsOf(s: Store, es: seq<(nat, MeetingRow)>): (ms: seq<OneOnOneMeeting>)
    ensures |ms| == |es|
    ensures forall i :: 0 <= i < |es| ==> ms[i] == MeetingOf(s, es[i].0, es[i].1)
  {
    if |es| == 0 then [] else [MeetingOf(s, es[0].0, es[0].1)] + MeetingsOf(s, es[1..])
  }

  /** The stored meetings the predicate accepts, newest first. */
  function MatchingMeetings(s: Store, f: OneOnOneFilter): (es: seq<(nat, MeetingRow)>)
    ensures multiset(es) == multiset(Filter(Select(s.meetings, AnyRow()), e => MatchesStored(s, e, f)))
    ensures forall i, j :: 0 <= i < j < |es| ==> es[j].1.meetingDate <= es[i].1.meetingDate
  {
    var es := SortBy(Filter(Select(s.meetings, AnyRow()), e => MatchesStored(s, e, f)), MeetingEntryKey);
    assert forall i, j :: 0 <= i < j < |es| ==> MeetingEntryKey(es[i]) <= MeetingEntryKey(es[j]);
    es
  }

  /** `CoreDataOneOnOneRepository.fetchMeetings(filter:)`: the matching
      meetings, newest first. */
  function FetchMeetings(s: Store, f: OneOnOneFilter): (ms: seq<OneOnOneMeeting>)
    ensures forall i, j :: 0 <= i < j < |ms| ==> ms[j].meetingDate <= ms[i].meetingDate
    ensures |ms| == Count(Select(s.meetings, AnyRow()), e => MatchesStored(s, e, f))
  {
    var es := MatchingMeetings(s, f);
    assert |multiset(es)| == |es|;
    MeetingsOf(s, es)
  }

  /** A stored meeting is fetched exactly when it meets the predicate. */
  lemma FetchMeetingsMembers(s: Store, f: OneOnOneFilter, e: (nat, MeetingRow))
    requires e in Select(s.meetings, AnyRow())
    ensures MatchesStored(s, e, f) ==> MeetingOf(s, e.0, e.1) in FetchMeetings(s, f)
  {
    var all := Select(s.meetings, AnyRow());
    var matching := Filter(all, x => MatchesStored(s, x, f));
    var es := MatchingMeetings(s, f);
    if MatchesStored(s, e, f) {
      var i :| 0 <= i < |all| && all[i] == e;
      assert e in matching;
      assert e in multiset(es);
      var j :| 0 <= j < |es| && es[j] == e;
      assert FetchMeetings(s, f)[j] == MeetingOf(s, e.0, e.1);
    }
  }

  /** Every fetched meeting is a stored one that meets the predicate. */
  lemma FetchMeetingsSound(s: Store, f: OneOnOneFilter, i: nat)
    requires i < |FetchMeetings(s, f)|
    ensures exists e :: e in Select(s.meetings, AnyRow()) && MatchesStored(s, e, f)
                        && FetchMeetings(s, f)[i] == MeetingOf(s, e.0, e.1)
  {
    var all := Select(s.meetings, AnyRow());
    var es := MatchingMeetings(s, f);
    var e := es[i];
    assert e in multiset(es);
    FilterMember(all, x => MatchesStored(s, x, f), e);
    assert FetchMeetings(s, f) == MeetingsOf(s, es);
  }

  /** The stored logs in the order of the sort descriptor `entryDate`
      descending. */
  function LogEntries(s: Store): (es: seq<(nat, LogRow)>)
    ensures multiset(es) == multiset(Select(s.logs, AnyRow()))
    ensures forall i, j :: 0 <= i < j < |es| ==> es[j].1.entryDate <= es[i].1.entryDate
  {
    var es := SortBy(Select(s.logs, AnyRow()), LogEntryKey);
    assert forall i, j :: 0 <= i < j < |es| ==> LogEntryKey(es[i]) <= LogEntryKey(es[j]);
    es
  }

  /** `CoreDataPersonalLogRepository.fetchLogs`: one log read back per stored
      row, newest first. */
  function FetchLogs(s: Store): (logs: seq<PersonalLogEntry>)
    ensures |logs| == |Select(s.logs, AnyRow())|
    ensures forall i :: 0 <= i < |logs| ==>
      logs[i] == LogOf(s, LogEntries(s)[i].0, LogEntries(s)[i].1)
    ensures forall i, j :: 0 <= i < j < |logs| ==> logs[j].entryDate <= logs[i].entryDate
  {
    var es := LogEntries(s);
    assert |es| == |multiset(es)|;
    LogsOf(s, es)
  }

  /** Every stored log is fetched. */
  lemma FetchLogsMembers(s: Store, e: (nat, LogRow))
    requires e in Select(s.logs, AnyRow())
    ensures LogOf(s, e.0, e.1) in FetchLogs(s)
  {
    var es := LogEntries(s);
    assert e in multiset(es);
    var j :| 0 <= j < |es| && es[j] == e;
    assert FetchLogs(s)[j] == LogOf(s, e.0, e.1);
  }

  /** Every fetched log is a stored one. */
  lemma FetchLogsSound(s: Store, i: nat)
    requires i < |FetchLogs(s)|
    ensures exists e :: e in Select(s.logs, AnyRow()) && FetchLogs(s)[i] == LogOf(s, e.0, e.1)
  {
    var es := LogEntries(s);
    var e := es[i];
    assert e in multiset(es);
    assert e in multiset(Select(s.logs, AnyRow()));
  }

  /** `CoreDataActionItemRepository.fetchActionItems`: every stored action
      item, in number order (no sort descriptor). */
  function FetchActionItems(s: Store): (items: seq<ActionItem>)
    ensures |items| == |Select(s.actionItems, AnyRow())|
    ensures forall i :: 0 <= i < |items| ==>
      items[i] == ActionItemOf(s, Select(s.actionItems, AnyRow())[i].1)
  {
    ActionItemsOf(s, RowsOf(Select(s.actionItems, AnyRow())))
  }
}

=== FILE: tables.dfy ===
/** One entity's rows in the persistent store: a map from object number to
    row, with the next unused number. Numbers are handed out in increasing
    order and never reused, so listing the rows in number order lists them in
    creation order; that is the order this model gives to the unordered
    results of a fetch without sort descriptors and to a to-many relationship
    read back as a set. */
module Tables {
  import opened Wrappers

  datatype Table<R> = Table(rows: map<nat, R>, next: nat)

  /** Every stored number is below `next`. */
  predicate Bounded<R>(t: Table<R>) {
    forall k :: k in t.rows ==> k < t.next
  }

  /** A new row under the next number (a managed object inserted into the context). */
  function Insert<R>(t: Table<R>, r: R): (u: Table<R>)
    ensures u.rows == t.rows[t.next := r] && u.next == t.next + 1
    ensures Bounded(t) ==> Bounded(u) && t.next !in t.rows
  {
    Table(t.rows[t.next := r], t.next + 1)
  }

  /** Row `k` replaced by `r`. */
  function Put<R>(t: Table<R>, k: nat, r: R): (u: Table<R>)
    requires k in t.rows
    ensures u.rows == t.rows[k := r] && u.next == t.next
    ensures u.rows.Keys == t.rows.Keys
  {
    Table(t.rows[k := r], t.next)
  }

  /** Row `k` written: replaced when it is stored, inserted when `k` is the
      next number (a fetched or a newly made managed object). */
  function Write<R>(t: Table<R>, k: nat, r: R): (u: Table<R>)
    requires k in t.rows || k == t.next
    ensures u.rows == t.rows[k := r]
    ensures Bounded(t) ==> Bounded(u)
  {
    if k in t.rows then Put(t, k, r) else Insert(t, r)
  }

  /** Row `k` deleted. */
  function Delete<R>(t: Table<R>, k: nat): (u: Table<R>)
    ensures u.rows == t.rows - {k} && u.next == t.next
    ensures Bounded(t) ==> Bounded(u)
  {
    Table(t.rows - {k}, t.next)
  }

  /** Every row whose `link` is `parent` deleted: a cascading delete rule. */
  function DeleteLinked<R>(t: Table<R>, link: R -> Option<nat>, parent: nat): (u: Table<R>)
    ensures u.next == t.next
    ensures forall k :: k in u.rows <==> k in t.rows && link(t.rows[k]) != Some(parent)
    ensures forall k :: k in u.rows ==> u.rows[k] == t.rows[k]
    ensures Bounded(t) ==> Bounded(u)
  {
    Table(map k | k in t.rows && link(t.rows[k]) != Some(parent) :: t.rows[k], t.next)
  }

  /** Every row whose `link` is `parent` rewritten by `clear`: a nullifying
      delete rule, or the clean-up of the rows that pointed at a deleted one. */
  function RewriteLinked<R>(t: Table<R>, link: R -> Option<nat>, parent: nat, clear: R -> R): (u: Table<R>)
    ensures u.next == t.next && u.rows.Keys == t.rows.Keys
    ensures forall k :: k in t.rows && link(t.rows[k]) == Some(parent) ==> u.rows[k] == clear(t.rows[k])
    ensures forall k :: k in t.rows && link(t.rows[k]) != Some(parent) ==> u.rows[k] == t.rows[k]
    ensures Bounded(t) ==> Bounded(u)
  {
    Table(map k | k in t.rows :: if link(t.rows[k]) == Some(parent) then clear(t.rows[k]) else t.rows[k], t.next)
  }

  /** The rows `rs` inserted one after another under fresh numbers. */
  function InsertAll<R>(t: Table<R>, rs: seq<R>): (u: Table<R>)
    requires Bounded(t)
    ensures Bounded(u) && u.next == t.next + |rs|
    ensures forall k :: k in t.rows ==> k in u.rows && u.rows[k] == t.rows[k]
    ensures forall k: nat :: t.next <= k < t.next + |rs| ==> k in u.rows && u.rows[k] == rs[k - t.next]
    ensures forall k :: k in u.rows ==> k in t.rows || t.next <= k
    decreases |rs|
  {
    if |rs| == 0 then t
    else
      var u := InsertAll(Insert(t, rs[0]), rs[1..]);
      assert forall i :: 1 <= i < |rs| ==> rs[i] == rs[1..][i - 1];
      u
  }

  /** A link that is absent or names a stored row of `t`. */
  predicate LinkIn<R>(link: Option<nat>, t: Table<R>) {
    link.None? || link.value in t.rows
  }

  /** Inserting rows whose links name stored parents keeps every link of the
      table naming a stored parent. */
  lemma InsertAllLinked<R, P>(t: Table<R>, rs: seq<R>, link: R -> Option<nat>, parents: Table<P>)
    requires Bounded(t)
    requires forall k :: k in t.rows ==> LinkIn(link(t.rows[k]), parents)
    requires forall i :: 0 <= i < |rs| ==> LinkIn(link(rs[i]), parents)
    ensures var u := InsertAll(t, rs); forall k :: k in u.rows ==> LinkIn(link(u.rows[k]), parents)
  {
    var u := InsertAll(t, rs);
    forall k | k in u.rows ensures LinkIn(link(u.rows[k]), parents) {
      if k !in t.rows {
        assert u.rows[k] == rs[k - t.next];
      }
    }
  }

  /** Every row whose `link` names no row of `parents` rewritten by `clear`:
      the nullifying delete rule applied for every deleted parent at once. */
  function Unlink<R, P>(t: Table<R>, link: R -> Option<nat>, parents: Table<P>, clear: R -> R): (u: Table<R>)
    ensures u.next == t.next && u.rows.Keys == t.rows.Keys
    ensures forall k :: k in t.rows && LinkIn(link(t.rows[k]), parents) ==> u.rows[k] == t.rows[k]
    ensures forall k :: k in t.rows && !LinkIn(link(t.rows[k]), parents) ==> u.rows[k] == clear(t.rows[k])
    ensures Bounded(t) ==> Bounded(u)
  {
    Table(map k | k in t.rows :: if LinkIn(link(t.rows[k]), parents) then t.rows[k] else clear(t.rows[k]), t.next)
  }

  // ---------------------------------------------------------------- selections

  /** Rows that `link` to `parent`. */
  function LinksTo<R>(link: R -> Option<nat>, parent: nat): R -> bool {
    r => link(r) == Some(parent)
  }

  lemma LinksToMeans<R>(link: R -> Option<nat>, parent: nat, r: R)
    ensures LinksTo(link, parent)(r) <==> link(r) == Some(parent)
  {
  }

  /** Rows whose `id` is `x`. */
  function HasId<R>(id: R -> nat, x: nat): R -> bool {
    r => id(r) == x
  }

  /** Every row. */
  function AnyRow<R>(): R -> bool {
    r => true
  }

  ghost predicate IsEntry<R>(t: Table<R>, e: (nat, R)) {
    e.0 in t.rows && t.rows[e.0] == e.1
  }

  predicate Increasing<R>(es: seq<(nat, R)>) {
    forall i, j :: 0 <= i < j < |es| ==> es[i].0 < es[j].0
  }

  /** Number `k` is listed in `es`. */
  predicate Listed<R>(es: seq<(nat, R)>, k: nat) {
    exists i :: 0 <= i < |es| && es[i].0 == k
  }

  /** Entries listed in `es` stay listed once more follow. */
  lemma ListedAppend<R>(es: seq<(nat, R)>, more: seq<(nat, R)>)
    ensures forall j :: Listed(es, j) ==> Listed(es + more, j)
  {
    forall j | Listed(es, j) ensures Listed(es + more, j) {
      var i :| 0 <= i < |es| && es[i].0 == j;
      assert (es + more)[i].0 == j;
    }
  }

  /** An entry numbered above every listed one keeps the list increasing. */
  lemma IncreasingAppend<R>(es: seq<(nat, R)>, e: (nat, R))
    requires Increasing(es)
    requires forall i :: 0 <= i < |es| ==> es[i].0 < e.0
    ensures Increasing(es + [e]) && Listed(es + [e], e.0)
  {
    assert (es + [e])[|es|] == e;
  }

  /** The rows numbered below `n` that `keep` accepts, with their numbers, in
      number order. */
  function SelectBelow<R>(t: Table<R>, keep: R -> bool, n: nat): (es: seq<(nat, R)>)
    ensures forall i :: 0 <= i < |es| ==> IsEntry(t, es[i]) && es[i].0 < n && keep(es[i].1)
    ensures Increasing(es)
    ensures forall k :: k < n && k in t.rows && keep(t.rows[k]) ==> Listed(es, k)
    ensures |es| <= n
  {
    if n == 0 then []
    else
      var k := n - 1;
      var rest := SelectBelow(t, keep, k);
      if k in t.rows && keep(t.rows[k]) then
        ListedAppend(rest, [(k, t.rows[k])]);
        IncreasingAppend(rest, (k, t.rows[k]));
        rest + [(k, t.rows[k])]
      else rest
  }

  /** The rows `keep` accepts, in number order (a fetch with a predicate). */
  function Select<R>(t: Table<R>, keep: R -> bool): (es: seq<(nat, R)>)
    ensures forall i :: 0 <= i < |es| ==> IsEntry(t, es[i]) && keep(es[i].1)
    ensures Increasing(es)
    ensures Bounded(t) ==> forall k :: k in t.rows && keep(t.rows[k]) ==> Listed(es, k)
  {
    SelectBelow(t, keep, t.next)
  }

  function RowsOf<R>(es: seq<(nat, R)>): (rs: seq<R>)
    ensures |rs| == |es|
    ensures forall i :: 0 <= i < |es| ==> rs[i] == es[i].1
  {
    if |es| == 0 then [] else [es[0].1] + RowsOf(es[1..])
  }

  lemma RowsOfConcat<R>(a: seq<(nat, R)>, b: seq<(nat, R)>)
    ensures RowsOf(a + b) == RowsOf(a) + RowsOf(b)
  {
    assert RowsOf(a + b) == RowsOf(a) + RowsOf(b);
  }

  /** `t` and `u` accept the same rows below `n`, with the same contents. */
  ghost predicate SameSelection<R>(t: Table<R>, u: Table<R>, keep: R -> bool, n: nat) {
    forall k :: k < n ==>
      ((k in t.rows && keep(t.rows[k])) <==> (k in u.rows && keep(u.rows[k])))
      && (k in t.rows && keep(t.rows[k]) ==> t.rows[k] == u.rows[k])
  }

  /** Changes to rows that `keep` rejects before and after do not change the
      selection. */
  lemma {:induction false} SelectFrame<R>(t: Table<R>, u: Table<R>, keep: R -> bool, n: nat)
    requires SameSelection(t, u, keep, n)
    ensures SelectBelow(t, keep, n) == SelectBelow(u, keep, n)
  {
    if n > 0 {
      var k := n - 1;
      assert SameSelection(t, u, keep, k);
      SelectFrame(t, u, keep, k);
      if k in t.rows && keep(t.rows[k]) {
        assert SelectBelow(t, keep, n) == SelectBelow(t, keep, k) + [(k, t.rows[k])];
        assert SelectBelow(u, keep, n) == SelectBelow(u, keep, k) + [(k, u.rows[k])];
      } else {
        assert SelectBelow(t, keep, n) == SelectBelow(t, keep, k);
        assert SelectBelow(u, keep, n) == SelectBelow(u, keep, k);
      }
    }
  }

  /** Without an accepted row below `n` the selection is empty. */
  lemma {:induction false} SelectNone<R>(t: Table<R>, keep: R -> bool, n: nat)
    requires forall k :: k < n && k in t.rows ==> !keep(t.rows[k])
    ensures SelectBelow(t, keep, n) == []
  {
    if n > 0 {
      SelectNone(t, keep, n - 1);
    }
  }

  /** A table without an accepted row selects nothing. */
  lemma SelectEmpty<R>(t: Table<R>, keep: R -> bool)
    requires forall k :: k in t.rows ==> !keep(t.rows[k])
    ensures Select(t, keep) == []
  {
    SelectNone(t, keep, t.next);
  }

  /** After a cascading delete no row links to the parent any more. */
  lemma SelectAfterDeleteLinked<R>(t: Table<R>, link: R -> Option<nat>, parent: nat)
    ensures Select(DeleteLinked(t, link, parent), LinksTo(link, parent)) == []
  {
    var u := DeleteLinked(t, link, parent);
    forall k | k in u.rows ensures !LinksTo(link, parent)(u.rows[k]) {
    }
    SelectEmpty(u, LinksTo(link, parent));
  }

  /** An inserted row joins the end of every selection that accepts it and
      leaves the others as they were. */
  lemma SelectInsert<R>(t: Table<R>, r: R, keep: R -> bool)
    requires Bounded(t)
    ensures Select(Insert(t, r), keep) == Select(t, keep) + (if keep(r) then [(t.next, r)] else [])
  {
    var u := Insert(t, r);
    SelectFrame(t, u, keep, t.next);
  }

  predicate AllKept<R>(rs: seq<R>, keep: R -> bool) {
    forall i :: 0 <= i < |rs| ==> keep(rs[i])
  }

  predicate NoneKept<R>(rs: seq<R>, keep: R -> bool) {
    forall i :: 0 <= i < |rs| ==> !keep(rs[i])
  }

  lemma AllKeptTail<R>(rs: seq<R>, keep: R -> bool)
    requires |rs| > 0 && AllKept(rs, keep)
    ensures keep(rs[0]) && AllKept(rs[1..], keep)
  {
    forall i | 0 <= i < |rs| - 1 ensures keep(rs[1..][i]) {
      assert rs[1..][i] == rs[i + 1];
    }
  }

  /** One insertion adds the row to the end of the rows `keep` selects. */
  lemma RowsOfInsert<R>(t: Table<R>, r: R, keep: R -> bool)
    requires Bounded(t) && keep(r)
    ensures RowsOf(Select(Insert(t, r), keep)) == RowsOf(Select(t, keep)) + [r]
  {
    SelectInsert(t, r, keep);
    RowsOfConcat(Select(t, keep), [(t.next, r)]);
    assert RowsOf([(t.next, r)]) == [r];
  }

  lemma InsertAllCons<R>(t: Table<R>, rs: seq<R>)
    requires Bounded(t) && |rs| > 0
    ensures InsertAll(t, rs) == InsertAll(Insert(t, rs[0]), rs[1..])
  {
  }

  lemma Regroup<T>(before: seq<T>, rs: seq<T>)
    requires |rs| > 0
    ensures (before + [rs[0]]) + rs[1..] == before + rs
  {
  }

  /** Rows inserted together join the end of a selection that accepts them
      all. */
  lemma {:induction false} SelectInsertAllKept<R>(t: Table<R>, rs: seq<R>, keep: R -> bool)
    requires Bounded(t) && AllKept(rs, keep)
    ensures RowsOf(Select(InsertAll(t, rs), keep)) == RowsOf(Select(t, keep)) + rs
    decreases |rs|
  {
    if |rs| > 0 {
      var t1 := Insert(t, rs[0]);
      InsertAllCons(t, rs);
      AllKeptTail(rs, keep);
      RowsOfInsert(t, rs[0], keep);
      SelectInsertAllKept(t1, rs[1..], keep);
      Regroup(RowsOf(Select(t, keep)), rs);
    }
  }

  /** Children inserted under a parent that had none are exactly its
      children afterwards, in order. */
  lemma InsertAllOnlyChildren<R>(t: Table<R>, rs: seq<R>, link: R -> Option<nat>, parent: nat)
    requires Bounded(t) && Select(t, LinksTo(link, parent)) == []
    requires forall i :: 0 <= i < |rs| ==> link(rs[i]) == Some(parent)
    ensures RowsOf(Select(InsertAll(t, rs), LinksTo(link, parent))) == rs
  {
    assert AllKept(rs, LinksTo(link, parent)) by {
      forall i | 0 <= i < |rs| ensures LinksTo(link, parent)(rs[i]) {
        LinksToMeans(link, parent, rs[i]);
      }
    }
    SelectInsertAllKept(t, rs, LinksTo(link, parent));
  }

  /** Rows inserted together leave a selection that accepts none of them as
      it was. */
  lemma {:induction false} SelectInsertAllSkipped<R>(t: Table<R>, rs: seq<R>, keep: R -> bool)
    requires Bounded(t) && NoneKept(rs, keep)
    ensures Select(InsertAll(t, rs), keep) == Select(t, keep)
    decreases |rs|
  {
    if |rs| > 0 {
      var t1 := Insert(t, rs[0]);
      assert InsertAll(t, rs) == InsertAll(t1, rs[1..]);
      assert !keep(rs[0]);
      SelectInsert(t, rs[0], keep);
      assert NoneKept(rs[1..], keep) by {
        forall i | 0 <= i < |rs| - 1 ensures !keep(rs[1..][i]) {
          assert rs[1..][i] == rs[i + 1];
        }
      }
      SelectInsertAllSkipped(t1, rs[1..], keep);
    }
  }

  /** The lowest-numbered row whose `id` is `x`: `fetch(request).first` for a
      request with the predicate `id == x`. */
  function Find<R>(t: Table<R>, id: R -> nat, x: nat): (r: Option<nat>)
    requires Bounded(t)
    ensures r.Some? ==> r.value in t.rows && id(t.rows[r.value]) == x
    ensures r.Some? ==> forall k :: k in t.rows && k < r.value ==> id(t.rows[k]) != x
    ensures r.None? <==> forall k :: k in t.rows ==> id(t.rows[k]) != x
  {
    var es := Select(t, HasId(id, x));
    if |es| == 0 then
      assert forall k :: k in t.rows ==> id(t.rows[k]) != x by {
        forall k | k in t.rows ensures HasId(id, x)(t.rows[k]) == (id(t.rows[k]) == x) {
        }
      }
      None
    else
      assert IsEntry(t, es[0]);
      assert forall k :: k in t.rows && k < es[0].0 ==> id(t.rows[k]) != x by {
        forall k | k in t.rows && k < es[0].0 ensures HasId(id, x)(t.rows[k]) == (id(t.rows[k]) == x) {
        }
      }
      Some(es[0].0)
  }
}

=== FILE: text.dfy ===
/** String helpers with the meaning the modelled code relies on: ASCII case
    mapping, substring search, JavaScript whitespace trimming, splitting on a
    separator character and joining, decimal rendering of naturals. */
module Text {

  predicate IsUpper(c: char) {
    'A' <= c <= 'Z'
  }

  predicate IsLowerAlnum(c: char) {
    ('a' <= c <= 'z') || ('0' <= c <= '9')
  }

  predicate IsAscii(s: string) {
    forall i :: 0 <= i < |s| ==> s[i] as int < 128
  }

  /** Lower-case mapping of one character, ASCII letters only. */
  function LowerChar(c: char): (r: char)
    ensures IsUpper(c) ==> r as int == c as int + 32
    ensures !IsUpper(c) ==> r == c
    ensures !IsUpper(r)
  {
    if IsUpper(c) then (c as int + 32) as char else c
  }

  /** `toLowerCase()` / `lowercased()` on the ASCII letters. */
  function Lower(s: string): (r: string)
    ensures |r| == |s|
    ensures forall i :: 0 <= i < |s| ==> r[i] == LowerChar(s[i])
  {
    if |s| == 0 then "" else [LowerChar(s[0])] + Lower(s[1..])
  }

  lemma LowerIdempotent(s: string)
    ensures Lower(Lower(s)) == Lower(s)
  {
  }

  lemma LowerConcat(a: string, b: string)
    ensures Lower(a + b) == Lower(a) + Lower(b)
  {
    assert Lower(a + b) == Lower(a) + Lower(b);
  }

  predicate IsPrefix(p: string, s: string) {
    |p| <= |s| && s[..|p|] == p
  }

  predicate IsSuffix(p: string, s: string) {
    |p| <= |s| && s[|s| - |p|..] == p
  }

  /** `sub` occurs in `s` starting at position `i`. */
  predicate OccursAt(sub: string, s: string, i: int) {
    0 <= i && i + |sub| <= |s| && s[i..i + |sub|] == sub
  }

  /** `sub` occurs in `s` at some position (the meaning of `contains`). */
  ghost predicate Occurs(sub: string, s: string) {
    exists i :: OccursAt(sub, s, i)
  }

  lemma OccursShift(sub: string, s: string, i: int)
    requires |s| > 0 && 0 <= i
    ensures OccursAt(sub, s, i + 1) <==> OccursAt(sub, s[1..], i)
  {
    if i + 1 + |sub| <= |s| {
      assert s[i + 1..i + 1 + |sub|] == s[1..][i..i + |sub|];
    }
  }

  /** A string without the first character of `sub` does not contain `sub`. */
  lemma AbsentFirstChar(sub: string, s: string)
    requires |sub| > 0 && forall i :: 0 <= i < |s| ==> s[i] != sub[0]
    ensures !Occurs(sub, s)
  {
    forall i | 0 <= i && i + |sub| <= |s| ensures !OccursAt(sub, s, i) {
      assert s[i..i + |sub|][0] == s[i];
    }
  }

  /** Substring search, scanning start positions left to right. */
  function Contains(s: string, sub: string): (b: bool)
    ensures b <==> Occurs(sub, s)
  {
    if IsPrefix(sub, s) then
      assert OccursAt(sub, s, 0);
      true
    else if |s| == 0 then false
    else
      var b := Contains(s[1..], sub);
      if b then
        var i :| OccursAt(sub, s[1..], i);
        OccursShift(sub, s, i);
        b
      else
        assert !Occurs(sub, s) by {
          if Occurs(sub, s) {
            var i :| OccursAt(sub, s, i);
            assert i != 0;
            OccursShift(sub, s, i - 1);
          }
        }
        b
  }

  /** Case folding keeps every occurrence where it was. */
  lemma LowerKeepsOccurrence(sub: string, s: string, i: int)
    requires OccursAt(sub, s, i)
    ensures OccursAt(Lower(sub), Lower(s), i)
  {
    forall j | 0 <= j < |sub| ensures Lower(s)[i..i + |sub|][j] == Lower(sub)[j] {
      assert s[i..i + |sub|][j] == s[i + j];
    }
  }

  /** A case-sensitive match is also a case-insensitive one. */
  lemma ContainsFolded(s: string, sub: string)
    requires Contains(s, sub)
    ensures Contains(Lower(s), Lower(sub))
  {
    var i :| OccursAt(sub, s, i);
    LowerKeepsOccurrence(sub, s, i);
  }

  /** The whitespace and line terminators that `String.prototype.trim` removes. */
  predicate IsJsWhitespace(c: char) {
    var n := c as int;
    (0x09 <= n <= 0x0D) || n == 0x20 || n == 0xA0 || n == 0x1680
    || (0x2000 <= n <= 0x200A) || n == 0x2028 || n == 0x2029 || n == 0x202F
    || n == 0x205F || n == 0x3000 || n == 0xFEFF
  }

  predicate AllWhitespace(s: string) {
    forall i :: 0 <= i < |s| ==> IsJsWhitespace(s[i])
  }

  /** `trimStart()`: drops the leading whitespace. */
  function TrimStart(s: string): (r: string)
    ensures IsSuffix(r, s) && AllWhitespace(s[..|s| - |r|])
    ensures |r| > 0 ==> !IsJsWhitespace(r[0])
  {
    if |s| > 0 && IsJsWhitespace(s[0]) then
      var r := TrimStart(s[1..]);
      assert s[..|s| - |r|] == [s[0]] + s[1..][..|s[1..]| - |r|];
      r
    else s
  }

  /** `trimEnd()`: drops the trailing whitespace. */
  function TrimEnd(s: string): (r: string)
    ensures IsPrefix(r, s) && AllWhitespace(s[|r|..])
    ensures |r| > 0 ==> !IsJsWhitespace(r[|r| - 1])
  {
    if |s| > 0 && IsJsWhitespace(s[|s| - 1]) then
      var r := TrimEnd(s[..|s| - 1]);
      assert s[|r|..] == s[..|s| - 1][|r|..] + [s[|s| - 1]];
      r
    else s
  }

  /** `r` is `s` with the whitespace-only runs `s[..k]` and `s[k + |r|..]` removed. */
  predicate TrimmedAt(s: string, r: string, k: int) {
    0 <= k && k + |r| <= |s| && s[k..k + |r|] == r
    && AllWhitespace(s[..k]) && AllWhitespace(s[k + |r|..])
  }

  /** `trim()`: whitespace removed at both ends; what remains is the middle of `s`. */
  function Trim(s: string): (r: string)
    ensures |r| > 0 ==> !IsJsWhitespace(r[0]) && !IsJsWhitespace(r[|r| - 1])
    ensures exists k :: TrimmedAt(s, r, k)
  {
    var t := TrimStart(s);
    var r := TrimEnd(t);
    var k := |s| - |t|;
    assert s[k..] == t;
    assert s[k..k + |r|] == r;
    assert s[k + |r|..] == t[|r|..];
    assert TrimmedAt(s, r, k);
    r
  }

  /** `trim()` gives the empty string exactly when `s` is all whitespace. */
  lemma TrimEmpty(s: string)
    ensures Trim(s) == "" <==> AllWhitespace(s)
  {
    var r := Trim(s);
    var k :| TrimmedAt(s, r, k);
    if r == "" {
      forall i | 0 <= i < |s| ensures IsJsWhitespace(s[i]) {
        if i < k { assert s[i] == s[..k][i]; } else { assert s[i] == s[k..][i - k]; }
      }
    } else {
      assert r[0] == s[k];
    }
  }

  /** `trim()` leaves a string without surrounding whitespace unchanged. */
  lemma TrimNoop(s: string)
    requires |s| > 0 ==> !IsJsWhitespace(s[0]) && !IsJsWhitespace(s[|s| - 1])
    ensures Trim(s) == s
  {
  }

  /** `parts` joined with `sep` between neighbours (`Array.prototype.join`). */
  function Join(parts: seq<string>, sep: string): (r: string)
    ensures |parts| == 1 ==> r == parts[0]
  {
    if |parts| == 0 then ""
    else if |parts| == 1 then parts[0]
    else parts[0] + sep + Join(parts[1..], sep)
  }

  lemma JoinCons(head: string, rest: seq<string>, sep: string)
    requires |rest| > 0
    ensures Join([head] + rest, sep) == head + sep + Join(rest, sep)
  {
    assert ([head] + rest)[1..] == rest;
  }

  /** A join opens with its first part. */
  lemma JoinHeadPrefix(parts: seq<string>, sep: string)
    requires |parts| > 0
    ensures IsPrefix(parts[0], Join(parts, sep))
  {
    if |parts| > 1 {
      var tail := sep + Join(parts[1..], sep);
      assert parts[0] + sep + Join(parts[1..], sep) == parts[0] + tail;
      assert (parts[0] + tail)[..|parts[0]|] == parts[0];
    }
  }

  lemma {:induction false} JoinAppend(a: seq<string>, b: seq<string>, sep: string)
    requires |a| > 0 && |b| > 0
    ensures Join(a + b, sep) == Join(a, sep) + sep + Join(b, sep)
  {
    if |a| == 1 {
      JoinCons(a[0], b, sep);
      assert a + b == [a[0]] + b;
    } else {
      JoinAppend(a[1..], b, sep);
      assert a + b == [a[0]] + (a[1..] + b);
      JoinCons(a[0], a[1..] + b, sep);
      JoinCons(a[0], a[1..], sep);
      assert a == [a[0]] + a[1..];
    }
  }

  /** Every part but the last with a comma appended. */
  function CommaTerminated(parts: seq<string>): (r: seq<string>)
    ensures |r| == |parts|
    ensures forall i :: 0 <= i < |parts| - 1 ==> r[i] == parts[i] + ","
    ensures |parts| > 0 ==> r[|parts| - 1] == parts[|parts| - 1]
  {
    if |parts| <= 1 then parts else [parts[0] + ","] + CommaTerminated(parts[1..])
  }

  /** Joining with `",\n"` puts each part but the last, comma and all, on a
      line of its own. */
  lemma {:induction false} JoinCommaLines(parts: seq<string>)
    ensures Join(parts, ",\n") == Join(CommaTerminated(parts), "\n")
  {
    if |parts| > 1 {
      JoinCommaLines(parts[1..]);
      var rest := CommaTerminated(parts[1..]);
      assert CommaTerminated(parts) == [parts[0] + ","] + rest;
      JoinCons(parts[0] + ",", rest, "\n");
      assert parts[0] + ",\n" == parts[0] + "," + "\n";
    }
  }

  predicate Free(s: string, c: char) {
    forall i :: 0 <= i < |s| ==> s[i] != c
  }

  /** `s.split(sep)` for a one-character separator: the maximal pieces between
      separators, so the empty string gives one empty piece. */
  function Split(s: string, sep: char): (r: seq<string>)
    ensures |r| >= 1
    ensures forall i :: 0 <= i < |r| ==> Free(r[i], sep)
    ensures Join(r, [sep]) == s
    ensures Free(s, sep) ==> r == [s]
  {
    if |s| == 0 then [""]
    else if s[0] == sep then
      var rest := Split(s[1..], sep);
      JoinCons("", rest, [sep]);
      [""] + rest
    else
      var rest := Split(s[1..], sep);
      var r := [[s[0]] + rest[0]] + rest[1..];
      if |rest| == 1 then
        r
      else
        JoinCons(rest[0], rest[1..], [sep]);
        JoinCons([s[0]] + rest[0], rest[1..], [sep]);
        assert rest == [rest[0]] + rest[1..];
        r
  }

  /** A piece without the separator, then the separator, splits off as the
      first piece. */
  lemma {:induction false} SplitAfterFree(p: string, sep: char, t: string)
    requires Free(p, sep)
    ensures Split(p + [sep] + t, sep) == [p] + Split(t, sep)
  {
    var s := p + [sep] + t;
    if |p| == 0 {
      assert s == [sep] + t;
      assert s[1..] == t;
    } else {
      assert s[0] == p[0] && s[0] != sep;
      assert s[1..] == p[1..] + [sep] + t;
      SplitAfterFree(p[1..], sep, t);
      assert p == [p[0]] + p[1..];
    }
  }

  /** Splitting undoes joining, for pieces without the separator. */
  lemma {:induction false} SplitJoin(parts: seq<string>, sep: char)
    requires |parts| > 0
    requires forall i :: 0 <= i < |parts| ==> Free(parts[i], sep)
    ensures Split(Join(parts, [sep]), sep) == parts
  {
    if |parts| > 1 {
      SplitJoin(parts[1..], sep);
      assert parts == [parts[0]] + parts[1..];
      JoinCons(parts[0], parts[1..], [sep]);
      SplitAfterFree(parts[0], sep, Join(parts[1..], [sep]));
    }
  }

  function DigitChar(d: nat): (c: char)
    requires d < 10
    ensures '0' <= c <= '9'
  {
    ('0' as int + d) as char
  }

  /** Decimal rendering of a natural number, most significant digit first. */
  function NatToString(n: nat): (r: string)
    ensures |r| >= 1
    ensures forall i :: 0 <= i < |r| ==> '0' <= r[i] <= '9'
    ensures n < 10 ==> r == [DigitChar(n)]
  {
    if n < 10 then [DigitChar(n)] else NatToString(n / 10) + [DigitChar(n % 10)]
  }

  /** `n` in decimal, left-padded with zeros to at least `width` digits. */
  function PadNat(n: nat, width: nat): (r: string)
    ensures |r| >= width
    ensures forall i :: 0 <= i < |r| ==> '0' <= r[i] <= '9'
  {
    var digits := NatToString(n);
    if |digits| >= width then digits
    else seq(width - |digits|, _ => '0') + digits
  }
}

=== FILE: utc_dates.dfy ===
/** UTC calendar arithmetic behind the growth agent's use of `Date`: a
    timestamp in milliseconds falls on a day number (days since
    1970-01-01), a day number has a weekday and a proleptic Gregorian date,
    and `toISOString().slice(0, 10)` writes that date as text. */
module UtcDates {
  import opened Wrappers
  import opened Text

  const MsPerDay: int := 86400000

  /** The UTC day a timestamp falls on (floor division). */
  function DayOf(ms: int): (day: int)
    ensures day * MsPerDay <= ms < (day + 1) * MsPerDay
  {
    ms / MsPerDay
  }

  /** `getUTCDay`: 0 for Sunday up to 6 for Saturday; day 0 was a Thursday. */
  function WeekDay(day: int): (r: int)
    ensures 0 <= r < 7
  {
    (day + 4) % 7
  }

  lemma WeekDayNext(day: int)
    ensures WeekDay(day + 1) == (if WeekDay(day) == 6 then 0 else WeekDay(day) + 1)
  {
  }

  lemma EpochWasThursday()
    ensures WeekDay(0) == 4
  {
  }

  /** A proleptic Gregorian date; months and days count from 1. */
  datatype Civil = Civil(year: int, month: int, day: int)

  /** A Gregorian leap year: divisible by 4, and by 400 when by 100. */
  predicate IsLeap(y: int) {
    var r := y % 400;
    r % 4 == 0 && (r % 100 != 0 || r == 0)
  }

  function DaysInMonth(y: int, m: int): int
    requires 1 <= m <= 12
  {
    if m == 2 then (if IsLeap(y) then 29 else 28)
    else if m == 4 || m == 6 || m == 9 || m == 11 then 30 else 31
  }

  predicate ValidCivil(c: Civil) {
    1 <= c.month <= 12 && 1 <= c.day <= DaysInMonth(c.year, c.month)
  }

  /** Days before year `yoe` of an era (years counted from 1 March). */
  function EraYearStart(yoe: int): int {
    365 * yoe + yoe / 4 - yoe / 100
  }

  /** Day `doc` of a century of the era as 4-year cycle, year and day;
      only the era's last century has a 36525th day. */
  function SplitCentury(doc: int, last: bool): (r: (int, int, int))
    requires 0 <= doc <= 36524 && (doc == 36524 ==> last)
    ensures 0 <= r.0 <= 24 && 0 <= r.1 <= 3 && 0 <= r.2 <= 365
    ensures doc == 1461 * r.0 + 365 * r.1 + r.2
    ensures r.2 == 365 ==> r.1 == 3 && (r.0 < 24 || last)
  {
    var q := doc / 1461;
    var doq := doc - 1461 * q;
    var y := if doq / 365 < 3 then doq / 365 else 3;
    (q, y, doq - 365 * y)
  }

  lemma LeapYearEnd(c: int, q: int)
    requires 0 <= c <= 3 && 0 <= q <= 24 && (q < 24 || c == 3)
    ensures IsLeap(100 * c + 4 * q + 4)
  {
    var y := 100 * c + 4 * q + 4;
    if y < 400 {
      assert y % 400 == y;
      assert y % 4 == 0;
    }
  }

  lemma StartOfYear(c: int, q: int, y: int)
    requires 0 <= c <= 3 && 0 <= q <= 24 && 0 <= y <= 3
    ensures EraYearStart(100 * c + 4 * q + y) == 36524 * c + 1461 * q + 365 * y
  {
    var yoe := 100 * c + 4 * q + y;
    assert yoe / 4 == 25 * c + q;
    assert yoe / 100 == c;
  }

  /** Day `doe` of a 400-year era (counted from 1 March) as years since the
      era began and the day of that year. */
  function SplitEra(doe: int): (r: (int, int))
    requires 0 <= doe < 146097
    ensures 0 <= r.0 < 400 && 0 <= r.1 < 366
    ensures doe == EraYearStart(r.0) + r.1
    ensures r.1 == 365 ==> IsLeap(r.0 + 1)
  {
    var c := if doe / 36524 < 3 then doe / 36524 else 3;
    var (q, y, doy) := SplitCentury(doe - 36524 * c, c == 3);
    StartOfYear(c, q, y);
    if doy == 365 then
      LeapYearEnd(c, q);
      (100 * c + 4 * q + y, doy)
    else (100 * c + 4 * q + y, doy)
  }

  lemma LeapShift(y: int, era: int)
    ensures IsLeap(y + era * 400) == IsLeap(y)
  {
    assert (y + era * 400) % 400 == y % 400;
  }

  lemma EraOf(yoe: int, era: int)
    requires 0 <= yoe < 400
    ensures (yoe + era * 400) / 400 == era
  {
  }

  /** Day `doy` of a year that starts on 1 March, as a month and a day. */
  function MonthDay(doy: int, leap: bool): (r: (int, int))
    requires 0 <= doy < 366 && (doy == 365 ==> leap)
    ensures 1 <= r.0 <= 12 && 1 <= r.1
    ensures r.0 == 2 ==> r.1 <= (if leap then 29 else 28)
    ensures r.0 != 2 ==> r.1 <= (if r.0 == 4 || r.0 == 6 || r.0 == 9 || r.0 == 11 then 30 else 31)
    ensures doy == MarchDay(r.0, r.1)
  {
    var mp := (5 * doy + 2) / 153;
    var d := doy - (153 * mp + 2) / 5 + 1;
    var m := if mp < 10 then mp + 3 else mp - 9;
    (m, d)
  }

  /** The civil date of day `doy` of year `yoe` of era `era`. */
  function FromEra(era: int, yoe: int, doy: int): (c: Civil)
    requires 0 <= yoe < 400 && 0 <= doy < 366 && (doy == 365 ==> IsLeap(yoe + 1))
    ensures ValidCivil(c)
  {
    var (m, d) := MonthDay(doy, IsLeap(yoe + 1));
    LeapShift(yoe + 1, era);
    Civil(yoe + era * 400 + (if m <= 2 then 1 else 0), m, d)
  }

  function CivilFromDays(z: int): (c: Civil)
    ensures ValidCivil(c)
  {
    var shifted := z + 719468;
    var era := shifted / 146097;
    var (yoe, doy) := SplitEra(shifted - era * 146097);
    FromEra(era, yoe, doy)
  }

  /** Days since 1 March of the same March-based year. */
  function MarchDay(month: int, day: int): int {
    (153 * (if month > 2 then month - 3 else month + 9) + 2) / 5 + day - 1
  }

  function DaysFromCivil(c: Civil): int
  {
    var y := if c.month <= 2 then c.year - 1 else c.year;
    var era := y / 400;
    var yoe := y - era * 400;
    era * 146097 + EraYearStart(yoe) + MarchDay(c.month, c.day) - 719468
  }

  lemma DaysFromEra(c: Civil, era: int, yoe: int)
    requires 0 <= yoe < 400
    requires (if c.month <= 2 then c.year - 1 else c.year) == yoe + era * 400
    ensures DaysFromCivil(c) == era * 146097 + EraYearStart(yoe) + MarchDay(c.month, c.day) - 719468
  {
    EraOf(yoe, era);
  }

  lemma FromEraDays(era: int, yoe: int, doy: int)
    requires 0 <= yoe < 400 && 0 <= doy < 366 && (doy == 365 ==> IsLeap(yoe + 1))
    ensures DaysFromCivil(FromEra(era, yoe, doy)) == era * 146097 + EraYearStart(yoe) + doy - 719468
  {
    var c := FromEra(era, yoe, doy);
    DaysFromEra(c, era, yoe);
  }

  lemma CivilRoundTrip(z: int)
    ensures DaysFromCivil(CivilFromDays(z)) == z
  {
    var shifted := z + 719468;
    var era := shifted / 146097;
    var doe := shifted - era * 146097;
    var p := SplitEra(doe);
    CivilFromDaysEra(z, era, doe);
    FromEraDays(era, p.0, p.1);
  }

  lemma CivilFromDaysEra(z: int, era: int, doe: int)
    requires era == (z + 719468) / 146097 && doe == z + 719468 - era * 146097
    ensures 0 <= doe < 146097
    ensures CivilFromDays(z) == FromEra(era, SplitEra(doe).0, SplitEra(doe).1)
  {
  }

  // ---------------------------------------------------------------- text

  function DigitValue(c: char): nat {
    if '0' <= c <= '9' then c as int - '0' as int else 0
  }

  predicate AllDigits(s: string) {
    forall i :: 0 <= i < |s| ==> '0' <= s[i] <= '9'
  }

  function Pow10(w: nat): (r: nat)
    ensures r >= 1
  {
    if w == 0 then 1 else 10 * Pow10(w - 1)
  }

  /** The last `w` decimal digits of `n`, most significant first. */
  function Digits(n: nat, w: nat): (r: string)
    ensures |r| == w && AllDigits(r)
  {
    if w == 0 then [] else Digits(n / 10, w - 1) + [DigitChar(n % 10)]
  }

  /** The number a string of decimal digits denotes. */
  function DigitsValue(s: string): (n: nat)
    ensures n < Pow10(|s|)
  {
    if |s| == 0 then 0
    else
      var d := DigitValue(s[|s| - 1]);
      assert d < 10;
      10 * DigitsValue(s[..|s| - 1]) + d
  }

  lemma {:induction false} DigitsRoundTrip(n: nat, w: nat)
    requires n < Pow10(w)
    ensures DigitsValue(Digits(n, w)) == n
  {
    if w > 0 {
      var r := Digits(n, w);
      assert r[..w - 1] == Digits(n / 10, w - 1);
      DigitsRoundTrip(n / 10, w - 1);
    }
  }

  /** The year field of `toISOString`: four digits for years 0 to 9999,
      otherwise a sign and at least six digits. */
  function YearText(y: int): (r: string)
    ensures 0 <= y <= 9999 ==> r == Digits(y, 4)
    ensures !(0 <= y <= 9999) ==> |r| >= 7 && r[0] == (if y < 0 then '-' else '+') && AllDigits(r[1..])
  {
    if 0 <= y <= 9999 then Digits(y, 4)
    else (if y < 0 then "-" else "+") + PadNat(if y < 0 then -y else y, 6)
  }

  /** `toISOString().slice(0, 10)` of a timestamp on day `day`. */
  function IsoDate(day: int): (r: string)
    ensures |r| == 10
  {
    var c := CivilFromDays(day);
    var text := YearText(c.year) + "-" + Digits(c.month, 2) + "-" + Digits(c.day, 2);
    text[..10]
  }

  /** Reads a `YYYY-MM-DD` date back to its day number. */
  function ParseIsoDate(s: string): (r: Option<int>)
    ensures r.Some? ==> |s| == 10 && s[4] == '-' && s[7] == '-'
  {
    if |s| == 10 && s[4] == '-' && s[7] == '-'
      && AllDigits(s[..4]) && AllDigits(s[5..7]) && AllDigits(s[8..])
    then
      var c := Civil(DigitsValue(s[..4]), DigitsValue(s[5..7]), DigitsValue(s[8..]));
      if ValidCivil(c) then Some(DaysFromCivil(c)) else None
    else None
  }

  lemma IsoDateParts(day: int)
    requires 0 <= CivilFromDays(day).year <= 9999
    ensures var c := CivilFromDays(day);
      IsoDate(day) == Digits(c.year, 4) + "-" + Digits(c.month, 2) + "-" + Digits(c.day, 2)
  {
  }

  /** Day 0 is 1 January 1970. */
  lemma EpochDate()
    ensures CivilFromDays(0) == Civil(1970, 1, 1)
  {
    assert 719468 / 146097 == 4;
    assert SplitEra(135080) == (369, 306);
    assert MonthDay(306, IsLeap(370)) == (1, 1);
  }

  /** A date of years 0 to 9999 reads back to the day it was written from. */
  lemma IsoDateRoundTrip(day: int)
    requires 0 <= CivilFromDays(day).year <= 9999
    ensures ParseIsoDate(IsoDate(day)) == Some(day)
  {
    var c := CivilFromDays(day);
    IsoDateParts(day);
    ParseParts(c.year, c.month, c.day);
    CivilRoundTrip(day);
  }

  /** A year, month and day written in four, two and two digits read back
      to the date. */
  lemma ParseParts(y: nat, m: nat, d: nat)
    requires y < 10000 && m < 100 && d < 100
    ensures var c := Civil(y, m, d);
      ParseIsoDate(Digits(y, 4) + "-" + Digits(m, 2) + "-" + Digits(d, 2))
        == if ValidCivil(c) then Some(DaysFromCivil(c)) else None
  {
    var s := Digits(y, 4) + "-" + Digits(m, 2) + "-" + Digits(d, 2);
    assert s[..4] == Digits(y, 4);
    assert s[5..7] == Digits(m, 2);
    assert s[8..] == Digits(d, 2);
    DigitsRoundTrip(y, 4);
    DigitsRoundTrip(m, 2);
    DigitsRoundTrip(d, 2);
  }
}

=== FILE: voice_assistant.dfy ===
/** The voice assistant: a listening flag, a list of spoken commands, and the
    handling of recognised text. The wake-word engine and the speech
    synthesiser are outside the model; what the assistant asks them to do is
    returned as data. A command's closure is represented by its position in
    the configured list, which is what `handleRecognizedText` runs. */
module VoiceAssistant {
  import opened Wrappers
  import Text

  const DefaultWakeWord: string := "Hey Buddy"

  datatype VoiceCommand = VoiceCommand(phrase: string)

  /** The state a `VoiceAssistantService` keeps. `engineReady` says whether a
      wake-word engine was created. */
  datatype Assistant = Assistant(
    isListening: bool,
    wakeWord: string,
    commands: seq<VoiceCommand>,
    engineReady: bool)

  /** What the service asks of the outside world. */
  datatype Effect = Speak(text: string) | LogError(message: string) | Run(command: nat)

  /** `init(wakeWord:…)`: not listening, no commands. */
  function Init(wakeWord: string): (a: Assistant)
    ensures !a.isListening && a.commands == [] && a.wakeWord == wakeWord
  {
    Assistant(false, wakeWord, [], false)
  }

  /** `configure(commands:)`: the list is replaced. */
  function Configure(a: Assistant, commands: seq<VoiceCommand>): (r: Assistant)
    ensures r.commands == commands
    ensures r.isListening == a.isListening && r.wakeWord == a.wakeWord && r.engineReady == a.engineReady
  {
    a.(commands := commands)
  }

  /** The outcome of the wake-word engine calls made by `start()`. In a build
      without the engine, `start()` only sets the flag. */
  datatype EngineOutcome = NoEngine | CreateFails(error: string) | StartFails(error: string) | Started

  /** `start()`: the flag is set, then the engine is created once and started;
      a failure is logged and announced. */
  function Start(a: Assistant, engine: EngineOutcome): (r: (Assistant, seq<Effect>))
    ensures r.0.isListening && r.0.commands == a.commands && r.0.wakeWord == a.wakeWord
    ensures engine.NoEngine? ==> r.1 == [] && r.0.engineReady == a.engineReady
    ensures engine.Started? ==> r.1 == [] && r.0.engineReady
    ensures engine.CreateFails? && !a.engineReady ==>
      r.1 == [LogError("Failed to initialize PorcupineManager: " + engine.error),
              Speak("Wake word detection is unavailable. Please check your app setup.")]
    ensures engine.StartFails? ==>
      r.0.engineReady
      && r.1 == [LogError("Failed to start PorcupineManager: " + engine.error),
                 Speak("Wake word detection could not be started.")]
  {
    var listening := a.(isListening := true);
    match engine
    case NoEngine => (listening, [])
    case CreateFails(error) =>
      if a.engineReady then (listening, [])
      else (listening, [LogError("Failed to initialize PorcupineManager: " + error),
                        Speak("Wake word detection is unavailable. Please check your app setup.")])
    case StartFails(error) =>
      (listening.(engineReady := true),
       [LogError("Failed to start PorcupineManager: " + error), Speak("Wake word detection could not be started.")])
    case Started => (listening.(engineReady := true), [])
  }

  /** `stop()`: the flag is cleared. */
  function Stop(a: Assistant): (r: Assistant)
    ensures !r.isListening && r.commands == a.commands && r.engineReady == a.engineReady
  {
    a.(isListening := false)
  }

  /** What the engine's detection callback does when the wake word is heard:
      it says "Listening" and changes no state. */
  const OnWakeWord: seq<Effect> := [Speak("Listening")]

  /** Command `c` is triggered by the lower-cased text. */
  predicate Triggers(c: VoiceCommand, normalised: string) {
    Text.Contains(normalised, Text.Lower(c.phrase))
  }

  /** The position of the first command that `normalised` triggers. */
  function FirstTriggered(commands: seq<VoiceCommand>, normalised: string): (r: Option<nat>)
    ensures r.Some? ==> r.value < |commands| && Triggers(commands[r.value], normalised)
    ensures r.Some? ==> forall j :: 0 <= j < r.value ==> !Triggers(commands[j], normalised)
    ensures r.None? ==> forall j :: 0 <= j < |commands| ==> !Triggers(commands[j], normalised)
  {
    if |commands| == 0 then None
    else if Triggers(commands[0], normalised) then Some(0)
    else match FirstTriggered(commands[1..], normalised)
      case None => None
      case Some(i) => Some(i + 1)
  }

  /** `handleRecognizedText(_:)`: while listening, the first command whose
      phrase occurs in the text, ignoring case, is announced with its phrase
      as configured and run; otherwise nothing happens. */
  function HandleRecognizedText(a: Assistant, text: string): (e: seq<Effect>)
    ensures !a.isListening ==> e == []
    ensures a.isListening ==> match FirstTriggered(a.commands, Text.Lower(text))
      case None => e == []
      case Some(i) => e == [Speak("Executing " + a.commands[i].phrase), Run(i)]
  {
    if !a.isListening then []
    else match FirstTriggered(a.commands, Text.Lower(text))
      case None => []
      case Some(i) => [Speak("Executing " + a.commands[i].phrase), Run(i)]
  }

  /** At most one command runs, and it is one whose phrase the text holds. */
  lemma AtMostOneCommandRuns(a: Assistant, text: string)
    ensures var e := HandleRecognizedText(a, text);
      |e| <= 2
      && (forall i :: 0 <= i < |e| && e[i].Run? ==>
            e[i].command < |a.commands| && Triggers(a.commands[e[i].command], Text.Lower(text)))
  {
  }

  /** Recognised text is matched without regard to case. */
  lemma HandleIgnoresCase(a: Assistant, text: string)
    ensures HandleRecognizedText(a, Text.Lower(text)) == HandleRecognizedText(a, text)
  {
    Text.LowerIdempotent(text);
  }

  /** After `stop()` recognised text does nothing, and after `start()` it is
      handled with the configured commands. */
  lemma StopSilences(a: Assistant, text: string, engine: EngineOutcome)
    ensures HandleRecognizedText(Stop(a), text) == []
    ensures HandleRecognizedText(Start(a, engine).0, text) == HandleRecognizedText(a.(isListening := true), text)
  {
  }

  /** The command "Go" is triggered by the text "GO" and announced with its
      phrase as configured. */
  lemma PhraseMatchIgnoresCase()
    ensures var a := Assistant(true, DefaultWakeWord, [VoiceCommand("Go")], false);
      HandleRecognizedText(a, "GO") == [Speak("Executing Go"), Run(0)]
  {
    var lowered := Text.Lower("GO");
    assert lowered == "go" by {
      assert lowered[0] == 'g' && lowered[1] == 'o';
    }
    var phrase := Text.Lower("Go");
    assert phrase == "go" by {
      assert phrase[0] == 'g' && phrase[1] == 'o';
    }
    assert Text.OccursAt(phrase, lowered, 0);
    assert Triggers(VoiceCommand("Go"), lowered);
    assert FirstTriggered([VoiceCommand("Go")], lowered) == Some(0);
    assert "Executing " + "Go" == "Executing Go";
  }
}

=== FILE: wrappers.dfy ===
/** Optional values and success/failure results, used wherever the modelled code
    returns an optional value or throws. */
module Wrappers {

  datatype Option<+T> = None | Some(value: T) {

    /** The wrapped value, or `default` when there is none (Swift `??`, JS `??`). */
    function GetOr(default: T): T {
      match this
      case Some(v) => v
      case None => default
    }
  }

  datatype Result<+T, +E> = Ok(value: T) | Err(error: E) {

    predicate IsFailure() {
      Err?
    }

    function PropagateFailure<U>(): Result<U, E>
      requires Err?
    {
      Err(error)
    }

    function Extract(): T
      requires Ok?
    {
      value
    }
  }
}
